=== FILE: README.md ===
# Meyers menu calendar, modelled in Dafny

The Meyers menu calendar reads the weekly lunch menus of the Meyers canteen from its web page and stores them in a small database. It serves them as an iCalendar feed with one event per menu day. This project models the logic behind that:

- **Scraping** (`menu_scraping.dfy`, `week_headers.dfy`, `main_dish.dfy`). The current scraper reads the day headers ("mandag 28 jul, 2025") into dates. It pairs each menu tab's blocks with those dates and turns each recipe into a `"title: description"` item. It also picks a main dish and details for each day.
- **Cache** (`cache.dfy`). This covers when the on-demand scrape uses the cached rows and when it scrapes again (more than six hours), and how days become stored rows and back.
- **Menu store** (`menu_repository.dfy`). This is the current repository: a class holding a table of menu entries and a table of menu types. It has the upsert keyed by date and menu type, get-or-create of a menu type by slug with reactivation, range and date queries, the last-update time and the per-type preview. The two unique indexes of the database are the class invariant.
- **Calendar** (`calendar.dfy`). `CleanupTitle` shortens a main dish into an event title. `GenerateCalendar` builds the list of events with their UIDs, summaries, descriptions and alarms.
- **Utilities**:
  - `string_helper.dfy`: capitalising, extracting the dish and formatting the description;
  - `slug.dfy`: menu type slugs;
  - `danish_date.dfy`: Danish months and weekdays;
  - `time_format.dfy`: "… ago".
- **The older web revision**, still in the tree, modelled as separate modules:
  - the single-menu scraper with its five-day cap (`web_menu_scraping.dfy`);
  - the date-keyed store (`web_menu_repository.dfy`);
  - the older title cleanup and UID (`web_calendar.dfy`);
  - the calendar endpoint that merges the scraped days with cached rows (`web_calendar_endpoint.dfy`).

Supporting modules model the library behaviour the code relies on:

- `text.dfy`: trimming, `\s+` collapsing, `IndexOf`/`LastIndexOf`, `Split`/`Join`, `Replace`, `int.TryParse`, number formatting and ASCII and Latin-1 case mapping;
- `html.dfy`: a subset of `WebUtility.HtmlDecode`/`HtmlEncode`;
- `dates.dfy`: the proleptic Gregorian calendar, `DateTime` as a date plus a tick count, `AddDays`, `AddMonths` and `yyyy-MM-dd`;
- `sorting.dfy`: `OrderBy` as an insertion sort by a total preorder;
- `models.dfy`: `MenuDay`, `MenuEntry`, `MenuType` and the parsed page;
- `wrappers.dfy`: `Option`.

The HTML document comes in already parsed, as a sequence of day-header strings and a sequence of labelled blocks of recipes. The clock, the HTTP client and the database arrive as parameters or as the state of a class. Where the code does something in place, the model does too. The header and block walks, the upsert loops, the title cleanup loops and the event loop are methods with loop invariants, proved against specification functions. The properties are proved about those functions.

The local `ParseDanishMonth`, `IsWeekday` and `CapitalizeFirst` of `Meyers.Web/Services/MenuScrapingService.cs` (lines 134-164) are the same expressions as `DanishDateHelper` and `StringHelper`. The model uses one definition of each.

## Model

| member | source | states |
|---|---|---|
| StringHelper.CapitalizeFirst | Meyers.Core/Utilities/StringHelper.cs:8-12 | the empty text is returned as it is; otherwise the length is kept, the text is equal ignoring case, the first character is not a lower-case letter and no later one is an upper-case letter |
| StringHelper.CapitalizeFirstIdempotent | Meyers.Core/Utilities/StringHelper.cs:8-12 | capitalising a capitalised word changes nothing |
| StringHelper.ExtractMainDishFromFirstItem | Meyers.Core/Utilities/StringHelper.cs:14-23 | no colon, a colon at index 0 or a colon as the last character returns the item unchanged; otherwise the result is the dish text of the trimmed content after the first colon, at most 103 characters long |
| StringHelper.DishText | Meyers.Core/Utilities/StringHelper.cs:19-20 | content of at most 100 characters is kept as it is; longer content becomes its first 100 characters, trimmed again, followed by "...", so the dish is never longer than 103 characters |
| StringHelper.ExtractMainDishRoundTrip | Meyers.Core/Utilities/StringHelper.cs:16-22 | on an item `"title: description"` with a colon-free title and a trimmed description of at most 100 characters, the dish extracted is the description |
| StringHelper.ExtractMainDishTruncates | Meyers.Core/Utilities/StringHelper.cs:19-20 | on an item `"title: description"` with a colon-free title whose trimmed description is over 100 characters, the dish is that description's first 100 characters, trimmed again, plus "..." |
| StringHelper.DishAfterTitle | Meyers.Core/Utilities/StringHelper.cs:16-20 | the dish read from `"title: description"` with a colon-free title is the dish text of the trimmed description |
| StringHelper.BreakSentences | Meyers.Core/Utilities/StringHelper.cs:52-53 | the sentence-break replacement never shortens the text |
| StringHelper.BreakSentencesPositional | Meyers.Core/Utilities/StringHelper.cs:41 | the replacement is the text with one "\n" inserted before exactly those characters that are a capital A–Z, Æ, Ø or Å preceded by ". ", and nothing else changed |
| StringHelper.BreakSentencesFrom | Meyers.Core/Utilities/StringHelper.cs:41 | the same, from any position that a break cannot straddle |
| StringHelper.BreakSentencesNoop | Meyers.Core/Utilities/StringHelper.cs:52-53 | a text with no ". " gets no line break |
| StringHelper.FormatDescription | Meyers.Core/Utilities/StringHelper.cs:25-50 | the empty description is returned as it is; the result has no two spaces in a row and does not start with a space or a line break |
| StringHelper.FormatDescriptionPlain | Meyers.Core/Utilities/StringHelper.cs:25-50 | a description with no entity, section header, `" | "`, ". ", double space or leading space/line break is returned exactly |
| StringHelper.FormatDescriptionHeader | Meyers.Core/Utilities/StringHelper.cs:35-37 | in a plain description, ", Delikatesser:", ", Dagens salater:" or ", Brød:" becomes an empty line followed by the header |
| StringHelper.FormatDescriptionSeparator | Meyers.Core/Utilities/StringHelper.cs:38 | in a plain description, a `" \| "` separator becomes a line break |
| StringHelper.FormatDescriptionEntity | Meyers.Core/Utilities/StringHelper.cs:31 | in a plain description, `&amp;` is decoded to `&` |
| StringHelper.SectionBreaksDelikatesser | Meyers.Core/Utilities/StringHelper.cs:35-38 | the four replacements turn the one ", Delikatesser:" of a plain text into "\n\nDelikatesser:" and change nothing else |
| StringHelper.SectionBreaksDagensSalater | Meyers.Core/Utilities/StringHelper.cs:35-38 | the same for ", Dagens salater:" |
| StringHelper.SectionBreaksBrod | Meyers.Core/Utilities/StringHelper.cs:35-38 | the same for ", Brød:" |
| StringHelper.SectionBreaksSeparator | Meyers.Core/Utilities/StringHelper.cs:35-38 | the one `" \| "` of a plain text becomes "\n" and nothing else changes |
| StringHelper.SectionBreaksAmpersand | Meyers.Core/Utilities/StringHelper.cs:35-38 | a decoded `&` between plain texts is not touched by the section replacements |
| StringHelper.DecodeAmpersand | Meyers.Core/Utilities/StringHelper.cs:31 | decoding `a + "&amp;" + b` with no other `&` gives `a + "&" + b` |
| SlugHelper.HyphenateOthers | Meyers.Core/Utilities/SlugHelper.cs:32-33 | every character outside `[a-z0-9-]` becomes '-', the others are kept, the length is unchanged |
| SlugHelper.GenerateSlug | Meyers.Core/Utilities/SlugHelper.cs:7-30 | blank input gives ""; every result holds only a–z, 0–9 and '-', has no "--" and neither starts nor ends with '-' |
| SlugHelper.GenerateSlugSteps | Meyers.Core/Utilities/SlugHelper.cs:7-30 | a blank name gives ""; otherwise the slug is the lower-cased name with each Danish or accented letter spelled out, every other character outside `[a-z0-9-]` read as a hyphen, and the hyphens tidied |
| SlugHelper.GenerateSlugWords | Meyers.Core/Utilities/SlugHelper.cs:7-30 | a non-blank name's slug is the non-empty hyphen-separated words of those steps, joined by single hyphens |
| SlugHelper.TidyHyphensWords | Meyers.Core/Utilities/SlugHelper.cs:23-27 | collapsing hyphen runs and trimming hyphens gives the text's non-empty words joined by single hyphens |
| SlugHelper.TidiedAfterWord | Meyers.Core/Utilities/SlugHelper.cs:23-27 | a hyphen-free word followed by a hyphen and a rest tidies to the word, then a hyphen and the tidied rest unless that is empty |
| SlugHelper.TransliterateDanishEach | Meyers.Core/Utilities/SlugHelper.cs:13-18 | the five replacements in a row spell out each of ø, å, æ, é and ü on its own, character by character |
| SlugHelper.TransliterateOne | Meyers.Core/Utilities/SlugHelper.cs:13-18 | one character: ø → "oe", å → "aa", æ → "ae", é → "e", ü → "u", anything else kept |
| SlugHelper.TransliterateConcat | Meyers.Core/Utilities/SlugHelper.cs:13-18 | the replacements distribute over concatenation |
| SlugHelper.GenerateSlugLetter | Meyers.Core/Utilities/SlugHelper.cs:13-18 | each of ø, å, æ, é and ü on its own becomes its ASCII spelling |
| SlugHelper.GenerateSlugAlphanumeric | Meyers.Core/Utilities/SlugHelper.cs:7-30 | a name of ASCII letters and digits becomes itself in lower case |
| SlugHelper.GenerateSlugTwoWords | Meyers.Core/Utilities/SlugHelper.cs:7-30 | two ASCII words with any ASCII separators before, between and after them become the two words in lower case joined by one hyphen |
| SlugHelper.HyphensTidied | Meyers.Core/Utilities/SlugHelper.cs:23-27 | collapsing hyphen runs and trimming hyphens leaves a slug-shaped text |
| SlugHelper.SlugShape | Meyers.Core/Utilities/SlugHelper.cs:27 | trimming '-' from a text of slug characters with no "--" gives a slug |
| SlugHelper.GenerateSlugIdempotent | Meyers.Core/Utilities/SlugHelper.cs:7-30 | the slug of a slug is the same slug |
| SlugHelper.SlugFixed | Meyers.Core/Utilities/SlugHelper.cs:7-30 | every non-empty slug-shaped text is its own slug |
| SlugHelper.TidiedFixed | Meyers.Core/Utilities/SlugHelper.cs:23-27 | the hyphen steps leave a slug unchanged |
| SlugHelper.SlugStepsFixed | Meyers.Core/Utilities/SlugHelper.cs:13-21 | lower-casing, the Danish transliterations and the hyphen replacement leave a slug unchanged |
| DanishDateHelper.ParseDanishMonth | Meyers.Core/Utilities/DanishDateHelper.cs:7-25 | the result is in 0..12; a non-zero result m means the lower-cased name is the m-th abbreviation |
| DanishDateHelper.ParseMonthAbbreviation | Meyers.Core/Utilities/DanishDateHelper.cs:11-22 | jan … dec map to 1 … 12 in order |
| DanishDateHelper.ParseDanishMonthExact | Meyers.Core/Utilities/DanishDateHelper.cs:9-23 | a name parses as m exactly when its lower-case form is the m-th abbreviation, so matching ignores case |
| DanishDateHelper.IsWeekdayIgnoresCase | Meyers.Core/Utilities/DanishDateHelper.cs:27-30 | names that differ only in case get the same answer |
| DanishDateHelper.IsWeekdayExactly | Meyers.Core/Utilities/DanishDateHelper.cs:27-30 | a name is a weekday exactly when its lower-case form is mandag, tirsdag, onsdag, torsdag or fredag |
| TimeFormatHelper.TruncDiv | Meyers.Core/Utilities/TimeFormatHelper.cs:9-28 | the `(int)` cast of a quotient rounds toward zero, also for negative spans |
| TimeFormatHelper.Breakdown | Meyers.Core/Utilities/TimeFormatHelper.cs:7-35 | exactly one branch applies, chosen by the thresholds 60 s, 60 min, 24 h and 7 days in order; in each branch the printed fields add back to the whole seconds elapsed, and every field below the leading one is within its clock range (minutes and seconds mod 60, hours mod 24) |
| TimeFormatHelper.CoarserUnits | Meyers.Core/Utilities/TimeFormatHelper.cs:13-31 | whole minutes, hours and days of a span are those of its whole seconds |
| TimeFormatHelper.FormatAbsolute | Meyers.Core/Utilities/TimeFormatHelper.cs:35 | the absolute form ends in " AM" or " PM" |
| TimeFormatHelper.Render | Meyers.Core/Utilities/TimeFormatHelper.cs:9-32 | every relative form ends in " ago" |
| TimeFormatHelper.RenderSeconds | Meyers.Core/Utilities/TimeFormatHelper.cs:9 | the seconds form prints "SS seconds ago" |
| TimeFormatHelper.RenderMinutes | Meyers.Core/Utilities/TimeFormatHelper.cs:15 | the minutes form prints "MMm SSs ago" |
| TimeFormatHelper.RenderHours | Meyers.Core/Utilities/TimeFormatHelper.cs:23 | the hours form prints "HHh MMm SSs ago" |
| TimeFormatHelper.RenderDays | Meyers.Core/Utilities/TimeFormatHelper.cs:32 | the days form prints "Dd HHh MMm SSs ago" with the day count unpadded |
| TimeFormatHelper.FormatTimeAgo | Meyers.Core/Utilities/TimeFormatHelper.cs:5-36 | from seven days on the text is the absolute date |
| TimeFormatHelper.TimeAgoText | Meyers.Core/Utilities/TimeFormatHelper.cs:9-35 | from seven days elapsed on the text is the absolute date |
| TimeFormatHelper.FormatTimeAgoRelative | Meyers.Core/Utilities/TimeFormatHelper.cs:9-32 | under seven days the text ends in " ago" |
| TimeFormatHelper.FormatTimeAgoSeconds | Meyers.Core/Utilities/TimeFormatHelper.cs:9 | under a minute (or for a future time) the text is the whole seconds w as two digits and " seconds ago" |
| TimeFormatHelper.FormatTimeAgoMinutes | Meyers.Core/Utilities/TimeFormatHelper.cs:11-16 | under an hour the text is w / 60 and w % 60 as two digits each, as "MMm SSs ago" |
| TimeFormatHelper.FormatTimeAgoHours | Meyers.Core/Utilities/TimeFormatHelper.cs:18-24 | under a day the text is w / 3600, (w / 60) % 60 and w % 60 as "HHh MMm SSs ago" |
| TimeFormatHelper.FormatTimeAgoDays | Meyers.Core/Utilities/TimeFormatHelper.cs:26-33 | under seven days the text is w / 86400 unpadded, then (w / 3600) % 24, (w / 60) % 60 and w % 60 as "Dd HHh MMm SSs ago" |
| TimeFormatHelper.BreakdownMinutes | Meyers.Core/Utilities/TimeFormatHelper.cs:13-14 | in the minutes branch the fields are the whole seconds divided by 60 and their remainder |
| TimeFormatHelper.BreakdownHours | Meyers.Core/Utilities/TimeFormatHelper.cs:20-22 | in the hours branch the fields are w / 3600, (w / 60) % 60 and w % 60 |
| TimeFormatHelper.BreakdownDays | Meyers.Core/Utilities/TimeFormatHelper.cs:28-31 | in the days branch the fields are w / 86400, (w / 3600) % 24, (w / 60) % 60 and w % 60 |
| TimeFormatHelper.TwoDigitFields | Meyers.Core/Utilities/TimeFormatHelper.cs:9-32 | under seven days, every field except the day count prints with exactly two digits |
| WeekHeaders.ParseHeader | Meyers.Infrastructure/Services/MenuScrapingService.cs:254-279 | a header is skipped (None) on empty text, fewer than four tokens, a non-number day or year, an unknown month or an impossible date; a pair it returns carries a valid date |
| WeekHeaders.ParsedHeaders | Meyers.Infrastructure/Services/MenuScrapingService.cs:246-280 | at most one pair per header, every pair with a valid date |
| WeekHeaders.Parses | Meyers.Infrastructure/Services/MenuScrapingService.cs:252-280 | each header is parsed on its own, in page order |
| WeekHeaders.FilterWeekdays | Meyers.Infrastructure/Services/MenuScrapingService.cs:283 | every pair kept names a weekday and comes from the input |
| WeekHeaders.WeekdayDates | Meyers.Infrastructure/Services/MenuScrapingService.cs:244-284 | every date returned names a weekday and is a valid date |
| WeekHeaders.ExtractDatesFromWeekHeaders | Meyers.Infrastructure/Services/MenuScrapingService.cs:244-284 | the header loop followed by the weekday filter returns `WeekdayDates` of the headers |
| WeekHeaders.CollectHeaders | Meyers.Infrastructure/Services/MenuScrapingService.cs:246-280 | the loop collects exactly the pairs of the headers that parse, in order |
| WeekHeaders.AddHeader | Meyers.Infrastructure/Services/MenuScrapingService.cs:254-279 | one pass adds the header's pair when it parses and nothing otherwise |
| WeekHeaders.ParsedHeadersLast | Meyers.Infrastructure/Services/MenuScrapingService.cs:252-280 | a header at the end adds its own pair at the end |
| WeekHeaders.ParsedHeadersAppend | Meyers.Infrastructure/Services/MenuScrapingService.cs:252-280 | a bad header never spoils the others: the pairs of two runs of headers are those of the first run, then those of the second |
| WeekHeaders.FilterWeekdaysAppend | Meyers.Infrastructure/Services/MenuScrapingService.cs:283 | the weekday filter keeps document order |
| WeekHeaders.WeekdayDatesAppend | Meyers.Infrastructure/Services/MenuScrapingService.cs:244-284 | the dates of two runs of headers are those of the first run, then those of the second |
| WeekHeaders.WeekdayDatesSingle | Meyers.Infrastructure/Services/MenuScrapingService.cs:244-284 | one header gives its pair exactly when it parses and names Mandag–Fredag |
| WeekHeaders.ParseHeaderText | Meyers.Infrastructure/Services/MenuScrapingService.cs:257-274 | a header printed as "mandag 28 jul, 2025" reads back as its capitalised day name and its date |
| WeekHeaders.TokenValues | Meyers.Infrastructure/Services/MenuScrapingService.cs:261-268 | each printed token (day name, day number, "jul,", year) reads back as the value printed |
| WeekHeaders.NumberToken | Meyers.Infrastructure/Services/MenuScrapingService.cs:266 | `int.TryParse` reads a printed 32-bit number back as itself |
| WeekHeaders.MonthToken | Meyers.Infrastructure/Services/MenuScrapingService.cs:263-268 | a month abbreviation with its comma, after the comma is removed, parses as its month |
| WeekHeaders.ParseTokens | Meyers.Infrastructure/Services/MenuScrapingService.cs:257-274 | a header whose four tokens read as a day name and a valid date parses as that pair |
| WeekHeaders.HeaderTokens | Meyers.Infrastructure/Services/MenuScrapingService.cs:258 | splitting a printed header on spaces gives its four tokens |
| WeekHeaders.WeekdayHeaderText | Meyers.Infrastructure/Services/MenuScrapingService.cs:244-284 | a weekday header in the page's format yields exactly its capitalised day and its date |
| MainDishExtraction.RemoveAllergens | Meyers.Infrastructure/Services/MenuScrapingService.cs:287-288 | removing `\([^)]*\)\s*` never lengthens the text, adds no character, and leaves no '(' with a ')' after it |
| MainDishExtraction.AllergenFreeNoop | Meyers.Infrastructure/Services/MenuScrapingService.cs:287-288 | a text without allergen notes is unchanged |
| MainDishExtraction.RemoveAllergensIdempotent | Meyers.Infrastructure/Services/MenuScrapingService.cs:287-288 | removing allergen notes twice removes nothing more |
| MainDishExtraction.TrimKeepsAllergenFree | Meyers.Infrastructure/Services/MenuScrapingService.cs:233-234 | trimming keeps a text free of allergen notes |
| MainDishExtraction.Clean | Meyers.Infrastructure/Services/MenuScrapingService.cs:233-234 | each cleaned part is trimmed, allergen-free and no longer than before |
| MainDishExtraction.SplitDescription | Meyers.Infrastructure/Services/MenuScrapingService.cs:198-230 | the main dish before cleaning is always shorter than 150 characters |
| MainDishExtraction.ExtractMainDishAndDetails | Meyers.Infrastructure/Services/MenuScrapingService.cs:195-237 | both parts are trimmed and free of allergen notes, and the main dish is shorter than 150 characters |
| MainDishExtraction.FirstSentenceIsMainDish | Meyers.Infrastructure/Services/MenuScrapingService.cs:198-207 | for a single-spaced description whose first '.' comes within 150 characters, the main dish is the text up to and including that '.', and main dish plus details (with the one space between them) give back the whole text |
| MainDishExtraction.ExtractOfClean | Meyers.Infrastructure/Services/MenuScrapingService.cs:233-236 | parts that are already clean are returned as split |
| MainDishExtraction.FirstSentenceParts | Meyers.Infrastructure/Services/MenuScrapingService.cs:205-206 | the first sentence and the trimmed rest are trimmed and free of parentheses |
| MainDishExtraction.SentenceRejoin | Meyers.Infrastructure/Services/MenuScrapingService.cs:205-206 | the first sentence and the trimmed rest, rejoined with the space between them, give back the text |
| MainDishExtraction.SentenceSplit | Meyers.Infrastructure/Services/MenuScrapingService.cs:198-207 | a first '.' before index 149 selects the first-sentence branch |
| MainDishExtraction.RestAfterSentence | Meyers.Infrastructure/Services/MenuScrapingService.cs:206 | in single-spaced text, what follows a word loses at most one leading space when trimmed |
| MainDishExtraction.CleanNoop | Meyers.Infrastructure/Services/MenuScrapingService.cs:233-234 | a trimmed text with no parentheses is its own clean form |
| MainDishExtraction.ShortTextIsMainDish | Meyers.Infrastructure/Services/MenuScrapingService.cs:225-229 | a description of at most 100 characters with no '.' and no allergen note is the main dish, with empty details |
| MainDishExtraction.LongTextIsCut | Meyers.Infrastructure/Services/MenuScrapingService.cs:211-223 | a longer description without a '.' gives a main dish that is its first 51–100 characters plus "..." |
| MainDishExtraction.MainOfClean | Meyers.Infrastructure/Services/MenuScrapingService.cs:233 | a main dish that is already clean is returned as split |
| MainDishExtraction.Ellipsis | Meyers.Infrastructure/Services/MenuScrapingService.cs:216-221 | a cut text with "..." keeps the cut prefix and is trimmed |
| MainDishExtraction.CutPosition | Meyers.Infrastructure/Services/MenuScrapingService.cs:211-223 | the fallback cuts a long single-spaced text after more than 50 and at most 100 characters, at a non-space |
| MainDishExtraction.LongSplit | Meyers.Infrastructure/Services/MenuScrapingService.cs:213-222 | the cut is at the last space at or before index 100 when that is past 50, and otherwise a hard cut at 100, each with "..." |
| MainDishExtraction.CutAtSpace | Meyers.Infrastructure/Services/MenuScrapingService.cs:216 | a cut at a single space after a word needs no trim |
| MenuScraping.Distinct | Meyers.Infrastructure/Services/MenuScrapingService.cs:103 | `Distinct()` keeps exactly the values of its input, each once |
| MenuScraping.DistinctNoop | Meyers.Infrastructure/Services/MenuScrapingService.cs:103 | a sequence without repeats is its own `Distinct()` |
| MenuScraping.DecodedLabels | Meyers.Infrastructure/Services/MenuScrapingService.cs:99-102 | the labels are exactly the HTML-decoded non-empty `data-tab-content` values |
| MenuScraping.MenuTypes | Meyers.Infrastructure/Services/MenuScrapingService.cs:99-104 | the menu types are the distinct, non-empty, decoded labels: no repeats, and a value is a type exactly when some block carries it |
| MenuScraping.TabBlocksFor | Meyers.Infrastructure/Services/MenuScrapingService.cs:111-114 | a type's blocks are exactly the blocks whose attribute is the name or its HTML-encoded form (the XPath query's meaning for a label without an apostrophe) |
| MenuScraping.Readings | Meyers.Infrastructure/Services/MenuScrapingService.cs:134-156 | one reading per recipe, in order |
| MenuScraping.Collect | Meyers.Infrastructure/Services/MenuScrapingService.cs:130-168 | the recipe loop yields at most one item per recipe |
| MenuScraping.CollectStep | Meyers.Infrastructure/Services/MenuScrapingService.cs:134-168 | the loop's state after a recipe is one more pass of the loop body |
| MenuScraping.CollectItems | Meyers.Infrastructure/Services/MenuScrapingService.cs:134-157 | the items of a block are the items of its recipes, in recipe order |
| MenuScraping.CollectItem | Meyers.Infrastructure/Services/MenuScrapingService.cs:138-157 | a recipe adds `"title: description"` exactly when its single-spaced title and its decoded, single-spaced description are both non-empty |
| MenuScraping.LastHotDishWins | Meyers.Infrastructure/Services/MenuScrapingService.cs:159-165 | the main dish and details come from the last recipe whose title contains "Varm ret med tilbehør" in any case; earlier ones are overwritten |
| MenuScraping.NoHotDish | Meyers.Infrastructure/Services/MenuScrapingService.cs:159-165 | with no hot-dish recipe the main dish and details stay empty |
| MenuScraping.HasItem | Meyers.Infrastructure/Services/MenuScrapingService.cs:151-157 | an accepted recipe puts an item in its block |
| MenuScraping.BlockDay | Meyers.Infrastructure/Services/MenuScrapingService.cs:170-185 | a block gives a day exactly when it collected an item, with those items and the collected details |
| MenuScraping.HotDishDay | Meyers.Infrastructure/Services/MenuScrapingService.cs:159-174 | with a hot-dish recipe, the day's details are that recipe's and its main dish is that recipe's unless it reads as empty, in which case the first item's dish stands in |
| MenuScraping.PlainDay | Meyers.Infrastructure/Services/MenuScrapingService.cs:173-174 | without a hot-dish recipe the main dish comes from `ExtractMainDishFromFirstItem` of the first item and details are empty |
| MenuScraping.Contents | Meyers.Infrastructure/Services/MenuScrapingService.cs:119-189 | one outcome per block, and every day has at least one item |
| MenuScraping.ContentAt | Meyers.Infrastructure/Services/MenuScrapingService.cs:127-186 | the k-th outcome is what the k-th block yields |
| MenuScraping.BlockDayOf | Meyers.Infrastructure/Services/MenuScrapingService.cs:170-185 | a block's day in terms of what its recipe loop collected |
| MenuScraping.TabDays | Meyers.Infrastructure/Services/MenuScrapingService.cs:117-189 | a menu type yields no more days than it has blocks or dates; each day carries the type, a midnight time and one of the parsed dates with its day name, and has items |
| MenuScraping.TabDaysStep | Meyers.Infrastructure/Services/MenuScrapingService.cs:119-189 | the k-th block is paired with the k-th date, and the index advances for every block, including those without recipes |
| MenuScraping.TabDaysPairing | Meyers.Infrastructure/Services/MenuScrapingService.cs:117-188 | every day the k-th block yields, dated with the k-th date, is in the result |
| MenuScraping.TabDaysSource | Meyers.Infrastructure/Services/MenuScrapingService.cs:117-188 | every day in the result comes from some k-th block with the k-th date |
| MenuScraping.TabDaysDistinct | Meyers.Infrastructure/Services/MenuScrapingService.cs:117-189 | with distinct dates, a menu type never gets two days on the same date |
| MenuScraping.AllTypes | Meyers.Infrastructure/Services/MenuScrapingService.cs:107-190 | every day is tagged with one of the types, has items and carries a parsed date; at most types × dates days |
| MenuScraping.AllTypesStep | Meyers.Infrastructure/Services/MenuScrapingService.cs:107-190 | the types are processed in order, each appending its own days |
| MenuScraping.AllTypesUnique | Meyers.Infrastructure/Services/MenuScrapingService.cs:107-190 | with distinct types and dates, no two days share date and type |
| MenuScraping.ScrapePage | Meyers.Infrastructure/Services/MenuScrapingService.cs:88-104 | no dates or no tab blocks gives no days; otherwise every day has items, one of the page's types, a midnight time and a parsed date (labels with an apostrophe: see Left out) |
| MenuScraping.ScrapedWeekdays | Meyers.Infrastructure/Services/MenuScrapingService.cs:283 | every scraped day is a Mandag–Fredag with a valid date |
| MenuScraping.ScrapedKeysUnique | Meyers.Infrastructure/Services/MenuScrapingService.cs:81-193 | when the headers name distinct dates, no two scraped days share a date and a menu-type name |
| MenuScraping.ScrapedSlugsDistinct | Meyers.Infrastructure/Services/MenuScrapingService.cs:96-114 | when the headers name distinct dates and the page's menu types have distinct slugs, no two scraped days on one date have menu types with one slug, the premise of the store's (date, type id) index |
| MenuScraping.ScrapeFromWebsite | Meyers.Infrastructure/Services/MenuScrapingService.cs:81-193 | the method returns exactly `ScrapeDocument` of the page |
| MenuScraping.ScrapeTypes | Meyers.Infrastructure/Services/MenuScrapingService.cs:107-190 | the loop over the menu types returns `AllTypes` |
| MenuScraping.ScrapeTab | Meyers.Infrastructure/Services/MenuScrapingService.cs:117-189 | the day loop of one type returns `TabDays` of its blocks' outcomes |
| MenuScraping.CollectRecipes | Meyers.Infrastructure/Services/MenuScrapingService.cs:130-168 | the recipe loop returns the items, main dish and details of `Collect` |
| MenuCache.RefreshAfter | Meyers.Infrastructure/Services/MenuScrapingService.cs:13-20 | unforced, the cache is refreshed k ticks after its last update exactly when k is more than six hours; at six hours to the tick the cached rows are used |
| MenuCache.EmptyTableRefreshes | Meyers.Infrastructure/Services/MenuScrapingService.cs:18-20 | an empty table reports `DateTime.MinValue` as its last update, so any present-day clock refreshes |
| MenuCache.SplitItems | Meyers.Infrastructure/Services/MenuScrapingService.cs:50-52 | the items read back are non-empty and free of '\n' |
| MenuCache.ItemsRoundTrip | Meyers.Infrastructure/Services/MenuScrapingService.cs:50-71 | non-empty, newline-free items joined with '\n' and split again (empties dropped) come back as they were |
| MenuCache.TypeName | Meyers.Infrastructure/Services/MenuScrapingService.cs:55 | the type name is missing exactly when no type has the row's type id; otherwise it is the name of such a type |
| MenuCache.TypeNameOf | Meyers.Infrastructure/Services/MenuScrapingService.cs:55 | with distinct type ids, the name read is the name of the type with that id |
| MenuCache.CacheRoundTrip | Meyers.Infrastructure/Services/MenuScrapingService.cs:46-75 | a day with clean items written as a row and read back is the same day, with the stored name of its type as its menu type (a missing type reads as "Det velkendte") |
| MenuCache.WindowLength | Meyers.Infrastructure/Services/MenuScrapingService.cs:42-43 | the read window runs from midnight seven days before today to midnight fourteen days after, 21 days |
| MenuCache.ToMenuDays | Meyers.Infrastructure/Services/MenuScrapingService.cs:46-56 | each row becomes one day, in row order |
| MenuCache.GetCachedMenus | Meyers.Infrastructure/Services/MenuScrapingService.cs:38-57 | the days are exactly the window's rows, read as days, one per row, in date order |
| MenuCache.CachedDays | Meyers.Infrastructure/Services/MenuScrapingService.cs:44-56 | the range query's rows read as days give exactly the window's rows, one per row, in date order |
| MenuCache.BuildBatch | Meyers.Infrastructure/Services/MenuScrapingService.cs:61-76 | one row per day |
| MenuCache.FileDay | Meyers.Infrastructure/Services/MenuScrapingService.cs:65-75 | one pass of the loop adds one row |
| MenuCache.BuildBatchStep | Meyers.Infrastructure/Services/MenuScrapingService.cs:63-76 | the loop gets or creates each day's type in order, then appends the day's row under that type's id |
| MenuCache.BuildBatchFiles | Meyers.Infrastructure/Services/MenuScrapingService.cs:63-76 | every day's row is filed under an active type whose slug is the slug of the day's menu type |
| MenuCache.FileDayFiled | Meyers.Infrastructure/Services/MenuScrapingService.cs:65-75 | filing one more day keeps the earlier days filed |
| MenuCache.GetOrCreateKept | Meyers.Infrastructure/Repositories/MenuRepository.cs:117-149 | a get-or-create keeps every existing type in place, with its id and slug, and an active type active |
| MenuCache.FiledDays | Meyers.Infrastructure/Services/MenuScrapingService.cs:63-76 | after one more day, every day so far is filed |
| MenuCache.SaveMenusToCache | Meyers.Infrastructure/Services/MenuScrapingService.cs:59-79 | the store stays valid, and the tables after the call are the types got or created day by day followed by the upsert of the rows |
| MenuCache.BuildMenuEntries | Meyers.Infrastructure/Services/MenuScrapingService.cs:61-76 | the loop creates or reactivates types and returns the batch rows, writing no row |
| MenuCache.SavedDayReadsBack | Meyers.Infrastructure/Services/MenuScrapingService.cs:59-79 | after a successful save of a batch whose same-date days have different type slugs, each day with clean items reads back from the table under its date and type |
| MenuCache.ScrapedDayReadsBack | Meyers.Infrastructure/Services/MenuScrapingService.cs:59-79 | a scraped page whose menu types have distinct slugs, once saved successfully, reads back day by day under its date and type |
| MenuCache.FiledKeysDistinct | Meyers.Infrastructure/Services/MenuScrapingService.cs:63-76 | days of one batch on one date with different slugs get rows with different (date, type) keys |
| MenuCache.DayReadsBack | Meyers.Infrastructure/Repositories/MenuRepository.cs:67-93 | a day filed in a batch with distinct keys reads back from the committed rows |
| MenuCache.RowReadsBack | Meyers.Infrastructure/Services/MenuScrapingService.cs:46-56 | the first row with a day's key that holds the day's content reads back as that day |
| MenuCache.ScrapeMenu | Meyers.Infrastructure/Services/MenuScrapingService.cs:15-36 | a fresh cache with rows is returned with the tables unchanged; otherwise the page is scraped, an empty result is returned without touching the tables, and a non-empty one is saved and returned, or a failed save surfaces as an error |
| MenuStore.FirstWithKey | Meyers.Infrastructure/Repositories/MenuRepository.cs:71-74 | the index of the first row with the given date part and type, or -1 exactly when no row has that key |
| MenuStore.FirstOn | Meyers.Infrastructure/Repositories/MenuRepository.cs:36-41 | `FirstOrDefault` on date part and type: a row found has the key, and none is found exactly when no row has it |
| MenuStore.OrdinalLeTotal | Meyers.Infrastructure/Repositories/MenuRepository.cs:107 | the name ordering compares any two names |
| MenuStore.OrdinalLeTransitive | Meyers.Infrastructure/Repositories/MenuRepository.cs:107 | the name ordering is transitive |
| MenuStore.DateOrder | Meyers.Infrastructure/Repositories/MenuRepository.cs:15 | ordering by `Date` is a total preorder |
| MenuStore.NameOrder | Meyers.Infrastructure/Repositories/MenuRepository.cs:107 | ordering by `Name` is a total preorder |
| MenuStore.InRange | Meyers.Infrastructure/Repositories/MenuRepository.cs:14 | exactly the rows with startDate ≤ Date ≤ endDate on full timestamps |
| MenuStore.InRangeOfType | Meyers.Infrastructure/Repositories/MenuRepository.cs:23 | the same, restricted to one type |
| MenuStore.FirstOnDate | Meyers.Infrastructure/Repositories/MenuRepository.cs:31-33 | a row found falls on the day, and none is found exactly when no row does |
| MenuStore.LatestUpdate | Meyers.Infrastructure/Repositories/MenuRepository.cs:97-100 | the latest `UpdatedAt` of a non-empty table is some row's and no row's is later |
| MenuStore.ActiveOnly | Meyers.Infrastructure/Repositories/MenuRepository.cs:106 | exactly the active types |
| MenuStore.ActiveWithSlug | Meyers.Infrastructure/Repositories/MenuRepository.cs:113-114 | a type found is active with that slug; none is found exactly when no active type has it |
| MenuStore.SlugIndex | Meyers.Infrastructure/Repositories/MenuRepository.cs:120-122 | the index of the type with the slug, active or not, or -1 exactly when none has it |
| MenuStore.Overwrite | Meyers.Infrastructure/Repositories/MenuRepository.cs:78-83 | an overwritten row keeps its id, date, type and creation time |
| MenuStore.StageAll | Meyers.Infrastructure/Repositories/MenuRepository.cs:67-90 | before the commit, every committed row keeps its identity, and what waits to be inserted comes from the batch and matches no committed row |
| MenuStore.StageAllStep | Meyers.Infrastructure/Repositories/MenuRepository.cs:69-89 | each entry is looked up among the committed rows; a match is overwritten, otherwise the entry is queued |
| MenuStore.StageOne | Meyers.Infrastructure/Repositories/MenuRepository.cs:45-62 | the single-entry upsert: overwrite the match or queue the entry |
| MenuStore.Numbered | Meyers.Infrastructure/Repositories/MenuRepository.cs:92 | inserted rows get consecutive fresh ids |
| MenuStore.FirstWithKeyIdentity | Meyers.Infrastructure/Repositories/MenuRepository.cs:71-74 | overwriting rows never changes which row a lookup finds |
| MenuStore.CommitValid | Meyers.Infrastructure/Data/MenuDbContext.cs:17-28 | a successful commit keeps both unique indexes, the primary keys and the foreign key |
| MenuStore.CommitKeys | Meyers.Infrastructure/Data/MenuDbContext.cs:28 | a commit keeps the (Date, MenuTypeId) index unique and the ids fresh |
| MenuStore.CommitTypes | Meyers.Infrastructure/Data/MenuDbContext.cs:28 | a commit keeps every row's type known |
| MenuStore.Unmatched | Meyers.Infrastructure/Repositories/MenuRepository.cs:86-89 | at most one queued insert per entry |
| MenuStore.StageAllAdded | Meyers.Infrastructure/Repositories/MenuRepository.cs:71-92 | exactly the entries that match no committed row are inserted, in batch order: lookups do not see the batch's own pending inserts |
| MenuStore.StageAllFrame | Meyers.Infrastructure/Repositories/MenuRepository.cs:67-93 | a row that no entry looks up is left as it was |
| MenuStore.StageAllLastWins | Meyers.Infrastructure/Repositories/MenuRepository.cs:76-85 | a matched row ends up with DayName, MenuItems, MainDish, Details and MenuTypeId of the last entry that looks it up, and UpdatedAt = now |
| MenuStore.CommittedMatches | Meyers.Infrastructure/Repositories/MenuRepository.cs:67-93 | after a save, every entry of the batch has a row with its key |
| MenuStore.AddedHas | Meyers.Infrastructure/Repositories/MenuRepository.cs:86-89 | an entry matching no committed row is inserted |
| MenuStore.StagedFinds | Meyers.Infrastructure/Repositories/MenuRepository.cs:67-93 | a matched or inserted entry is found after the commit |
| MenuStore.UnmatchedHas | Meyers.Infrastructure/Repositories/MenuRepository.cs:86-89 | an unmatched entry is among the inserts |
| MenuStore.UnmatchedNone | Meyers.Infrastructure/Repositories/MenuRepository.cs:76-85 | when every entry matches, nothing is inserted |
| MenuStore.SaveAgainAddsNothing | Meyers.Infrastructure/Repositories/MenuRepository.cs:67-93 | saving the same batch again inserts no row |
| MenuStore.SavedEntryFound | Meyers.Infrastructure/Repositories/MenuRepository.cs:67-93 | with distinct keys in the batch, after the save each entry's key finds a row holding that entry's content |
| MenuStore.ContentFound | Meyers.Infrastructure/Repositories/MenuRepository.cs:67-93 | the lookup finds the overwritten row, or else the first inserted row with the key |
| MenuStore.SavedOverwritten | Meyers.Infrastructure/Repositories/MenuRepository.cs:76-85 | an entry matching a committed row leaves its content in that row |
| MenuStore.SavedInserted | Meyers.Infrastructure/Repositories/MenuRepository.cs:86-89 | an entry matching no committed row is the first inserted row with its key |
| MenuStore.FirstAddedIs | Meyers.Infrastructure/Repositories/MenuRepository.cs:86-92 | among inserts from a batch with distinct keys, the first with an entry's key holds that entry |
| MenuStore.FirstWithKeyAppend | Meyers.Infrastructure/Repositories/MenuRepository.cs:71-74 | the first row with a key in two tables one after the other |
| MenuStore.GetOrCreate | Meyers.Infrastructure/Repositories/MenuRepository.cs:117-149 | the type returned is active with the slug; an existing type of that slug (active or not) is returned with its id and name, reactivated, and no type is added; otherwise one new active type with the next id and the given name is appended; no other type changes |
| MenuStore.GetOrCreateKeepsKeys | Meyers.Infrastructure/Data/MenuDbContext.cs:17 | get-or-create keeps slugs and type ids unique |
| MenuStore.GetOrCreateIdempotent | Meyers.Infrastructure/Repositories/MenuRepository.cs:117-149 | asking again for the same name changes nothing and returns the same type |
| MenuStore.PreviewRows | Meyers.Infrastructure/Repositories/MenuRepository.cs:155-158 | exactly the rows of an active type dated today or tomorrow |
| MenuStore.GroupKeysMembers | Meyers.Infrastructure/Repositories/MenuRepository.cs:163 | the groups are exactly the type ids among the rows |
| MenuStore.PreviewsMeaning | Meyers.Infrastructure/Repositories/MenuRepository.cs:151-178 | the preview has a key for exactly the active types, each with its first row today and tomorrow, or none |
| MenuStore.PreviewRowsFirst | Meyers.Infrastructure/Repositories/MenuRepository.cs:155-167 | the first row of an active type on today or tomorrow is the same in the query's rows as in the table |
| MenuStore.FirstOnSnoc | Meyers.Infrastructure/Repositories/MenuRepository.cs:166-167 | the first row with a key in a table with one more row at the end |
| MenuStore.GroupPreviews | Meyers.Infrastructure/Repositories/MenuRepository.cs:161-169 | one key per type among the rows, holding that type's first row on each day |
| MenuStore.AddMissingTypes | Meyers.Infrastructure/Repositories/MenuRepository.cs:171-175 | every active type gets a key; keys already there are kept as they are; no other key appears |
| MenuStore.MenuRepository.constructor | Meyers.Infrastructure/Data/MenuDbContext.cs:17-28 | an empty database satisfies the invariant |
| MenuStore.MenuRepository.GetMenusForDateRange | Meyers.Infrastructure/Repositories/MenuRepository.cs:10-17 | exactly the rows with startDate ≤ Date ≤ endDate, each as often as stored, sorted by Date |
| MenuStore.MenuRepository.GetMenusForDateRangeOfType | Meyers.Infrastructure/Repositories/MenuRepository.cs:19-26 | the same for one menu type |
| MenuStore.MenuRepository.GetMenuForDate | Meyers.Infrastructure/Repositories/MenuRepository.cs:28-34 | some row on that date part, of any type, or none exactly when no row falls on it |
| MenuStore.MenuRepository.GetMenuForDateOfType | Meyers.Infrastructure/Repositories/MenuRepository.cs:36-41 | the row of that type on that date part, or none exactly when there is none |
| MenuStore.MenuRepository.GetLastUpdateTime | Meyers.Infrastructure/Repositories/MenuRepository.cs:95-101 | the maximum UpdatedAt; `DateTime.MinValue` on an empty table |
| MenuStore.MenuRepository.GetMenuTypes | Meyers.Infrastructure/Repositories/MenuRepository.cs:103-109 | exactly the active types, sorted by Name |
| MenuStore.MenuRepository.GetMenuTypeBySlug | Meyers.Infrastructure/Repositories/MenuRepository.cs:111-115 | an active type with that slug, or none exactly when there is none |
| MenuStore.MenuRepository.SaveMenus | Meyers.Infrastructure/Repositories/MenuRepository.cs:67-93 | the invariant is kept; the new table is the staged batch plus the numbered inserts when the commit succeeds, and the old table when the inserts would break the unique index or the foreign key |
| MenuStore.MenuRepository.SaveMenu | Meyers.Infrastructure/Repositories/MenuRepository.cs:43-65 | the same upsert for one entry |
| MenuStore.MenuRepository.GetOrCreateMenuType | Meyers.Infrastructure/Repositories/MenuRepository.cs:117-149 | the invariant is kept and the type table becomes `GetOrCreate` of the slug of the name; entries are untouched |
| MenuStore.MenuRepository.GetOrCreateWithSlug | Meyers.Infrastructure/Repositories/MenuRepository.cs:120-148 | the same, once the slug is computed |
| MenuStore.MenuRepository.GetAllMenuPreviews | Meyers.Infrastructure/Repositories/MenuRepository.cs:151-178 | a key for exactly the active types, each with its first row on today and on tomorrow, or none |
| CalendarService.MarkerLength | Meyers.Infrastructure/Services/CalendarService.cs:127 | a section header found at i starts with ',' and fits in the text |
| CalendarService.NextMarker | Meyers.Infrastructure/Services/CalendarService.cs:127 | the first position at or after i where a section header starts, with none in between |
| CalendarService.SplitSections | Meyers.Infrastructure/Services/CalendarService.cs:127-128 | the split always has at least one piece |
| CalendarService.MainSectionShape | Meyers.Infrastructure/Services/CalendarService.cs:127-129 | the kept section is the first non-empty piece: never empty and free of section headers |
| CalendarService.SplitSectionsMarkerFree | Meyers.Infrastructure/Services/CalendarService.cs:127-128 | no piece of the split contains a section header |
| CalendarService.PrefixMarkerFree | Meyers.Infrastructure/Services/CalendarService.cs:127 | a text before the first header holds no header |
| CalendarService.MarkerLengthZero | Meyers.Infrastructure/Services/CalendarService.cs:127 | no header starts at j exactly when none of ", Delikatesser:", ", Dagens salater:", ", Brød:" occurs there |
| CalendarService.MarkerFreeSection | Meyers.Infrastructure/Services/CalendarService.cs:127-129 | a non-empty text without a header is its own main section |
| CalendarService.SectionBeforeMarker | Meyers.Infrastructure/Services/CalendarService.cs:127-129 | only the text before the first section header is kept |
| CalendarService.NextMarkerAt | Meyers.Infrastructure/Services/CalendarService.cs:127 | the first header at or after i is the first one present |
| CalendarService.MarkerOnly | Meyers.Infrastructure/Services/CalendarService.cs:127-129 | a text that is only a section header leaves no section, where `sections[0]` throws |
| CalendarService.StripPrefix | Meyers.Infrastructure/Services/CalendarService.cs:133-153 | with no prefix that leaves content the section is unchanged; otherwise the result is non-empty and trimmed |
| CalendarService.FirstStrippingPrefix | Meyers.Infrastructure/Services/CalendarService.cs:142-153 | at most one prefix is removed: the first in list order that matches ignoring case and leaves content |
| CalendarService.StripLeadingPunctuation | Meyers.Infrastructure/Services/CalendarService.cs:159-160 | the result does not start with ',' or ':', and stays trimmed |
| CalendarService.StripLeadingSuffix | Meyers.Infrastructure/Services/CalendarService.cs:159-160 | the loop drops only a leading run of commas, colons and white space |
| CalendarService.JunkBeforeSuffix | Meyers.Infrastructure/Services/CalendarService.cs:159-160 | dropping junk in front composes |
| CalendarService.TrimRest | Meyers.Infrastructure/Services/CalendarService.cs:160 | one pass of the loop drops only junk at the front and shortens the text |
| CalendarService.FirstSentence | Meyers.Infrastructure/Services/CalendarService.cs:166 | `Split('.')[0]` is the prefix before the first '.' (all of the text when there is none) |
| CalendarService.Shorten | Meyers.Infrastructure/Services/CalendarService.cs:163-186 | a title of at most 80 characters is returned unchanged, with no "..." |
| CalendarService.FirstSentenceBranch | Meyers.Infrastructure/Services/CalendarService.cs:166-175 | over 80 characters with a first sentence of 21 characters or more that is not the whole text: the sentence trimmed, with "..." exactly when more than the '.' follows it |
| CalendarService.TextAfterSlice | Meyers.Infrastructure/Services/CalendarService.cs:170-171 | what follows the sentence is measured the same on a slice |
| CalendarService.FullStopTail | Meyers.Infrastructure/Services/CalendarService.cs:170-171 | the trimmed rest is longer than 1 exactly when something other than white space follows the '.' |
| CalendarService.LongFirstSentenceKept | Meyers.Infrastructure/Services/CalendarService.cs:166-172 | the first-sentence branch does not cap the length: a long sentence with more text after it comes back whole with "...", over 83 characters |
| CalendarService.WordBoundaryCut | Meyers.Infrastructure/Services/CalendarService.cs:176-185 | otherwise the cut is at the last space at index ≤ min(80, len−1) when it is past 40, else at 80; the result is trimmed with "..." appended, has at most 83 characters and no white space before the "..." |
| CalendarService.EllipsisAfterTrim | Meyers.Infrastructure/Services/CalendarService.cs:181-184 | a trimmed text with "..." has no white space before the "..." |
| CalendarService.CleanTitle | Meyers.Infrastructure/Services/CalendarService.cs:118-189 | the empty title is returned as it is |
| CalendarService.CleanupTitle | Meyers.Infrastructure/Services/CalendarService.cs:118-189 | the method's steps (decode, first section, prefix loop, trim, punctuation loop, shortening) compute `CleanTitle` |
| CalendarService.RemovePrefix | Meyers.Infrastructure/Services/CalendarService.cs:142-153 | the prefix loop computes `StripPrefix` |
| CalendarService.RemoveLeadingPunctuation | Meyers.Infrastructure/Services/CalendarService.cs:159-160 | the while loop computes `StripLeadingPunctuation` |
| CalendarService.ShortenTitle | Meyers.Infrastructure/Services/CalendarService.cs:162-186 | the shortening steps compute `Shorten` |
| CalendarService.WhiteSpaceTitle | Meyers.Infrastructure/Services/CalendarService.cs:120-156 | a title of white space alone cleans up to "" |
| CalendarService.WhiteSpaceStripsNothing | Meyers.Infrastructure/Services/CalendarService.cs:133-144 | no prefix matches a title that starts with white space |
| CalendarService.PlainSection | Meyers.Infrastructure/Services/CalendarService.cs:124-129 | a title without entities or commas is its own main section |
| CalendarService.PlainTitleKept | Meyers.Infrastructure/Services/CalendarService.cs:118-189 | a short trimmed title with no entity, comma, prefix or leading colon comes back unchanged |
| CalendarService.CleanTitleHead | Meyers.Infrastructure/Services/CalendarService.cs:156-160 | a cleaned title never starts with white space, ',' or ':' |
| CalendarService.ShortenKeepsHead | Meyers.Infrastructure/Services/CalendarService.cs:163-186 | shortening keeps the first character |
| CalendarService.TrimKeepsHead | Meyers.Infrastructure/Services/CalendarService.cs:172-181 | trimming a text that starts with a non-space keeps that start |
| CalendarService.CalendarName | Meyers.Infrastructure/Services/CalendarService.cs:16-18 | the product name ends with the menu type name when one is given |
| CalendarService.MenuTypeSuffixChars | Meyers.Infrastructure/Services/CalendarService.cs:87 | the UID suffix maps the menu type character by character: ' ' and '/' become '-', everything else lower case |
| CalendarService.ReplaceOneChar | Meyers.Infrastructure/Services/CalendarService.cs:87 | replacing one character by another keeps the length and changes only that character |
| CalendarService.EventUidParts | Meyers.Infrastructure/Services/CalendarService.cs:85-87 | the UID is "meyers-menu-" then yyyy-MM-dd (22 characters in all) and, for a typed day, "-" and the suffix |
| CalendarService.UidLayout | Meyers.Infrastructure/Services/CalendarService.cs:86-87 | where the parts of a UID sit |
| CalendarService.Calendar | Meyers.Infrastructure/Services/CalendarService.cs:14-116 | one event per menu day, or one test event for no days; `None` exactly when some main dish cannot be cleaned (where `CleanupTitle` throws) |
| CalendarService.GenerateCalendar | Meyers.Infrastructure/Services/CalendarService.cs:14-116 | the method's loop builds `Calendar` |
| CalendarService.CalendarStops | Meyers.Infrastructure/Services/CalendarService.cs:59-111 | a day that cannot be cleaned stops the whole feed |
| CalendarService.EventsExtended | Meyers.Infrastructure/Services/CalendarService.cs:59-111 | the loop step appends the next day's event |
| CalendarService.CalendarEvents | Meyers.Infrastructure/Services/CalendarService.cs:59-111 | the events of all the days, in order, make the feed |
| CalendarService.MakeEvent | Meyers.Infrastructure/Services/CalendarService.cs:61-108 | one pass of the loop builds the day's event |
| CalendarService.EventUidInjective | Meyers.Infrastructure/Services/CalendarService.cs:85-87 | equal UIDs mean the same date and the same menu-type suffix |
| CalendarService.EventAlarms | Meyers.Infrastructure/Services/CalendarService.cs:98-108 | every event has an alarm exactly when alarms are requested: one, at −5 minutes, with the event's summary |
| CalendarService.EventSummary | Meyers.Infrastructure/Services/CalendarService.cs:67-87 | the summary is `CleanupTitle(MainDish)`, or "Meyers Menu - DayName" without a main dish; the description is the formatted details when there are a main dish and details, and otherwise the formatted items joined by ", "; the UID is the day's |
| CalendarService.EmptyFeed | Meyers.Infrastructure/Services/CalendarService.cs:29-41 | no menu days give the single "test-event" at noon today |
| CalendarService.NoonEvent | Meyers.Infrastructure/Services/CalendarService.cs:61-65 | a day at midnight gets an event from 12:00 to 13:00 that day |
| CalendarService.SameDayTicks | Meyers.Infrastructure/Services/CalendarService.cs:64-65 | adding under a day to midnight stays on that day |
| WebCalendarService.WebShorten | Meyers.Web/Services/CalendarService.cs:114-131 | a title of at most 80 characters is returned unchanged |
| WebCalendarService.WebCleanTitle | Meyers.Web/Services/CalendarService.cs:69-134 | the empty title is returned as it is |
| WebCalendarService.WebCleanupTitle | Meyers.Web/Services/CalendarService.cs:69-134 | the method's steps compute `WebCleanTitle` |
| WebCalendarService.WebShortenTitle | Meyers.Web/Services/CalendarService.cs:114-131 | the shortening steps, with the second length test, compute `WebShorten` |
| WebCalendarService.SentenceWithoutEllipsis | Meyers.Web/Services/CalendarService.cs:117-121 | in the first-sentence case the result holds no '.' and is the current rule's result without the "..." it adds when text follows |
| WebCalendarService.TrimKeepsOut | Meyers.Web/Services/CalendarService.cs:120 | trimming adds no character |
| WebCalendarService.LongTitleUncut | Meyers.Web/Services/CalendarService.cs:122-130 | with no '.' after position 20 and no space in 41..80 an over-long title stays over 80 characters, where the current rule cuts it to at most 83 |
| WebCalendarService.NoSentenceCut | Meyers.Web/Services/CalendarService.cs:117-118 | with no '.' after position 20 the first-sentence case does not apply |
| WebCalendarService.NoWordBreak | Meyers.Web/Services/CalendarService.cs:125-126 | with no space in 41..80 the break point is at most 40 |
| WebCalendarService.RevisionsAgree | Meyers.Web/Services/CalendarService.cs:69-134 | wherever the current cleanup adds no "...", the older one gives the same title |
| WebCalendarService.ShortensAgree | Meyers.Web/Services/CalendarService.cs:114-131 | the two length rules agree wherever the current one adds no "..." |
| WebCalendarService.WebEventUidDate | Meyers.Web/Services/CalendarService.cs:54 | two days share a UID exactly when they share a date; without a menu type it is the current UID |
| WebCalendarService.WebCalendar | Meyers.Web/Services/CalendarService.cs:10-67 | one event per menu day, or one test event for no days; `None` exactly when some main dish cannot be cleaned |
| WebCalendarService.WebGenerateCalendar | Meyers.Web/Services/CalendarService.cs:10-67 | the method's loop builds `WebCalendar` |
| WebCalendarService.MakeWebEvent | Meyers.Web/Services/CalendarService.cs:35-59 | one pass of the loop builds the day's event |
| WebCalendarService.WebCalendarStops | Meyers.Web/Services/CalendarService.cs:33-62 | a day that cannot be cleaned stops the whole feed |
| WebCalendarService.WebEventsExtended | Meyers.Web/Services/CalendarService.cs:33-62 | the loop step appends the next day's event |
| WebCalendarService.WebCalendarEvents | Meyers.Web/Services/CalendarService.cs:33-62 | the events of all the days, in order, make the feed |
| WebCalendarService.WebEventSummary | Meyers.Web/Services/CalendarService.cs:40-59 | the summary is the cleaned main dish, or "Meyers Menu - DayName" without one; the description is the details as they are when there are a main dish and details, else the items joined by ", "; the UID is the date's; the event runs 12:00 to 13:00 |
| WebCalendarService.WebEmptyFeed | Meyers.Web/Services/CalendarService.cs:19-30 | no menu days give the single "test-event" at noon today, without alarm |
| WebCalendarService.WebEventsWithoutAlarms | Meyers.Web/Services/CalendarService.cs:52-59 | no event of the older feed has an alarm |
| WebCalendarService.WebUidsCollide | Meyers.Web/Services/CalendarService.cs:54 | two days of one date get the same UID, whatever their menu types |
| CalendarEndpoint.WindowAroundToday | Meyers.Web/Handlers/CalendarEndpointHandler.cs:30-31 | the window of cached rows starts before today and ends after it |
| CalendarEndpoint.MonthsLater | Meyers.Web/Handlers/CalendarEndpointHandler.cs:30-31 | a later month at the same time of day is later |
| CalendarEndpoint.HistoricalDay | Meyers.Web/Handlers/CalendarEndpointHandler.cs:37-46 | a cached row becomes a day without empty items and without a menu type |
| CalendarEndpoint.HistoricalRoundTrip | Meyers.Web/Handlers/CalendarEndpointHandler.cs:37-46 | a day written to the cache and turned back into a day is the same day, without its menu type |
| CalendarEndpoint.Historical | Meyers.Web/Handlers/CalendarEndpointHandler.cs:35-47 | exactly the cached rows on days the scraper did not return, as days |
| CalendarEndpoint.DayOrder | Meyers.Web/Handlers/CalendarEndpointHandler.cs:51 | ordering by date is a total preorder |
| CalendarEndpoint.MergedDays | Meyers.Web/Handlers/CalendarEndpointHandler.cs:50-52 | a permutation of the kept cached days and the scraped days, in date order |
| CalendarEndpoint.CurrentWins | Meyers.Web/Handlers/CalendarEndpointHandler.cs:36 | on a day the scraper returned, only scraped days appear |
| CalendarEndpoint.MergedCount | Meyers.Web/Handlers/CalendarEndpointHandler.cs:50-52 | the merge holds the scraped days plus the kept cached days |
| CalendarEndpoint.MergedValid | Meyers.Web/Handlers/CalendarEndpointHandler.cs:50-52 | every merged day has a valid date |
| CalendarEndpoint.GetCalendar | Meyers.Web/Handlers/CalendarEndpointHandler.cs:22-62 | one event per merged day (or the test event for none); `None`, the problem response, exactly when some merged day cannot be cleaned |
| WebMenuScraping.WebWeekdayDates | Meyers.Web/Services/MenuScrapingService.cs:87-132 | the older header parse gives the current revision's weekday dates cut to the first five, each a weekday with a valid date |
| WebMenuScraping.WebExtractDatesFromWeekHeaders | Meyers.Web/Services/MenuScrapingService.cs:87-132 | the header loop, the weekday filter and `Take(5)` compute `WebWeekdayDates` |
| WebMenuScraping.WebItems | Meyers.Web/Services/MenuScrapingService.cs:54-67 | at most one item per recipe |
| WebMenuScraping.WebItemsAppend | Meyers.Web/Services/MenuScrapingService.cs:54-67 | the items of two runs of recipes are those of the first run followed by those of the second |
| WebMenuScraping.WebItemsSingle | Meyers.Web/Services/MenuScrapingService.cs:56-66 | one recipe gives "title: description" when both are non-empty after trimming, else nothing |
| WebMenuScraping.BlankDescriptionKept | Meyers.Web/Services/MenuScrapingService.cs:57-65 | a description of only "&nbsp;" still gives the item "title: " |
| WebMenuScraping.ItemWithEmptyText | Meyers.Web/Services/MenuScrapingService.cs:57-65 | the empty-test runs before decoding, so a description that decodes to white space leaves "title: " |
| WebMenuScraping.BlankDescriptionDropped | Meyers.Infrastructure/Services/MenuScrapingService.cs:134-168 | the current revision drops the same recipe |
| WebMenuScraping.BlankText | Meyers.Web/Services/MenuScrapingService.cs:62-63 | "&nbsp;" is trimmed already and decodes to text that single-spacing empties |
| WebMenuScraping.DecodeNbsp | Meyers.Web/Services/MenuScrapingService.cs:62 | "&nbsp;" decodes to U+00A0 |
| WebMenuScraping.SquishNbsp | Meyers.Web/Services/MenuScrapingService.cs:63 | U+00A0 alone single-spaces and trims to "" |
| WebMenuScraping.BlockItems | Meyers.Web/Services/MenuScrapingService.cs:41-81 | one entry per block |
| WebMenuScraping.BlockItemsAt | Meyers.Web/Services/MenuScrapingService.cs:49-67 | a block's entry is absent exactly when it has no recipes, else the items of its recipes |
| WebMenuScraping.BlockItemsPrefix | Meyers.Web/Services/MenuScrapingService.cs:41-81 | the entries of the first blocks are the first entries |
| WebMenuScraping.DaysOf | Meyers.Web/Services/MenuScrapingService.cs:39-81 | the walk gives at most one day per date |
| WebMenuScraping.DaysShape | Meyers.Web/Services/MenuScrapingService.cs:69-77 | every day has items, starts at midnight, carries one of the dates and leaves main dish, details and menu type empty |
| WebMenuScraping.SkippedEntryIgnored | Meyers.Web/Services/MenuScrapingService.cs:50-79 | an entry for a block without recipes changes nothing, wherever it stands |
| WebMenuScraping.RecipelessBlockIgnored | Meyers.Web/Services/MenuScrapingService.cs:50-79 | a block without recipes changes nothing, wherever it stands |
| WebMenuScraping.BlockItemsAppend | Meyers.Web/Services/MenuScrapingService.cs:41-81 | the entries of two runs of blocks concatenate |
| WebMenuScraping.EmptyBlockDay | Meyers.Infrastructure/Services/MenuScrapingService.cs:117-188 | in the current revision a block without recipes gives no day content |
| WebMenuScraping.SkippedContentUsesDate | Meyers.Infrastructure/Services/MenuScrapingService.cs:117-188 | in the current revision such a block still uses up a date |
| WebMenuScraping.Taken | Meyers.Web/Services/MenuScrapingService.cs:79 | the number of date-taking entries is at most the number of entries |
| WebMenuScraping.DaysPairing | Meyers.Web/Services/MenuScrapingService.cs:39-81 | an entry with items goes with the date at the position counting the entries with recipes before it |
| WebMenuScraping.WebDaysPairing | Meyers.Web/Services/MenuScrapingService.cs:39-81 | a block with recipes and items goes with the date at the position counting the blocks with recipes before it |
| WebMenuScraping.KnownBlocks | Meyers.Web/Services/MenuScrapingService.cs:35 | exactly the blocks whose tab attribute is "Det velkendte" |
| WebMenuScraping.WebScrape | Meyers.Web/Services/MenuScrapingService.cs:14-85 | no days when the page text lacks "Det velkendte" (ignoring case); at most five days, each a weekday, valid, at midnight, with items |
| WebMenuScraping.OtherLabelsIgnored | Meyers.Web/Services/MenuScrapingService.cs:35 | blocks with another label play no part |
| WebMenuScraping.KnownBlocksAppend | Meyers.Web/Services/MenuScrapingService.cs:35 | a block with another label is filtered out |
| WebMenuScraping.WebScrapeMenu | Meyers.Web/Services/MenuScrapingService.cs:14-85 | the method computes `WebScrape` |
| WebMenuScraping.WalkBlocks | Meyers.Web/Services/MenuScrapingService.cs:39-81 | the block loop computes the day walk `WebDays` |
| WebMenuScraping.WalkStep | Meyers.Web/Services/MenuScrapingService.cs:44-80 | one step of the walk: a block without recipes is passed over, one with recipes takes the next date |
| WebMenuScraping.BlockMenuDay | Meyers.Web/Services/MenuScrapingService.cs:50-78 | a block with recipes gives its items and a day when there are any |
| WebMenuScraping.CollectItems | Meyers.Web/Services/MenuScrapingService.cs:52-67 | the recipe loop computes `WebItems` |
| WebMenuStore.FirstOnDay | Meyers.Web/Repositories/MenuRepository.cs:24-28 | the index of the first row on the day, or −1 exactly when no row is on it |
| WebMenuStore.InRange | Meyers.Web/Repositories/MenuRepository.cs:18-19 | exactly the rows dated within the window, full timestamps compared |
| WebMenuStore.DateOrder | Meyers.Web/Repositories/MenuRepository.cs:20 | ordering by date is a total preorder |
| WebMenuStore.LatestUpdate | Meyers.Web/Repositories/MenuRepository.cs:73-76 | the latest update time of a non-empty table is one of its update times and no earlier than any |
| WebMenuStore.Overwrite | Meyers.Web/Repositories/MenuRepository.cs:57-59 | an overwritten row keeps its key, date and creation time |
| WebMenuStore.StageAll | Meyers.Web/Repositories/MenuRepository.cs:49-66 | before the commit the table keeps its rows' identities, and the pending inserts come from the batch and match no committed row |
| WebMenuStore.StageAllStep | Meyers.Web/Repositories/MenuRepository.cs:51-65 | one loop pass overwrites the first row on the entry's day, or queues the entry for insertion |
| WebMenuStore.StageOne | Meyers.Web/Repositories/MenuRepository.cs:32-44 | a single entry overwrites the first row on its day or is queued |
| WebMenuStore.Numbered | Meyers.Web/Repositories/MenuRepository.cs:46 | inserted rows get consecutive fresh keys |
| WebMenuStore.FirstOnDayIdentity | Meyers.Web/Repositories/MenuRepository.cs:53 | overwriting rows does not change what a later lookup finds |
| WebMenuStore.CommitValid | Meyers.Web/Migrations/20250803010926_AddUniqueDateConstraint.cs:17-21 | a commit whose inserts do not clash on `Date` keeps the unique index and the keys |
| WebMenuStore.Unmatched | Meyers.Web/Repositories/MenuRepository.cs:62-65 | at most the batch |
| WebMenuStore.StageAllAdded | Meyers.Web/Repositories/MenuRepository.cs:51-66 | exactly the entries on no committed row's day are inserted, in batch order: lookups do not see pending inserts |
| WebMenuStore.StageAllFrame | Meyers.Web/Repositories/MenuRepository.cs:51-66 | a row no entry looks up is left as it was |
| WebMenuStore.StageAllLastWins | Meyers.Web/Repositories/MenuRepository.cs:55-61 | a matched row ends with the day name and items of the last entry on its day and update time now |
| WebMenuStore.UnmatchedHas | Meyers.Web/Repositories/MenuRepository.cs:62-65 | an entry on no committed row's day is among the unmatched |
| WebMenuStore.UnmatchedNone | Meyers.Web/Repositories/MenuRepository.cs:55-61 | when every entry matches, none is unmatched |
| WebMenuStore.AddedHas | Meyers.Web/Repositories/MenuRepository.cs:62-65 | an entry on no committed row's day is inserted |
| WebMenuStore.CommittedMatches | Meyers.Web/Repositories/MenuRepository.cs:49-69 | after the commit every entry of the batch finds a row on its day |
| WebMenuStore.SaveAgainAddsNothing | Meyers.Web/Repositories/MenuRepository.cs:49-69 | saving the same batch again inserts nothing |
| WebMenuStore.SavedEntryFound | Meyers.Web/Repositories/MenuRepository.cs:49-69 | with distinct days, the lookup for each saved entry's day finds its day name and items |
| WebMenuStore.ContentFound | Meyers.Web/Repositories/MenuRepository.cs:24-28 | the lookup after a commit finds the staged row on the day, else the first inserted one |
| WebMenuStore.SavedOverwritten | Meyers.Web/Repositories/MenuRepository.cs:55-61 | a matching entry leaves its content in the matched row |
| WebMenuStore.SavedInserted | Meyers.Web/Repositories/MenuRepository.cs:62-65 | an entry matching no row is inserted and is the first inserted row on its day |
| WebMenuStore.FirstAddedIs | Meyers.Web/Repositories/MenuRepository.cs:62-65 | among inserts on distinct days, the first on an entry's day holds its content |
| WebMenuStore.FirstOnDayAppend | Meyers.Web/Repositories/MenuRepository.cs:24-28 | the first row on a day in two tables one after the other |
| WebMenuStore.MenuRepository.constructor | Meyers.Web/Repositories/MenuRepository.cs:11-14 | an empty, valid database |
| WebMenuStore.MenuRepository.GetMenusForDateRange | Meyers.Web/Repositories/MenuRepository.cs:16-22 | exactly the rows within the window, as a permutation of them, in date order |
| WebMenuStore.MenuRepository.GetMenuForDate | Meyers.Web/Repositories/MenuRepository.cs:24-28 | the first row on the date's day, `None` exactly when there is none |
| WebMenuStore.MenuRepository.GetLastUpdateTime | Meyers.Web/Repositories/MenuRepository.cs:71-77 | the latest update time; `DateTime.MinValue` on an empty table |
| WebMenuStore.MenuRepository.SaveMenus | Meyers.Web/Repositories/MenuRepository.cs:49-69 | the table after the upsert batch, committed exactly when the inserts do not clash on `Date`, else unchanged; the unique index holds after |
| WebMenuStore.MenuRepository.SaveMenu | Meyers.Web/Repositories/MenuRepository.cs:30-47 | the table after the single upsert, which always commits |
| Text.Lower | Meyers.Infrastructure/Services/CalendarService.cs:87 | lower-casing maps each character and keeps the length |
| Text.LowerIdempotent | Meyers.Infrastructure/Services/CalendarService.cs:87 | lower-casing twice is lower-casing once |
| Text.TrimTrimmed | Meyers.Infrastructure/Services/CalendarService.cs:156 | trimming a trimmed text changes nothing |
| Text.TrimIsSlice | Meyers.Infrastructure/Services/CalendarService.cs:156 | the trimmed text is a slice of the input with only white space around it |
| Text.Squish | Meyers.Infrastructure/Services/MenuScrapingService.cs:149 | replacing white-space runs by a space and trimming gives a text with single spaces only, no newline and no white space at either end |
| Text.SquishNoop | Meyers.Infrastructure/Services/MenuScrapingService.cs:149 | text that is already single-spaced and trimmed is left as it is |
| Text.LastIndexOf | Meyers.Infrastructure/Services/CalendarService.cs:179 | the last position at or before the start holding the character, or −1 when there is none |
| Text.SplitJoinRoundTrip | Meyers.Infrastructure/Services/MenuScrapingService.cs:50-71 | joining non-empty newline-free items with '\n' and splitting with empty entries removed gives the items back |
| Text.ParseInt32OfNatToString | Meyers.Infrastructure/Services/MenuScrapingService.cs:266 | printing a non-negative 32-bit value and parsing it gives the value back |
| Html.HtmlDecode | Meyers.Infrastructure/Services/CalendarService.cs:124 | decoding never lengthens the text |
| Html.DecodePlain | Meyers.Infrastructure/Services/CalendarService.cs:124 | text without '&' is unchanged by decoding |
| Html.HtmlEncode | Meyers.Infrastructure/Services/MenuScrapingService.cs:111 | encoding never shortens the text |
| Html.EncodePlain | Meyers.Infrastructure/Services/MenuScrapingService.cs:111 | text without characters to encode is unchanged |
| Html.DecodeEncode | Meyers.Infrastructure/Services/MenuScrapingService.cs:102-111 | decoding undoes encoding for every text |
| Sorting.SortBy | Meyers.Infrastructure/Repositories/MenuRepository.cs:15 | ordering keeps the elements, with their multiplicities |
| Sorting.SortBySorted | Meyers.Infrastructure/Repositories/MenuRepository.cs:15 | the result is in order for a total preorder |
| Sorting.SortBySortedNoop | Meyers.Infrastructure/Repositories/MenuRepository.cs:15 | a sequence already in order is left as it is |
| Sorting.SortByMembers | Meyers.Infrastructure/Repositories/MenuRepository.cs:15 | ordering keeps exactly the elements it was given |
| Dates.DaysInMonth | Meyers.Infrastructure/Services/MenuScrapingService.cs:91-92 | a month has 28 to 31 days |
| Dates.DatePart | Meyers.Infrastructure/Services/MenuScrapingService.cs:42-43 | `.Date` is the same day at midnight, no later than the time itself |
| Dates.AddMonths | Meyers.Web/Handlers/CalendarEndpointHandler.cs:30-31 | the same time of day n months on, the day clamped to the month's length |
| Dates.DayNumberOrder | Meyers.Infrastructure/Repositories/MenuRepository.cs:14-15 | an earlier calendar date has a smaller day number |
| Dates.DayNumberInjective | Meyers.Infrastructure/Repositories/MenuRepository.cs:33 | two dates share a day number exactly when they are equal |
| Dates.AddDaysInverse | Meyers.Infrastructure/Services/MenuScrapingService.cs:42-43 | going n days forward and n days back returns to the date |
| Dates.FormatIsoDate | Meyers.Infrastructure/Services/CalendarService.cs:86 | `yyyy-MM-dd` has ten characters with '-' at positions 4 and 7 |
| Dates.ParseFormatIsoDate | Meyers.Infrastructure/Services/CalendarService.cs:86 | the formatted date's digits read back as the date |
| Dates.FormatIsoDateInjective | Meyers.Infrastructure/Services/CalendarService.cs:86-87 | two valid dates format alike exactly when they are equal |
| Text.Trim | Meyers.Infrastructure/Services/CalendarService.cs:156 | `Trim()` never lengthens the text, and the result neither starts nor ends with white space |
| Text.CollapseWhiteSpace | Meyers.Infrastructure/Services/MenuScrapingService.cs:149 | `\s+` → " " leaves white space only as single ' ' characters, empties only the empty text and keeps whether the text starts with white space |
| Text.CollapseRuns | Meyers.Core/Utilities/SlugHelper.cs:24 | `-+` → "-" leaves no two adjacent hyphens, adds no character and keeps whether the text starts or ends with one |
| Text.IndexOf | Meyers.Core/Utilities/StringHelper.cs:16 | the first position of the character, or −1 exactly when it does not occur |
| Text.SplitChar | Meyers.Infrastructure/Services/CalendarService.cs:166 | `Split(c)` gives at least one piece and no piece holds c |
| Text.FirstPiece | Meyers.Infrastructure/Services/CalendarService.cs:166 | `Split(c)[0]` is the text before the first c, or the whole text |
| Text.RemoveEmpty | Meyers.Infrastructure/Services/MenuScrapingService.cs:52 | `RemoveEmptyEntries` keeps only non-empty pieces, drawn from the input |
| Text.NatToString | Meyers.Core/Utilities/TimeFormatHelper.cs:32 | an unpadded number prints as decimal digits |
| Text.ParseInt32 | Meyers.Infrastructure/Services/MenuScrapingService.cs:266 | `int.TryParse` succeeds only on a signed or digit-led token, with a 32-bit value |
| Text.FormatPadded | Meyers.Core/Utilities/TimeFormatHelper.cs:9 | the `00` format gives at least two digits for a non-negative value |

## Left out

- HTTP and HTML parsing: `GetStringAsync` and the HtmlAgilityPack selections are not modelled. The page arrives already parsed: the day-header texts, the labelled tab blocks with their recipes' title and description texts, and the document's inner text.
- Storage engine: EF Core, SQLite, the DbContexts and migrations are not modelled. The tables are sequences in a class. The unique indexes (`MenuDbContext.cs` lines 17 and 28, and the older `Date` index) are its invariant, and a commit that would break one is reported as a failed save that writes nothing.
- Change tracking: the model has no change tracker. A batch's lookups see only committed rows, so the per-entry lookup in `SaveMenusAsync` does not find earlier inserts from the same batch. Both repositories are modelled that way.
- iCalendar serialisation: `Calendar`, `VTimeZone`, `CalDateTime` and `CalendarSerializer` are not modelled. A feed is its product name plus the list of events (UID, summary, description, start, end, alarms), and the serialised text is not produced.
- Timezones: `TimeZoneService` and the `DateTimeKind` handling are not modelled. Times are plain local date-times, and `DateTime.Today` and `DateTime.UtcNow` are parameters.
- Null strings: the model has no `null` string. The null passthrough of `CleanupTitle`, `CapitalizeFirst` and both `FormatDescription`s is therefore not modelled; their empty-string cases are. `GenerateSlug` gives "" for null as for blank input, which the blank case models.
- Exceptions: the exceptions that the modelled steps raise are modelled as `None`, except the XPath failure named in the next two lines. `sections[0]` on a title that is only a section header is one. An invalid `new DateTime` in the header parse is skipped, as in the `catch`. An exception in the calendar endpoint is its problem response.
- MenuScraping.TabBlocksFor: the source selects a type's blocks with an XPath query that pastes the decoded label between apostrophes (`MenuScrapingService.cs` lines 110-114); the model compares the attribute with the label and its encoded form instead. A label that contains an apostrophe is therefore not modelled as the source behaves: an odd number of apostrophes (for example `Chef&#39;s valg`, decoded to `Chef's valg`) makes the query malformed so `SelectNodes` throws, and a label such as `a' or '1'='1` turns into a query that selects every tab block. The model selects exactly the equal blocks in both cases.
- MenuScraping.ScrapedKeysUnique: it states uniqueness of (date, menu-type name). The store's index is on (date, type id), and the type is found by slug, so two labels with one slug (such as `Grønt` and `Groent`) collide on one key: when no row with that key exists yet, the two inserts make the save fail, and when one exists, the later day overwrites it, as the model's save does in both cases. `ScrapedSlugsDistinct` gives the slug-level premise only for pages whose menu types have distinct slugs.
- MenuScraping.ScrapePage: for the same reason, a page with a label containing an apostrophe is not modelled as the failed scrape (thrown exception, nothing saved) or the over-wide selection the source gives; the model returns that type's days. For labels without an apostrophe, the query and the model's comparison select the same blocks.
- Html.HtmlDecode: only the named entities the menus use (`amp`, `lt`, `gt`, `quot`, `apos`, `nbsp`, the Danish letters and `eacute`) and decimal references are decoded. Hexadecimal references, decimal references with a sign or surrounding white space (which `WebUtility` reads with `NumberStyles.Integer`, so `&#+65;` gives `A`), and the rest of `WebUtility`'s entity table are not.
- Culture: case mapping covers ASCII and Latin-1 letters only. It stands in for the invariant culture used by `ToLowerInvariant`, `ToUpper` and `OrdinalIgnoreCase`.
- Date formatting culture: the absolute branch of `FormatTimeAgo` (7 days or more) is modelled with the invariant culture's English month names and AM/PM designators. The current culture of the host is not modelled.
- Sorting.SortBy: it is an insertion sort that is proved sorted and a permutation of its input. That `OrderBy` is stable (equal keys keep their order) is not stated.
- The background refresh service, hosting configuration, the admin refresh endpoint, the preview handler's timezone fallback, the client script and the scraping log are not modelled. They are timers, configuration, secrets and UI, with no logic beyond what is modelled here.
- Older calendar endpoint: `CalendarEndpointHandler.cs` reads `MainDish` and `Details`, which the older `MenuEntry` and `MenuDay` models do not have. The endpoint is modelled over the current `MenuEntry` and `MenuDay`. The older scraper leaves those fields empty.
- Older calendar endpoint inputs: the scraper result and the cached rows of the window are parameters of `CalendarEndpoint.GetCalendar`, not calls.
- Concurrency: overlapping requests and the background refresh racing an on-demand scrape are not modelled.
- The custom-configuration encoder, the cache-duration calculation and a proactive-refresh threshold appear only in tests. No source shows them, so they are not part of this model.
- Text.Trim: the white-space set is the one .NET uses within Latin-1 (space, tab, line feed, carriage return, vertical tab, form feed, U+0085 and U+00A0). The other Unicode spaces that `Trim()`, `\s` and `IsNullOrWhiteSpace` also match are not in it: U+1680, U+2000–U+200A, U+2028, U+2029, U+202F, U+205F and U+3000. Everything built on it keeps those characters where .NET would trim them.
- Text.CollapseWhiteSpace: `\s+` is matched with the same Latin-1 set, so runs of the other Unicode spaces listed above are left in place.
- String lengths: a Dafny string is a sequence of Unicode code points, while C# `Length` and `Substring` count UTF-16 code units. The length thresholds (150, 100, 80, 40, 20) and the cut `Substring(0, 100)` therefore differ for text with characters outside the Basic Multilingual Plane, and the split of a surrogate pair that C# can make is not modelled.
- BreakSentences: its own contract states only that the text is not shortened. Where the line breaks go is stated by the lemma `BreakSentencesPositional`.
- FormatDescription: its own contract states the properties every result has. The rewrites are stated by lemmas over plain text holding one section header, one `" | "` separator or one `&amp;`, and the sentence breaks by `BreakSentencesPositional` on their own. A description that mixes several of these is not characterised as a whole.

=== FILE: cache.dfy ===
/** The cache around the scraper in `MenuScrapingService`: the six-hour freshness test, the
    read of cached rows back into menu days, the write of freshly scraped days through the
    repository, and `ScrapeMenuAsync`, which chooses between the two. */
module MenuCache {
  import opened Wrappers
  import opened Dates
  import opened Text
  import opened Sorting
  import opened Models
  import opened MenuStore
  import opened MenuScraping
  import opened SlugHelper
  import WeekHeaders

  /** `CacheRefreshInterval`: six hours. */
  const CacheRefreshInterval: int := 6 * TicksPerHour

  /** The menu type a cached row reads back as when it has no type. */
  const DefaultMenuType: string := "Det velkendte"

  // ---------------------------------------------------------------------------
  // The freshness test
  // ---------------------------------------------------------------------------

  /** `forceRefresh || lastUpdate == null || DateTime.UtcNow - lastUpdate.Value > CacheRefreshInterval`. */
  predicate ShouldRefresh(forceRefresh: bool, lastUpdate: Option<DateTime>, now: DateTime) {
    forceRefresh || lastUpdate.None? || Ticks(now) - Ticks(lastUpdate.value) > CacheRefreshInterval
  }

  /** Unforced, the cache is refreshed `k` ticks after its last update exactly when `k` is
      more than six hours: at six hours to the tick the cached rows are still used. */
  lemma RefreshAfter(last: DateTime, k: int)
    requires WellFormed(last.date)
    ensures ShouldRefresh(false, Some(last), AddTicks(last, k)) <==> k > CacheRefreshInterval
  {
    AddTicksMeasure(last, k);
  }

  /** An empty table reports `DateTime.MinValue` as its last update, so any clock reading
      from the year 2 on refreshes. */
  lemma EmptyTableRefreshes(now: DateTime)
    requires WellFormed(now.date) && now.date.year >= 2 && 0 <= now.timeOfDay
    ensures ShouldRefresh(false, Some(MinValue), now)
  {
    DayNumberOrder(MinValue.date, now.date);
  }

  // ---------------------------------------------------------------------------
  // Rows and days
  // ---------------------------------------------------------------------------

  /** `string.Join('\n', day.MenuItems)`. */
  function JoinItems(items: seq<string>): string {
    Join("\n", items)
  }

  /** Every item is non-empty and free of newlines. */
  predicate CleanItems(items: seq<string>) {
    forall i :: 0 <= i < |items| ==> items[i] != [] && '\n' !in items[i]
  }

  /** `string.IsNullOrEmpty(menuItems) ? [] : menuItems.Split('\n', RemoveEmptyEntries)`. */
  function SplitItems(menuItems: string): (r: seq<string>)
    ensures CleanItems(r)
  {
    if menuItems == [] then []
    else
      var pieces := SplitChar(menuItems, '\n');
      var r := RemoveEmpty(pieces);
      assert forall i :: 0 <= i < |r| ==> r[i] in pieces;
      r
  }

  /** Items that are non-empty and free of newlines survive the trip through the
      `MenuItems` column. */
  lemma ItemsRoundTrip(items: seq<string>)
    requires CleanItems(items)
    ensures SplitItems(JoinItems(items)) == items
  {
    SplitJoinRoundTrip(items, '\n');
    if items != [] {
      JoinStartsWithFirst(items);
    }
  }

  lemma JoinStartsWithFirst(items: seq<string>)
    requires items != []
    ensures |Join("\n", items)| >= |items[0]|
  {
  }

  /** `entry.MenuType?.Name`: the name of the type the row points to, when there is one. */
  function TypeName(types: seq<MenuType>, id: int): (r: Option<string>)
    ensures r.None? <==> !TypeKnown(types, id)
    ensures r.Some? ==> exists j :: 0 <= j < |types| && types[j].id == id && types[j].name == r.value
  {
    if types == [] then None
    else if types[0].id == id then Some(types[0].name)
    else
      assert forall j :: 1 <= j < |types| ==> types[j] == types[1..][j - 1];
      TypeName(types[1..], id)
  }

  /** With distinct type ids, the name read back is the name of the type with that id. */
  lemma TypeNameOf(types: seq<MenuType>, next: int, j: int)
    requires TypeIdsBelow(types, next) && 0 <= j < |types|
    ensures TypeName(types, types[j].id) == Some(types[j].name)
  {
    var r := TypeName(types, types[j].id);
    var j' :| 0 <= j' < |types| && types[j'].id == types[j].id && types[j'].name == r.value;
    assert j' == j;
  }

  /** The projection of `GetCachedMenusAsync`: a cached row as a menu day. */
  function ToMenuDay(e: MenuEntry, types: seq<MenuType>): MenuDay {
    MenuDay(e.dayName, e.date, SplitItems(e.menuItems), e.mainDish, e.details,
      TypeName(types, e.menuTypeId).GetOr(DefaultMenuType))
  }

  /** The row `SaveMenusToCache` builds for a day, with the id of its menu type; the
      creation and update times default to the clock. */
  function ToEntry(day: MenuDay, menuTypeId: int, now: DateTime): MenuEntry {
    MenuEntry(0, day.date, day.dayName, JoinItems(day.menuItems), day.mainDish, day.details,
      menuTypeId, now, now)
  }

  /** A day written to the cache and read back is the same day, except that its menu type
      is now the stored name of the type it was filed under. */
  lemma CacheRoundTrip(day: MenuDay, types: seq<MenuType>, next: int, j: int, now: DateTime)
    requires CleanItems(day.menuItems)
    requires TypeIdsBelow(types, next) && 0 <= j < |types|
    ensures ToMenuDay(ToEntry(day, types[j].id, now), types) == day.(menuType := types[j].name)
  {
    ItemsRoundTrip(day.menuItems);
    TypeNameOf(types, next, j);
  }

  // ---------------------------------------------------------------------------
  // Reading the cache
  // ---------------------------------------------------------------------------

  /** `DateTime.Today.AddDays(-7).Date`. */
  function WindowStart(today: Date): DateTime {
    DateTime(AddDays(today, -7), 0)
  }

  /** `DateTime.Today.AddDays(14).Date`. */
  function WindowEnd(today: Date): DateTime {
    DateTime(AddDays(today, 14), 0)
  }

  /** The window is three weeks long: from midnight a week before today to midnight two
      weeks after. */
  lemma WindowLength(today: Date)
    requires WellFormed(today)
    ensures Ticks(WindowEnd(today)) - Ticks(WindowStart(today)) == 21 * TicksPerDay
    ensures Ticks(WindowStart(today)) == (DayNumber(today) - 7) * TicksPerDay
  {
    AddDaysNumber(today, -7);
    AddDaysNumber(today, 14);
  }

  /** The `Select` of `GetCachedMenusAsync`: each row as a menu day, in row order. */
  function ToMenuDays(rows: seq<MenuEntry>, types: seq<MenuType>): (r: seq<MenuDay>)
    ensures |r| == |rows| && forall i :: 0 <= i < |rows| ==> r[i] == ToMenuDay(rows[i], types)
  {
    seq(|rows|, i requires 0 <= i < |rows| => ToMenuDay(rows[i], types))
  }

  /** `GetCachedMenusAsync`: the rows of the window, in date order, as menu days. */
  function GetCachedMenus(repo: MenuRepository, today: Date): (r: seq<MenuDay>)
    reads repo
    ensures forall d :: d in r <==>
      exists e :: e in repo.entries && InWindow(e, WindowStart(today), WindowEnd(today)) && d == ToMenuDay(e, repo.types)
    ensures |r| == |InRange(repo.entries, WindowStart(today), WindowEnd(today))|
    ensures forall i, j :: 0 <= i < j < |r| ==> Ticks(r[i].date) <= Ticks(r[j].date)
  {
    var rows := repo.GetMenusForDateRange(WindowStart(today), WindowEnd(today));
    CachedDays(rows, repo.entries, repo.types, WindowStart(today), WindowEnd(today));
    ToMenuDays(rows, repo.types)
  }

  /** The days read from the window's rows are the window's rows read as days, one per row,
      in date order. */
  lemma CachedDays(rows: seq<MenuEntry>, entries: seq<MenuEntry>, types: seq<MenuType>, start: DateTime, end: DateTime)
    requires forall e :: e in rows <==> e in entries && InWindow(e, start, end)
    requires multiset(rows) == multiset(InRange(entries, start, end))
    requires SortedBy(rows, DateLe)
    ensures var r := ToMenuDays(rows, types);
      && (forall d :: d in r <==> exists e :: e in entries && InWindow(e, start, end) && d == ToMenuDay(e, types))
      && |r| == |InRange(entries, start, end)|
      && forall i, j :: 0 <= i < j < |r| ==> Ticks(r[i].date) <= Ticks(r[j].date)
  {
    var r := ToMenuDays(rows, types);
    assert |multiset(rows)| == |multiset(InRange(entries, start, end))|;
    forall d | d in r
      ensures exists e :: e in entries && InWindow(e, start, end) && d == ToMenuDay(e, types)
    {
      var i :| 0 <= i < |r| && r[i] == d;
      assert rows[i] in rows;
    }
    forall e | e in entries && InWindow(e, start, end)
      ensures ToMenuDay(e, types) in r
    {
      var i :| 0 <= i < |rows| && rows[i] == e;
      assert r[i] == ToMenuDay(e, types);
    }
    forall i, j | 0 <= i < j < |r| ensures Ticks(r[i].date) <= Ticks(r[j].date) {
      assert DateLe(rows[i], rows[j]);
    }
  }

  // ---------------------------------------------------------------------------
  // Writing the cache
  // ---------------------------------------------------------------------------

  /** The two tables and the next primary keys. */
  datatype Tables = Tables(entries: seq<MenuEntry>, types: seq<MenuType>, nextEntryId: int, nextTypeId: int)

  function TablesOf(repo: MenuRepository): Tables
    reads repo
  {
    Tables(repo.entries, repo.types, repo.nextEntryId, repo.nextTypeId)
  }

  /** The loop of `SaveMenusToCache` over its first days: the type table after each
      get-or-create, the next type id, and the rows built so far. */
  datatype Batch = Batch(types: seq<MenuType>, nextTypeId: int, entries: seq<MenuEntry>)

  function BuildBatch(types: seq<MenuType>, nextTypeId: int, days: seq<MenuDay>, now: DateTime): (b: Batch)
    ensures |b.entries| == |days|
  {
    if days == [] then Batch(types, nextTypeId, [])
    else FileDay(BuildBatch(types, nextTypeId, days[..|days| - 1], now), days[|days| - 1], now)
  }

  /** One turn of the loop: the day's type is got or created, and its entry appended. */
  function FileDay(p: Batch, day: MenuDay, now: DateTime): (b: Batch)
    ensures |b.entries| == |p.entries| + 1
  {
    var r := GetOrCreate(p.types, day.menuType, GenerateSlug(day.menuType), now, p.nextTypeId);
    Batch(r.0, p.nextTypeId + |r.0| - |p.types|, p.entries + [ToEntry(day, r.1.id, now)])
  }

  lemma BuildBatchStep(types: seq<MenuType>, nextTypeId: int, days: seq<MenuDay>, now: DateTime, i: int)
    requires 0 <= i < |days|
    ensures var p := BuildBatch(types, nextTypeId, days[..i], now);
      var r := GetOrCreate(p.types, days[i].menuType, GenerateSlug(days[i].menuType), now, p.nextTypeId);
      var b := BuildBatch(types, nextTypeId, days[..i + 1], now);
      && b.types == r.0 && b.nextTypeId == p.nextTypeId + |r.0| - |p.types|
      && b.entries == p.entries + [ToEntry(days[i], r.1.id, now)]
  {
    var q := days[..i + 1];
    assert q[..|q| - 1] == days[..i] && q[|q| - 1] == days[i];
  }

  /** Day `i` was filed under the type at index `j`: an active type whose slug is the
      slug of the day's menu type name. */
  predicate FiledUnder(b: Batch, days: seq<MenuDay>, i: int, j: int, now: DateTime)
    requires 0 <= i < |days| && |b.entries| == |days|
  {
    && 0 <= j < |b.types|
    && b.types[j].slug == GenerateSlug(days[i].menuType) && b.types[j].isActive
    && b.entries[i] == ToEntry(days[i], b.types[j].id, now)
  }

  /** Day `i` was filed under some type of the batch's type table. */
  predicate Filed(b: Batch, days: seq<MenuDay>, i: int, now: DateTime)
    requires 0 <= i < |days| && |b.entries| == |days|
  {
    exists j :: 0 <= j < |b.types| && FiledUnder(b, days, i, j, now)
  }

  /** What the loop keeps: the type table's unique indexes hold, the types that were there
      keep their ids and slugs, and every day's row points to an active type carrying the
      slug of the day's menu type name. */
  predicate BatchFiled(types: seq<MenuType>, nextTypeId: int, b: Batch, days: seq<MenuDay>, now: DateTime) {
    && |b.entries| == |days|
    && SlugsUnique(b.types) && TypeIdsBelow(b.types, b.nextTypeId) && b.nextTypeId >= nextTypeId
    && KeysKept(types, b.types)
    && AllFiled(b, days, now)
  }

  /** The types of `before` are still at their places in `after`, with their ids and slugs. */
  predicate KeysKept(before: seq<MenuType>, after: seq<MenuType>) {
    && |after| >= |before|
    && forall j :: 0 <= j < |before| ==> after[j].id == before[j].id && after[j].slug == before[j].slug
  }

  /** Every day of `days` was filed. */
  predicate AllFiled(b: Batch, days: seq<MenuDay>, now: DateTime)
    requires |b.entries| == |days|
  {
    forall i :: 0 <= i < |days| ==> Filed(b, days, i, now)
  }

  lemma {:induction false} BuildBatchFiles(types: seq<MenuType>, nextTypeId: int, days: seq<MenuDay>, now: DateTime)
    requires SlugsUnique(types) && TypeIdsBelow(types, nextTypeId) && nextTypeId >= 1
    ensures BatchFiled(types, nextTypeId, BuildBatch(types, nextTypeId, days, now), days, now)
  {
    if days != [] {
      var ps := days[..|days| - 1];
      var p := BuildBatch(types, nextTypeId, ps, now);
      BuildBatchFiles(types, nextTypeId, ps, now);
      FileDayFiled(types, nextTypeId, p, days, now);
    } else {
      assert BuildBatch(types, nextTypeId, days, now) == Batch(types, nextTypeId, []);
    }
  }

  /** Filing the last of `days` keeps the loop's invariant. */
  lemma FileDayFiled(types: seq<MenuType>, nextTypeId: int, p: Batch, days: seq<MenuDay>, now: DateTime)
    requires days != [] && BatchFiled(types, nextTypeId, p, days[..|days| - 1], now) && nextTypeId >= 1
    ensures BatchFiled(types, nextTypeId, FileDay(p, days[|days| - 1], now), days, now)
  {
    var day := days[|days| - 1];
    var slug := GenerateSlug(day.menuType);
    GetOrCreateKeepsKeys(p.types, day.menuType, slug, now, p.nextTypeId);
    GetOrCreateKept(p.types, day.menuType, slug, now, p.nextTypeId);
    KeysKeptTrans(types, p.types, GetOrCreate(p.types, day.menuType, slug, now, p.nextTypeId).0);
    FiledDays(p, days, now);
  }

  lemma KeysKeptTrans(a: seq<MenuType>, b: seq<MenuType>, c: seq<MenuType>)
    requires KeysKept(a, b) && TypesKept(b, c)
    ensures KeysKept(a, c)
  {
  }

  /** The types of `before` are still at their places in `after`, with their ids and slugs,
      and still active if they were. */
  predicate TypesKept(before: seq<MenuType>, after: seq<MenuType>) {
    && |after| >= |before|
    && forall j :: 0 <= j < |before| ==>
      && after[j].id == before[j].id && after[j].slug == before[j].slug
      && (before[j].isActive ==> after[j].isActive)
  }

  /** A get-or-create keeps the types that were there. */
  lemma GetOrCreateKept(types: seq<MenuType>, name: string, slug: string, now: DateTime, next: int)
    ensures TypesKept(types, GetOrCreate(types, name, slug, now, next).0)
  {
    var r := GetOrCreate(types, name, slug, now, next);
    var k := SlugIndex(types, slug);
    forall j | 0 <= j < |types| ensures types[j].isActive ==> r.0[j].isActive {
      if j == k {
        assert r.0[j] == r.1;
      } else {
        assert r.0[j] == types[j];
      }
    }
  }

  /** One more day, the last of `days`, filed: the days before stay filed where they were,
      the new one is filed under the type the get-or-create returned. */
  lemma FiledDays(p: Batch, days: seq<MenuDay>, now: DateTime)
    requires days != [] && |p.entries| == |days| - 1
    requires AllFiled(p, days[..|days| - 1], now)
    ensures AllFiled(FileDay(p, days[|days| - 1], now), days, now)
  {
    var n := |days| - 1;
    var day := days[n];
    var r := GetOrCreate(p.types, day.menuType, GenerateSlug(day.menuType), now, p.nextTypeId);
    GetOrCreateKept(p.types, day.menuType, GenerateSlug(day.menuType), now, p.nextTypeId);
    var b := FileDay(p, day, now);
    assert b.types == r.0 && b.entries == p.entries + [ToEntry(day, r.1.id, now)];
    forall i | 0 <= i < |days| ensures Filed(b, days, i, now) {
      if i < n {
        OldDayFiled(p, b, days, i, now);
      } else {
        var j :| 0 <= j < |r.0| && r.0[j] == r.1;
        assert FiledUnder(b, days, n, j, now);
      }
    }
  }

  lemma OldDayFiled(p: Batch, b: Batch, days: seq<MenuDay>, i: int, now: DateTime)
    requires |p.entries| == |days| - 1 && |b.entries| == |days| && 0 <= i < |days| - 1
    requires Filed(p, days[..|days| - 1], i, now)
    requires TypesKept(p.types, b.types) && b.entries[i] == p.entries[i]
    ensures Filed(b, days, i, now)
  {
    var j :| 0 <= j < |p.types| && FiledUnder(p, days[..|days| - 1], i, j, now);
    assert FiledUnder(b, days, i, j, now);
  }

  /** The tables after `SaveMenusToCache`, and whether its `SaveChangesAsync` succeeded: the
      types are got or created day by day, then the rows go through `SaveMenusAsync`. */
  function AfterSave(t: Tables, days: seq<MenuDay>, now: DateTime): (Tables, bool) {
    var b := BuildBatch(t.types, t.nextTypeId, days, now);
    var s := StageAll(t.entries, b.entries, now);
    if Insertable(s.added, b.types) then
      (Tables(s.rows + Numbered(s.added, t.nextEntryId), b.types, t.nextEntryId + |s.added|, b.nextTypeId), true)
    else (Tables(t.entries, b.types, t.nextEntryId, b.nextTypeId), false)
  }

  /** `SaveMenusToCache`. */
  method SaveMenusToCache(repo: MenuRepository, menuDays: seq<MenuDay>, now: DateTime) returns (ok: bool)
    requires repo.Valid()
    modifies repo
    ensures repo.Valid()
    ensures TablesOf(repo) == AfterSave(old(TablesOf(repo)), menuDays, now).0
    ensures ok == AfterSave(old(TablesOf(repo)), menuDays, now).1
  {
    var menuEntries := BuildMenuEntries(repo, menuDays, now);
    ok := repo.SaveMenus(menuEntries, now);
  }

  /** The loop of `SaveMenusToCache`: each day's type is got or created, in order, and the
      day becomes a row pointing to it. No row is written yet. */
  method BuildMenuEntries(repo: MenuRepository, menuDays: seq<MenuDay>, now: DateTime) returns (menuEntries: seq<MenuEntry>)
    requires repo.Valid()
    modifies repo
    ensures repo.Valid()
    ensures var b := BuildBatch(old(repo.types), old(repo.nextTypeId), menuDays, now);
      repo.types == b.types && repo.nextTypeId == b.nextTypeId && menuEntries == b.entries
    ensures repo.entries == old(repo.entries) && repo.nextEntryId == old(repo.nextEntryId)
  {
    menuEntries := [];
    var i := 0;
    while i < |menuDays|
      invariant 0 <= i <= |menuDays|
      invariant repo.Valid()
      invariant var b := BuildBatch(old(repo.types), old(repo.nextTypeId), menuDays[..i], now);
        repo.types == b.types && repo.nextTypeId == b.nextTypeId && menuEntries == b.entries
      invariant repo.entries == old(repo.entries) && repo.nextEntryId == old(repo.nextEntryId)
    {
      var day := menuDays[i];
      BuildBatchStep(old(repo.types), old(repo.nextTypeId), menuDays, now, i);
      var menuType := repo.GetOrCreateMenuType(day.menuType, now);
      menuEntries := menuEntries + [ToEntry(day, menuType.id, now)];
      i := i + 1;
    }
    assert menuDays[..i] == menuDays;
  }

  /** `day` can be looked up in `entries` by its date part and the id of an active type
      of `types` carrying the slug of its menu type name, and the row found reads back as
      `day` with its stored date and the type's stored name. */
  predicate ReadsBack(entries: seq<MenuEntry>, types: seq<MenuType>, day: MenuDay) {
    exists j :: 0 <= j < |types| && ReadsBackUnder(entries, types, day, j)
  }

  predicate ReadsBackUnder(entries: seq<MenuEntry>, types: seq<MenuType>, day: MenuDay, j: int)
    requires 0 <= j < |types|
  {
    && types[j].slug == GenerateSlug(day.menuType) && types[j].isActive
    && var row := FirstOn(entries, day.date.date, types[j].id);
      && row.Some?
      && ToMenuDay(row.value, types) == day.(date := row.value.date, menuType := types[j].name)
  }

  /** Every day of a successful save can be looked up afterwards by its date and the id of
      its type, and reads back with its own content, provided no two days of the batch share
      a date and a type slug. */
  lemma SavedDayReadsBack(t: Tables, days: seq<MenuDay>, now: DateTime, i: int)
    requires SlugsUnique(t.types) && TypeIdsBelow(t.types, t.nextTypeId) && t.nextTypeId >= 1
    requires forall a, c :: 0 <= a < c < |days| && days[a].date.date == days[c].date.date ==>
      GenerateSlug(days[a].menuType) != GenerateSlug(days[c].menuType)
    requires AfterSave(t, days, now).1 && 0 <= i < |days|
    requires CleanItems(days[i].menuItems)
    ensures ReadsBack(AfterSave(t, days, now).0.entries, AfterSave(t, days, now).0.types, days[i])
  {
    var b := BuildBatch(t.types, t.nextTypeId, days, now);
    BuildBatchFiles(t.types, t.nextTypeId, days, now);
    FiledKeysDistinct(b, days, now);
    DayReadsBack(t.entries, b, days, now, t.nextEntryId, i);
  }

  /** A scraped page whose menu types have distinct slugs, saved successfully, reads back
      day by day. */
  lemma ScrapedDayReadsBack(t: Tables, page: Page, now: DateTime, i: int)
    requires SlugsUnique(t.types) && TypeIdsBelow(t.types, t.nextTypeId) && t.nextTypeId >= 1
    requires DistinctDates(WeekHeaders.WeekdayDates(page.headers))
    requires var names := MenuTypes(page.blocks);
      forall a, c :: 0 <= a < c < |names| ==> GenerateSlug(names[a]) != GenerateSlug(names[c])
    requires AfterSave(t, ScrapeDocument(page), now).1 && 0 <= i < |ScrapeDocument(page)|
    requires CleanItems(ScrapeDocument(page)[i].menuItems)
    ensures ReadsBack(AfterSave(t, ScrapeDocument(page), now).0.entries,
      AfterSave(t, ScrapeDocument(page), now).0.types, ScrapeDocument(page)[i])
  {
    ScrapedSlugsDistinct(page);
    SavedDayReadsBack(t, ScrapeDocument(page), now, i);
  }

  /** Days of one batch on the same date have different slugs, so their rows have
      different keys. */
  lemma FiledKeysDistinct(b: Batch, days: seq<MenuDay>, now: DateTime)
    requires |b.entries| == |days| && AllFiled(b, days, now) && SlugsUnique(b.types) && TypeIdsBelow(b.types, b.nextTypeId)
    requires forall a, c :: 0 <= a < c < |days| && days[a].date.date == days[c].date.date ==>
      GenerateSlug(days[a].menuType) != GenerateSlug(days[c].menuType)
    ensures BatchKeysDistinct(b.entries)
  {
    forall a, c | 0 <= a < c < |b.entries|
      ensures !HasKey(b.entries[c], b.entries[a].date.date, b.entries[a].menuTypeId)
    {
      FiledApart(b, days, now, a, c);
    }
  }

  lemma FiledApart(b: Batch, days: seq<MenuDay>, now: DateTime, a: int, c: int)
    requires |b.entries| == |days| && 0 <= a < c < |days| && Filed(b, days, a, now) && Filed(b, days, c, now)
    requires SlugsUnique(b.types) && TypeIdsBelow(b.types, b.nextTypeId)
    requires days[a].date.date == days[c].date.date ==> GenerateSlug(days[a].menuType) != GenerateSlug(days[c].menuType)
    ensures !HasKey(b.entries[c], b.entries[a].date.date, b.entries[a].menuTypeId)
  {
    var ja :| 0 <= ja < |b.types| && FiledUnder(b, days, a, ja, now);
    var jc :| 0 <= jc < |b.types| && FiledUnder(b, days, c, jc, now);
    if days[a].date.date == days[c].date.date {
      assert ja != jc;
      assert b.types[ja].id != b.types[jc].id;
    }
  }

  /** A day filed in a batch whose keys are distinct reads back from the committed rows. */
  lemma DayReadsBack(entries: seq<MenuEntry>, b: Batch, days: seq<MenuDay>, now: DateTime, next: int, i: int)
    requires |b.entries| == |days| && 0 <= i < |days| && Filed(b, days, i, now)
    requires BatchKeysDistinct(b.entries) && TypeIdsBelow(b.types, b.nextTypeId)
    requires CleanItems(days[i].menuItems)
    ensures var s := StageAll(entries, b.entries, now);
      ReadsBack(s.rows + Numbered(s.added, next), b.types, days[i])
  {
    var j :| 0 <= j < |b.types| && FiledUnder(b, days, i, j, now);
    SavedEntryFound(entries, b.entries, now, next, i);
    var s := StageAll(entries, b.entries, now);
    RowReadsBack(s.rows + Numbered(s.added, next), b.types, b.nextTypeId, days[i], j, now);
  }

  /** The first row with a day's key that holds the content of the day's own row reads back
      as that day. */
  lemma RowReadsBack(rows: seq<MenuEntry>, types: seq<MenuType>, next: int, day: MenuDay, j: int, now: DateTime)
    requires TypeIdsBelow(types, next) && 0 <= j < |types|
    requires types[j].slug == GenerateSlug(day.menuType) && types[j].isActive
    requires CleanItems(day.menuItems)
    requires var k := FirstWithKey(rows, day.date.date, types[j].id);
      k >= 0 && SameContent(rows[k], ToEntry(day, types[j].id, now))
    ensures ReadsBackUnder(rows, types, day, j)
  {
    ItemsRoundTrip(day.menuItems);
    TypeNameOf(types, next, j);
  }

  // ---------------------------------------------------------------------------
  // ScrapeMenuAsync
  // ---------------------------------------------------------------------------

  /** `ScrapeMenuAsync(forceRefresh)` over the repository and an already fetched page, with
      the clock and today's date as parameters. A fresh cache with rows in the window
      answers from the cache and changes nothing; otherwise the page is scraped, and the
      result is returned even when empty but stored only when not. `None` stands for the
      exception a failed `SaveChangesAsync` raises. */
  method ScrapeMenu(repo: MenuRepository, page: Page, forceRefresh: bool, now: DateTime, today: Date)
    returns (menus: Option<seq<MenuDay>>)
    requires repo.Valid()
    modifies repo
    ensures repo.Valid()
    ensures var cached := old(GetCachedMenus(repo, today));
      if !ShouldRefresh(forceRefresh, Some(old(repo.GetLastUpdateTime())), now) && cached != [] then
        menus == Some(cached) && TablesOf(repo) == old(TablesOf(repo))
      else
        var scraped := ScrapeDocument(page);
        if scraped == [] then menus == Some([]) && TablesOf(repo) == old(TablesOf(repo))
        else
          var saved := AfterSave(old(TablesOf(repo)), scraped, now);
          TablesOf(repo) == saved.0 && menus == (if saved.1 then Some(scraped) else None)
  {
    var lastUpdate := repo.GetLastUpdateTime();
    var shouldRefresh := ShouldRefresh(forceRefresh, Some(lastUpdate), now);
    if !shouldRefresh {
      var cachedMenus := GetCachedMenus(repo, today);
      if cachedMenus != [] {
        return Some(cachedMenus);
      }
    }
    var freshMenus := ScrapeFromWebsite(page);
    if freshMenus != [] {
      var ok := SaveMenusToCache(repo, freshMenus, now);
      if !ok {
        return None;
      }
    }
    menus := Some(freshMenus);
  }
}

=== FILE: calendar.dfy ===
/** `CalendarService` of the infrastructure layer: the clean-up that turns a stored main
    dish into a calendar title, and the choice of UID, summary, description and alarm for
    every event of the feed. The iCal objects and their serialisation are not modelled;
    an event is the record of the values the service puts into it. */
module CalendarService {
  import opened Wrappers
  import opened Text
  import opened Html
  import opened Dates
  import opened Models
  import opened StringHelper

  // ---------------------------------------------------------------------------
  // The section split
  // ---------------------------------------------------------------------------

  /** The section headers a menu text is split on, in the order `Split` tries them. */
  const SectionMarkers: seq<string> := [", Delikatesser:", ", Dagens salater:", ", Brød:"]

  /** The length of the section header that starts at position `i` of `s`, 0 when none does. */
  function MarkerLength(s: string, i: int): (r: nat)
    ensures r > 0 ==> 0 <= i < |s| && s[i] == ',' && i + r <= |s|
  {
    if OccursAt(s, SectionMarkers[0], i) then |SectionMarkers[0]|
    else if OccursAt(s, SectionMarkers[1], i) then |SectionMarkers[1]|
    else if OccursAt(s, SectionMarkers[2], i) then |SectionMarkers[2]|
    else 0
  }

  /** The first position at or after `i` where a section header starts, `|s|` when none does. */
  function NextMarker(s: string, i: nat): (r: nat)
    requires i <= |s|
    ensures i <= r <= |s|
    ensures r < |s| ==> MarkerLength(s, r) > 0
    ensures forall j :: i <= j < r ==> MarkerLength(s, j) == 0
    decreases |s| - i
  {
    if i == |s| || MarkerLength(s, i) > 0 then i else NextMarker(s, i + 1)
  }

  /** `s.Split(SectionMarkers, StringSplitOptions.None)`: the texts between the headers. */
  function SplitSections(s: string): (r: seq<string>)
    ensures |r| >= 1
    decreases |s|
  {
    var k := NextMarker(s, 0);
    if k == |s| then [s] else [s[..k]] + SplitSections(s[k + MarkerLength(s, k)..])
  }

  /** The section `CleanupTitle` keeps: the first non-empty piece of the split with
      `RemoveEmptyEntries`; `None` where the source's `sections[0]` is out of range. */
  function MainSection(s: string): Option<string> {
    var sections := RemoveEmpty(SplitSections(s));
    if sections == [] then None else Some(sections[0])
  }

  /** The kept section is never empty and holds no section header. */
  lemma MainSectionShape(s: string)
    ensures MainSection(s).Some? ==> MainSection(s).value != []
    ensures MainSection(s).Some? ==> forall j :: MarkerLength(MainSection(s).value, j) == 0
  {
    SplitSectionsMarkerFree(s);
    var sections := RemoveEmpty(SplitSections(s));
    if sections != [] {
      assert sections[0] in SplitSections(s);
    }
  }

  /** No piece of the split contains a section header. */
  lemma {:induction false} SplitSectionsMarkerFree(s: string)
    ensures forall p :: p in SplitSections(s) ==> forall j :: MarkerLength(p, j) == 0
    decreases |s|
  {
    var k := NextMarker(s, 0);
    PrefixMarkerFree(s, k);
    if k < |s| {
      SplitSectionsMarkerFree(s[k + MarkerLength(s, k)..]);
    }
  }

  /** A header inside `s[..k]` would be a header of `s` before `k`. */
  lemma PrefixMarkerFree(s: string, k: nat)
    requires k <= |s|
    requires forall j :: 0 <= j < k ==> MarkerLength(s, j) == 0
    ensures forall j :: MarkerLength(s[..k], j) == 0
  {
    var p := s[..k];
    forall j ensures MarkerLength(p, j) == 0 {
      MarkerLengthZero(p, j);
      MarkerLengthZero(s, j);
    }
  }

  /** No header starts at `j` exactly when none of the three occurs there. */
  lemma MarkerLengthZero(s: string, j: int)
    ensures MarkerLength(s, j) == 0 <==>
      forall q | 0 <= q < |SectionMarkers| :: !OccursAt(s, SectionMarkers[q], j)
  {
    assert |SectionMarkers| == 3;
  }

  /** A non-empty text without a header is its own main section. */
  lemma MarkerFreeSection(s: string)
    requires s != []
    requires forall j :: MarkerLength(s, j) == 0
    ensures MainSection(s) == Some(s)
  {
    assert NextMarker(s, 0) == |s|;
    assert RemoveEmpty([s]) == [s] + RemoveEmpty([]);
  }

  /** Text free of commas followed by a header: the main section is that text. */
  lemma SectionBeforeMarker(a: string, m: string, rest: string)
    requires a != [] && ',' !in a
    requires m in SectionMarkers
    ensures MainSection(a + m + rest) == Some(a)
  {
    var s := a + m + rest;
    forall j | 0 <= j < |a| ensures MarkerLength(s, j) == 0 {
      assert s[j] == a[j];
    }
    assert OccursAt(s, m, |a|) by {
      assert s[|a|..|a| + |m|] == m;
    }
    assert NextMarker(s, 0) == |a| by {
      NextMarkerAt(s, 0, |a|);
    }
    assert s[..|a|] == a;
    var pieces := SplitSections(s);
    assert pieces == [a] + SplitSections(s[|a| + MarkerLength(s, |a|)..]);
    assert RemoveEmpty(pieces) == [a] + RemoveEmpty(pieces[1..]);
  }

  /** The first header at or after `i` is at `k` when one is there and none comes before. */
  lemma {:induction false} NextMarkerAt(s: string, i: nat, k: nat)
    requires i <= k < |s|
    requires MarkerLength(s, k) > 0
    requires forall j :: i <= j < k ==> MarkerLength(s, j) == 0
    ensures NextMarker(s, i) == k
    decreases k - i
  {
    if i < k {
      NextMarkerAt(s, i + 1, k);
    }
  }

  /** A text made of a header alone has no section, where the source fails. */
  lemma MarkerOnly(m: string)
    requires m in SectionMarkers
    ensures MainSection(m) == None
  {
    assert OccursAt(m, m, 0) by { assert m[0..|m|] == m; }
    if m == SectionMarkers[1] {
      assert m[3] != SectionMarkers[0][3];
    }
    assert MarkerLength(m, 0) == |m|;
    assert m[|m|..] == [];
    assert SplitSections([]) == [[]];
    assert SplitSections(m) == [[]] + [[]];
  }

  // ---------------------------------------------------------------------------
  // Boilerplate prefixes and leading punctuation
  // ---------------------------------------------------------------------------

  /** The boilerplate prefixes, in the order they are tried. */
  const TitlePrefixes: seq<string> :=
    ["Varm ret med tilbehør:", "Varm ret med tilbeh&#248;r:", "Alm./Halal:", "Alm.:", "Halal:"]

  /** `s` starts with `prefix`, ignoring case, and text other than white space follows it. */
  predicate Strips(s: string, prefix: string) {
    StartsWithIgnoreCase(s, prefix) && Trim(s[|prefix|..]) != []
  }

  /** The foreach over the prefixes: the trimmed text after the first prefix that leaves
      content; the section as it is when no prefix does. */
  function StripPrefix(s: string, prefixes: seq<string>): (r: string)
    ensures (forall i | 0 <= i < |prefixes| :: !Strips(s, prefixes[i])) ==> r == s
    ensures r == s || (r != [] && Trimmed(r))
  {
    if prefixes == [] then s
    else if Strips(s, prefixes[0]) then Trim(s[|prefixes[0]|..])
    else
      assert forall i | 0 <= i < |prefixes| - 1 :: prefixes[1..][i] == prefixes[i + 1];
      StripPrefix(s, prefixes[1..])
  }

  /** At most one prefix goes: the first one in the list that leaves content. */
  lemma {:induction false} FirstStrippingPrefix(s: string, prefixes: seq<string>, i: nat)
    requires i < |prefixes| && Strips(s, prefixes[i])
    requires forall j | 0 <= j < i :: !Strips(s, prefixes[j])
    ensures StripPrefix(s, prefixes) == Trim(s[|prefixes[i]|..])
  {
    if i > 0 {
      assert !Strips(s, prefixes[0]);
      FirstStrippingPrefix(s, prefixes[1..], i - 1);
    }
  }

  /** The while loop: a leading ',' or ':' is dropped and the rest trimmed, as long as
      one leads. */
  function StripLeadingPunctuation(s: string): (r: string)
    ensures r == [] || (r[0] != ',' && r[0] != ':')
    ensures Trimmed(s) ==> Trimmed(r)
    decreases |s|
  {
    if s != [] && (s[0] == ',' || s[0] == ':') then StripLeadingPunctuation(Trim(s[1..])) else s
  }

  /** What the loop drops is a run of commas, colons and white space at the front. */
  lemma {:induction false} StripLeadingSuffix(s: string)
    requires Trimmed(s)
    ensures DropsLeading(s, StripLeadingPunctuation(s))
    decreases |s|
  {
    if s != [] && (s[0] == ',' || s[0] == ':') {
      var t := Trim(s[1..]);
      TrimRest(s);
      StripLeadingSuffix(t);
      JunkBeforeSuffix(s, t, StripLeadingPunctuation(t));
    } else {
      assert s[|s| - |s|..] == s;
    }
  }

  /** Junk in front of a text that is junk followed by `r` leaves `r` as well. */
  lemma JunkBeforeSuffix(s: string, t: string, r: string)
    requires |t| <= |s| && t == s[|s| - |t|..]
    requires forall i :: 0 <= i < |s| - |t| ==> IsLeadingJunk(s[i])
    requires DropsLeading(t, r)
    ensures DropsLeading(s, r)
  {
    assert r == s[|s| - |r|..] by {
      assert r == t[|t| - |r|..];
    }
    forall i | |s| - |t| <= i < |s| - |r| ensures IsLeadingJunk(s[i]) {
      assert s[i] == t[i - (|s| - |t|)];
    }
  }

  /** Trimming a trimmed text after its leading ',' or ':' drops only junk at the front. */
  lemma TrimRest(s: string)
    requires Trimmed(s) && s != [] && (s[0] == ',' || s[0] == ':')
    ensures var t := Trim(s[1..]);
      |t| < |s| && t == s[|s| - |t|..] &&
      forall i :: 0 <= i < |s| - |t| ==> IsLeadingJunk(s[i])
  {
    var t := Trim(s[1..]);
    var k := TrimIsSlice(s[1..]);
    assert 1 + k + |t| == |s|;
    assert t == s[1 + k..];
    forall i | 1 <= i < |s| - |t| ensures IsLeadingJunk(s[i]) {
      assert s[i] == s[1..][i - 1];
    }
  }

  /** `r` is what remains of `s` after a run of commas, colons and white space at its front. */
  predicate DropsLeading(s: string, r: string) {
    && |r| <= |s| && r == s[|s| - |r|..]
    && forall i :: 0 <= i < |s| - |r| ==> IsLeadingJunk(s[i])
  }

  /** A character the punctuation loop and the trims between its rounds remove. */
  predicate IsLeadingJunk(c: char) {
    c == ',' || c == ':' || IsWhiteSpace(c)
  }

  // ---------------------------------------------------------------------------
  // The length rule
  // ---------------------------------------------------------------------------

  /** The longest title kept whole. */
  const MaxTitleLength: int := 80

  /** `s.Split('.')[0]`: the text before the first full stop, all of `s` when there is none. */
  function FirstSentence(s: string): (r: string)
    ensures |r| <= |s| && r == s[..|r|]
    ensures '.' !in r
    ensures |r| < |s| ==> s[|r|] == '.'
  {
    FirstPiece(s, '.');
    assert SplitChar(s, '.')[0] in SplitChar(s, '.');
    SplitChar(s, '.')[0]
  }

  /** The last position up to which a long title is searched for a space. */
  function SearchLimit(s: string): int {
    if MaxTitleLength < |s| - 1 then MaxTitleLength else |s| - 1
  }

  /** The shortening applied to a title of more than 80 characters. */
  function Shorten(s: string): (r: string)
    ensures |s| <= MaxTitleLength ==> r == s
  {
    if |s| <= MaxTitleLength then s
    else if 20 < |FirstSentence(s)| < |s| then SentenceCut(s)
    else WordCut(s)
  }

  /** The first-sentence branch: the sentence trimmed, "..." when more than the full stop
      survives the trim of the rest. */
  function SentenceCut(s: string): string {
    var first := FirstSentence(s);
    if |Trim(s[|first|..])| > 1 then Trim(first) + "..." else Trim(first)
  }

  /** The word-boundary branch: cut at the last space up to position 80 when it is past
      position 40, at position 80 otherwise, trim, and add "...". */
  function WordCut(s: string): string
    requires |s| > MaxTitleLength
  {
    var breakPoint := LastIndexOf(s, ' ', SearchLimit(s));
    if breakPoint > 40 then Trim(s[..breakPoint]) + "..." else Trim(s[..MaxTitleLength]) + "..."
  }

  /** The first-sentence case: the sentence without its full stop, with an ellipsis exactly
      when something other than white space follows the full stop. */
  lemma FirstSentenceBranch(s: string)
    requires |s| > MaxTitleLength
    requires 20 < |FirstSentence(s)| < |s|
    ensures var f := FirstSentence(s);
      Shorten(s) == if TextAfter(s, |f|) then Trim(f) + "..." else Trim(f)
  {
    var f := FirstSentence(s);
    assert Shorten(s) == SentenceCut(s);
    FullStopTail(s[|f|..]);
    TextAfterSlice(s, |f|);
  }

  /** Something other than white space comes after position `n` of `s`. */
  predicate TextAfter(s: string, n: nat) {
    exists j :: n < j < |s| && !IsWhiteSpace(s[j])
  }

  lemma TextAfterSlice(s: string, n: nat)
    requires n <= |s|
    ensures TextAfter(s[n..], 0) <==> TextAfter(s, n)
  {
    if TextAfter(s, n) {
      var j :| n < j < |s| && !IsWhiteSpace(s[j]);
      assert s[n..][j - n] == s[j];
    }
    if TextAfter(s[n..], 0) {
      var j :| 0 < j < |s[n..]| && !IsWhiteSpace(s[n..][j]);
      assert s[n..][j] == s[n + j];
    }
  }

  /** The trim of a text that starts with a full stop keeps more than the full stop
      exactly when something other than white space follows it. */
  lemma FullStopTail(tail: string)
    requires tail != [] && tail[0] == '.'
    ensures |Trim(tail)| > 1 <==> TextAfter(tail, 0)
  {
    var t := Trim(tail);
    var k := TrimIsSlice(tail);
    assert k == 0;
    if TextAfter(tail, 0) {
      var j :| 0 < j < |tail| && !IsWhiteSpace(tail[j]);
      assert j < |t|;
    }
    if |t| > 1 {
      assert t[|t| - 1] == tail[|t| - 1];
    }
  }

  /** The first-sentence case is not held to 80 characters: a long sentence followed by
      more text comes back whole, with an ellipsis. */
  lemma LongFirstSentenceKept(f: string, rest: string)
    requires |f| > MaxTitleLength + 3 && '.' !in f && Trimmed(f)
    requires exists j :: 0 <= j < |rest| && !IsWhiteSpace(rest[j])
    ensures Shorten(f + "." + rest) == f + "..."
    ensures |Shorten(f + "." + rest)| > MaxTitleLength + 3
  {
    var s := f + "." + rest;
    var first := FirstSentence(s);
    assert first == f by {
      assert s[|f|] == '.';
      assert s[..|f|] == f;
    }
    var j :| 0 <= j < |rest| && !IsWhiteSpace(rest[j]);
    assert s[|f| + 1 + j] == rest[j];
    FirstSentenceBranch(s);
    TrimTrimmed(f);
  }

  /** The word-boundary case: the title is cut at the last space up to position 80 when
      that space is past position 40, at 80 otherwise; the cut is trimmed and "..." added,
      so the result has at most 83 characters and no space before the ellipsis. */
  lemma WordBoundaryCut(s: string) returns (n: nat)
    requires |s| > MaxTitleLength
    requires !(20 < |FirstSentence(s)| < |s|)
    ensures 40 < n <= MaxTitleLength && Shorten(s) == Trim(s[..n]) + "..."
    ensures n < MaxTitleLength ==> s[n] == ' '
    ensures forall k :: n < k <= MaxTitleLength ==> s[k] != ' '
    ensures s[n] != ' ' ==> forall k :: 40 < k <= MaxTitleLength ==> s[k] != ' '
    ensures |Shorten(s)| <= MaxTitleLength + 3 && EndsWith(Shorten(s), "...")
    ensures |Shorten(s)| == 3 || !IsWhiteSpace(Shorten(s)[|Shorten(s)| - 4])
  {
    var breakPoint := LastIndexOf(s, ' ', SearchLimit(s));
    n := if breakPoint > 40 then breakPoint else MaxTitleLength;
    assert Shorten(s) == WordCut(s);
    var t := Trim(s[..n]);
    assert WordCut(s) == t + "...";
    EllipsisAfterTrim(t);
  }

  /** A trimmed text with "..." appended ends in the ellipsis, with no white space before it. */
  lemma EllipsisAfterTrim(t: string)
    requires Trimmed(t)
    ensures var r := t + "...";
      EndsWith(r, "...") && (|r| == 3 || !IsWhiteSpace(r[|r| - 4]))
  {
    var r := t + "...";
    assert r[|r| - 3..] == "...";
    if |t| > 0 {
      assert r[|r| - 4] == t[|t| - 1];
    }
  }

  // ---------------------------------------------------------------------------
  // CleanupTitle
  // ---------------------------------------------------------------------------

  /** What `CleanupTitle` returns: `None` for a text that is nothing but section headers,
      where the source fails on `sections[0]`. */
  function CleanTitle(title: string): (r: Option<string>)
    ensures title == [] ==> r == Some([])
  {
    if title == [] then Some(title)
    else
      match MainSection(HtmlDecode(title))
      case None => None
      case Some(section) => Some(CleanSection(section))
  }

  /** The steps applied to the kept section. */
  function CleanSection(section: string): string {
    Shorten(TitleBody(section))
  }

  /** The kept section without its boilerplate prefix and leading punctuation. */
  function TitleBody(section: string): string {
    StripLeadingPunctuation(Trim(StripPrefix(section, TitlePrefixes)))
  }

  /** `CleanupTitle`: decode, keep the first section, drop one boilerplate prefix, trim,
      drop leading commas and colons, and shorten a long title. */
  method CleanupTitle(title: string) returns (r: Option<string>)
    ensures r == CleanTitle(title)
  {
    if title == [] {
      return Some(title);
    }
    var cleanTitle := HtmlDecode(title);
    var sections := RemoveEmpty(SplitSections(cleanTitle));
    if sections == [] {
      assert MainSection(cleanTitle).None?;
      return None;
    }
    assert MainSection(cleanTitle) == Some(sections[0]);
    var mainSection := RemovePrefix(sections[0]);
    mainSection := Trim(mainSection);
    mainSection := RemoveLeadingPunctuation(mainSection);
    mainSection := ShortenTitle(mainSection);
    return Some(mainSection);
  }

  /** The foreach of `CleanupTitle` over the boilerplate prefixes, left at the first one
      that leaves content. */
  method RemovePrefix(section: string) returns (r: string)
    ensures r == StripPrefix(section, TitlePrefixes)
  {
    r := section;
    var i := 0;
    while i < |TitlePrefixes|
      invariant 0 <= i <= |TitlePrefixes|
      invariant r == section
      invariant StripPrefix(section, TitlePrefixes[i..]) == StripPrefix(section, TitlePrefixes)
    {
      var prefix := TitlePrefixes[i];
      if StartsWithIgnoreCase(r, prefix) {
        var remainingContent := Trim(r[|prefix|..]);
        if remainingContent != [] {
          r := remainingContent;
          break;
        }
      }
      i := i + 1;
    }
  }

  /** The while loop of `CleanupTitle` that drops leading commas and colons. */
  method RemoveLeadingPunctuation(title: string) returns (r: string)
    ensures r == StripLeadingPunctuation(title)
  {
    r := title;
    while |r| > 0 && (r[0] == ',' || r[0] == ':')
      invariant StripLeadingPunctuation(r) == StripLeadingPunctuation(title)
      decreases |r|
    {
      r := Trim(r[1..]);
    }
  }

  /** The tail of `CleanupTitle`: a title of more than 80 characters is cut after its
      first sentence or at a word boundary. */
  method ShortenTitle(title: string) returns (r: string)
    ensures r == Shorten(title)
  {
    r := title;
    if |r| > MaxTitleLength {
      var firstSentence := FirstSentence(r);
      if |firstSentence| > 20 && |firstSentence| < |r| {
        var remainingAfterSentence := Trim(r[|firstSentence|..]);
        if |remainingAfterSentence| > 1 {
          r := Trim(firstSentence) + "...";
        } else {
          r := Trim(firstSentence);
        }
      } else {
        var breakPoint := LastIndexOf(r, ' ', SearchLimit(r));
        if breakPoint > 40 {
          r := Trim(r[..breakPoint]) + "...";
        } else {
          r := Trim(r[..MaxTitleLength]) + "...";
        }
      }
    }
  }

  /** A title of white space alone cleans up to the empty string. */
  lemma WhiteSpaceTitle(title: string)
    requires title != []
    requires forall i :: 0 <= i < |title| ==> IsWhiteSpace(title[i])
    ensures CleanTitle(title) == Some([])
  {
    assert !IsWhiteSpace('&') && !IsWhiteSpace(',');
    PlainSection(title);
    forall i | 0 <= i < |TitlePrefixes| ensures !Strips(title, TitlePrefixes[i]) {
      WhiteSpaceStripsNothing(title, TitlePrefixes[i]);
    }
  }

  /** No prefix starting with a letter strips a title that starts with white space. */
  lemma WhiteSpaceStripsNothing(title: string, p: string)
    requires title != [] && IsWhiteSpace(title[0])
    requires p in TitlePrefixes
    ensures !StartsWithIgnoreCase(title, p)
  {
    assert p[0] in {'V', 'A', 'H'};
    assert Lower(p)[0] == LowerChar(p[0]);
    if |p| <= |title| {
      assert Lower(title[..|p|])[0] == LowerChar(title[0]);
    }
  }

  /** A title without entities and commas is its own main section. */
  lemma PlainSection(title: string)
    requires title != [] && '&' !in title && ',' !in title
    ensures MainSection(HtmlDecode(title)) == Some(title)
  {
    DecodePlain(title);
    assert forall j :: MarkerLength(title, j) == 0;
    MarkerFreeSection(title);
  }

  /** A short title that needs no cleaning — no entity, no comma, no boilerplate prefix, no
      leading colon, no white space at either end — comes back as it is. */
  lemma PlainTitleKept(title: string)
    requires title != [] && |title| <= MaxTitleLength && Trimmed(title)
    requires '&' !in title && ',' !in title && title[0] != ':'
    requires forall i | 0 <= i < |TitlePrefixes| :: !Strips(title, TitlePrefixes[i])
    ensures CleanTitle(title) == Some(title)
  {
    PlainSection(title);
    assert StripPrefix(title, TitlePrefixes) == title;
    TrimTrimmed(title);
    assert StripLeadingPunctuation(title) == title;
    assert CleanSection(title) == Shorten(title);
  }

  /** A cleaned title never starts with white space, a comma or a colon. */
  lemma CleanTitleHead(title: string)
    requires CleanTitle(title).Some? && CleanTitle(title).value != []
    ensures !IsLeadingJunk(CleanTitle(title).value[0])
  {
    if title != [] {
      var section := MainSection(HtmlDecode(title)).value;
      var m := StripLeadingPunctuation(Trim(StripPrefix(section, TitlePrefixes)));
      assert CleanTitle(title).value == Shorten(m);
      ShortenKeepsHead(m);
    }
  }

  /** Shortening keeps the first character of a title that does not start with white space. */
  lemma ShortenKeepsHead(m: string)
    requires Shorten(m) != []
    requires m != [] ==> !IsWhiteSpace(m[0])
    ensures m != [] && Shorten(m)[0] == m[0]
  {
    if |m| > MaxTitleLength {
      if 20 < |FirstSentence(m)| < |m| {
        var first := FirstSentence(m);
        TrimKeepsHead(first);
        assert Shorten(m) == SentenceCut(m);
      } else {
        var n := WordBoundaryCut(m);
        TrimKeepsHead(m[..n]);
      }
    }
  }

  /** Trimming a text that starts with something other than white space keeps that start. */
  lemma TrimKeepsHead(x: string)
    requires x != [] && !IsWhiteSpace(x[0])
    ensures Trim(x) != [] && Trim(x)[0] == x[0]
  {
    var k := TrimIsSlice(x);
    assert k == 0;
  }

  // ---------------------------------------------------------------------------
  // GenerateCalendar
  // ---------------------------------------------------------------------------

  /** A display alarm: its text and its trigger, in minutes relative to the event start. */
  datatype Alarm = Alarm(description: string, triggerMinutes: int)

  /** The values `GenerateCalendar` puts into one `CalendarEvent`. */
  datatype Event = Event(
    uid: string,
    summary: string,
    description: string,
    start: DateTime,
    end: DateTime,
    alarms: seq<Alarm>)

  /** The calendar as built before serialisation: its product name and its events. */
  datatype Feed = Feed(productId: string, events: seq<Event>)

  const AlarmMinutes: int := -5

  const TestUid: string := "test-event"
  const TestSummary: string := "No menu found - Test Event"
  const TestDescription: string := "Unable to scrape menu from Meyers website"

  /** The calendar's product name, naming the menu type when one is given. */
  function CalendarName(menuTypeName: string): (r: string)
    ensures menuTypeName != [] ==> EndsWith(r, menuTypeName)
  {
    var r := if menuTypeName == [] then "Meyers Menu Calendar" else "Meyers Menu Calendar - " + menuTypeName;
    assert menuTypeName != [] ==> r[|r| - |menuTypeName|..] == menuTypeName;
    r
  }

  /** The alarms of an event: one, five minutes before, with the event's title, when asked for. */
  function AlarmsFor(title: string, includeAlarms: bool): seq<Alarm> {
    if includeAlarms then [Alarm(title, AlarmMinutes)] else []
  }

  /** The UID suffix of a menu type: spaces and slashes become hyphens, letters lower case. */
  function MenuTypeSuffix(menuType: string): string {
    Lower(Replace(Replace(menuType, " ", "-"), "/", "-"))
  }

  /** The suffix maps the menu type character by character. */
  lemma MenuTypeSuffixChars(menuType: string)
    ensures |MenuTypeSuffix(menuType)| == |menuType|
    ensures forall i :: 0 <= i < |menuType| ==>
      MenuTypeSuffix(menuType)[i] == if menuType[i] == ' ' || menuType[i] == '/' then '-' else LowerChar(menuType[i])
  {
    var a := Replace(menuType, " ", "-");
    ReplaceOneChar(menuType, ' ', '-');
    ReplaceOneChar(a, '/', '-');
  }

  /** Replacing one character by another keeps the length and changes only that character. */
  lemma {:induction false} ReplaceOneChar(s: string, c: char, d: char)
    ensures |Replace(s, [c], [d])| == |s|
    ensures forall i :: 0 <= i < |s| ==> Replace(s, [c], [d])[i] == if s[i] == c then d else s[i]
  {
    ReplaceCharAt(s, c, [d]);
    if s != [] {
      ReplaceOneChar(s[1..], c, d);
      var r := Replace(s, [c], [d]);
      assert r == [if s[0] == c then d else s[0]] + Replace(s[1..], [c], [d]);
      forall i | 0 <= i < |s| ensures r[i] == if s[i] == c then d else s[i] {
        if i > 0 {
          assert s[i] == s[1..][i - 1];
        }
      }
    }
  }

  /** `meyers-menu-yyyy-MM-dd`, with the menu type's suffix when the day names one. */
  function EventUid(day: MenuDay): string
    requires ValidDate(day.date.date)
  {
    var date := FormatIsoDate(day.date.date);
    if day.menuType == [] then "meyers-menu-" + date
    else "meyers-menu-" + date + "-" + MenuTypeSuffix(day.menuType)
  }

  /** After `meyers-menu-` the UID spells the date at positions 12 to 21 and, for a typed
      menu, the suffix after the hyphen at position 22. */
  lemma EventUidParts(day: MenuDay)
    requires ValidDate(day.date.date)
    ensures if day.menuType == [] then |EventUid(day)| == 22 else |EventUid(day)| > 22
    ensures EventUid(day)[12..22] == FormatIsoDate(day.date.date)
    ensures day.menuType != [] ==> EventUid(day)[22] == '-' && EventUid(day)[23..] == MenuTypeSuffix(day.menuType)
  {
    UidLayout("meyers-menu-", FormatIsoDate(day.date.date), MenuTypeSuffix(day.menuType));
  }

  /** Where the parts of a UID sit. */
  lemma UidLayout(head: string, date: string, suffix: string)
    requires |head| == 12 && |date| == 10
    ensures |head + date| == 22 && (head + date)[12..22] == date
    ensures |head + date + "-" + suffix| == 23 + |suffix|
    ensures (head + date + "-" + suffix)[12..22] == date
    ensures (head + date + "-" + suffix)[22] == '-' && (head + date + "-" + suffix)[23..] == suffix
  {
    var u := head + date + "-" + suffix;
    assert u[..22] == head + date;
  }

  /** The summary of a menu day's event: its cleaned main dish, or the day's name when it
      has none; `None` where cleaning fails. */
  function EventTitle(day: MenuDay): Option<string> {
    if day.mainDish != [] then CleanTitle(day.mainDish) else Some("Meyers Menu - " + day.dayName)
  }

  /** The description of a menu day's event: the details of a day with a main dish, the
      menu items joined by ", " otherwise. */
  function EventDescription(day: MenuDay): string {
    if day.mainDish != [] && day.details != [] then FormatDescription(day.details)
    else FormatDescription(Join(", ", day.menuItems))
  }

  /** The event of a menu day with the given summary, from 12:00 to 13:00. */
  function EventWith(day: MenuDay, title: string, includeAlarms: bool): Event
    requires ValidDate(day.date.date)
  {
    Event(EventUid(day), title, EventDescription(day),
      AddTicks(day.date, 12 * TicksPerHour), AddTicks(day.date, 13 * TicksPerHour),
      AlarmsFor(title, includeAlarms))
  }

  /** The event of one menu day; `None` where cleaning its main dish fails. */
  function EventOf(day: MenuDay, includeAlarms: bool): Option<Event>
    requires ValidDate(day.date.date)
  {
    match EventTitle(day)
    case None => None
    case Some(title) => Some(EventWith(day, title, includeAlarms))
  }

  /** The placeholder event of a feed without menu days, at noon today. */
  function TestEvent(today: DateTime, includeAlarms: bool): Event {
    Event(TestUid, TestSummary, TestDescription,
      AddTicks(today, 12 * TicksPerHour), AddTicks(today, 13 * TicksPerHour),
      AlarmsFor(TestSummary, includeAlarms))
  }

  /** Every day carries a date `DateTime` can hold. */
  predicate ValidDays(days: seq<MenuDay>) {
    forall i :: 0 <= i < |days| ==> ValidDate(days[i].date.date)
  }

  /** A day whose main dish `CleanupTitle` cannot clean. */
  predicate Uncleanable(day: MenuDay) {
    day.mainDish != [] && CleanTitle(day.mainDish).None?
  }

  /** The feed `GenerateCalendar` builds: one event per menu day in order, a single test
      event when there is none; `None` when some main dish cannot be cleaned. */
  function Calendar(menuDays: seq<MenuDay>, menuTypeName: string, includeAlarms: bool, today: DateTime): (r: Option<Feed>)
    requires ValidDays(menuDays)
    ensures r.Some? ==> |r.value.events| == if menuDays == [] then 1 else |menuDays|
    ensures r.None? <==> exists i :: 0 <= i < |menuDays| && Uncleanable(menuDays[i])
  {
    if menuDays == [] then Some(Feed(CalendarName(menuTypeName), [TestEvent(today, includeAlarms)]))
    else if forall i | 0 <= i < |menuDays| :: EventOf(menuDays[i], includeAlarms).Some? then
      Some(Feed(CalendarName(menuTypeName),
        seq(|menuDays|, i requires 0 <= i < |menuDays| => EventOf(menuDays[i], includeAlarms).value)))
    else None
  }

  /** `GenerateCalendar`, up to the serialisation of the feed; `today` stands for
      `DateTime.Today`. */
  method GenerateCalendar(menuDays: seq<MenuDay>, menuTypeName: string, includeAlarms: bool, today: DateTime)
    returns (r: Option<Feed>)
    requires ValidDays(menuDays)
    ensures r == Calendar(menuDays, menuTypeName, includeAlarms, today)
  {
    var calendarName := CalendarName(menuTypeName);
    var events: seq<Event> := [];
    if |menuDays| == 0 {
      events := events + [TestEvent(today, includeAlarms)];
      assert menuDays == [] && events == [TestEvent(today, includeAlarms)];
      return Some(Feed(calendarName, events));
    }
    for i := 0 to |menuDays|
      invariant |events| == i
      invariant forall j :: 0 <= j < i ==> EventOf(menuDays[j], includeAlarms).Some?
      invariant forall j :: 0 <= j < i ==> events[j] == EventOf(menuDays[j], includeAlarms).value
    {
      var calendarEvent := MakeEvent(menuDays[i], includeAlarms);
      if calendarEvent.None? {
        CalendarStops(menuDays, menuTypeName, includeAlarms, today, i);
        return None;
      }
      EventsExtended(menuDays, includeAlarms, events, calendarEvent.value);
      events := events + [calendarEvent.value];
    }
    CalendarEvents(menuDays, menuTypeName, includeAlarms, today, events);
    return Some(Feed(calendarName, events));
  }

  /** A day without an event leaves the whole feed without one. */
  lemma CalendarStops(menuDays: seq<MenuDay>, menuTypeName: string, includeAlarms: bool, today: DateTime, i: nat)
    requires ValidDays(menuDays) && i < |menuDays| && EventOf(menuDays[i], includeAlarms).None?
    ensures Calendar(menuDays, menuTypeName, includeAlarms, today).None?
  {
  }

  /** The events of the first days, followed by the next day's event, are the events of
      one day more. */
  lemma EventsExtended(menuDays: seq<MenuDay>, includeAlarms: bool, events: seq<Event>, e: Event)
    requires ValidDays(menuDays) && |events| < |menuDays|
    requires forall j :: 0 <= j < |events| ==> EventOf(menuDays[j], includeAlarms).Some?
    requires forall j :: 0 <= j < |events| ==> events[j] == EventOf(menuDays[j], includeAlarms).value
    requires EventOf(menuDays[|events|], includeAlarms) == Some(e)
    ensures forall j :: 0 <= j < |events| + 1 ==> EventOf(menuDays[j], includeAlarms).Some?
    ensures forall j :: 0 <= j < |events| + 1 ==> (events + [e])[j] == EventOf(menuDays[j], includeAlarms).value
  {
  }

  /** Events that are, one by one, the events of the days make up the feed. */
  lemma CalendarEvents(menuDays: seq<MenuDay>, menuTypeName: string, includeAlarms: bool, today: DateTime, events: seq<Event>)
    requires ValidDays(menuDays) && menuDays != [] && |events| == |menuDays|
    requires forall j :: 0 <= j < |menuDays| ==> EventOf(menuDays[j], includeAlarms).Some?
    requires forall j :: 0 <= j < |menuDays| ==> events[j] == EventOf(menuDays[j], includeAlarms).value
    ensures Calendar(menuDays, menuTypeName, includeAlarms, today) == Some(Feed(CalendarName(menuTypeName), events))
  {
    assert events == seq(|menuDays|, j requires 0 <= j < |menuDays| => EventOf(menuDays[j], includeAlarms).value);
  }

  /** One pass of `GenerateCalendar`'s loop: the event of one menu day. */
  method MakeEvent(menuDay: MenuDay, includeAlarms: bool) returns (r: Option<Event>)
    requires ValidDate(menuDay.date.date)
    ensures r == EventOf(menuDay, includeAlarms)
  {
    var title: string;
    var description: string;
    if menuDay.mainDish != [] {
      var cleaned := CleanupTitle(menuDay.mainDish);
      if cleaned.None? {
        return None;
      }
      title := cleaned.value;
      description := if menuDay.details != [] then FormatDescription(menuDay.details)
        else FormatDescription(Join(", ", menuDay.menuItems));
    } else {
      title := "Meyers Menu - " + menuDay.dayName;
      description := FormatDescription(Join(", ", menuDay.menuItems));
    }
    assert EventTitle(menuDay) == Some(title);
    assert description == EventDescription(menuDay);
    var alarms: seq<Alarm> := [];
    if includeAlarms {
      alarms := alarms + [Alarm(title, AlarmMinutes)];
    }
    assert alarms == AlarmsFor(title, includeAlarms);
    return Some(Event(EventUid(menuDay), title, description,
      AddTicks(menuDay.date, 12 * TicksPerHour), AddTicks(menuDay.date, 13 * TicksPerHour), alarms));
  }

  /** The UID gives back the date and the menu type's suffix, so events of different
      days, or of menu types with different suffixes, never share a UID. */
  lemma EventUidInjective(a: MenuDay, b: MenuDay)
    requires ValidDate(a.date.date) && ValidDate(b.date.date)
    requires EventUid(a) == EventUid(b)
    ensures a.date.date == b.date.date
    ensures a.menuType == [] <==> b.menuType == []
    ensures MenuTypeSuffix(a.menuType) == MenuTypeSuffix(b.menuType)
  {
    EventUidParts(a);
    EventUidParts(b);
    FormatIsoDateInjective(a.date.date, b.date.date);
  }

  /** Every event carries an alarm exactly when alarms are asked for, five minutes before
      the start and with the event's own summary. */
  lemma EventAlarms(menuDays: seq<MenuDay>, menuTypeName: string, includeAlarms: bool, today: DateTime, i: nat)
    requires ValidDays(menuDays)
    requires Calendar(menuDays, menuTypeName, includeAlarms, today).Some?
    requires i < |Calendar(menuDays, menuTypeName, includeAlarms, today).value.events|
    ensures var e := Calendar(menuDays, menuTypeName, includeAlarms, today).value.events[i];
      |e.alarms| == (if includeAlarms then 1 else 0) &&
      (includeAlarms ==> e.alarms[0].description == e.summary && e.alarms[0].triggerMinutes == -5)
  {
    if menuDays != [] {
      assert EventOf(menuDays[i], includeAlarms).Some?;
    }
  }

  /** A day without a main dish is announced by its day name and described by its items;
      a day with a main dish gets the cleaned dish as its summary and is described by its
      details, or by its items when it has no details. */
  lemma EventSummary(menuDays: seq<MenuDay>, menuTypeName: string, includeAlarms: bool, today: DateTime, i: nat)
    requires ValidDays(menuDays)
    requires Calendar(menuDays, menuTypeName, includeAlarms, today).Some?
    requires i < |menuDays|
    ensures var e := Calendar(menuDays, menuTypeName, includeAlarms, today).value.events[i];
      && (menuDays[i].mainDish == [] ==> e.summary == "Meyers Menu - " + menuDays[i].dayName)
      && (menuDays[i].mainDish != [] ==> Some(e.summary) == CleanTitle(menuDays[i].mainDish))
      && (menuDays[i].mainDish != [] && menuDays[i].details != [] ==>
            e.description == FormatDescription(menuDays[i].details))
      && (menuDays[i].mainDish == [] || menuDays[i].details == [] ==>
            e.description == FormatDescription(Join(", ", menuDays[i].menuItems)))
      && e.uid == EventUid(menuDays[i])
  {
    assert EventOf(menuDays[i], includeAlarms).Some?;
  }

  /** Without menu days the feed holds the one placeholder event, at noon today. */
  lemma EmptyFeed(menuTypeName: string, includeAlarms: bool, today: DateTime)
    ensures var r := Calendar([], menuTypeName, includeAlarms, today);
      && r.Some? && |r.value.events| == 1
      && r.value.events[0].uid == "test-event"
      && r.value.events[0].summary == "No menu found - Test Event"
      && r.value.events[0].start == AddTicks(today, 12 * TicksPerHour)
  {
  }

  /** A day stored at midnight gets an event from 12:00 to 13:00 that day. */
  lemma NoonEvent(day: MenuDay, includeAlarms: bool)
    requires ValidDate(day.date.date) && day.date.timeOfDay == 0
    requires EventOf(day, includeAlarms).Some?
    ensures var e := EventOf(day, includeAlarms).value;
      e.start.date == day.date.date && e.start.timeOfDay == 12 * TicksPerHour &&
      e.end.date == day.date.date && e.end.timeOfDay == 13 * TicksPerHour
  {
    var e := EventOf(day, includeAlarms).value;
    assert e.start == AddTicks(day.date, 12 * TicksPerHour);
    assert e.end == AddTicks(day.date, 13 * TicksPerHour);
    SameDayTicks(day.date, 12 * TicksPerHour);
    SameDayTicks(day.date, 13 * TicksPerHour);
  }

  /** Adding less than a day to midnight stays on the same day. */
  lemma SameDayTicks(t: DateTime, k: int)
    requires t.timeOfDay == 0 && 0 <= k < TicksPerDay
    ensures AddTicks(t, k).date == t.date && AddTicks(t, k).timeOfDay == k
  {
    assert k / TicksPerDay == 0;
  }
}

=== FILE: danish_date.dfy ===
/** `DanishDateHelper`: Danish month abbreviations and weekday names. */
module DanishDateHelper {
  import opened Text

  /** The weekdays the canteen serves lunch on, Monday to Friday. */
  const Weekdays: seq<string> := ["Mandag", "Tirsdag", "Onsdag", "Torsdag", "Fredag"]

  /** The lower-case three-letter abbreviation of month `m`. */
  function MonthAbbreviation(m: int): string
    requires 1 <= m <= 12
  {
    ["jan", "feb", "mar", "apr", "maj", "jun", "jul", "aug", "sep", "okt", "nov", "dec"][m - 1]
  }

  /** `ParseDanishMonth`: the month number of an abbreviation, in any letter case; 0 when
      the text is not one. */
  function ParseDanishMonth(name: string): (r: int)
    ensures 0 <= r <= 12
    ensures r != 0 ==> Lower(name) == MonthAbbreviation(r)
  {
    match Lower(name)
    case "jan" => 1
    case "feb" => 2
    case "mar" => 3
    case "apr" => 4
    case "maj" => 5
    case "jun" => 6
    case "jul" => 7
    case "aug" => 8
    case "sep" => 9
    case "okt" => 10
    case "nov" => 11
    case "dec" => 12
    case _ => 0
  }

  /** Every abbreviation is recognised as its own month. */
  lemma ParseMonthAbbreviation(m: int)
    requires 1 <= m <= 12
    ensures ParseDanishMonth(MonthAbbreviation(m)) == m
  {
    var a := MonthAbbreviation(m);
    assert Lower(a) == a;
  }

  /** A month name is recognised exactly when its lower-case form is an abbreviation. */
  lemma ParseDanishMonthExact(name: string, m: int)
    requires 1 <= m <= 12
    ensures ParseDanishMonth(name) == m <==> Lower(name) == MonthAbbreviation(m)
  {
    if Lower(name) == MonthAbbreviation(m) {
      ParseMonthAbbreviation(m);
      LowerIdempotent(name);
    }
  }

  /** `IsWeekday`: the name is one of `Weekdays`, ignoring case. */
  predicate IsWeekday(dayName: string) {
    exists i :: 0 <= i < |Weekdays| && EqualsIgnoreCase(dayName, Weekdays[i])
  }

  /** The weekday test answers the same for names that differ only in case. */
  lemma IsWeekdayIgnoresCase(a: string, b: string)
    requires EqualsIgnoreCase(a, b)
    ensures IsWeekday(a) <==> IsWeekday(b)
  {
  }

  /** Weekend and other names are not weekdays; each listed name is. */
  lemma IsWeekdayExactly(dayName: string)
    ensures IsWeekday(dayName) <==> Lower(dayName) in ["mandag", "tirsdag", "onsdag", "torsdag", "fredag"]
  {
    assert Lower(Weekdays[0]) == "mandag";
    assert Lower(Weekdays[1]) == "tirsdag";
    assert Lower(Weekdays[2]) == "onsdag";
    assert Lower(Weekdays[3]) == "torsdag";
    assert Lower(Weekdays[4]) == "fredag";
  }
}

=== FILE: dates.dfy ===
/** The parts of `System.DateTime` and `TimeSpan` the menu code uses: the proleptic
    Gregorian calendar of years 1..9999, 100-nanosecond ticks, `AddDays`, `AddHours`,
    `AddMonths`, `.Date`, comparison, subtraction and the `yyyy-MM-dd` format. */
module Dates {
  import opened Text

  const TicksPerSecond: int := 10_000_000
  const TicksPerMinute: int := 60 * TicksPerSecond
  const TicksPerHour: int := 60 * TicksPerMinute
  const TicksPerDay: int := 24 * TicksPerHour

  /** A calendar date (year, month 1..12, day of month). */
  datatype Date = Date(year: int, month: int, day: int)

  /** A `DateTime`: its date and the ticks elapsed since midnight. */
  datatype DateTime = DateTime(date: Date, timeOfDay: int)

  predicate IsLeapYear(y: int) {
    y % 4 == 0 && (y % 100 != 0 || y % 400 == 0)
  }

  function DaysInMonth(y: int, m: int): (r: int)
    ensures 28 <= r <= 31
  {
    if m == 2 then (if IsLeapYear(y) then 29 else 28)
    else if m == 4 || m == 6 || m == 9 || m == 11 then 30
    else 31
  }

  function DaysInYear(y: int): int {
    if IsLeapYear(y) then 366 else 365
  }

  /** Month and day are in range; the year may be any integer. */
  predicate WellFormed(d: Date) {
    1 <= d.month <= 12 && 1 <= d.day <= DaysInMonth(d.year, d.month)
  }

  /** A date `new DateTime(year, month, day)` accepts. */
  predicate ValidDate(d: Date) {
    1 <= d.year <= 9999 && WellFormed(d)
  }

  predicate ValidDateTime(t: DateTime) {
    ValidDate(t.date) && 0 <= t.timeOfDay < TicksPerDay
  }

  /** `DateTime.MinValue`, 0001-01-01 00:00. */
  const MinValue: DateTime := DateTime(Date(1, 1, 1), 0)

  /** Days from 0001-01-01 to January 1st of year `y`. */
  function DaysBeforeYear(y: int): int {
    var p := y - 1;
    365 * p + p / 4 - p / 100 + p / 400
  }

  /** Days from January 1st of year `y` to the first of month `m`. */
  function DaysBeforeMonth(y: int, m: int): int
    decreases m
  {
    if m <= 1 then 0 else DaysBeforeMonth(y, m - 1) + DaysInMonth(y, m - 1)
  }

  /** The number of days from 0001-01-01 to `d` (`DateTime.Ticks / TicksPerDay`). */
  function DayNumber(d: Date): int {
    DaysBeforeYear(d.year) + DaysBeforeMonth(d.year, d.month) + d.day - 1
  }

  /** `DateTime.Ticks`: the measure by which `DateTime` values compare and subtract. */
  function Ticks(t: DateTime): int {
    DayNumber(t.date) * TicksPerDay + t.timeOfDay
  }

  /** `t.Date`: the same day at midnight. */
  function DatePart(t: DateTime): (r: DateTime)
    ensures r.date == t.date && r.timeOfDay == 0
    ensures 0 <= t.timeOfDay ==> Ticks(r) <= Ticks(t)
  {
    DateTime(t.date, 0)
  }

  function NextDay(d: Date): Date {
    if d.day < DaysInMonth(d.year, d.month) then Date(d.year, d.month, d.day + 1)
    else if d.month < 12 then Date(d.year, d.month + 1, 1)
    else Date(d.year + 1, 1, 1)
  }

  function PrevDay(d: Date): Date {
    if d.day > 1 then Date(d.year, d.month, d.day - 1)
    else if d.month > 1 then Date(d.year, d.month - 1, DaysInMonth(d.year, d.month - 1))
    else Date(d.year - 1, 12, 31)
  }

  /** `date.AddDays(n)`, one day at a time. */
  function AddDays(d: Date, n: int): Date
    decreases if n < 0 then -n else n
  {
    if n == 0 then d
    else if n > 0 then AddDays(NextDay(d), n - 1)
    else AddDays(PrevDay(d), n + 1)
  }

  /** `t.AddTicks(k)` (and `AddHours`, `AddMinutes` through the tick constants). */
  function AddTicks(t: DateTime, k: int): DateTime {
    var total := t.timeOfDay + k;
    DateTime(AddDays(t.date, total / TicksPerDay), total % TicksPerDay)
  }

  /** `t.AddMonths(n)`: the same day of the month `n` months on, clamped to the
      length of that month; the time of day is kept. */
  function AddMonths(t: DateTime, n: int): (r: DateTime)
    requires 1 <= t.date.month <= 12 && 1 <= t.date.day
    ensures WellFormed(r.date) && r.timeOfDay == t.timeOfDay
    ensures r.date.year * 12 + r.date.month == t.date.year * 12 + t.date.month + n
    ensures r.date.day == if t.date.day <= DaysInMonth(r.date.year, r.date.month) then t.date.day
                          else DaysInMonth(r.date.year, r.date.month)
  {
    var total := t.date.year * 12 + (t.date.month - 1) + n;
    var y := total / 12;
    var m := total % 12 + 1;
    var dim := DaysInMonth(y, m);
    DateTime(Date(y, m, if t.date.day < dim then t.date.day else dim), t.timeOfDay)
  }

  // ---------------------------------------------------------------------------
  // Day numbers
  // ---------------------------------------------------------------------------

  lemma DaysBeforeYearStep(y: int)
    ensures DaysBeforeYear(y + 1) == DaysBeforeYear(y) + DaysInYear(y)
  {
    var p := y - 1;
    DivStep4(p);
    DivStep100(p);
    DivStep400(p);
    LeapCount(y);
  }

  /** The leap-year rule as the three divisibility counts add up. */
  lemma LeapCount(y: int)
    ensures (if y % 4 == 0 then 1 else 0) - (if y % 100 == 0 then 1 else 0) + (if y % 400 == 0 then 1 else 0)
      == (if IsLeapYear(y) then 1 else 0)
  {
    if y % 400 == 0 {
      var k := y / 400;
      assert y == 100 * (4 * k) && y == 4 * (100 * k);
    } else if y % 100 == 0 {
      var k := y / 100;
      assert y == 4 * (25 * k);
    }
  }

  /** Euclidean division by a constant goes up by one exactly when the next number is a multiple of it. */
  lemma DivStep4(p: int)
    ensures (p + 1) / 4 == p / 4 + (if (p + 1) % 4 == 0 then 1 else 0)
  {
  }

  lemma DivStep100(p: int)
    ensures (p + 1) / 100 == p / 100 + (if (p + 1) % 100 == 0 then 1 else 0)
  {
  }

  lemma DivStep400(p: int)
    ensures (p + 1) / 400 == p / 400 + (if (p + 1) % 400 == 0 then 1 else 0)
  {
  }

  lemma DaysBeforeDecember(y: int)
    ensures DaysBeforeMonth(y, 12) + 31 == DaysInYear(y)
  {
    assert DaysBeforeMonth(y, 2) == 31;
    assert DaysBeforeMonth(y, 4) == DaysBeforeMonth(y, 3) + 31;
    assert DaysBeforeMonth(y, 6) == DaysBeforeMonth(y, 4) + 61;
    assert DaysBeforeMonth(y, 8) == DaysBeforeMonth(y, 6) + 61;
    assert DaysBeforeMonth(y, 10) == DaysBeforeMonth(y, 8) + 61;
    assert DaysBeforeMonth(y, 12) == DaysBeforeMonth(y, 10) + 61;
  }

  /** The day after a date is numbered one more. */
  lemma NextDayNumber(d: Date)
    requires WellFormed(d)
    ensures WellFormed(NextDay(d))
    ensures DayNumber(NextDay(d)) == DayNumber(d) + 1
  {
    if d.day == DaysInMonth(d.year, d.month) && d.month == 12 {
      DaysBeforeDecember(d.year);
      DaysBeforeYearStep(d.year);
    }
  }

  /** The day before a date is numbered one less. */
  lemma PrevDayNumber(d: Date)
    requires WellFormed(d)
    ensures WellFormed(PrevDay(d))
    ensures DayNumber(PrevDay(d)) == DayNumber(d) - 1
  {
    if d.day == 1 && d.month == 1 {
      DaysBeforeDecember(d.year - 1);
      DaysBeforeYearStep(d.year - 1);
    }
  }

  /** Adding `n` days moves the day number by exactly `n`. */
  lemma {:induction false} AddDaysNumber(d: Date, n: int)
    requires WellFormed(d)
    ensures WellFormed(AddDays(d, n))
    ensures DayNumber(AddDays(d, n)) == DayNumber(d) + n
    decreases if n < 0 then -n else n
  {
    if n > 0 {
      NextDayNumber(d);
      AddDaysNumber(NextDay(d), n - 1);
    } else if n < 0 {
      PrevDayNumber(d);
      AddDaysNumber(PrevDay(d), n + 1);
    }
  }

  /** Adding ticks moves `Ticks` by exactly that amount and keeps the time of day in range. */
  lemma AddTicksMeasure(t: DateTime, k: int)
    requires WellFormed(t.date)
    ensures WellFormed(AddTicks(t, k).date)
    ensures 0 <= AddTicks(t, k).timeOfDay < TicksPerDay
    ensures Ticks(AddTicks(t, k)) == Ticks(t) + k
  {
    var total := t.timeOfDay + k;
    AddDaysNumber(t.date, total / TicksPerDay);
  }

  lemma {:induction false} DaysBeforeMonthMonotone(y: int, m1: int, m2: int)
    requires 1 <= m1 < m2 <= 12
    ensures DaysBeforeMonth(y, m1) + DaysInMonth(y, m1) <= DaysBeforeMonth(y, m2)
    decreases m2
  {
    if m1 < m2 - 1 {
      DaysBeforeMonthMonotone(y, m1, m2 - 1);
    }
  }

  /** The day of the year stays below the year's length. */
  lemma DayOfYearBound(d: Date)
    requires WellFormed(d)
    ensures 0 <= DaysBeforeMonth(d.year, d.month) + d.day - 1 < DaysInYear(d.year)
  {
    DaysBeforeDecember(d.year);
    if d.month < 12 {
      DaysBeforeMonthMonotone(d.year, d.month, 12);
    }
    DaysBeforeMonthNonNegative(d.year, d.month);
  }

  lemma {:induction false} DaysBeforeMonthNonNegative(y: int, m: int)
    ensures DaysBeforeMonth(y, m) >= 0
    decreases m
  {
    if m > 1 {
      DaysBeforeMonthNonNegative(y, m - 1);
    }
  }

  lemma {:induction false} DaysBeforeYearMonotone(y1: int, y2: int)
    requires y1 < y2
    ensures DaysBeforeYear(y1) + DaysInYear(y1) <= DaysBeforeYear(y2)
    decreases y2 - y1
  {
    DaysBeforeYearStep(y1);
    if y1 + 1 < y2 {
      DaysBeforeYearMonotone(y1 + 1, y2);
    }
  }

  /** Day numbers follow calendar order: an earlier date has a smaller number. */
  lemma DayNumberOrder(a: Date, b: Date)
    requires WellFormed(a) && WellFormed(b)
    requires a.year < b.year || (a.year == b.year && (a.month < b.month || (a.month == b.month && a.day < b.day)))
    ensures DayNumber(a) < DayNumber(b)
  {
    DayOfYearBound(a);
    DayOfYearBound(b);
    if a.year < b.year {
      DaysBeforeYearMonotone(a.year, b.year);
    } else if a.month < b.month {
      DaysBeforeMonthMonotone(a.year, a.month, b.month);
    }
  }

  /** Two well-formed dates with the same day number are the same date. */
  lemma DayNumberInjective(a: Date, b: Date)
    requires WellFormed(a) && WellFormed(b)
    ensures DayNumber(a) == DayNumber(b) <==> a == b
  {
    if a.year < b.year || (a.year == b.year && (a.month < b.month || (a.month == b.month && a.day < b.day))) {
      DayNumberOrder(a, b);
    } else if b.year < a.year || (a.year == b.year && (b.month < a.month || (a.month == b.month && b.day < a.day))) {
      DayNumberOrder(b, a);
    }
  }

  /** Going `n` days forward and `n` days back returns to the same date. */
  lemma AddDaysInverse(d: Date, n: int)
    requires WellFormed(d)
    ensures AddDays(AddDays(d, n), -n) == d
  {
    AddDaysNumber(d, n);
    AddDaysNumber(AddDays(d, n), -n);
    DayNumberInjective(AddDays(AddDays(d, n), -n), d);
  }

  // ---------------------------------------------------------------------------
  // Formatting
  // ---------------------------------------------------------------------------

  /** The format string `yyyy-MM-dd`. */
  function FormatIsoDate(d: Date): (r: string)
    requires ValidDate(d)
    ensures |r| == 10 && r[4] == '-' && r[7] == '-'
  {
    PaddedDateParts(d);
    JoinDateParts(FormatPadded(d.year, 4), FormatPadded(d.month, 2), FormatPadded(d.day, 2))
  }

  /** The year, month and day of a valid date take four, two and two digits. */
  lemma PaddedDateParts(d: Date)
    requires ValidDate(d)
    ensures |FormatPadded(d.year, 4)| == 4 && |FormatPadded(d.month, 2)| == 2 && |FormatPadded(d.day, 2)| == 2
  {
    PaddedLength(d.year, 4);
    PaddedLength(d.month, 2);
    PaddedLength(d.day, 2);
  }

  function JoinDateParts(y: string, m: string, d: string): (r: string)
    requires |y| == 4 && |m| == 2 && |d| == 2
    ensures |r| == 10 && r[4] == '-' && r[7] == '-'
    ensures r[..4] == y && r[5..7] == m && r[8..] == d
  {
    y + "-" + m + "-" + d
  }

  /** A number below `10^w` is written with exactly `w` digits. */
  lemma PaddedLength(n: nat, w: nat)
    requires w >= 1 && n < Pow10(w)
    ensures |FormatPadded(n, w)| == w
  {
    NatToStringBound(n, w);
  }

  lemma {:induction false} NatToStringBound(n: nat, w: nat)
    requires w >= 1 && n < Pow10(w)
    ensures |NatToString(n)| <= w
  {
    if n >= 10 {
      NatToStringBound(n / 10, w - 1);
    }
  }

  function Pow10(w: nat): (r: nat)
    ensures r >= 1
    ensures w == 2 ==> r == 100
    ensures w == 4 ==> r == 10000
  {
    if w == 0 then 1 else 10 * Pow10(w - 1)
  }

  lemma {:induction false} DigitsValueZeroPad(s: string, w: nat)
    requires AllDigits(s)
    ensures AllDigits(ZeroPad(s, w))
    ensures DigitsValue(ZeroPad(s, w)) == DigitsValue(s)
    decreases w - |s|
  {
    if |s| < w {
      LeadingZero(s);
      DigitsValueZeroPad("0" + s, w);
    }
  }

  lemma {:induction false} LeadingZero(s: string)
    requires AllDigits(s)
    ensures AllDigits("0" + s) && DigitsValue("0" + s) == DigitsValue(s)
  {
    if s != [] {
      var t := "0" + s;
      assert t[..|t| - 1] == "0" + s[..|s| - 1];
      LeadingZero(s[..|s| - 1]);
    }
  }

  /** Reads the year, month and day back from a `yyyy-MM-dd` text. */
  function ParseIsoDate(s: string): Date
    requires |s| == 10 && AllDigits(s[..4]) && AllDigits(s[5..7]) && AllDigits(s[8..])
  {
    Date(DigitsValue(s[..4]), DigitsValue(s[5..7]), DigitsValue(s[8..]))
  }

  /** Reading a formatted date gives the date back, so distinct dates format differently. */
  lemma ParseFormatIsoDate(d: Date)
    requires ValidDate(d)
    ensures var s := FormatIsoDate(d);
      AllDigits(s[..4]) && AllDigits(s[5..7]) && AllDigits(s[8..]) && ParseIsoDate(s) == d
  {
    PaddedDateParts(d);
    DigitsValueZeroPad(NatToString(d.year), 4);
    DigitsValueZeroPad(NatToString(d.month), 2);
    DigitsValueZeroPad(NatToString(d.day), 2);
    DigitsValueOfNatToString(d.year);
    DigitsValueOfNatToString(d.month);
    DigitsValueOfNatToString(d.day);
  }

  lemma FormatIsoDateInjective(a: Date, b: Date)
    requires ValidDate(a) && ValidDate(b)
    ensures FormatIsoDate(a) == FormatIsoDate(b) <==> a == b
  {
    ParseFormatIsoDate(a);
    ParseFormatIsoDate(b);
  }
}

=== FILE: html.dfy ===
/** `System.Net.WebUtility.HtmlDecode` and `HtmlEncode`, as far as the menu code needs
    them: the entities the menu pages use (`&amp;`, `&lt;`, `&gt;`, `&quot;`, `&apos;`,
    `&nbsp;`, the Danish letters and decimal character references such as `&#248;`). */
module Html {
  import opened Wrappers
  import opened Text

  /** The named entities the model knows, as `WebUtility`'s entity table maps them. */
  function NamedEntity(name: string): Option<char> {
    match name
    case "amp" => Some('&')
    case "lt" => Some('<')
    case "gt" => Some('>')
    case "quot" => Some('"')
    case "apos" => Some('\'')
    case "nbsp" => Some('\U{A0}')
    case "aelig" => Some('æ')
    case "AElig" => Some('Æ')
    case "oslash" => Some('ø')
    case "Oslash" => Some('Ø')
    case "aring" => Some('å')
    case "Aring" => Some('Å')
    case "eacute" => Some('é')
    case _ => None
  }

  /** A Unicode scalar value, the code points a `char` of this model can hold. */
  predicate IsScalar(n: int) {
    0 <= n < 0xD800 || 0xE000 <= n < 0x11_0000
  }

  /** The character an entity body (the text between `&` and `;`) stands for. */
  function EntityChar(body: string): Option<char> {
    if |body| > 1 && body[0] == '#' then
      var ds := body[1..];
      if AllDigits(ds) && IsScalar(DigitsValue(ds)) then Some(DigitsValue(ds) as char) else None
    else NamedEntity(body)
  }

  /** The position of the first `;` or `&` after the leading `&`, where an entity would end. */
  function EntityEnd(s: string): (r: int)
    requires s != []
    ensures r == -1 || 1 <= r < |s|
    ensures r >= 1 ==> s[r] in {';', '&'} && forall k :: 1 <= k < r ==> s[k] !in {';', '&'}
    ensures r == -1 ==> forall k :: 1 <= k < |s| ==> s[k] !in {';', '&'}
  {
    var k := IndexOfAny(s[1..], {';', '&'});
    if k < 0 then -1 else k + 1
  }

  function IndexOfAny(s: string, cs: set<char>): (r: int)
    ensures -1 <= r < |s|
    ensures r >= 0 ==> s[r] in cs && forall k :: 0 <= k < r ==> s[k] !in cs
    ensures r == -1 ==> forall k :: 0 <= k < |s| ==> s[k] !in cs
  {
    if s == [] then -1
    else if s[0] in cs then 0
    else var k := IndexOfAny(s[1..], cs); if k < 0 then -1 else k + 1
  }

  /** `WebUtility.HtmlDecode`: each recognised `&body;` becomes its character; any other
      text, including an unrecognised or unterminated entity, is copied as it is. */
  function HtmlDecode(s: string): (r: string)
    ensures |r| <= |s|
    decreases |s|
  {
    if s == [] then []
    else if s[0] == '&' then
      var e := EntityEnd(s);
      if e > 0 && s[e] == ';' && EntityChar(s[1..e]).Some? then
        [EntityChar(s[1..e]).value] + HtmlDecode(s[e + 1..])
      else "&" + HtmlDecode(s[1..])
    else [s[0]] + HtmlDecode(s[1..])
  }

  /** Text without an ampersand has nothing to decode. */
  lemma {:induction false} DecodePlain(s: string)
    requires '&' !in s
    ensures HtmlDecode(s) == s
  {
    if s != [] {
      assert '&' !in s[1..];
      DecodePlain(s[1..]);
    }
  }

  /** Text without an ampersand in front of the rest is copied, and the rest decoded. */
  lemma {:induction false} DecodePlainPrefix(a: string, rest: string)
    requires '&' !in a
    ensures HtmlDecode(a + rest) == a + HtmlDecode(rest)
  {
    if a != [] {
      assert (a + rest)[1..] == a[1..] + rest;
      assert '&' !in a[1..];
      DecodePlainPrefix(a[1..], rest);
    } else {
      assert a + rest == rest;
    }
  }

  /** The characters `WebUtility.HtmlEncode` replaces. */
  predicate NeedsEncoding(c: char) {
    c in {'<', '>', '&', '"', '\''} || 160 <= c as int < 256 || c as int >= 0x1_0000
  }

  /** The text between `&` and `;` that `WebUtility.HtmlEncode` writes for a character it replaces. */
  function EntityBody(c: char): string {
    match c
    case '<' => "lt"
    case '>' => "gt"
    case '&' => "amp"
    case '"' => "quot"
    case _ => "#" + NatToString(c as int)
  }

  /** `WebUtility.HtmlEncode` of one character. */
  function EncodeChar(c: char): (r: string)
    ensures r != [] && (NeedsEncoding(c) <==> r != [c])
  {
    if NeedsEncoding(c) then "&" + EntityBody(c) + ";" else [c]
  }

  /** `WebUtility.HtmlEncode`. */
  function HtmlEncode(s: string): (r: string)
    ensures |r| >= |s|
  {
    if s == [] then [] else EncodeChar(s[0]) + HtmlEncode(s[1..])
  }

  /** Text without markup characters and outside the encoded ranges is left as it is. */
  lemma {:induction false} EncodePlain(s: string)
    requires forall i :: 0 <= i < |s| ==> !NeedsEncoding(s[i])
    ensures HtmlEncode(s) == s
  {
    if s != [] {
      EncodePlain(s[1..]);
    }
  }

  /** Decoding reads back an entity `&body;` whose body holds neither `;` nor `&`. */
  lemma DecodeEntity(body: string, c: char, rest: string)
    requires EntityChar(body) == Some(c)
    requires forall k :: 0 <= k < |body| ==> body[k] !in {';', '&'}
    ensures HtmlDecode("&" + body + ";" + rest) == [c] + HtmlDecode(rest)
  {
    var s := "&" + body + ";" + rest;
    var e := |body| + 1;
    assert s[e] == ';';
    assert forall k :: 1 <= k < e ==> s[k] == body[k - 1];
    assert EntityEnd(s) == e;
    assert s[1..e] == body;
    assert s[e + 1..] == rest;
  }

  /** Every entity body the encoder writes stands for its character and holds neither `;` nor `&`. */
  lemma EntityBodyDecodes(c: char)
    ensures EntityChar(EntityBody(c)) == Some(c)
    ensures forall k :: 0 <= k < |EntityBody(c)| ==> EntityBody(c)[k] !in {';', '&'}
  {
    if c !in {'<', '>', '&', '"'} {
      var ds := NatToString(c as int);
      var body := "#" + ds;
      assert body[1..] == ds;
      DigitsValueOfNatToString(c as int);
      assert forall k :: 1 <= k < |body| ==> body[k] == ds[k - 1];
    }
  }

  /** Decoding reads back exactly the character one encoding step wrote. */
  lemma DecodeEncodedChar(c: char, rest: string)
    ensures HtmlDecode(EncodeChar(c) + rest) == [c] + HtmlDecode(rest)
  {
    if NeedsEncoding(c) {
      EntityBodyDecodes(c);
      DecodeEntity(EntityBody(c), c, rest);
    } else {
      assert ([c] + rest)[1..] == rest;
    }
  }

  /** Decoding undoes encoding, for every text. */
  lemma {:induction false} DecodeEncode(s: string)
    ensures HtmlDecode(HtmlEncode(s)) == s
  {
    if s != [] {
      DecodeEncodedChar(s[0], HtmlEncode(s[1..]));
      DecodeEncode(s[1..]);
    }
  }
}

=== FILE: main_dish.dfy ===
/** `MenuScrapingService.ExtractMainDishAndDetails`: the hot dish's description split into
    a short main-dish line and the remaining details, with allergen notes such as
    "(1, 7)" removed from both. */
module MainDishExtraction {
  import opened Text

  /** A first sentence this long or longer is not used as the main dish. */
  const FirstSentenceLimit: int := 150
  /** The fallback cut for texts without a usable first sentence. */
  const FallbackLength: int := 100
  /** A word break at or before this position is too early to cut at. */
  const MinimumCut: int := 50

  /** No allergen note is left: no `(` has a `)` somewhere after it. */
  predicate AllergenFree(s: string) {
    forall i, j :: 0 <= i < j < |s| ==> !(s[i] == '(' && s[j] == ')')
  }

  /** The regex `\([^)]*\)\s*` replaced by nothing: scanning from the left, an opening
      parenthesis with a closing one after it goes, with everything up to the first closing
      parenthesis and the white space that follows it. */
  function RemoveAllergens(s: string): (r: string)
    ensures |r| <= |s|
    ensures forall x :: x in r ==> x in s
    ensures AllergenFree(r)
    decreases |s|
  {
    if s == [] then []
    else if s[0] == '(' && ')' in s then
      var close := IndexOf(s, ')');
      RemoveAllergens(TrimStartOf(s[close + 1..], WhiteSpace))
    else
      var rest := RemoveAllergens(s[1..]);
      var r := [s[0]] + rest;
      assert forall j :: 1 <= j < |r| ==> r[j] == rest[j - 1];
      assert s[0] == '(' ==> forall j :: 1 <= j < |r| ==> r[j] != ')' by {
        if s[0] == '(' {
          forall j | 1 <= j < |r| ensures r[j] != ')' {
            assert r[j] in rest;
          }
        }
      }
      r
  }

  /** A text without allergen notes comes back unchanged. */
  lemma {:induction false} AllergenFreeNoop(s: string)
    requires AllergenFree(s)
    ensures RemoveAllergens(s) == s
    decreases |s|
  {
    if s != [] {
      if s[0] == '(' {
        assert ')' !in s by {
          forall j | 0 <= j < |s| ensures s[j] != ')' {
            if j > 0 {
              assert !(s[0] == '(' && s[j] == ')');
            }
          }
        }
      }
      assert AllergenFree(s[1..]) by {
        forall i, j | 0 <= i < j < |s[1..]| ensures !(s[1..][i] == '(' && s[1..][j] == ')') {
          assert s[1..][i] == s[i + 1] && s[1..][j] == s[j + 1];
        }
      }
      AllergenFreeNoop(s[1..]);
      assert [s[0]] + s[1..] == s;
    }
  }

  /** Removing allergen notes twice removes nothing more. */
  lemma RemoveAllergensIdempotent(s: string)
    ensures RemoveAllergens(RemoveAllergens(s)) == RemoveAllergens(s)
  {
    AllergenFreeNoop(RemoveAllergens(s));
  }

  /** Trimming keeps a text free of allergen notes. */
  lemma TrimKeepsAllergenFree(s: string)
    requires AllergenFree(s)
    ensures AllergenFree(Trim(s))
  {
    var t := Trim(s);
    var k := TrimIsSlice(s);
    forall i, j | 0 <= i < j < |t| ensures !(t[i] == '(' && t[j] == ')') {
      assert t[i] == s[k + i] && t[j] == s[k + j];
    }
  }

  /** The cleaned-up form `ExtractMainDishAndDetails` gives both parts. */
  function Clean(s: string): (r: string)
    ensures AllergenFree(r) && Trimmed(r)
    ensures |r| <= |s|
  {
    TrimKeepsAllergenFree(RemoveAllergens(s));
    Trim(RemoveAllergens(s))
  }

  /** The split before cleaning: the first sentence when the text has a full stop within
      the first 150 characters; otherwise a cut at the last space within the first 100
      characters (or at 100 when that space is too early) with an ellipsis; otherwise the
      whole text. */
  function SplitDescription(plainText: string): (r: (string, string))
    ensures |r.0| < FirstSentenceLimit
  {
    var dot := IndexOf(plainText, '.');
    if dot >= 0 && dot + 1 < FirstSentenceLimit then
      (Trim(plainText[..dot + 1]), Trim(plainText[dot + 1..]))
    else if |plainText| > FallbackLength then
      var cut := LastIndexOf(plainText, ' ', FallbackLength);
      if cut > MinimumCut then (Trim(plainText[..cut]) + "...", Trim(plainText[cut..]))
      else (plainText[..FallbackLength] + "...", Trim(plainText[FallbackLength..]))
    else (plainText, "")
  }

  /** `ExtractMainDishAndDetails`: both parts trimmed and free of allergen notes, the
      main dish always shorter than the first-sentence limit. */
  function ExtractMainDishAndDetails(plainText: string): (r: (string, string))
    ensures |r.0| < FirstSentenceLimit
    ensures AllergenFree(r.0) && Trimmed(r.0)
    ensures AllergenFree(r.1) && Trimmed(r.1)
  {
    var split := SplitDescription(plainText);
    (Clean(split.0), Clean(split.1))
  }

  /** For a scraped description (single-spaced, trimmed) without allergen notes whose first
      full stop comes early enough, the main dish is the first sentence, and the details
      are the rest of the text: nothing is lost but the space between the two. */
  lemma FirstSentenceIsMainDish(text: string)
    requires Normalized(text) && '(' !in text
    requires '.' in text && IndexOf(text, '.') + 1 < FirstSentenceLimit
    ensures ExtractMainDishAndDetails(text).0 == text[..IndexOf(text, '.') + 1]
    ensures var r := ExtractMainDishAndDetails(text);
      text == r.0 + r.1 || text == r.0 + " " + r.1
  {
    var dot := IndexOf(text, '.');
    var m, d := FirstSentenceParts(text);
    SentenceSplit(text, dot);
    ExtractOfClean(text, m, d);
    SentenceRejoin(text, m, d);
  }

  /** When both parts of the split are already clean, they are the result. */
  lemma ExtractOfClean(text: string, m: string, d: string)
    requires SplitDescription(text).0 == m && SplitDescription(text).1 == d
    requires Trimmed(m) && '(' !in m && Trimmed(d) && '(' !in d
    ensures ExtractMainDishAndDetails(text).0 == m && ExtractMainDishAndDetails(text).1 == d
  {
    CleanNoop(m);
    CleanNoop(d);
  }

  /** The first sentence and the trimmed rest of a single-spaced text, both free of
      parentheses when the text is. */
  lemma FirstSentenceParts(text: string) returns (m: string, d: string)
    requires Normalized(text) && '(' !in text
    requires '.' in text
    ensures m == text[..IndexOf(text, '.') + 1] && d == Trim(text[IndexOf(text, '.') + 1..])
    ensures Trimmed(m) && '(' !in m
    ensures Trimmed(d) && '(' !in d
  {
    var dot := IndexOf(text, '.');
    m := text[..dot + 1];
    assert Trimmed(m) by {
      assert m[0] == text[0] && m[|m| - 1] == '.';
    }
    assert '(' !in m by {
      assert forall i :: 0 <= i < |m| ==> m[i] == text[i];
    }
    d := Trim(text[dot + 1..]);
    NoParenInSlice(text, dot + 1);
  }

  /** The first sentence and the trimmed rest put back together, with the space between
      them when there was one, are the text. */
  lemma SentenceRejoin(text: string, m: string, d: string)
    requires Normalized(text) && '.' in text
    requires m == text[..IndexOf(text, '.') + 1] && d == Trim(text[IndexOf(text, '.') + 1..])
    ensures text == m + d || text == m + " " + d
  {
    var dot := IndexOf(text, '.');
    var rest := text[dot + 1..];
    assert text == m + rest;
    RestAfterSentence(text, dot + 1);
    if rest != d {
      assert rest == " " + d;
      Rejoin(text, m, d);
    }
  }

  lemma Rejoin(text: string, m: string, d: string)
    requires text == m + (" " + d)
    ensures text == m + " " + d
  {
  }

  lemma SentenceSplit(text: string, dot: int)
    requires 0 <= dot && dot + 1 < FirstSentenceLimit && dot == IndexOf(text, '.')
    requires Trimmed(text[..dot + 1])
    ensures SplitDescription(text).0 == text[..dot + 1] && SplitDescription(text).1 == Trim(text[dot + 1..])
  {
    assert SplitDescription(text).0 == Trim(text[..dot + 1]);
    TrimTrimmed(text[..dot + 1]);
  }

  /** What follows a word in a single-spaced, trimmed text is, after trimming, the same
      text without at most one leading space. */
  lemma RestAfterSentence(text: string, k: nat)
    requires Normalized(text)
    requires 0 < k <= |text| && !IsWhiteSpace(text[k - 1])
    ensures Trimmed(Trim(text[k..]))
    ensures text[k..] == Trim(text[k..]) || text[k..] == " " + Trim(text[k..])
  {
    var rest := text[k..];
    if rest == [] {
    } else if rest[0] == ' ' {
      assert |rest| >= 2 by {
        assert text[|text| - 1] == rest[|rest| - 1];
      }
      assert Trimmed(rest[1..]) by {
        assert !SpaceRun(text, k);
        assert text[|text| - 1] == rest[|rest| - 1];
      }
      TrimLeadingWhiteSpace(' ', rest[1..]);
      assert [' '] + rest[1..] == rest;
      TrimTrimmed(rest[1..]);
    } else {
      assert Trimmed(rest) by {
        assert text[|text| - 1] == rest[|rest| - 1];
        assert !IsWhiteSpace(text[k]);
      }
      TrimTrimmed(rest);
    }
  }

  /** A trimmed text with no parentheses is its own clean form. */
  lemma CleanNoop(s: string)
    requires Trimmed(s) && '(' !in s
    ensures Clean(s) == s
  {
    AllergenFreeNoop(s);
    TrimTrimmed(s);
  }

  lemma NoParenInSlice(s: string, k: nat)
    requires '(' !in s && k <= |s|
    ensures '(' !in Trim(s[k..])
  {
    var t := s[k..];
    var u := Trim(t);
    var j := TrimIsSlice(t);
    forall i | 0 <= i < |u| ensures u[i] != '(' {
      assert u[i] == t[j + i] == s[k + j + i];
    }
  }

  /** A short scraped description with no full stop and no allergen notes is the main dish
      as it is, with no details. */
  lemma ShortTextIsMainDish(text: string)
    requires Trimmed(text) && '(' !in text && '.' !in text
    requires |text| <= FallbackLength
    ensures ExtractMainDishAndDetails(text).0 == text && ExtractMainDishAndDetails(text).1 == ""
  {
    assert IndexOf(text, '.') == -1;
    assert SplitDescription(text).0 == text && SplitDescription(text).1 == "";
    ExtractOfClean(text, text, "");
  }

  /** `m` is the start of `text`, more than 50 and at most 100 of its characters, marked
      with an ellipsis. */
  predicate CutShape(text: string, m: string) {
    && MinimumCut + 3 < |m| <= FallbackLength + 3 && |m| - 3 <= |text|
    && EndsWith(m, "...")
    && m[..|m| - 3] == text[..|m| - 3]
  }

  /** A long scraped description with no usable first sentence and no allergen notes is
      cut after more than 50 and at most 100 of its characters, and the cut is marked with
      an ellipsis. */
  lemma LongTextIsCut(text: string)
    requires Normalized(text) && '(' !in text
    requires '.' !in text
    requires |text| > FallbackLength
    ensures CutShape(text, ExtractMainDishAndDetails(text).0)
  {
    var n := CutPosition(text);
    var m := Ellipsis(text, n);
    assert CutShape(text, m);
    MainOfClean(text, m);
  }

  /** When the first part of the split is already clean, it is the main dish. */
  lemma MainOfClean(text: string, m: string)
    requires SplitDescription(text).0 == m && Trimmed(m) && '(' !in m
    ensures ExtractMainDishAndDetails(text).0 == m
  {
    CleanNoop(m);
  }

  /** The first `n` characters of a trimmed text without parentheses, with an ellipsis. */
  lemma Ellipsis(text: string, n: nat) returns (m: string)
    requires 0 < n <= |text| && '(' !in text
    requires !IsWhiteSpace(text[0])
    ensures m == text[..n] + "..."
    ensures |m| == n + 3 && EndsWith(m, "...") && m[..n] == text[..n]
    ensures Trimmed(m) && '(' !in m
  {
    m := text[..n] + "...";
    assert m[0] == text[0];
    assert forall i :: 0 <= i < n ==> m[i] == text[i];
    assert m[n..] == "...";
  }

  /** Where the fallback cuts a long single-spaced text, and the cut text needs no trim. */
  lemma CutPosition(text: string) returns (n: nat)
    requires Normalized(text) && '.' !in text
    requires |text| > FallbackLength
    ensures MinimumCut < n <= FallbackLength
    ensures !IsWhiteSpace(text[n - 1])
    ensures SplitDescription(text).0 == text[..n] + "..."
  {
    var cut := LongSplit(text);
    if cut > MinimumCut {
      n := cut;
      CutAtSpace(text, cut);
    } else {
      n := FallbackLength;
      assert text[n - 1] != ' ';
    }
  }

  /** The split of a long text without a full stop, by the last space within the first
      100 characters. */
  lemma LongSplit(text: string) returns (cut: int)
    requires '.' !in text && |text| > FallbackLength
    ensures cut == LastIndexOf(text, ' ', FallbackLength)
    ensures SplitDescription(text).0 ==
      if cut > MinimumCut then Trim(text[..cut]) + "..." else text[..FallbackLength] + "..."
  {
    cut := LastIndexOf(text, ' ', FallbackLength);
    assert IndexOf(text, '.') == -1;
  }

  /** A cut at a single space after the first word leaves a text that needs no trim. */
  lemma CutAtSpace(text: string, cut: int)
    requires Normalized(text) && 0 < cut < |text| && text[cut] == ' '
    ensures !IsWhiteSpace(text[cut - 1])
    ensures Trim(text[..cut]) == text[..cut]
  {
    assert !SpaceRun(text, cut - 1);
    assert Trimmed(text[..cut]) by {
      assert text[..cut][0] == text[0];
    }
    TrimTrimmed(text[..cut]);
  }
}

=== FILE: menu_repository.dfy ===
/** `MenuRepository` over the `MenuEntries` and `MenuTypes` tables: date-range reads,
    the upsert keyed by (date, menu type), the last-update maximum, get-or-create of a menu
    type by slug, and the today/tomorrow previews. The tables are sequences in insertion
    order; the clock is a parameter. */
module MenuStore {
  import opened Wrappers
  import opened Dates
  import opened Models
  import opened Sorting
  import opened SlugHelper

  // ---------------------------------------------------------------------------
  // Keys and the table invariants
  // ---------------------------------------------------------------------------

  /** The unique index on `(Date, MenuTypeId)`: two rows clash when both parts are equal. */
  predicate SameKey(a: MenuEntry, b: MenuEntry) {
    a.date == b.date && a.menuTypeId == b.menuTypeId
  }

  predicate EntryKeysUnique(es: seq<MenuEntry>) {
    forall i, j :: 0 <= i < j < |es| ==> !SameKey(es[i], es[j])
  }

  /** The unique index on `Slug`. */
  predicate SlugsUnique(ts: seq<MenuType>) {
    forall i, j :: 0 <= i < j < |ts| ==> ts[i].slug != ts[j].slug
  }

  /** Primary keys are distinct and below the next one to be handed out. */
  predicate EntryIdsBelow(es: seq<MenuEntry>, next: int) {
    && (forall i :: 0 <= i < |es| ==> 1 <= es[i].id < next)
    && (forall i, j :: 0 <= i < j < |es| ==> es[i].id != es[j].id)
  }

  predicate TypeIdsBelow(ts: seq<MenuType>, next: int) {
    && (forall i :: 0 <= i < |ts| ==> 1 <= ts[i].id < next)
    && (forall i, j :: 0 <= i < j < |ts| ==> ts[i].id != ts[j].id)
  }

  predicate TypeKnown(ts: seq<MenuType>, id: int) {
    exists j :: 0 <= j < |ts| && ts[j].id == id
  }

  /** The foreign key from `MenuEntries.MenuTypeId` to `MenuTypes.Id`. */
  predicate EntryTypesKnown(es: seq<MenuEntry>, ts: seq<MenuType>) {
    forall i :: 0 <= i < |es| ==> TypeKnown(ts, es[i].menuTypeId)
  }

  /** The lookup key of the upsert and of the date queries: the date part and the type. */
  predicate HasKey(row: MenuEntry, day: Date, menuTypeId: int) {
    row.date.date == day && row.menuTypeId == menuTypeId
  }

  /** The index of the first row with the given date part and type, or -1. */
  function FirstWithKey(rows: seq<MenuEntry>, day: Date, menuTypeId: int): (k: int)
    ensures -1 <= k < |rows|
    ensures k >= 0 ==> HasKey(rows[k], day, menuTypeId) && forall j :: 0 <= j < k ==> !HasKey(rows[j], day, menuTypeId)
    ensures k == -1 <==> forall j :: 0 <= j < |rows| ==> !HasKey(rows[j], day, menuTypeId)
  {
    if rows == [] then -1
    else if HasKey(rows[0], day, menuTypeId) then 0
    else
      var k := FirstWithKey(rows[1..], day, menuTypeId);
      assert forall j :: 1 <= j < |rows| ==> rows[j] == rows[1..][j - 1];
      if k < 0 then -1 else k + 1
  }

  /** The first row with the given date part and type (`FirstOrDefault`). */
  function FirstOn(rows: seq<MenuEntry>, day: Date, menuTypeId: int): (r: Option<MenuEntry>)
    ensures r.Some? ==> r.value in rows && HasKey(r.value, day, menuTypeId)
    ensures r.None? <==> forall j :: 0 <= j < |rows| ==> !HasKey(rows[j], day, menuTypeId)
  {
    var k := FirstWithKey(rows, day, menuTypeId);
    if k < 0 then None else Some(rows[k])
  }

  /** A type with this id exists and is active. */
  predicate TypeActive(ts: seq<MenuType>, id: int) {
    exists j :: 0 <= j < |ts| && ts[j].id == id && ts[j].isActive
  }

  // ---------------------------------------------------------------------------
  // Orderings
  // ---------------------------------------------------------------------------

  /** `OrderBy(m => m.Date)`. */
  predicate DateLe(a: MenuEntry, b: MenuEntry) {
    Ticks(a.date) <= Ticks(b.date)
  }

  /** SQLite's binary collation: code point by code point, a prefix first. */
  predicate OrdinalLe(a: string, b: string) {
    a == [] || (b != [] && (a[0] < b[0] || (a[0] == b[0] && OrdinalLe(a[1..], b[1..]))))
  }

  /** `OrderBy(mt => mt.Name)`. */
  predicate NameLe(a: MenuType, b: MenuType) {
    OrdinalLe(a.name, b.name)
  }

  lemma {:induction false} OrdinalLeTotal(a: string, b: string)
    ensures OrdinalLe(a, b) || OrdinalLe(b, a)
  {
    if a != [] && b != [] && a[0] == b[0] {
      OrdinalLeTotal(a[1..], b[1..]);
    }
  }

  lemma {:induction false} OrdinalLeTransitive(a: string, b: string, c: string)
    requires OrdinalLe(a, b) && OrdinalLe(b, c)
    ensures OrdinalLe(a, c)
  {
    if a != [] && a[0] == b[0] && b[0] == c[0] {
      OrdinalLeTransitive(a[1..], b[1..], c[1..]);
    }
  }

  lemma DateOrder()
    ensures TotalPreorder(DateLe)
  {
  }

  lemma NameOrder()
    ensures TotalPreorder(NameLe)
  {
    forall a: MenuType, b: MenuType ensures NameLe(a, b) || NameLe(b, a) {
      OrdinalLeTotal(a.name, b.name);
    }
    forall a: MenuType, b: MenuType, c: MenuType | NameLe(a, b) && NameLe(b, c) ensures NameLe(a, c) {
      OrdinalLeTransitive(a.name, b.name, c.name);
    }
  }

  // ---------------------------------------------------------------------------
  // Filters behind the queries
  // ---------------------------------------------------------------------------

  /** `startDate <= m.Date && m.Date <= endDate`, on full timestamps. */
  predicate InWindow(e: MenuEntry, start: DateTime, end: DateTime) {
    Ticks(start) <= Ticks(e.date) <= Ticks(end)
  }

  function InRange(es: seq<MenuEntry>, start: DateTime, end: DateTime): (r: seq<MenuEntry>)
    ensures forall e :: e in r <==> e in es && InWindow(e, start, end)
  {
    if es == [] then []
    else (if InWindow(es[0], start, end) then [es[0]] else []) + InRange(es[1..], start, end)
  }

  function InRangeOfType(es: seq<MenuEntry>, start: DateTime, end: DateTime, menuTypeId: int): (r: seq<MenuEntry>)
    ensures forall e :: e in r <==> e in es && InWindow(e, start, end) && e.menuTypeId == menuTypeId
  {
    if es == [] then []
    else
      (if InWindow(es[0], start, end) && es[0].menuTypeId == menuTypeId then [es[0]] else [])
      + InRangeOfType(es[1..], start, end, menuTypeId)
  }

  /** The first row whose date part is the given day, whatever its type. */
  function FirstOnDate(es: seq<MenuEntry>, day: Date): (r: Option<MenuEntry>)
    ensures r.Some? ==> r.value in es && r.value.date.date == day
    ensures r.None? <==> forall j :: 0 <= j < |es| ==> es[j].date.date != day
  {
    if es == [] then None
    else if es[0].date.date == day then Some(es[0])
    else
      assert forall j :: 1 <= j < |es| ==> es[j] == es[1..][j - 1];
      FirstOnDate(es[1..], day)
  }

  /** The latest `UpdatedAt` of a non-empty table, the first such row's on a tie. */
  function LatestUpdate(es: seq<MenuEntry>): (r: DateTime)
    requires es != []
    ensures exists i :: 0 <= i < |es| && es[i].updatedAt == r
    ensures forall i :: 0 <= i < |es| ==> Ticks(es[i].updatedAt) <= Ticks(r)
  {
    if |es| == 1 then es[0].updatedAt
    else
      var m := LatestUpdate(es[1..]);
      assert forall i :: 1 <= i < |es| ==> es[i] == es[1..][i - 1];
      if Ticks(es[0].updatedAt) >= Ticks(m) then es[0].updatedAt else m
  }

  function ActiveOnly(ts: seq<MenuType>): (r: seq<MenuType>)
    ensures forall t :: t in r <==> t in ts && t.isActive
  {
    if ts == [] then []
    else (if ts[0].isActive then [ts[0]] else []) + ActiveOnly(ts[1..])
  }

  /** The first active type with the given slug. */
  function ActiveWithSlug(ts: seq<MenuType>, slug: string): (r: Option<MenuType>)
    ensures r.Some? ==> r.value in ts && r.value.slug == slug && r.value.isActive
    ensures r.None? <==> forall j :: 0 <= j < |ts| ==> !(ts[j].slug == slug && ts[j].isActive)
  {
    if ts == [] then None
    else if ts[0].slug == slug && ts[0].isActive then Some(ts[0])
    else
      assert forall j :: 1 <= j < |ts| ==> ts[j] == ts[1..][j - 1];
      ActiveWithSlug(ts[1..], slug)
  }

  /** The index of the type with the given slug, active or not, or -1. */
  function SlugIndex(ts: seq<MenuType>, slug: string): (k: int)
    ensures -1 <= k < |ts|
    ensures k >= 0 ==> ts[k].slug == slug
    ensures k == -1 <==> forall j :: 0 <= j < |ts| ==> ts[j].slug != slug
  {
    if ts == [] then -1
    else if ts[0].slug == slug then 0
    else
      var k := SlugIndex(ts[1..], slug);
      assert forall j :: 1 <= j < |ts| ==> ts[j] == ts[1..][j - 1];
      if k < 0 then -1 else k + 1
  }

  // ---------------------------------------------------------------------------
  // The upsert
  // ---------------------------------------------------------------------------

  /** The fields the upsert copies onto a matched row; `Id`, `Date`, `CreatedAt` and the
      type (equal by the match) stay. */
  function Overwrite(row: MenuEntry, e: MenuEntry, now: DateTime): (r: MenuEntry)
    ensures SameIdentity(r, row)
  {
    row.(dayName := e.dayName, menuItems := e.menuItems, mainDish := e.mainDish,
      details := e.details, updatedAt := now)
  }

  /** What no write changes: the key, the primary key and the creation time. */
  predicate SameIdentity(a: MenuEntry, b: MenuEntry) {
    a.id == b.id && a.date == b.date && a.menuTypeId == b.menuTypeId && a.createdAt == b.createdAt
  }

  /** The change tracker during a batch: the committed rows, some of them overwritten, and
      the entries waiting to be inserted. */
  datatype Staged = Staged(rows: seq<MenuEntry>, added: seq<MenuEntry>)

  /** One entry of the batch: its key is looked up among the committed rows only; a match
      is overwritten, otherwise the entry waits to be inserted. */
  function Stage(s: Staged, e: MenuEntry, now: DateTime): Staged {
    var k := FirstWithKey(s.rows, e.date.date, e.menuTypeId);
    if k >= 0 then Staged(s.rows[k := Overwrite(s.rows[k], e, now)], s.added)
    else Staged(s.rows, s.added + [e])
  }

  /** A whole batch before `SaveChangesAsync`. The committed rows keep their identities, and
      whatever waits to be inserted comes from the batch and matches no committed row. */
  function StageAll(rows: seq<MenuEntry>, batch: seq<MenuEntry>, now: DateTime): (s: Staged)
    ensures |s.rows| == |rows|
    ensures forall i :: 0 <= i < |rows| ==> SameIdentity(s.rows[i], rows[i])
    ensures forall a :: a in s.added ==> a in batch && FirstWithKey(rows, a.date.date, a.menuTypeId) == -1
  {
    if batch == [] then Staged(rows, [])
    else
      var p := StageAll(rows, batch[..|batch| - 1], now);
      var e := batch[|batch| - 1];
      assert forall a :: a in batch[..|batch| - 1] ==> a in batch;
      Stage(p, e, now)
  }

  lemma StageAllStep(rows: seq<MenuEntry>, batch: seq<MenuEntry>, now: DateTime, i: int)
    requires 0 <= i < |batch|
    ensures var s := StageAll(rows, batch[..i], now);
      var k := FirstWithKey(s.rows, batch[i].date.date, batch[i].menuTypeId);
      && StageAll(rows, batch[..i + 1], now).rows == (if k >= 0 then s.rows[k := Overwrite(s.rows[k], batch[i], now)] else s.rows)
      && StageAll(rows, batch[..i + 1], now).added == (if k >= 0 then s.added else s.added + [batch[i]])
  {
    assert batch[..i + 1][..i] == batch[..i] && batch[..i + 1][i] == batch[i];
  }

  /** A batch of one entry. */
  lemma StageOne(rows: seq<MenuEntry>, e: MenuEntry, now: DateTime)
    ensures var k := FirstWithKey(rows, e.date.date, e.menuTypeId);
      && StageAll(rows, [e], now).rows == (if k >= 0 then rows[k := Overwrite(rows[k], e, now)] else rows)
      && StageAll(rows, [e], now).added == (if k >= 0 then [] else [e])
  {
    assert [e][..0] == [] && [e][0] == e;
  }

  /** `SaveChangesAsync` succeeds: the inserted rows clash neither with each other on the
      unique index nor with the foreign key. */
  predicate Insertable(added: seq<MenuEntry>, types: seq<MenuType>) {
    && EntryKeysUnique(added)
    && forall i :: 0 <= i < |added| ==> TypeKnown(types, added[i].menuTypeId)
  }

  /** The inserted rows with the primary keys the database hands out. */
  function Numbered(added: seq<MenuEntry>, next: int): (r: seq<MenuEntry>)
    ensures |r| == |added|
    ensures forall i :: 0 <= i < |r| ==> r[i] == added[i].(id := next + i)
  {
    seq(|added|, i requires 0 <= i < |added| => added[i].(id := next + i))
  }

  /** Rows with the same keys, one for one, are looked up alike. */
  lemma {:induction false} FirstWithKeyIdentity(a: seq<MenuEntry>, b: seq<MenuEntry>, day: Date, menuTypeId: int)
    requires |a| == |b| && forall i :: 0 <= i < |a| ==> SameIdentity(a[i], b[i])
    ensures FirstWithKey(a, day, menuTypeId) == FirstWithKey(b, day, menuTypeId)
  {
    if a != [] {
      FirstWithKeyIdentity(a[1..], b[1..], day, menuTypeId);
    }
  }

  /** The two unique indexes, the primary keys and the foreign key. */
  predicate TablesValid(entries: seq<MenuEntry>, types: seq<MenuType>, nextEntryId: int, nextTypeId: int) {
    && nextEntryId >= 1 && nextTypeId >= 1
    && EntryKeysUnique(entries) && EntryIdsBelow(entries, nextEntryId) && EntryTypesKnown(entries, types)
    && SlugsUnique(types) && TypeIdsBelow(types, nextTypeId)
  }

  /** Successful commits keep every table invariant. */
  lemma CommitValid(rows: seq<MenuEntry>, types: seq<MenuType>, batch: seq<MenuEntry>, now: DateTime, next: int, nextTypeId: int)
    requires TablesValid(rows, types, next, nextTypeId)
    requires Insertable(StageAll(rows, batch, now).added, types)
    ensures var s := StageAll(rows, batch, now);
      TablesValid(s.rows + Numbered(s.added, next), types, next + |s.added|, nextTypeId)
  {
    var s := StageAll(rows, batch, now);
    CommitKeys(rows, s, next);
    CommitTypes(rows, s, types, next);
  }

  /** What staging a batch keeps of the committed rows: their number and identities, and
      nothing waiting to be inserted matches one of them. */
  predicate StagedFrom(rows: seq<MenuEntry>, s: Staged) {
    && |s.rows| == |rows|
    && (forall i :: 0 <= i < |rows| ==> SameIdentity(s.rows[i], rows[i]))
    && (forall a :: a in s.added ==> FirstWithKey(rows, a.date.date, a.menuTypeId) == -1)
  }

  lemma CommitKeys(rows: seq<MenuEntry>, s: Staged, next: int)
    requires EntryKeysUnique(rows) && EntryIdsBelow(rows, next) && next >= 1
    requires StagedFrom(rows, s) && EntryKeysUnique(s.added)
    ensures var r := s.rows + Numbered(s.added, next);
      EntryKeysUnique(r) && EntryIdsBelow(r, next + |s.added|)
  {
    var n := Numbered(s.added, next);
    var r := s.rows + n;
    forall i, j | 0 <= i < j < |r| ensures !SameKey(r[i], r[j]) && r[i].id != r[j].id {
      if j < |rows| {
        assert SameIdentity(r[i], rows[i]) && SameIdentity(r[j], rows[j]);
      } else if i >= |rows| {
        assert r[i] == n[i - |rows|] && r[j] == n[j - |rows|];
        assert !SameKey(s.added[i - |rows|], s.added[j - |rows|]);
      } else {
        var a := s.added[j - |rows|];
        assert r[j] == a.(id := next + j - |rows|);
        assert a in s.added;
        assert !HasKey(rows[i], a.date.date, a.menuTypeId);
        assert SameIdentity(r[i], rows[i]);
      }
    }
    forall i | 0 <= i < |r| ensures 1 <= r[i].id < next + |s.added| {
      if i < |rows| {
        assert SameIdentity(r[i], rows[i]);
      } else {
        assert r[i] == n[i - |rows|];
      }
    }
  }

  lemma CommitTypes(rows: seq<MenuEntry>, s: Staged, types: seq<MenuType>, next: int)
    requires EntryTypesKnown(rows, types) && StagedFrom(rows, s)
    requires forall i :: 0 <= i < |s.added| ==> TypeKnown(types, s.added[i].menuTypeId)
    ensures EntryTypesKnown(s.rows + Numbered(s.added, next), types)
  {
    var n := Numbered(s.added, next);
    var r := s.rows + n;
    forall i | 0 <= i < |r| ensures TypeKnown(types, r[i].menuTypeId) {
      if i < |rows| {
        assert SameIdentity(r[i], rows[i]);
      } else {
        assert r[i] == n[i - |rows|] == s.added[i - |rows|].(id := next + i - |rows|);
      }
    }
  }

  /** The entries of a batch that match no committed row, in batch order. */
  function Unmatched(rows: seq<MenuEntry>, batch: seq<MenuEntry>): (r: seq<MenuEntry>)
    ensures |r| <= |batch|
  {
    if batch == [] then []
    else
      var e := batch[|batch| - 1];
      Unmatched(rows, batch[..|batch| - 1])
      + (if FirstWithKey(rows, e.date.date, e.menuTypeId) == -1 then [e] else [])
  }

  /** Exactly the entries that match no committed row wait to be inserted, in batch order:
      lookups do not see the batch's own pending inserts. */
  lemma {:induction false} StageAllAdded(rows: seq<MenuEntry>, batch: seq<MenuEntry>, now: DateTime)
    ensures StageAll(rows, batch, now).added == Unmatched(rows, batch)
  {
    if batch != [] {
      var p := batch[..|batch| - 1];
      var e := batch[|batch| - 1];
      StageAllAdded(rows, p, now);
      FirstWithKeyIdentity(StageAll(rows, p, now).rows, rows, e.date.date, e.menuTypeId);
    }
  }

  /** A committed row that no entry of the batch looks up is left as it was. */
  lemma {:induction false} StageAllFrame(rows: seq<MenuEntry>, batch: seq<MenuEntry>, now: DateTime, k: int)
    requires 0 <= k < |rows|
    requires forall j :: 0 <= j < |batch| ==> FirstWithKey(rows, batch[j].date.date, batch[j].menuTypeId) != k
    ensures StageAll(rows, batch, now).rows[k] == rows[k]
  {
    if batch != [] {
      var p := batch[..|batch| - 1];
      var e := batch[|batch| - 1];
      StageAllFrame(rows, p, now, k);
      FirstWithKeyIdentity(StageAll(rows, p, now).rows, rows, e.date.date, e.menuTypeId);
    }
  }

  /** A matched row ends up overwritten by the last entry of the batch that looks it up:
      every field the upsert copies comes from that entry, and the update time is `now`. */
  lemma {:induction false} StageAllLastWins(rows: seq<MenuEntry>, batch: seq<MenuEntry>, now: DateTime, i: int)
    requires 0 <= i < |batch|
    requires FirstWithKey(rows, batch[i].date.date, batch[i].menuTypeId) >= 0
    requires forall j :: i < j < |batch| ==>
      FirstWithKey(rows, batch[j].date.date, batch[j].menuTypeId) != FirstWithKey(rows, batch[i].date.date, batch[i].menuTypeId)
    ensures var k := FirstWithKey(rows, batch[i].date.date, batch[i].menuTypeId);
      StageAll(rows, batch, now).rows[k] == Overwrite(rows[k], batch[i], now)
  {
    var k := FirstWithKey(rows, batch[i].date.date, batch[i].menuTypeId);
    var p := batch[..|batch| - 1];
    var e := batch[|batch| - 1];
    var sp := StageAll(rows, p, now);
    FirstWithKeyIdentity(sp.rows, rows, e.date.date, e.menuTypeId);
    if i < |batch| - 1 {
      assert p[i] == batch[i];
      StageAllLastWins(rows, p, now, i);
    }
  }

  /** Rows sharing the same identities as the committed ones, followed by the inserted rows. */
  lemma CommittedMatches(rows: seq<MenuEntry>, batch: seq<MenuEntry>, now: DateTime, next: int, b: MenuEntry)
    requires b in batch
    ensures var s := StageAll(rows, batch, now);
      FirstWithKey(s.rows + Numbered(s.added, next), b.date.date, b.menuTypeId) >= 0
  {
    var s := StageAll(rows, batch, now);
    if FirstWithKey(rows, b.date.date, b.menuTypeId) == -1 {
      AddedHas(rows, batch, now, b);
    }
    StagedFinds(rows, s, next, b);
  }

  /** An entry that matches no committed row waits to be inserted. */
  lemma AddedHas(rows: seq<MenuEntry>, batch: seq<MenuEntry>, now: DateTime, b: MenuEntry)
    requires b in batch && FirstWithKey(rows, b.date.date, b.menuTypeId) == -1
    ensures b in StageAll(rows, batch, now).added
  {
    StageAllAdded(rows, batch, now);
    UnmatchedHas(rows, batch, b);
  }

  lemma StagedFinds(rows: seq<MenuEntry>, s: Staged, next: int, b: MenuEntry)
    requires StagedFrom(rows, s)
    requires FirstWithKey(rows, b.date.date, b.menuTypeId) >= 0 || b in s.added
    ensures FirstWithKey(s.rows + Numbered(s.added, next), b.date.date, b.menuTypeId) >= 0
  {
    var r := s.rows + Numbered(s.added, next);
    var k := FirstWithKey(rows, b.date.date, b.menuTypeId);
    if k >= 0 {
      assert SameIdentity(r[k], rows[k]);
      assert HasKey(r[k], b.date.date, b.menuTypeId);
    } else {
      var m :| 0 <= m < |s.added| && s.added[m] == b;
      assert r[|s.rows| + m] == b.(id := next + m);
      assert HasKey(r[|s.rows| + m], b.date.date, b.menuTypeId);
    }
  }

  lemma {:induction false} UnmatchedHas(rows: seq<MenuEntry>, batch: seq<MenuEntry>, b: MenuEntry)
    requires b in batch && FirstWithKey(rows, b.date.date, b.menuTypeId) == -1
    ensures b in Unmatched(rows, batch)
  {
    var p := batch[..|batch| - 1];
    if b != batch[|batch| - 1] {
      assert b in p by {
        var j :| 0 <= j < |batch| && batch[j] == b;
        assert j < |batch| - 1 && p[j] == b;
      }
      UnmatchedHas(rows, p, b);
    }
  }

  lemma {:induction false} UnmatchedNone(rows: seq<MenuEntry>, batch: seq<MenuEntry>)
    requires forall b :: b in batch ==> FirstWithKey(rows, b.date.date, b.menuTypeId) >= 0
    ensures Unmatched(rows, batch) == []
  {
    if batch != [] {
      var p := batch[..|batch| - 1];
      assert forall b :: b in p ==> b in batch;
      UnmatchedNone(rows, p);
    }
  }

  /** Saving the same batch again, after a successful save, inserts nothing. */
  lemma SaveAgainAddsNothing(rows: seq<MenuEntry>, batch: seq<MenuEntry>, now: DateTime, next: int, later: DateTime)
    ensures var s := StageAll(rows, batch, now);
      StageAll(s.rows + Numbered(s.added, next), batch, later).added == []
  {
    var s := StageAll(rows, batch, now);
    var r := s.rows + Numbered(s.added, next);
    forall b | b in batch ensures FirstWithKey(r, b.date.date, b.menuTypeId) >= 0 {
      CommittedMatches(rows, batch, now, next, b);
    }
    UnmatchedNone(r, batch);
    StageAllAdded(r, batch, later);
  }

  /** No two entries of a batch share a lookup key. */
  predicate BatchKeysDistinct(batch: seq<MenuEntry>) {
    forall i, j :: 0 <= i < j < |batch| ==> !HasKey(batch[j], batch[i].date.date, batch[i].menuTypeId)
  }

  /** The fields the upsert writes from an entry. */
  predicate SameContent(a: MenuEntry, b: MenuEntry) {
    a.dayName == b.dayName && a.menuItems == b.menuItems && a.mainDish == b.mainDish && a.details == b.details
  }

  /** After a committed batch whose entries have distinct keys, looking any of them up by
      date part and type finds a row holding that entry's content, whether the row was
      overwritten or inserted. */
  lemma SavedEntryFound(rows: seq<MenuEntry>, batch: seq<MenuEntry>, now: DateTime, next: int, i: int)
    requires BatchKeysDistinct(batch) && 0 <= i < |batch|
    ensures var s := StageAll(rows, batch, now);
      var r := s.rows + Numbered(s.added, next);
      var k := FirstWithKey(r, batch[i].date.date, batch[i].menuTypeId);
      k >= 0 && SameContent(r[k], batch[i])
  {
    if FirstWithKey(rows, batch[i].date.date, batch[i].menuTypeId) >= 0 {
      SavedOverwritten(rows, batch, now, i);
    } else {
      SavedInserted(rows, batch, now, next, i);
    }
    ContentFound(rows, StageAll(rows, batch, now), next, batch[i]);
  }

  /** The lookup in the committed table finds the staged row with the key when there is
      one, and otherwise the first inserted row with it. */
  lemma ContentFound(rows: seq<MenuEntry>, s: Staged, next: int, b: MenuEntry)
    requires |s.rows| == |rows| && forall i :: 0 <= i < |rows| ==> SameIdentity(s.rows[i], rows[i])
    requires var k := FirstWithKey(rows, b.date.date, b.menuTypeId);
      k >= 0 ==> SameContent(s.rows[k], b)
    requires var n := Numbered(s.added, next);
      var m := FirstWithKey(n, b.date.date, b.menuTypeId);
      FirstWithKey(rows, b.date.date, b.menuTypeId) == -1 ==> m >= 0 && SameContent(n[m], b)
    ensures var r := s.rows + Numbered(s.added, next);
      var k := FirstWithKey(r, b.date.date, b.menuTypeId);
      k >= 0 && SameContent(r[k], b)
  {
    var d, t := b.date.date, b.menuTypeId;
    var n := Numbered(s.added, next);
    var r := s.rows + n;
    FirstWithKeyIdentity(s.rows, rows, d, t);
    FirstWithKeyAppend(s.rows, n, d, t);
    var k := FirstWithKey(rows, d, t);
    if k >= 0 {
      assert FirstWithKey(r, d, t) == k && r[k] == s.rows[k];
    } else {
      var m := FirstWithKey(n, d, t);
      assert FirstWithKey(r, d, t) == |s.rows| + m && r[|s.rows| + m] == n[m];
    }
  }

  /** An entry matching a committed row leaves its content in that row. */
  lemma SavedOverwritten(rows: seq<MenuEntry>, batch: seq<MenuEntry>, now: DateTime, i: int)
    requires BatchKeysDistinct(batch) && 0 <= i < |batch|
    requires FirstWithKey(rows, batch[i].date.date, batch[i].menuTypeId) >= 0
    ensures var k := FirstWithKey(rows, batch[i].date.date, batch[i].menuTypeId);
      SameContent(StageAll(rows, batch, now).rows[k], batch[i])
  {
    var b := batch[i];
    var k0 := FirstWithKey(rows, b.date.date, b.menuTypeId);
    forall j | i < j < |batch|
      ensures FirstWithKey(rows, batch[j].date.date, batch[j].menuTypeId) != k0
    {
      assert !HasKey(batch[j], b.date.date, b.menuTypeId);
    }
    StageAllLastWins(rows, batch, now, i);
  }

  /** An entry matching no committed row is inserted, and it is the first inserted row
      with its key. */
  lemma SavedInserted(rows: seq<MenuEntry>, batch: seq<MenuEntry>, now: DateTime, next: int, i: int)
    requires BatchKeysDistinct(batch) && 0 <= i < |batch|
    requires FirstWithKey(rows, batch[i].date.date, batch[i].menuTypeId) == -1
    ensures var n := Numbered(StageAll(rows, batch, now).added, next);
      var m := FirstWithKey(n, batch[i].date.date, batch[i].menuTypeId);
      m >= 0 && SameContent(n[m], batch[i])
  {
    AddedHas(rows, batch, now, batch[i]);
    FirstAddedIs(StageAll(rows, batch, now).added, batch, next, i);
  }

  /** Among inserted rows drawn from a batch with distinct keys, the first row with the key
      of an inserted entry holds that entry's content. */
  lemma FirstAddedIs(added: seq<MenuEntry>, batch: seq<MenuEntry>, next: int, i: int)
    requires BatchKeysDistinct(batch) && 0 <= i < |batch|
    requires batch[i] in added && forall a :: a in added ==> a in batch
    ensures var n := Numbered(added, next);
      var m := FirstWithKey(n, batch[i].date.date, batch[i].menuTypeId);
      m >= 0 && SameContent(n[m], batch[i])
  {
    var b := batch[i];
    var d, t := b.date.date, b.menuTypeId;
    var n := Numbered(added, next);
    var m' :| 0 <= m' < |added| && added[m'] == b;
    assert HasKey(n[m'], d, t);
    var m := FirstWithKey(n, d, t);
    var a := added[m];
    assert a in batch;
    var j :| 0 <= j < |batch| && batch[j] == a;
    if j < i {
      assert HasKey(b, a.date.date, a.menuTypeId);
    } else if j > i {
      assert HasKey(a, d, t);
    }
  }

  /** The first row with a key in two tables one after the other. */
  lemma {:induction false} FirstWithKeyAppend(a: seq<MenuEntry>, b: seq<MenuEntry>, day: Date, id: int)
    ensures FirstWithKey(a + b, day, id) ==
      if FirstWithKey(a, day, id) >= 0 then FirstWithKey(a, day, id)
      else if FirstWithKey(b, day, id) >= 0 then |a| + FirstWithKey(b, day, id) else -1
  {
    if a != [] {
      assert (a + b)[0] == a[0] && (a + b)[1..] == a[1..] + b;
      FirstWithKeyAppend(a[1..], b, day, id);
    } else {
      assert a + b == b;
    }
  }

  // ---------------------------------------------------------------------------
  // Menu types
  // ---------------------------------------------------------------------------

  /** `GetOrCreateMenuTypeAsync` for a name whose slug is `slug`: the type table afterwards
      and the type returned. The type with that slug, active or not, is returned
      (reactivated if it was not); otherwise a new active type is added with the next id. */
  function GetOrCreate(types: seq<MenuType>, name: string, slug: string, now: DateTime, next: int): (r: (seq<MenuType>, MenuType))
    ensures r.1.slug == slug && r.1.isActive && r.1 in r.0
    ensures |r.0| == |types| || r.0 == types + [r.1]
    ensures forall i :: 0 <= i < |types| ==>
      && r.0[i].id == types[i].id && r.0[i].name == types[i].name
      && r.0[i].slug == types[i].slug && r.0[i].createdAt == types[i].createdAt
    ensures SlugIndex(types, slug) >= 0 <==> |r.0| == |types|
    ensures forall i :: 0 <= i < |types| && i != SlugIndex(types, slug) ==> r.0[i] == types[i]
    ensures var k := SlugIndex(types, slug);
      k >= 0 ==> r.1.id == types[k].id && r.1.name == types[k].name && r.0[k] == r.1
    ensures SlugIndex(types, slug) < 0 ==> r.1.id == next && r.1.name == name
  {
    var k := SlugIndex(types, slug);
    if k >= 0 then
      var t := if types[k].isActive then types[k] else types[k].(isActive := true, updatedAt := now);
      assert types[k := t][k] == t;
      (types[k := t], t)
    else
      var t := MenuType(next, name, slug, true, now, now);
      (types + [t], t)
  }

  /** The slug index and the type ids stay unique. */
  lemma GetOrCreateKeepsKeys(types: seq<MenuType>, name: string, slug: string, now: DateTime, next: int)
    requires SlugsUnique(types) && TypeIdsBelow(types, next) && next >= 1
    ensures var r := GetOrCreate(types, name, slug, now, next);
      SlugsUnique(r.0) && TypeIdsBelow(r.0, next + |r.0| - |types|)
  {
    var r := GetOrCreate(types, name, slug, now, next);
    if |r.0| != |types| {
      assert SlugIndex(types, slug) == -1;
      assert r.0 == types + [r.1];
      assert forall i :: 0 <= i < |types| ==> r.0[i] == types[i];
    }
  }

  /** Once a name's type is there, asking for it again changes nothing and returns it. */
  lemma GetOrCreateIdempotent(types: seq<MenuType>, name: string, slug: string, now: DateTime, next: int, later: DateTime)
    requires SlugsUnique(types)
    ensures var r := GetOrCreate(types, name, slug, now, next);
      GetOrCreate(r.0, name, slug, later, next + 1) == r
  {
    var r := GetOrCreate(types, name, slug, now, next);
    var k := SlugIndex(types, slug);
    var k2 := SlugIndex(r.0, slug);
    if k >= 0 {
      assert r.0[k].slug == slug;
      assert k2 <= k;
      assert k2 == k;
      assert r.0[k] == r.1 && r.1.isActive;
      assert r.0[k := r.1] == r.0;
    } else {
      assert r.0[|types|].slug == slug;
      assert k2 == |types|;
      assert r.0[k2] == r.1 && r.1.isActive;
      assert r.0[k2 := r.1] == r.0;
    }
  }

  // ---------------------------------------------------------------------------
  // Previews
  // ---------------------------------------------------------------------------

  /** The rows the preview query reads: an active type, dated today or tomorrow. */
  function PreviewRows(es: seq<MenuEntry>, types: seq<MenuType>, today: Date, tomorrow: Date): (r: seq<MenuEntry>)
    ensures forall i :: 0 <= i < |r| ==> TypeActive(types, r[i].menuTypeId)
    ensures forall e :: e in r <==> e in es && TypeActive(types, e.menuTypeId) && (e.date.date == today || e.date.date == tomorrow)
  {
    if es == [] then []
    else
      var e := es[|es| - 1];
      PreviewRows(es[..|es| - 1], types, today, tomorrow)
      + (if TypeActive(types, e.menuTypeId) && (e.date.date == today || e.date.date == tomorrow) then [e] else [])
  }

  /** The keys of `GroupBy(m => m.MenuTypeId)`: each type id once, in order of first appearance. */
  function GroupKeys(es: seq<MenuEntry>): seq<int> {
    if es == [] then []
    else
      var p := GroupKeys(es[..|es| - 1]);
      var id := es[|es| - 1].menuTypeId;
      if id in p then p else p + [id]
  }

  /** The group keys are exactly the type ids of the rows. */
  lemma {:induction false} GroupKeysMembers(es: seq<MenuEntry>, id: int)
    ensures id in GroupKeys(es) <==> exists j :: 0 <= j < |es| && es[j].menuTypeId == id
  {
    if es != [] {
      var p := es[..|es| - 1];
      GroupKeysMembers(p, id);
      assert forall j :: 0 <= j < |p| ==> p[j] == es[j];
    }
  }

  /** Each key holds the first row of its type dated `today` and the first dated `tomorrow`. */
  predicate FirstRows(result: map<int, (Option<MenuEntry>, Option<MenuEntry>)>, rows: seq<MenuEntry>, today: Date, tomorrow: Date) {
    forall id :: id in result ==> result[id] == (FirstOn(rows, today, id), FirstOn(rows, tomorrow, id))
  }

  /** What the two loops of `GetAllMenuPreviewsAsync` build, read back on the whole table:
      the grouped types and the active ones are exactly the active types, and the first
      rows of a type on the query's rows are its first rows on the table. */
  lemma PreviewsMeaning(es: seq<MenuEntry>, types: seq<MenuType>, today: Date, tomorrow: Date,
                        active: seq<MenuType>, result: map<int, (Option<MenuEntry>, Option<MenuEntry>)>)
    requires forall t :: t in active <==> t in types && t.isActive
    requires forall id :: id in GroupKeys(PreviewRows(es, types, today, tomorrow)) ==> id in result
    requires forall j :: 0 <= j < |active| ==> active[j].id in result
    requires forall id :: id in result ==>
      id in GroupKeys(PreviewRows(es, types, today, tomorrow)) || exists j :: 0 <= j < |active| && active[j].id == id
    requires FirstRows(result, PreviewRows(es, types, today, tomorrow), today, tomorrow)
    ensures forall id :: id in result <==> TypeActive(types, id)
    ensures FirstRows(result, es, today, tomorrow)
  {
    var menus := PreviewRows(es, types, today, tomorrow);
    forall id | id in result
      ensures TypeActive(types, id)
      ensures result[id] == (FirstOn(es, today, id), FirstOn(es, tomorrow, id))
    {
      if id in GroupKeys(menus) {
        GroupKeysMembers(menus, id);
        var j :| 0 <= j < |menus| && menus[j].menuTypeId == id;
      } else {
        var j :| 0 <= j < |active| && active[j].id == id;
        assert active[j] in types;
      }
      PreviewRowsFirst(es, types, today, tomorrow, today, id);
      PreviewRowsFirst(es, types, today, tomorrow, tomorrow, id);
    }
    forall id | TypeActive(types, id) ensures id in result {
      var j :| 0 <= j < |types| && types[j].id == id && types[j].isActive;
      assert types[j] in active;
    }
  }

  /** The first-of-type lookups give the same row on the query's rows as on the table. */
  lemma {:induction false} PreviewRowsFirst(es: seq<MenuEntry>, types: seq<MenuType>, today: Date, tomorrow: Date, day: Date, id: int)
    requires day == today || day == tomorrow
    requires TypeActive(types, id)
    ensures FirstOn(PreviewRows(es, types, today, tomorrow), day, id) == FirstOn(es, day, id)
  {
    if es != [] {
      var p := es[..|es| - 1];
      var e := es[|es| - 1];
      var rp := PreviewRows(p, types, today, tomorrow);
      var keep := TypeActive(types, e.menuTypeId) && (e.date.date == today || e.date.date == tomorrow);
      assert PreviewRows(es, types, today, tomorrow) == rp + (if keep then [e] else []);
      assert es == p + [e];
      PreviewRowsFirst(p, types, today, tomorrow, day, id);
      FirstOnSnoc(p, e, day, id);
      if keep {
        FirstOnSnoc(rp, e, day, id);
      } else {
        assert !HasKey(e, day, id);
        assert rp + [] == rp;
      }
    }
  }

  /** The first row with a key, in a table with one more row at the end. */
  lemma FirstOnSnoc(es: seq<MenuEntry>, e: MenuEntry, day: Date, id: int)
    ensures FirstOn(es + [e], day, id) ==
      if FirstOn(es, day, id).Some? then FirstOn(es, day, id)
      else if HasKey(e, day, id) then Some(e) else None
  {
    FirstWithKeySnoc(es, e, day, id);
  }

  lemma {:induction false} FirstWithKeySnoc(es: seq<MenuEntry>, e: MenuEntry, day: Date, id: int)
    ensures FirstWithKey(es + [e], day, id) ==
      if FirstWithKey(es, day, id) >= 0 then FirstWithKey(es, day, id)
      else if HasKey(e, day, id) then |es| else -1
  {
    if es != [] {
      assert (es + [e])[1..] == es[1..] + [e];
      FirstWithKeySnoc(es[1..], e, day, id);
    }
  }

  // ---------------------------------------------------------------------------
  // The repository
  // ---------------------------------------------------------------------------

  /** The first loop of `GetAllMenuPreviews`: one key per menu type among the rows, with
      that type's first row on each of the two days. */
  method GroupPreviews(menus: seq<MenuEntry>, today: Date, tomorrow: Date)
    returns (result: map<int, (Option<MenuEntry>, Option<MenuEntry>)>)
    ensures forall id :: id in result <==> id in GroupKeys(menus)
    ensures FirstRows(result, menus, today, tomorrow)
  {
    var groups := GroupKeys(menus);
    result := map[];
    var g := 0;
    while g < |groups|
      invariant 0 <= g <= |groups|
      invariant forall id :: id in result <==> id in groups[..g]
      invariant FirstRows(result, menus, today, tomorrow)
    {
      var key := groups[g];
      var todayMenu := FirstOn(menus, today, key);
      var tomorrowMenu := FirstOn(menus, tomorrow, key);
      result := result[key := (todayMenu, tomorrowMenu)];
      assert groups[..g + 1] == groups[..g] + [key];
      g := g + 1;
    }
    assert groups[..g] == groups;
  }

  /** The second loop of `GetAllMenuPreviews`: every active menu type without rows gets a
      key with no menu on either day; the keys already there are kept as they are. */
  method AddMissingTypes(grouped: map<int, (Option<MenuEntry>, Option<MenuEntry>)>, menus: seq<MenuEntry>,
                         active: seq<MenuType>, today: Date, tomorrow: Date)
    returns (result: map<int, (Option<MenuEntry>, Option<MenuEntry>)>)
    requires forall id :: id in grouped <==> id in GroupKeys(menus)
    requires FirstRows(grouped, menus, today, tomorrow)
    ensures forall id :: id in GroupKeys(menus) ==> id in result
    ensures forall j :: 0 <= j < |active| ==> active[j].id in result
    ensures forall id :: id in result ==> id in GroupKeys(menus) || exists j :: 0 <= j < |active| && active[j].id == id
    ensures FirstRows(result, menus, today, tomorrow)
  {
    result := grouped;
    var t := 0;
    while t < |active|
      invariant 0 <= t <= |active|
      invariant forall id :: id in grouped ==> id in result
      invariant forall j :: 0 <= j < t ==> active[j].id in result
      invariant forall id :: id in result ==> id in grouped || exists j :: 0 <= j < t && active[j].id == id
      invariant FirstRows(result, menus, today, tomorrow)
    {
      var menuType := active[t];
      if menuType.id !in result {
        GroupKeysMembers(menus, menuType.id);
        result := result[menuType.id := (None, None)];
      }
      t := t + 1;
    }
  }

  /** `MenuRepository` with its two tables. */
  class MenuRepository {
    var entries: seq<MenuEntry>
    var types: seq<MenuType>
    /** The primary keys the database hands out next. */
    var nextEntryId: int
    var nextTypeId: int

    ghost predicate Valid()
      reads this
    {
      TablesValid(entries, types, nextEntryId, nextTypeId)
    }

    /** An empty database. */
    constructor ()
      ensures Valid() && entries == [] && types == []
    {
      entries := [];
      types := [];
      nextEntryId := 1;
      nextTypeId := 1;
    }

    /** `GetMenusForDateRangeAsync(startDate, endDate)`: the rows dated within the window,
        comparing full timestamps, in date order. */
    function GetMenusForDateRange(startDate: DateTime, endDate: DateTime): (r: seq<MenuEntry>)
      reads this
      ensures forall e :: e in r <==> e in entries && InWindow(e, startDate, endDate)
      ensures multiset(r) == multiset(InRange(entries, startDate, endDate))
      ensures SortedBy(r, DateLe)
    {
      var rows := InRange(entries, startDate, endDate);
      DateOrder();
      SortBySorted(rows, DateLe);
      SortByMembers(rows, DateLe);
      SortBy(rows, DateLe)
    }

    /** `GetMenusForDateRangeAsync(startDate, endDate, menuTypeId)`: the same, for one type. */
    function GetMenusForDateRangeOfType(startDate: DateTime, endDate: DateTime, menuTypeId: int): (r: seq<MenuEntry>)
      reads this
      ensures forall e :: e in r <==> e in entries && InWindow(e, startDate, endDate) && e.menuTypeId == menuTypeId
      ensures multiset(r) == multiset(InRangeOfType(entries, startDate, endDate, menuTypeId))
      ensures SortedBy(r, DateLe)
    {
      var rows := InRangeOfType(entries, startDate, endDate, menuTypeId);
      DateOrder();
      SortBySorted(rows, DateLe);
      SortByMembers(rows, DateLe);
      SortBy(rows, DateLe)
    }

    /** `GetMenuForDateAsync(date)`: the first row on that day (by date part), of any type. */
    function GetMenuForDate(date: DateTime): (r: Option<MenuEntry>)
      reads this
      ensures r.Some? ==> r.value in entries && r.value.date.date == date.date
      ensures r.None? <==> forall e :: e in entries ==> e.date.date != date.date
    {
      FirstOnDate(entries, date.date)
    }

    /** `GetMenuForDateAsync(date, menuTypeId)`: the row of that type on that day. */
    function GetMenuForDateOfType(date: DateTime, menuTypeId: int): (r: Option<MenuEntry>)
      reads this
      ensures r.Some? ==> r.value in entries && r.value.date.date == date.date && r.value.menuTypeId == menuTypeId
      ensures r.None? <==> forall e :: e in entries ==> !HasKey(e, date.date, menuTypeId)
    {
      FirstOn(entries, date.date, menuTypeId)
    }

    /** `GetLastUpdateTimeAsync`: the latest `UpdatedAt`; on an empty table the default
        `DateTime`, since the column is not nullable. */
    function GetLastUpdateTime(): (r: DateTime)
      reads this
      ensures entries == [] ==> r == MinValue
      ensures entries != [] ==> exists e :: e in entries && e.updatedAt == r
      ensures forall e :: e in entries ==> Ticks(e.updatedAt) <= Ticks(r)
    {
      if entries == [] then MinValue else LatestUpdate(entries)
    }

    /** `GetMenuTypesAsync`: the active types, ordered by name. */
    function GetMenuTypes(): (r: seq<MenuType>)
      reads this
      ensures forall t :: t in r <==> t in types && t.isActive
      ensures SortedBy(r, NameLe)
    {
      var active := ActiveOnly(types);
      NameOrder();
      SortBySorted(active, NameLe);
      SortByMembers(active, NameLe);
      SortBy(active, NameLe)
    }

    /** `GetMenuTypeBySlugAsync`: an active type with that slug. */
    function GetMenuTypeBySlug(slug: string): (r: Option<MenuType>)
      reads this
      ensures r.Some? ==> r.value in types && r.value.slug == slug && r.value.isActive
      ensures r.None? <==> forall t :: t in types ==> !(t.slug == slug && t.isActive)
    {
      ActiveWithSlug(types, slug)
    }

    /** `SaveMenusAsync`: every entry is looked up by date part and type among the rows
        committed before the call; a match is overwritten, otherwise the entry is queued
        for insertion. The single `SaveChangesAsync` then either writes everything or,
        when the queued rows break the unique index or the foreign key, nothing. */
    method SaveMenus(menuEntries: seq<MenuEntry>, now: DateTime) returns (ok: bool)
      requires Valid()
      modifies this
      ensures Valid()
      ensures var s := StageAll(old(entries), menuEntries, now);
        && (ok <==> Insertable(s.added, old(types)))
        && entries == (if ok then s.rows + Numbered(s.added, old(nextEntryId)) else old(entries))
        && nextEntryId == (if ok then old(nextEntryId) + |s.added| else old(nextEntryId))
      ensures types == old(types) && nextTypeId == old(nextTypeId)
    {
      // the change tracker: the committed rows as modified so far, and the pending inserts
      var tracked := entries;
      var added: seq<MenuEntry> := [];
      var i := 0;
      while i < |menuEntries|
        invariant 0 <= i <= |menuEntries|
        invariant tracked == StageAll(entries, menuEntries[..i], now).rows
        invariant added == StageAll(entries, menuEntries[..i], now).added
        invariant unchanged(this)
      {
        var menuEntry := menuEntries[i];
        StageAllStep(entries, menuEntries, now, i);
        var existing := FirstWithKey(tracked, menuEntry.date.date, menuEntry.menuTypeId);
        if existing >= 0 {
          tracked := tracked[existing := Overwrite(tracked[existing], menuEntry, now)];
        } else {
          added := added + [menuEntry];
        }
        i := i + 1;
      }
      assert menuEntries[..i] == menuEntries;
      ok := Insertable(added, types);
      if ok {
        CommitValid(entries, types, menuEntries, now, nextEntryId, nextTypeId);
        entries := tracked + Numbered(added, nextEntryId);
        nextEntryId := nextEntryId + |added|;
      }
    }

    /** `SaveMenuAsync`: the same upsert for a single entry. */
    method SaveMenu(menuEntry: MenuEntry, now: DateTime) returns (ok: bool)
      requires Valid()
      modifies this
      ensures Valid()
      ensures var s := StageAll(old(entries), [menuEntry], now);
        && (ok <==> Insertable(s.added, old(types)))
        && entries == (if ok then s.rows + Numbered(s.added, old(nextEntryId)) else old(entries))
        && nextEntryId == (if ok then old(nextEntryId) + |s.added| else old(nextEntryId))
      ensures types == old(types) && nextTypeId == old(nextTypeId)
    {
      var committed := entries;
      StageOne(committed, menuEntry, now);
      ghost var s := StageAll(committed, [menuEntry], now);
      var existing := FirstWithKey(entries, menuEntry.date.date, menuEntry.menuTypeId);
      if existing >= 0 {
        entries := entries[existing := Overwrite(entries[existing], menuEntry, now)];
        ok := true;
        assert Insertable([], types);
        CommitValid(committed, types, [menuEntry], now, nextEntryId, nextTypeId);
        assert entries == s.rows + Numbered(s.added, nextEntryId);
      } else {
        ok := TypeKnown(types, menuEntry.menuTypeId);
        assert Insertable([menuEntry], types) <==> ok;
        if ok {
          CommitValid(committed, types, [menuEntry], now, nextEntryId, nextTypeId);
          entries := entries + Numbered([menuEntry], nextEntryId);
          nextEntryId := nextEntryId + 1;
        }
      }
    }

    /** `GetOrCreateMenuTypeAsync(name)`. */
    method GetOrCreateMenuType(name: string, now: DateTime) returns (menuType: MenuType)
      requires Valid()
      modifies this
      ensures Valid()
      ensures types == GetOrCreate(old(types), name, GenerateSlug(name), now, old(nextTypeId)).0
      ensures menuType == GetOrCreate(old(types), name, GenerateSlug(name), now, old(nextTypeId)).1
      ensures nextTypeId == old(nextTypeId) + |types| - |old(types)|
      ensures entries == old(entries) && nextEntryId == old(nextEntryId)
    {
      var slug := GenerateSlug(name);
      menuType := GetOrCreateWithSlug(name, slug, now);
    }

    /** The body of `GetOrCreateMenuTypeAsync` once the slug is computed. */
    method GetOrCreateWithSlug(name: string, slug: string, now: DateTime) returns (menuType: MenuType)
      requires Valid()
      modifies this
      ensures Valid()
      ensures types == GetOrCreate(old(types), name, slug, now, old(nextTypeId)).0
      ensures menuType == GetOrCreate(old(types), name, slug, now, old(nextTypeId)).1
      ensures nextTypeId == old(nextTypeId) + |types| - |old(types)|
      ensures entries == old(entries) && nextEntryId == old(nextEntryId)
    {
      GetOrCreateKeepsKeys(types, name, slug, now, nextTypeId);
      var existing := SlugIndex(types, slug);
      if existing >= 0 {
        if !types[existing].isActive {
          types := types[existing := types[existing].(isActive := true, updatedAt := now)];
        } else {
          assert types[existing := types[existing]] == types;
        }
        menuType := types[existing];
      } else {
        menuType := MenuType(nextTypeId, name, slug, true, now, now);
        types := types + [menuType];
        nextTypeId := nextTypeId + 1;
      }
      assert EntryTypesKnown(entries, types) by {
        forall i | 0 <= i < |entries| ensures TypeKnown(types, entries[i].menuTypeId) {
          var j :| 0 <= j < |old(types)| && old(types)[j].id == entries[i].menuTypeId;
          assert types[j].id == entries[i].menuTypeId;
        }
      }
    }

    /** `GetAllMenuPreviewsAsync(today, tomorrow)`: a key for every active type, holding
        that type's first row dated today and its first row dated tomorrow (by date part),
        or nothing in either place. */
    method GetAllMenuPreviews(today: DateTime, tomorrow: DateTime) returns (result: map<int, (Option<MenuEntry>, Option<MenuEntry>)>)
      ensures forall id :: id in result <==> TypeActive(types, id)
      ensures FirstRows(result, entries, today.date, tomorrow.date)
    {
      var menus := PreviewRows(entries, types, today.date, tomorrow.date);
      var grouped := GroupPreviews(menus, today.date, tomorrow.date);
      var activeMenuTypes := GetMenuTypes();
      result := AddMissingTypes(grouped, menus, activeMenuTypes, today.date, tomorrow.date);
      PreviewsMeaning(entries, types, today.date, tomorrow.date, activeMenuTypes, result);
    }
  }
}

=== FILE: menu_scraping.dfy ===
/** `MenuScrapingService.ScrapeFromWebsiteAsync`: the menu page read into one `MenuDay` per
    menu type and served day. The page arrives already parsed (`Page`): the day headers
    and the `data-tab-content` blocks with their recipes, in document order. */
module MenuScraping {
  import opened Wrappers
  import opened Text
  import opened Html
  import opened Dates
  import opened Models
  import opened StringHelper
  import opened MainDishExtraction
  import opened DanishDateHelper
  import opened WeekHeaders
  import SlugHelper

  /** The recipe title that marks the day's hot dish. */
  const HotDishTitle: string := "Varm ret med tilbehør"

  // ---------------------------------------------------------------------------
  // Menu types
  // ---------------------------------------------------------------------------

  /** LINQ's `Distinct()`: each value once, at its first occurrence. */
  function Distinct(xs: seq<string>): (r: seq<string>)
    ensures forall x :: x in r <==> x in xs
    ensures forall i, j :: 0 <= i < j < |r| ==> r[i] != r[j]
  {
    if xs == [] then []
    else
      var init := xs[..|xs| - 1];
      var x := xs[|xs| - 1];
      assert xs == init + [x];
      var d := Distinct(init);
      if x in d then d else d + [x]
  }

  /** A sequence without repeated values is its own `Distinct()`. */
  lemma {:induction false} DistinctNoop(xs: seq<string>)
    requires forall i, j :: 0 <= i < j < |xs| ==> xs[i] != xs[j]
    ensures Distinct(xs) == xs
  {
    if xs != [] {
      var init := xs[..|xs| - 1];
      DistinctNoop(init);
      assert xs[|xs| - 1] !in init;
      assert xs == init + [xs[|xs| - 1]];
    }
  }

  /** The non-empty `data-tab-content` values, HTML-decoded, in document order. */
  function DecodedLabels(blocks: seq<TabBlock>): (r: seq<string>)
    ensures |r| <= |blocks|
    ensures forall x :: x in r <==>
      exists k :: 0 <= k < |blocks| && blocks[k].tabContent != [] && HtmlDecode(blocks[k].tabContent) == x
  {
    if blocks == [] then []
    else
      var rest := DecodedLabels(blocks[1..]);
      assert forall k :: 1 <= k < |blocks| ==> blocks[1..][k - 1] == blocks[k];
      if blocks[0].tabContent == [] then rest else [HtmlDecode(blocks[0].tabContent)] + rest
  }

  /** The menu types on the page: the distinct decoded labels. */
  function MenuTypes(blocks: seq<TabBlock>): (r: seq<string>)
    ensures forall i, j :: 0 <= i < j < |r| ==> r[i] != r[j]
    ensures forall x :: x in r <==>
      exists k :: 0 <= k < |blocks| && blocks[k].tabContent != [] && HtmlDecode(blocks[k].tabContent) == x
  {
    Distinct(DecodedLabels(blocks))
  }

  /** The block's attribute is the name itself or its HTML-encoded form. This is what the
      source's XPath query selects when the name holds no apostrophe; a name with one breaks
      out of the query's string literal, which this comparison does not model. */
  predicate MatchesLabel(b: TabBlock, name: string) {
    b.tabContent == name || b.tabContent == HtmlEncode(name)
  }

  /** The blocks of one menu type, in document order. */
  function TabBlocksFor(blocks: seq<TabBlock>, name: string): (r: seq<TabBlock>)
    ensures |r| <= |blocks|
    ensures forall b :: b in r <==> b in blocks && MatchesLabel(b, name)
  {
    if blocks == [] then []
    else
      var rest := TabBlocksFor(blocks[1..], name);
      assert blocks == [blocks[0]] + blocks[1..];
      if MatchesLabel(blocks[0], name) then [blocks[0]] + rest else rest
  }

  // ---------------------------------------------------------------------------
  // Recipes and days
  // ---------------------------------------------------------------------------

  /** The recipe's title as read: trimmed and, when not empty, single-spaced. */
  function RecipeTitle(r: Recipe): string {
    var t := Trim(r.title.GetOr(""));
    if t == [] then t else Squish(t)
  }

  /** The recipe's description as read: trimmed, decoded and single-spaced. */
  function RecipeText(r: Recipe): string {
    Squish(HtmlDecode(Trim(r.description.GetOr(""))))
  }

  /** A recipe's title and description as the recipe loop reads them. */
  datatype Reading = Reading(title: string, text: string)

  function Read(r: Recipe): Reading {
    Reading(RecipeTitle(r), RecipeText(r))
  }

  /** The readings of a block's recipes, in order. */
  function Readings(rs: seq<Recipe>): (xs: seq<Reading>)
    ensures |xs| == |rs|
  {
    seq(|rs|, i requires 0 <= i < |rs| => Read(rs[i]))
  }

  /** A recipe contributes a menu item when both its title and its text are non-empty. */
  predicate Accepted(x: Reading) {
    x.title != [] && x.text != []
  }

  /** The menu item of an accepted recipe: `"title: description"`. */
  function Item(x: Reading): string {
    x.title + ": " + x.text
  }

  /** An accepted recipe whose title names the hot dish, in any letter case. */
  predicate IsHotDish(x: Reading) {
    Accepted(x) && ContainsIgnoreCase(x.title, HotDishTitle)
  }

  /** What the recipe loop of one block has collected so far. */
  datatype DayContent = DayContent(items: seq<string>, mainDish: string, details: string)

  /** One pass of the recipe loop. */
  function AddRecipe(c: DayContent, x: Reading): DayContent {
    if x.title == [] then c
    else if x.text == [] then c
    else
      var items := c.items + [x.title + ": " + x.text];
      if ContainsIgnoreCase(x.title, HotDishTitle) then
        var split := ExtractMainDishAndDetails(x.text);
        DayContent(items, split.0, split.1)
      else DayContent(items, c.mainDish, c.details)
  }

  /** What the recipe loop collects from a block's recipes, read in order. */
  function Collect(xs: seq<Reading>): (c: DayContent)
    ensures |c.items| <= |xs|
  {
    if xs == [] then DayContent([], "", "")
    else AddRecipe(Collect(xs[..|xs| - 1]), xs[|xs| - 1])
  }

  lemma CollectStep(xs: seq<Reading>, i: int)
    requires 0 <= i < |xs|
    ensures Collect(xs[..i + 1]).items == AddRecipe(Collect(xs[..i]), xs[i]).items
    ensures Collect(xs[..i + 1]).mainDish == AddRecipe(Collect(xs[..i]), xs[i]).mainDish
    ensures Collect(xs[..i + 1]).details == AddRecipe(Collect(xs[..i]), xs[i]).details
  {
    assert xs[..i + 1][..i] == xs[..i];
  }

  /** The items of a block are the items of its recipes, in order: one `"title: text"` per
      accepted recipe and none for the others. */
  lemma {:induction false} CollectItems(a: seq<Reading>, b: seq<Reading>)
    ensures Collect(a + b).items == Collect(a).items + Collect(b).items
    decreases |b|
  {
    if b == [] {
      assert a + b == a;
    } else {
      var b' := b[..|b| - 1];
      assert (a + b)[..|a + b| - 1] == a + b';
      CollectItems(a, b');
    }
  }

  lemma CollectItem(x: Reading)
    ensures Collect([x]).items == if Accepted(x) then [Item(x)] else []
  {
    assert [x][..0] == [];
  }

  /** The last hot-dish recipe gives the day's main dish and details; earlier ones are
      overwritten. */
  lemma {:induction false} LastHotDishWins(xs: seq<Reading>, k: int)
    requires 0 <= k < |xs| && IsHotDish(xs[k])
    requires forall j :: k < j < |xs| ==> !IsHotDish(xs[j])
    ensures var c := Collect(xs);
      (c.mainDish, c.details) == ExtractMainDishAndDetails(xs[k].text)
    decreases |xs|
  {
    var init := xs[..|xs| - 1];
    if k < |xs| - 1 {
      LastHotDishWins(init, k);
    }
  }

  /** Without a hot-dish recipe the loop leaves main dish and details empty. */
  lemma {:induction false} NoHotDish(xs: seq<Reading>)
    requires forall j :: 0 <= j < |xs| ==> !IsHotDish(xs[j])
    ensures Collect(xs).mainDish == [] && Collect(xs).details == []
    decreases |xs|
  {
    if xs != [] {
      NoHotDish(xs[..|xs| - 1]);
    }
  }

  /** An accepted recipe puts at least one item in its block. */
  lemma HasItem(xs: seq<Reading>, k: int)
    requires 0 <= k < |xs| && Accepted(xs[k])
    ensures Collect(xs).items != []
  {
    var pre := xs[..k];
    var post := xs[k..];
    assert xs == pre + post;
    CollectItems(pre, post);
    assert post == [xs[k]] + post[1..];
    CollectItems([xs[k]], post[1..]);
    CollectItem(xs[k]);
  }

  /** What one block yields: nothing when no recipe was accepted; otherwise its items,
      details, and main dish, with the first item's dish standing in for a missing one. */
  function BlockDay(recipes: seq<Recipe>): (r: Option<DayContent>)
    ensures r.Some? <==> Collect(Readings(recipes)).items != []
    ensures r.Some? ==>
      r.value.items == Collect(Readings(recipes)).items && r.value.details == Collect(Readings(recipes)).details
  {
    var c := Collect(Readings(recipes));
    if c.items == [] then None
    else
      var mainDish := if c.mainDish == [] then ExtractMainDishFromFirstItem(c.items[0]) else c.mainDish;
      Some(DayContent(c.items, mainDish, c.details))
  }

  /** The main dish of a block with a hot-dish recipe is the main dish read from the last
      one, unless that reads as empty; its details are always that recipe's details. */
  lemma HotDishDay(recipes: seq<Recipe>, k: int)
    requires 0 <= k < |recipes| && IsHotDish(Read(recipes[k]))
    requires forall j :: k < j < |recipes| ==> !IsHotDish(Read(recipes[j]))
    ensures BlockDay(recipes).Some?
    ensures var d := BlockDay(recipes).value;
      var split := ExtractMainDishAndDetails(RecipeText(recipes[k]));
      && d.details == split.1
      && (split.0 != [] ==> d.mainDish == split.0)
      && (split.0 == [] ==> d.mainDish == ExtractMainDishFromFirstItem(d.items[0]))
  {
    var xs := Readings(recipes);
    assert xs[k] == Read(recipes[k]);
    assert forall j :: k < j < |xs| ==> xs[j] == Read(recipes[j]);
    LastHotDishWins(xs, k);
    HasItem(xs, k);
  }

  /** A block without a hot-dish recipe takes its main dish from its first item and has
      no details. */
  lemma PlainDay(recipes: seq<Recipe>)
    requires forall j :: 0 <= j < |recipes| ==> !IsHotDish(Read(recipes[j]))
    requires BlockDay(recipes).Some?
    ensures var d := BlockDay(recipes).value;
      d.mainDish == ExtractMainDishFromFirstItem(d.items[0]) && d.details == []
  {
    var xs := Readings(recipes);
    assert forall j :: 0 <= j < |xs| ==> xs[j] == Read(recipes[j]);
    NoHotDish(xs);
  }

  /** What each block yields, in order. */
  function Contents(blocks: seq<TabBlock>): (r: seq<Option<DayContent>>)
    ensures |r| == |blocks|
    ensures HasItems(r)
  {
    seq(|blocks|, k requires 0 <= k < |blocks| => BlockDay(blocks[k].recipes))
  }

  lemma ContentAt(blocks: seq<TabBlock>, k: int)
    requires 0 <= k < |blocks|
    ensures Contents(blocks)[k] == BlockDay(blocks[k].recipes)
  {
  }

  /** A block's day, given what the recipe loop collected from it. */
  lemma BlockDayOf(recipes: seq<Recipe>, c: DayContent)
    requires c == Collect(Readings(recipes))
    ensures BlockDay(recipes) ==
      if c.items == [] then None
      else Some(DayContent(c.items, if c.mainDish == [] then ExtractMainDishFromFirstItem(c.items[0]) else c.mainDish, c.details))
  {
  }

  /** Every day a block yields has at least one item. */
  predicate HasItems(cs: seq<Option<DayContent>>) {
    forall k :: 0 <= k < |cs| && cs[k].Some? ==> cs[k].value.items != []
  }

  /** A block's day under its date and menu type. */
  function DayOf(c: DayContent, dayInfo: DayDate, menuType: string): MenuDay {
    MenuDay(dayInfo.dayName, DateTime(dayInfo.date, 0), c.items, c.mainDish, c.details, menuType)
  }

  // ---------------------------------------------------------------------------
  // Pairing blocks with dates
  // ---------------------------------------------------------------------------

  /** The days of one menu type: what its k-th block yields goes with the k-th date, and
      the walk stops when either runs out. Every block uses up a date, whether it yields
      a day or not. */
  function TabDays(cs: seq<Option<DayContent>>, dates: seq<DayDate>, menuType: string): (r: seq<MenuDay>)
    ensures |r| <= |cs| && |r| <= |dates|
    ensures forall d :: d in r ==>
      && d.menuType == menuType && d.date.timeOfDay == 0 && DayDate(d.dayName, d.date.date) in dates
    ensures HasItems(cs) ==> forall d :: d in r ==> d.menuItems != []
  {
    if cs == [] || dates == [] then []
    else
      var rest := TabDays(cs[1..], dates[1..], menuType);
      assert forall x :: x in dates[1..] ==> x in dates;
      assert HasItems(cs) ==> HasItems(cs[1..]) && (cs[0].Some? ==> cs[0].value.items != []);
      match cs[0]
      case Some(c) => [DayOf(c, dates[0], menuType)] + rest
      case None => rest
  }

  lemma TabDaysStep(cs: seq<Option<DayContent>>, dates: seq<DayDate>, menuType: string, i: int)
    requires 0 <= i < |cs| && i < |dates|
    ensures TabDays(cs[i..], dates[i..], menuType) ==
      (match cs[i]
       case Some(c) => [DayOf(c, dates[i], menuType)]
       case None => [])
      + TabDays(cs[i + 1..], dates[i + 1..], menuType)
  {
    assert cs[i..][1..] == cs[i + 1..];
    assert dates[i..][1..] == dates[i + 1..];
  }

  /** Every day a block yields, with the date at its position, is among the menu type's days. */
  lemma {:induction false} TabDaysPairing(cs: seq<Option<DayContent>>, dates: seq<DayDate>, menuType: string, k: int)
    requires 0 <= k < |cs| && k < |dates| && cs[k].Some?
    ensures DayOf(cs[k].value, dates[k], menuType) in TabDays(cs, dates, menuType)
    decreases k
  {
    if k > 0 {
      TabDaysPairing(cs[1..], dates[1..], menuType, k - 1);
    }
  }

  /** Every day of a menu type comes from some block, read with the date at its position. */
  lemma {:induction false} TabDaysSource(cs: seq<Option<DayContent>>, dates: seq<DayDate>, menuType: string, d: MenuDay)
    returns (k: int)
    requires d in TabDays(cs, dates, menuType)
    ensures 0 <= k < |cs| && k < |dates| && cs[k].Some?
    ensures d == DayOf(cs[k].value, dates[k], menuType)
    decreases |cs|
  {
    var rest := TabDays(cs[1..], dates[1..], menuType);
    if cs[0].Some? && d == DayOf(cs[0].value, dates[0], menuType) {
      k := 0;
    } else {
      assert d in rest;
      var k' := TabDaysSource(cs[1..], dates[1..], menuType, d);
      k := k' + 1;
    }
  }

  /** No two entries of `dates` fall on the same day. */
  predicate DistinctDates(dates: seq<DayDate>) {
    forall i, j :: 0 <= i < j < |dates| ==> dates[i].date != dates[j].date
  }

  /** No two days fall on the same date. */
  predicate DistinctDays(days: seq<MenuDay>) {
    forall i, j :: 0 <= i < j < |days| ==> days[i].date != days[j].date
  }

  /** With distinct dates, a menu type never gets two days on the same date. */
  lemma {:induction false} TabDaysDistinct(cs: seq<Option<DayContent>>, dates: seq<DayDate>, menuType: string)
    requires DistinctDates(dates)
    ensures DistinctDays(TabDays(cs, dates, menuType))
    decreases |cs|
  {
    if cs != [] && dates != [] {
      var rest := TabDays(cs[1..], dates[1..], menuType);
      var r := TabDays(cs, dates, menuType);
      assert DistinctDates(dates[1..]) by {
        forall i, j | 0 <= i < j < |dates[1..]| ensures dates[1..][i].date != dates[1..][j].date {
          assert dates[1..][i] == dates[i + 1] && dates[1..][j] == dates[j + 1];
        }
      }
      TabDaysDistinct(cs[1..], dates[1..], menuType);
      forall d | d in rest ensures d.date.date != dates[0].date {
        var j :| 0 <= j < |dates[1..]| && dates[1..][j] == DayDate(d.dayName, d.date.date);
        assert dates[j + 1].date != dates[0].date;
      }
      if cs[0].Some? {
        var head := DayOf(cs[0].value, dates[0], menuType);
        assert r == [head] + rest;
        assert head.date.date == dates[0].date;
        forall i, j | 0 <= i < j < |r| ensures r[i].date != r[j].date {
          assert r[j] == rest[j - 1] && rest[j - 1] in rest;
          assert r[j].date.date != dates[0].date;
          if i > 0 {
            assert r[i] == rest[i - 1];
            assert rest[i - 1].date != rest[j - 1].date;
          } else {
            assert r[i] == head;
          }
        }
      } else {
        assert r == rest;
      }
    }
  }

  /** The days of every menu type, type by type. */
  function AllTypes(names: seq<string>, blocks: seq<TabBlock>, dates: seq<DayDate>): (r: seq<MenuDay>)
    ensures |r| <= |names| * |dates|
    ensures forall d :: d in r ==>
      && d.menuType in names && d.menuItems != []
      && d.date.timeOfDay == 0 && DayDate(d.dayName, d.date.date) in dates
  {
    if names == [] then []
    else
      var rest := AllTypes(names[1..], blocks, dates);
      var first := TabDays(Contents(TabBlocksFor(blocks, names[0])), dates, names[0]);
      assert forall x :: x in names[1..] ==> x in names;
      CountStep(|names|, |dates|, |first|, |rest|);
      first + rest
  }

  lemma CountStep(n: int, m: int, a: int, b: int)
    requires n >= 1 && a <= m && b <= (n - 1) * m
    ensures a + b <= n * m
  {
    assert n * m == m + (n - 1) * m;
  }

  lemma AllTypesStep(names: seq<string>, blocks: seq<TabBlock>, dates: seq<DayDate>, t: int)
    requires 0 <= t < |names|
    ensures AllTypes(names[t..], blocks, dates) ==
      TabDays(Contents(TabBlocksFor(blocks, names[t])), dates, names[t]) + AllTypes(names[t + 1..], blocks, dates)
  {
    assert names[t..][1..] == names[t + 1..];
  }

  /** No two days share both their date and their menu type. */
  predicate UniqueKeys(days: seq<MenuDay>) {
    forall i, j :: 0 <= i < j < |days| ==> days[i].date != days[j].date || days[i].menuType != days[j].menuType
  }

  lemma {:induction false} AllTypesUnique(names: seq<string>, blocks: seq<TabBlock>, dates: seq<DayDate>)
    requires forall i, j :: 0 <= i < j < |names| ==> names[i] != names[j]
    requires DistinctDates(dates)
    ensures UniqueKeys(AllTypes(names, blocks, dates))
    decreases |names|
  {
    if names != [] {
      var first := TabDays(Contents(TabBlocksFor(blocks, names[0])), dates, names[0]);
      var rest := AllTypes(names[1..], blocks, dates);
      TabDaysDistinct(Contents(TabBlocksFor(blocks, names[0])), dates, names[0]);
      AllTypesUnique(names[1..], blocks, dates);
      assert names[0] !in names[1..];
      var r := first + rest;
      forall i, j | 0 <= i < j < |r| ensures r[i].date != r[j].date || r[i].menuType != r[j].menuType {
        if j < |first| {
          assert r[i] == first[i] && r[j] == first[j];
        } else if i >= |first| {
          assert r[i] == rest[i - |first|] && r[j] == rest[j - |first|];
        } else {
          assert r[i] == first[i] && r[j] == rest[j - |first|];
          assert r[j] in rest;
        }
      }
    }
  }

  // ---------------------------------------------------------------------------
  // The whole page
  // ---------------------------------------------------------------------------

  /** What `ScrapeFromWebsiteAsync` returns for the weekday dates and the tab blocks of a
      page: nothing without dates or without tab blocks; otherwise the days of each menu
      type in turn. Every day has items, one of the given dates with its day name, midnight
      as its time, and one of the page's types. */
  function ScrapePage(dates: seq<DayDate>, blocks: seq<TabBlock>): (r: seq<MenuDay>)
    ensures dates == [] || blocks == [] ==> r == []
    ensures forall d :: d in r ==>
      && d.menuType in MenuTypes(blocks) && d.menuItems != []
      && d.date.timeOfDay == 0 && DayDate(d.dayName, d.date.date) in dates
    ensures |r| <= |MenuTypes(blocks)| * |dates|
  {
    if dates == [] || blocks == [] then []
    else AllTypes(MenuTypes(blocks), blocks, dates)
  }

  /** What `ScrapeFromWebsiteAsync` returns for a page. */
  function ScrapeDocument(page: Page): seq<MenuDay>
  {
    ScrapePage(WeekdayDates(page.headers), page.blocks)
  }

  /** Every scraped day is a weekday with a date that exists. */
  lemma ScrapedWeekdays(page: Page, d: MenuDay)
    requires d in ScrapeDocument(page)
    ensures IsWeekday(d.dayName) && ValidDate(d.date.date)
  {
    var dates := WeekdayDates(page.headers);
    var k :| 0 <= k < |dates| && dates[k] == DayDate(d.dayName, d.date.date);
  }

  /** When the headers name distinct dates, no two scraped days share a date and a menu
      type, which is what the store's unique index asks of a batch. */
  lemma ScrapedKeysUnique(page: Page)
    requires DistinctDates(WeekdayDates(page.headers))
    ensures UniqueKeys(ScrapeDocument(page))
  {
    var dates := WeekdayDates(page.headers);
    if dates != [] && page.blocks != [] {
      AllTypesUnique(MenuTypes(page.blocks), page.blocks, dates);
    }
  }

  /** The store files a day under the type whose slug is the slug of its menu type, so a
      batch is accepted by the (date, type id) index only when no two days on one date have
      menu types with the same slug. That holds when the page's menu types have distinct
      slugs; two labels with one slug give two rows with one key. */
  lemma ScrapedSlugsDistinct(page: Page)
    requires DistinctDates(WeekdayDates(page.headers))
    requires var names := MenuTypes(page.blocks);
      forall i, j :: 0 <= i < j < |names| ==> SlugHelper.GenerateSlug(names[i]) != SlugHelper.GenerateSlug(names[j])
    ensures var days := ScrapeDocument(page);
      forall a, c :: 0 <= a < c < |days| && days[a].date.date == days[c].date.date ==>
        SlugHelper.GenerateSlug(days[a].menuType) != SlugHelper.GenerateSlug(days[c].menuType)
  {
    var days := ScrapeDocument(page);
    var names := MenuTypes(page.blocks);
    ScrapedKeysUnique(page);
    forall a, c | 0 <= a < c < |days| && days[a].date.date == days[c].date.date
      ensures SlugHelper.GenerateSlug(days[a].menuType) != SlugHelper.GenerateSlug(days[c].menuType)
    {
      assert days[a] in days && days[c] in days;
      assert days[a].date == days[c].date;
      var i :| 0 <= i < |names| && names[i] == days[a].menuType;
      var j :| 0 <= j < |names| && names[j] == days[c].menuType;
      assert i != j;
    }
  }

  /** `ScrapeFromWebsiteAsync` on an already parsed page. */
  method ScrapeFromWebsite(page: Page) returns (menuDays: seq<MenuDay>)
    ensures menuDays == ScrapeDocument(page)
  {
    menuDays := [];
    var dateMapping := ExtractDatesFromWeekHeaders(page.headers);
    if |dateMapping| == 0 {
      return;
    }
    if |page.blocks| == 0 {
      return;
    }
    menuDays := ScrapeTypes(MenuTypes(page.blocks), page.blocks, dateMapping);
  }

  /** The loop of `ScrapeFromWebsiteAsync` over the menu types: the days of each type's
      blocks, type after type. */
  method ScrapeTypes(menuTypes: seq<string>, blocks: seq<TabBlock>, dateMapping: seq<DayDate>) returns (menuDays: seq<MenuDay>)
    ensures menuDays == AllTypes(menuTypes, blocks, dateMapping)
  {
    menuDays := [];
    ghost var all := AllTypes(menuTypes, blocks, dateMapping);
    assert menuTypes[0..] == menuTypes;
    var t := 0;
    while t < |menuTypes|
      invariant 0 <= t <= |menuTypes|
      invariant menuDays + AllTypes(menuTypes[t..], blocks, dateMapping) == all
    {
      var menuType := menuTypes[t];
      var tabNodes := TabBlocksFor(blocks, menuType);
      AllTypesStep(menuTypes, blocks, dateMapping, t);
      var days := ScrapeTab(tabNodes, dateMapping, menuType);
      AppendAssoc(menuDays, days, AllTypes(menuTypes[t + 1..], blocks, dateMapping));
      menuDays := menuDays + days;
      t := t + 1;
    }
    assert menuDays == all;
  }

  /** The day loop for the blocks of one menu type: the k-th block with the k-th date,
      until blocks or dates run out. */
  method ScrapeTab(tabNodes: seq<TabBlock>, dateMapping: seq<DayDate>, menuType: string) returns (menuDays: seq<MenuDay>)
    ensures menuDays == TabDays(Contents(tabNodes), dateMapping, menuType)
  {
    menuDays := [];
    ghost var cs := Contents(tabNodes);
    ghost var all := TabDays(cs, dateMapping, menuType);
    var dayIndex := 0;
    while dayIndex < |tabNodes|
      invariant 0 <= dayIndex <= |tabNodes| && dayIndex <= |dateMapping|
      invariant menuDays + TabDays(cs[dayIndex..], dateMapping[dayIndex..], menuType) == all
    {
      if dayIndex >= |dateMapping| {
        break;
      }
      var dayInfo := dateMapping[dayIndex];
      TabDaysStep(cs, dateMapping, menuType, dayIndex);
      ghost var before := menuDays;
      ghost var rest := TabDays(cs[dayIndex + 1..], dateMapping[dayIndex + 1..], menuType);
      ghost var added := match cs[dayIndex] case Some(c) => [DayOf(c, dayInfo, menuType)] case None => [];
      assert before + (added + rest) == all;
      var menuRecipes := tabNodes[dayIndex].recipes;
      ContentAt(tabNodes, dayIndex);
      if menuRecipes != [] {
        var dayMenuItems, mainDishContent, detailsContent := CollectRecipes(menuRecipes);
        BlockDayOf(menuRecipes, DayContent(dayMenuItems, mainDishContent, detailsContent));
        if |dayMenuItems| > 0 {
          if mainDishContent == [] {
            mainDishContent := ExtractMainDishFromFirstItem(dayMenuItems[0]);
          }
          menuDays := menuDays + [MenuDay(dayInfo.dayName, DateTime(dayInfo.date, 0), dayMenuItems,
            mainDishContent, detailsContent, menuType)];
        }
      } else {
        BlockDayOf(menuRecipes, Collect([]));
      }
      assert menuDays == before + added;
      AppendAssoc(before, added, rest);
      assert menuDays + rest == all;
      dayIndex := dayIndex + 1;
    }
  }

  lemma AppendAssoc<T>(a: seq<T>, b: seq<T>, c: seq<T>)
    ensures (a + b) + c == a + (b + c)
  {
  }

  /** The recipe loop of one block: its items, and the main dish and details of the last
      hot-dish recipe. */
  method CollectRecipes(menuRecipes: seq<Recipe>) returns (dayMenuItems: seq<string>, mainDishContent: string, detailsContent: string)
    ensures dayMenuItems == Collect(Readings(menuRecipes)).items
    ensures mainDishContent == Collect(Readings(menuRecipes)).mainDish
    ensures detailsContent == Collect(Readings(menuRecipes)).details
  {
    ghost var xs := Readings(menuRecipes);
    dayMenuItems, mainDishContent, detailsContent := [], "", "";
    var i := 0;
    while i < |menuRecipes|
      invariant 0 <= i <= |menuRecipes|
      invariant dayMenuItems == Collect(xs[..i]).items
      invariant mainDishContent == Collect(xs[..i]).mainDish
      invariant detailsContent == Collect(xs[..i]).details
    {
      CollectStep(xs, i);
      var recipe := menuRecipes[i];
      var reading := Read(recipe);
      var title := reading.title;
      if title != [] {
        var plainText := reading.text;
        if plainText != [] {
          dayMenuItems := dayMenuItems + [title + ": " + plainText];
          if ContainsIgnoreCase(title, HotDishTitle) {
            var split := ExtractMainDishAndDetails(plainText);
            mainDishContent := split.0;
            detailsContent := split.1;
          }
        }
      }
      i := i + 1;
    }
    assert xs[..|xs|] == xs;
  }
}

=== FILE: models.dfy ===
/** The records the scraper, the cache and the calendar pass between them. */
module Models {
  import opened Wrappers
  import opened Dates

  /** One `menu-recipe-display` block: the inner text of its title and description
      elements, `None` when the element is missing. */
  datatype Recipe = Recipe(title: Option<string>, description: Option<string>)

  /** A `div` carrying a `data-tab-content` attribute: the attribute's raw value and the
      recipe blocks inside it (an empty sequence when the element has none). */
  datatype TabBlock = TabBlock(tabContent: string, recipes: seq<Recipe>)

  /** What the scraper reads from the menu page: the inner texts of the week-menu day
      headers and every tab-content block, both in document order. */
  datatype Page = Page(headers: seq<string>, blocks: seq<TabBlock>)

  /** A day name with its calendar date, as read from one day header. */
  datatype DayDate = DayDate(dayName: string, date: Date)

  /** `MenuDay`: one day's menu of one menu type. */
  datatype MenuDay = MenuDay(
    dayName: string,
    date: DateTime,
    menuItems: seq<string>,
    mainDish: string,
    details: string,
    menuType: string)

  /** A row of the `MenuTypes` table. */
  datatype MenuType = MenuType(
    id: int,
    name: string,
    slug: string,
    isActive: bool,
    createdAt: DateTime,
    updatedAt: DateTime)

  /** A row of the `MenuEntries` table; `menuItems` holds the items joined by newlines. */
  datatype MenuEntry = MenuEntry(
    id: int,
    date: DateTime,
    dayName: string,
    menuItems: string,
    mainDish: string,
    details: string,
    menuTypeId: int,
    createdAt: DateTime,
    updatedAt: DateTime)

  /** A row of the web project's `MenuEntries` table: no menu type, no main dish, no
      details; `menuItems` holds the items joined by newlines. */
  datatype WebMenuEntry = WebMenuEntry(
    id: int,
    date: DateTime,
    dayName: string,
    menuItems: string,
    createdAt: DateTime,
    updatedAt: DateTime)
}

=== FILE: slug.dfy ===
/** `SlugHelper.GenerateSlug`: the URL-safe key of a menu type name, made of its words in
    lower case, with the Danish and accented letters spelled out in ASCII, joined by
    single hyphens. */
module SlugHelper {
  import opened Text

  /** The characters the regex class `[a-z0-9\-]` admits. */
  predicate IsSlugChar(c: char) {
    'a' <= c <= 'z' || '0' <= c <= '9' || c == '-'
  }

  /** The shape every slug has: only slug characters, no doubled and no edge hyphens. */
  predicate IsSlug(s: string) {
    && (forall i :: 0 <= i < |s| ==> IsSlugChar(s[i]))
    && (forall i :: 0 <= i < |s| - 1 ==> !(s[i] == '-' && s[i + 1] == '-'))
    && (s == [] || (s[0] != '-' && s[|s| - 1] != '-'))
  }

  /** `string.IsNullOrWhiteSpace` on a non-null string. */
  predicate IsBlank(s: string) {
    forall i :: 0 <= i < |s| ==> IsWhiteSpace(s[i])
  }

  /** The Danish and accented letters spelled out in ASCII, in the source's order. */
  function TransliterateDanish(s: string): string {
    Replace(Replace(Replace(Replace(Replace(s, "ø", "oe"), "å", "aa"), "æ", "ae"), "é", "e"), "ü", "u")
  }

  /** What the transliteration makes of one character. */
  function TransliteratedChar(c: char): (r: string)
    ensures r != []
  {
    if c == 'ø' then "oe"
    else if c == 'å' then "aa"
    else if c == 'æ' then "ae"
    else if c == 'é' then "e"
    else if c == 'ü' then "u"
    else [c]
  }

  /** The transliteration character by character. */
  function TransliteratedEach(s: string): (r: string)
    ensures |r| >= |s|
  {
    if s == [] then [] else TransliteratedChar(s[0]) + TransliteratedEach(s[1..])
  }

  /** The five replacements in a row spell out each Danish or accented letter on its own:
      no replacement text holds a letter a later replacement looks for. */
  lemma {:induction false} TransliterateDanishEach(s: string)
    ensures TransliterateDanish(s) == TransliteratedEach(s)
  {
    if s != [] {
      assert s == [s[0]] + s[1..];
      TransliterateConcat([s[0]], s[1..]);
      TransliterateOne(s[0]);
      TransliterateDanishEach(s[1..]);
    }
  }

  lemma TransliterateConcat(x: string, y: string)
    ensures TransliterateDanish(x + y) == TransliterateDanish(x) + TransliterateDanish(y)
  {
    var a1 := Replace(x, "ø", "oe");
    var b1 := Replace(y, "ø", "oe");
    ReplaceCharConcat(x, y, 'ø', "oe");
    var a2 := Replace(a1, "å", "aa");
    var b2 := Replace(b1, "å", "aa");
    ReplaceCharConcat(a1, b1, 'å', "aa");
    var a3 := Replace(a2, "æ", "ae");
    var b3 := Replace(b2, "æ", "ae");
    ReplaceCharConcat(a2, b2, 'æ', "ae");
    var a4 := Replace(a3, "é", "e");
    var b4 := Replace(b3, "é", "e");
    ReplaceCharConcat(a3, b3, 'é', "e");
    ReplaceCharConcat(a4, b4, 'ü', "u");
  }

  lemma TransliterateOne(c: char)
    ensures TransliterateDanish([c]) == TransliteratedChar(c)
  {
    var s := [c];
    ReplaceOneChar(c, 'ø', "oe");
    var a := Replace(s, "ø", "oe");
    if c == 'ø' {
      ReplaceTwoChars(a, 'å', "aa");
      ReplaceTwoChars(a, 'æ', "ae");
      ReplaceOneChar('o', 'é', "e");
      ReplaceTwoChars(a, 'ü', "u");
    } else {
      ReplaceOneChar(c, 'å', "aa");
      var b := Replace(a, "å", "aa");
      if c == 'å' {
        ReplaceTwoChars(b, 'æ', "ae");
        ReplaceTwoChars(b, 'é', "e");
        ReplaceTwoChars(b, 'ü', "u");
      } else {
        TransliterateOneLater(c);
      }
    }
  }

  lemma TransliterateOneLater(c: char)
    requires c != 'ø' && c != 'å'
    ensures Replace(Replace(Replace([c], "æ", "ae"), "é", "e"), "ü", "u") == TransliteratedChar(c)
  {
    ReplaceOneChar(c, 'æ', "ae");
    var d := Replace([c], "æ", "ae");
    if c == 'æ' {
      ReplaceTwoChars(d, 'é', "e");
      ReplaceTwoChars(d, 'ü', "u");
    } else {
      ReplaceOneChar(c, 'é', "e");
      ReplaceOneChar(c, 'ü', "u");
      if c == 'é' {
        ReplaceOneChar('e', 'ü', "u");
      }
    }
  }

  /** Replacing a character in a text of one character. */
  lemma ReplaceOneChar(c: char, p: char, rep: string)
    ensures Replace([c], [p], rep) == if c == p then rep else [c]
  {
    ReplaceCharAt([c], p, rep);
    ReplaceCharAt([], p, rep);
  }

  /** A text of two characters other than `p` has nothing to replace. */
  lemma ReplaceTwoChars(t: string, p: char, rep: string)
    requires |t| == 2 && t[0] != p && t[1] != p
    ensures Replace(t, [p], rep) == t
  {
    ReplaceCharAt(t, p, rep);
    ReplaceOneChar(t[1], p, rep);
    assert t[1..] == [t[1]];
    assert [t[0]] + [t[1]] == t;
  }

  /** The regex replacement `[^a-z0-9\-]` → `"-"`. */
  function HyphenateOthers(s: string): (r: string)
    ensures |r| == |s|
    ensures forall i :: 0 <= i < |s| ==> r[i] == if IsSlugChar(s[i]) then s[i] else '-'
  {
    seq(|s|, i requires 0 <= i < |s| => if IsSlugChar(s[i]) then s[i] else '-')
  }

  /** `SlugHelper.GenerateSlug`. */
  function GenerateSlug(name: string): (r: string)
    ensures IsSlug(r)
    ensures IsBlank(name) ==> r == []
  {
    if IsBlank(name) then ""
    else HyphensTidied(HyphenateOthers(TransliterateDanish(Lower(name))))
  }

  /** The last two steps: runs of hyphens become one, and hyphens at the ends go. */
  function HyphensTidied(h: string): (r: string)
    requires forall i :: 0 <= i < |h| ==> IsSlugChar(h[i])
    ensures IsSlug(r)
  {
    var c := CollapseRuns(h, '-');
    assert forall i :: 0 <= i < |c| ==> IsSlugChar(c[i]) by {
      forall i | 0 <= i < |c| ensures IsSlugChar(c[i]) {
        assert c[i] in c;
        assert c[i] in h;
      }
    }
    SlugShape(c);
    TidyHyphens(h)
  }

  /** Trimming hyphens off a text of slug characters without doubled hyphens gives a slug. */
  lemma SlugShape(c: string)
    requires forall i :: 0 <= i < |c| ==> IsSlugChar(c[i])
    requires forall i :: 0 <= i < |c| - 1 ==> !(c[i] == '-' && c[i + 1] == '-')
    ensures IsSlug(TrimOf(c, {'-'}))
  {
    var s := TrimStartOf(c, {'-'});
    var k := |c| - |s|;
    assert s == c[k..];
    var t := TrimEndOf(s, {'-'});
    assert t == s[..|t|];
    forall i | 0 <= i < |t|
      ensures IsSlugChar(t[i])
      ensures i < |t| - 1 ==> !(t[i] == '-' && t[i + 1] == '-')
    {
      assert t[i] == c[k + i];
      if i < |t| - 1 {
        assert t[i + 1] == c[k + i + 1];
      }
    }
  }

  // ---------------------------------------------------------------------------
  // The slug as the words of the name
  // ---------------------------------------------------------------------------

  /** The non-empty hyphen-separated pieces of a text. */
  function SlugWords(h: string): (r: seq<string>)
    ensures forall i :: 0 <= i < |r| ==> r[i] != [] && '-' !in r[i]
  {
    var pieces := SplitChar(h, '-');
    var r := RemoveEmpty(pieces);
    assert forall i :: 0 <= i < |r| ==> r[i] in pieces;
    r
  }

  /** The regex replacement `-+` → `"-"` followed by `Trim('-')`. */
  function TidyHyphens(h: string): string {
    TrimOf(CollapseRuns(h, '-'), {'-'})
  }

  /** Collapsing runs of hyphens and trimming them at the ends leaves the words of the
      text joined by single hyphens. */
  lemma {:induction false} TidyHyphensWords(h: string)
    ensures TidyHyphens(h) == Join("-", SlugWords(h))
    decreases |h|
  {
    var k := IndexOf(h, '-');
    if k < 0 {
      CollapseRunsNoop(h, '-');
      TrimNoop(h, {'-'});
      assert SplitChar(h, '-') == [h];
      if h != [] {
        assert RemoveEmpty([h]) == [h] + RemoveEmpty([]);
      }
    } else {
      var x := h[..k];
      var r := h[k + 1..];
      assert h == x + "-" + r;
      TidyHyphensWords(r);
      WordsAfterFirstHyphen(x, r);
    }
  }

  /** `GenerateSlug` one character at a time: the lower-cased name, each Danish or accented
      letter spelled out, every other character outside `[a-z0-9-]` read as a hyphen, then
      the hyphens tidied. */
  lemma GenerateSlugSteps(name: string)
    ensures GenerateSlug(name) ==
      if IsBlank(name) then "" else TidyHyphens(HyphenateOthers(TransliteratedEach(Lower(name))))
  {
    TransliterateDanishEach(Lower(name));
  }

  /** `GenerateSlug` as the words of the name, joined by single hyphens. */
  lemma GenerateSlugWords(name: string)
    ensures GenerateSlug(name) ==
      if IsBlank(name) then "" else Join("-", SlugWords(HyphenateOthers(TransliteratedEach(Lower(name)))))
  {
    GenerateSlugSteps(name);
    TidyHyphensWords(HyphenateOthers(TransliteratedEach(Lower(name))));
  }

  /** The induction step: the text before the first hyphen is the first word, if any. */
  lemma WordsAfterFirstHyphen(x: string, r: string)
    requires '-' !in x
    requires TidyHyphens(r) == Join("-", SlugWords(r))
    ensures TidyHyphens(x + "-" + r) == Join("-", SlugWords(x + "-" + r))
  {
    if x == [] {
      EmptyBefore(x, "-");
      WordsLeadingHyphen(x + "-" + r, r);
    } else {
      WordsAfterWord(x, r);
    }
  }

  lemma EmptyBefore(x: string, s: string)
    requires x == []
    ensures x + s == s
  {
  }

  lemma WordsLeadingHyphen(h: string, r: string)
    requires h == "-" + r
    requires TidyHyphens(r) == Join("-", SlugWords(r))
    ensures TidyHyphens(h) == Join("-", SlugWords(h))
  {
    SplitJoinPrefix([], r, '-');
    assert [] + "-" + r == h;
    TidiedLeadingHyphen(r);
  }

  lemma WordsAfterWord(x: string, r: string)
    requires x != [] && '-' !in x
    requires TidyHyphens(r) == Join("-", SlugWords(r))
    ensures TidyHyphens(x + "-" + r) == Join("-", SlugWords(x + "-" + r))
  {
    var h := x + "-" + r;
    SplitJoinPrefix(x, r, '-');
    TidiedAfterWord(x, r);
    JoinAfterWord(x, SplitChar(r, '-'));
    assert SlugWords(h) == [x] + SlugWords(r);
    var t := TidyHyphens(r);
    assert t == Join("-", SlugWords(r));
    assert TidyHyphens(h) == if t == [] then x else x + "-" + t;
  }

  lemma JoinAfterWord(x: string, w: seq<string>)
    requires x != []
    ensures RemoveEmpty([x] + w) == [x] + RemoveEmpty(w)
    ensures Join("-", [x] + RemoveEmpty(w)) ==
      if Join("-", RemoveEmpty(w)) == [] then x else x + "-" + Join("-", RemoveEmpty(w))
  {
    assert ([x] + w)[1..] == w;
    var v := RemoveEmpty(w);
    JoinEmpty(v);
    if v != [] {
      assert ([x] + v)[1..] == v;
    }
  }

  lemma JoinEmpty(w: seq<string>)
    requires forall i :: 0 <= i < |w| ==> w[i] != []
    ensures Join("-", w) == [] <==> w == []
  {
    if |w| > 1 {
      assert Join("-", w) == w[0] + "-" + Join("-", w[1..]);
    }
  }

  /** `TidyHyphens` through the text left after its leading hyphens. */
  lemma TidiedFromRest(r: string)
    ensures TidyHyphens(r) == TrimEndOf(CollapseRuns(TrimStartOf(r, {'-'}), '-'), {'-'})
  {
    if r != [] && r[0] == '-' {
      TidiedFromRestHyphen(r[1..]);
      assert "-" + r[1..] == r;
    } else {
      TidiedFromRestPlain(r);
    }
  }

  lemma TidiedFromRestPlain(r: string)
    requires r == [] || r[0] != '-'
    ensures TidyHyphens(r) == TrimEndOf(CollapseRuns(TrimStartOf(r, {'-'}), '-'), {'-'})
  {
    TrimStartKeeps(r);
    TrimStartKeeps(CollapseRuns(r, '-'));
  }

  lemma TidiedFromRestHyphen(r: string)
    ensures TidyHyphens("-" + r) == TrimEndOf(CollapseRuns(TrimStartOf(r, {'-'}), '-'), {'-'})
  {
    CollapsedLeadingHyphen(r);
    TrimStartAfterHyphen(r);
    TrimStartAfterHyphen(CollapseRuns(TrimStartOf(r, {'-'}), '-'));
  }

  /** Trimming leading hyphens off a text that does not start with one keeps it. */
  lemma TrimStartKeeps(s: string)
    requires s == [] || s[0] != '-'
    ensures TrimStartOf(s, {'-'}) == s
  {
  }

  lemma TrimStartAfterHyphen(r: string)
    ensures TrimStartOf("-" + r, {'-'}) == TrimStartOf(r, {'-'})
  {
    assert ("-" + r)[1..] == r;
  }

  /** A text that starts with a hyphen collapses to one hyphen and the collapsed rest. */
  lemma CollapsedLeadingHyphen(r: string)
    ensures CollapseRuns("-" + r, '-') == "-" + CollapseRuns(TrimStartOf(r, {'-'}), '-')
  {
    TrimStartAfterHyphen(r);
  }

  lemma Associative(x: string, y: string, z: string)
    ensures x + y + z == x + (y + z)
  {
  }

  lemma TidiedLeadingHyphen(r: string)
    ensures TidyHyphens("-" + r) == TidyHyphens(r)
  {
    var s := "-" + r;
    assert s[1..] == r;
    assert TrimStartOf(s, {'-'}) == TrimStartOf(r, {'-'});
    TidiedFromRest(s);
    TidiedFromRest(r);
  }

  lemma TidiedAfterWord(x: string, r: string)
    requires x != [] && '-' !in x
    ensures TidyHyphens(x + "-" + r) ==
      if TidyHyphens(r) == [] then x else x + "-" + TidyHyphens(r)
  {
    var z := CollapseRuns(TrimStartOf(r, {'-'}), '-');
    TidiedFromRest(r);
    CollapsedAfterWord(x, r);
    TrimmedAfterWord(x, z);
  }

  lemma CollapsedAfterWord(x: string, r: string)
    requires '-' !in x
    ensures CollapseRuns(x + "-" + r, '-') == x + "-" + CollapseRuns(TrimStartOf(r, {'-'}), '-')
  {
    CollapseRunsAfter(x, "-" + r);
    CollapsedLeadingHyphen(r);
    Associative(x, "-", r);
    Associative(x, "-", CollapseRuns(TrimStartOf(r, {'-'}), '-'));
  }

  lemma TrimmedAfterWord(x: string, z: string)
    requires x != [] && x[0] != '-' && x[|x| - 1] != '-'
    requires z == [] || z[0] != '-'
    ensures TrimOf(x + "-" + z, {'-'}) ==
      if TrimEndOf(z, {'-'}) == [] then x else x + "-" + TrimEndOf(z, {'-'})
  {
    var s := x + "-" + z;
    assert s[0] == x[0];
    TrimStartKeeps(s);
    if TrimEndOf(z, {'-'}) == [] {
      TrimEndEmpty(z);
      TrimEndHyphenAfterWord(x);
    } else {
      TrimEndAfter(x + "-", z);
    }
  }

  /** A text that does not start with a hyphen trims to nothing only when it is empty. */
  lemma TrimEndEmpty(z: string)
    requires z == [] || z[0] != '-'
    requires TrimEndOf(z, {'-'}) == []
    ensures z == []
  {
  }

  lemma TrimEndHyphenAfterWord(x: string)
    requires x != [] && x[|x| - 1] != '-'
    ensures TrimEndOf(x + "-" + [], {'-'}) == x
  {
    assert x + "-" + [] == x + "-";
    assert (x + "-")[..|x|] == x;
  }

  /** Collapsing runs of `-` passes over a text without hyphens unchanged. */
  lemma {:induction false} CollapseRunsAfter(x: string, s: string)
    requires '-' !in x
    ensures CollapseRuns(x + s, '-') == x + CollapseRuns(s, '-')
  {
    if x == [] {
      assert x + s == s;
    } else {
      assert '-' !in x[1..];
      CollapseRunsAfter(x[1..], s);
      CollapseRunsStep(x, s);
      Associative([x[0]], x[1..], CollapseRuns(s, '-'));
      assert [x[0]] + x[1..] == x;
    }
  }

  /** A first character other than a hyphen is kept as it is. */
  lemma CollapseRunsStep(x: string, s: string)
    requires x != [] && x[0] != '-'
    ensures CollapseRuns(x + s, '-') == [x[0]] + CollapseRuns(x[1..] + s, '-')
  {
    var t := x + s;
    assert t[0] == x[0];
    assert t[1..] == x[1..] + s;
  }

  /** Trimming hyphens off the end of a text that does not consist only of hyphens keeps
      whatever comes before it. */
  lemma {:induction false} TrimEndAfter(p: string, z: string)
    requires TrimEndOf(z, {'-'}) != []
    ensures TrimEndOf(p + z, {'-'}) == p + TrimEndOf(z, {'-'})
    decreases |z|
  {
    assert (p + z)[|p + z| - 1] == z[|z| - 1];
    if z[|z| - 1] == '-' {
      var z' := z[..|z| - 1];
      assert (p + z)[..|p + z| - 1] == p + z';
      TrimEndAfter(p, z');
    }
  }

  /** A slug is its own slug: generating a slug twice changes nothing. */
  lemma GenerateSlugIdempotent(name: string)
    ensures GenerateSlug(GenerateSlug(name)) == GenerateSlug(name)
  {
    var s := GenerateSlug(name);
    if s != [] {
      SlugFixed(s);
    }
  }

  /** Every step of `GenerateSlug` leaves a non-empty slug as it is. */
  lemma SlugFixed(s: string)
    requires IsSlug(s) && s != []
    ensures GenerateSlug(s) == s
  {
    assert !IsBlank(s) by {
      assert !IsWhiteSpace(s[0]);
    }
    SlugStepsFixed(s);
    TidiedFixed(s);
  }

  /** A slug has neither runs of hyphens nor hyphens at its ends. */
  lemma TidiedFixed(s: string)
    requires IsSlug(s)
    ensures TidyHyphens(s) == s
    ensures HyphensTidied(s) == s
  {
    CollapseRunsNoop(s, '-');
    TrimNoop(s, {'-'});
  }

  /** Lower-casing, transliterating and hyphenating leave a slug as it is. */
  lemma SlugStepsFixed(s: string)
    requires IsSlug(s)
    ensures HyphenateOthers(TransliterateDanish(Lower(s))) == s
  {
    assert Lower(s) == s;
    NoSpecialLetters(s, "ø", "oe");
    NoSpecialLetters(s, "å", "aa");
    NoSpecialLetters(s, "æ", "ae");
    NoSpecialLetters(s, "é", "e");
    NoSpecialLetters(s, "ü", "u");
    assert TransliterateDanish(s) == s;
    assert HyphenateOthers(s) == s;
  }

  lemma NoSpecialLetters(s: string, pat: string, rep: string)
    requires IsSlug(s) && |pat| == 1 && !IsSlugChar(pat[0])
    ensures Replace(s, pat, rep) == s
  {
    assert !Contains(s, pat) by {
      forall i | 0 <= i <= |s| - 1 ensures !OccursAt(s, pat, i) {
        assert s[i..i + 1] == [s[i]];
      }
    }
    ReplaceAbsent(s, pat, rep);
  }

  // ---------------------------------------------------------------------------
  // Single letters, plain words and whole names
  // ---------------------------------------------------------------------------

  lemma {:induction false} TransliteratedEachConcat(x: string, y: string)
    ensures TransliteratedEach(x + y) == TransliteratedEach(x) + TransliteratedEach(y)
  {
    if x != [] {
      assert (x + y)[0] == x[0];
      assert (x + y)[1..] == x[1..] + y;
      TransliteratedEachConcat(x[1..], y);
      calc {
        TransliteratedEach(x + y);
        TransliteratedChar(x[0]) + TransliteratedEach(x[1..] + y);
        TransliteratedChar(x[0]) + (TransliteratedEach(x[1..]) + TransliteratedEach(y));
        (TransliteratedChar(x[0]) + TransliteratedEach(x[1..])) + TransliteratedEach(y);
      }
    } else {
      assert x + y == y;
    }
  }

  /** A text without Danish or accented letters is not transliterated. */
  lemma {:induction false} TransliteratedPlain(s: string)
    requires forall i :: 0 <= i < |s| ==> s[i] !in "øåæéü"
    ensures TransliteratedEach(s) == s
  {
    if s != [] {
      TransliteratedPlain(s[1..]);
      assert s == [s[0]] + s[1..];
    }
  }

  /** When the hyphenated text is already a slug, it is the slug. */
  lemma GenerateSlugOfSlugSteps(name: string, h: string)
    requires !IsBlank(name)
    requires HyphenateOthers(TransliteratedEach(Lower(name))) == h
    requires IsSlug(h)
    ensures GenerateSlug(name) == h
  {
    GenerateSlugSteps(name);
    TidiedFixed(h);
  }

  /** Each Danish or accented letter on its own becomes its ASCII spelling. */
  lemma GenerateSlugLetter(c: char)
    requires c == 'ø' || c == 'å' || c == 'æ' || c == 'é' || c == 'ü'
    ensures GenerateSlug([c]) == TransliteratedChar(c)
  {
    var name := [c];
    assert !IsBlank(name) by {
      assert name[0] == c && !IsWhiteSpace(c);
    }
    assert Lower(name) == name;
    var t := TransliteratedChar(c);
    assert TransliteratedEach(name) == t + TransliteratedEach([]);
    assert HyphenateOthers(t) == t;
    GenerateSlugOfSlugSteps(name, t);
  }

  /** A name of ASCII letters and digits becomes itself in lower case. */
  lemma GenerateSlugAlphanumeric(w: string)
    requires w != []
    requires forall i :: 0 <= i < |w| ==> 'a' <= w[i] <= 'z' || 'A' <= w[i] <= 'Z' || '0' <= w[i] <= '9'
    ensures GenerateSlug(w) == Lower(w)
  {
    var l := Lower(w);
    assert IsSlug(l);
    assert !IsBlank(w) by {
      assert !IsWhiteSpace(w[0]);
    }
    LowerIdempotent(w);
    SlugStepsFixed(l);
    TidiedFixed(l);
  }

  /** An ASCII character that is neither a letter nor a digit: one hyphen in the slug. */
  predicate IsAsciiSeparator(c: char) {
    c < '\U{80}' && !('a' <= c <= 'z' || 'A' <= c <= 'Z' || '0' <= c <= '9')
  }

  /** A non-empty run of ASCII letters and digits. */
  predicate IsAsciiWord(w: string) {
    w != [] && forall i :: 0 <= i < |w| ==> 'a' <= w[i] <= 'z' || 'A' <= w[i] <= 'Z' || '0' <= w[i] <= '9'
  }

  /** Two ASCII words with separators before, between and after them become the two words
      in lower case joined by one hyphen ("Simple Text", "Menu & More!", "Multiple---Hyphens"). */
  lemma GenerateSlugTwoWords(p: string, a: string, sep: string, b: string, q: string)
    requires IsAsciiWord(a) && IsAsciiWord(b) && sep != []
    requires forall i :: 0 <= i < |p| ==> IsAsciiSeparator(p[i])
    requires forall i :: 0 <= i < |sep| ==> IsAsciiSeparator(sep[i])
    requires forall i :: 0 <= i < |q| ==> IsAsciiSeparator(q[i])
    ensures GenerateSlug(p + a + sep + b + q) == Lower(a) + "-" + Lower(b)
  {
    var name := p + a + sep + b + q;
    assert !IsBlank(name) by {
      assert name[|p|] == a[0];
      assert !IsWhiteSpace(a[0]);
    }
    StepsOfTwoWords(p, a, sep, b, q);
    StepsOfWord(a);
    StepsOfWord(b);
    GenerateSlugSteps(name);
    TidiedTwoWords(|p|, Lower(a), |sep|, Lower(b), |q|);
  }

  lemma StepsOfTwoWords(p: string, a: string, sep: string, b: string, q: string)
    requires IsAsciiWord(a) && IsAsciiWord(b)
    requires forall i :: 0 <= i < |p| ==> IsAsciiSeparator(p[i])
    requires forall i :: 0 <= i < |sep| ==> IsAsciiSeparator(sep[i])
    requires forall i :: 0 <= i < |q| ==> IsAsciiSeparator(q[i])
    ensures Steps(p + a + sep + b + q) == Dashes(|p|) + Lower(a) + Dashes(|sep|) + Lower(b) + Dashes(|q|)
  {
    StepsOfConcat(p + a + sep + b, q);
    StepsOfConcat(p + a + sep, b);
    StepsOfConcat(p + a, sep);
    StepsOfConcat(p, a);
    StepsOfSeparators(p);
    StepsOfSeparators(sep);
    StepsOfSeparators(q);
    StepsOfWord(a);
    StepsOfWord(b);
  }

  lemma TidiedTwoWords(n: nat, a: string, k: nat, b: string, m: nat)
    requires IsSlug(a) && a != [] && '-' !in a
    requires IsSlug(b) && b != [] && '-' !in b
    requires k > 0
    ensures TidyHyphens(Dashes(n) + a + Dashes(k) + b + Dashes(m)) == a + "-" + b
  {
    var rest := Dashes(k - 1) + (b + Dashes(m));
    assert Dashes(n) + a + Dashes(k) + b + Dashes(m) == Dashes(n) + (a + "-" + rest) by {
      assert Dashes(k) == "-" + Dashes(k - 1);
    }
    TidiedLeadingDashes(n, a + "-" + rest);
    TidiedLeadingDashes(k - 1, b + Dashes(m));
    TidiedTrailingDashes(b, m);
    TidiedAfterWord(a, rest);
  }

  /** The character steps of `GenerateSlug` before the hyphens are tidied. */
  function Steps(s: string): string {
    HyphenateOthers(TransliteratedEach(Lower(s)))
  }

  function Dashes(n: nat): (r: string)
    ensures |r| == n
  {
    seq(n, _ => '-')
  }

  lemma StepsOfConcat(x: string, y: string)
    ensures Steps(x + y) == Steps(x) + Steps(y)
  {
    LowerDistributes(x, y);
    TransliteratedEachConcat(Lower(x), Lower(y));
    var t, u := TransliteratedEach(Lower(x)), TransliteratedEach(Lower(y));
    assert HyphenateOthers(t + u) == HyphenateOthers(t) + HyphenateOthers(u);
  }

  lemma StepsOfSeparators(s: string)
    requires forall i :: 0 <= i < |s| ==> IsAsciiSeparator(s[i])
    ensures Steps(s) == Dashes(|s|)
  {
    var l := Lower(s);
    assert forall i :: 0 <= i < |l| ==> l[i] == s[i];
    TransliteratedPlain(l);
  }

  lemma StepsOfWord(w: string)
    requires IsAsciiWord(w)
    ensures Steps(w) == Lower(w)
    ensures IsSlug(Lower(w)) && '-' !in Lower(w)
  {
    var l := Lower(w);
    LowerAsciiWord(w);
    TransliteratedPlain(l);
    assert HyphenateOthers(l) == l;
  }

  /** An ASCII word in lower case: slug characters only, no hyphen, no special letter. */
  lemma LowerAsciiWord(w: string)
    requires IsAsciiWord(w)
    ensures IsSlug(Lower(w)) && '-' !in Lower(w)
    ensures forall i :: 0 <= i < |Lower(w)| ==> Lower(w)[i] !in "øåæéü" && IsSlugChar(Lower(w)[i])
  {
  }

  lemma {:induction false} TidiedLeadingDashes(n: nat, r: string)
    ensures TidyHyphens(Dashes(n) + r) == TidyHyphens(r)
  {
    if n > 0 {
      assert Dashes(n) + r == "-" + (Dashes(n - 1) + r);
      TidiedLeadingHyphen(Dashes(n - 1) + r);
      TidiedLeadingDashes(n - 1, r);
    } else {
      assert Dashes(n) + r == r;
    }
  }

  lemma TidiedTrailingDashes(w: string, m: nat)
    requires IsSlug(w) && w != [] && '-' !in w
    ensures TidyHyphens(w + Dashes(m)) == w
  {
    if m == 0 {
      assert w + Dashes(m) == w;
      TidiedFixed(w);
    } else {
      TidiedDashes(m - 1);
      TidiedAfterWord(w, Dashes(m - 1));
      DashesAfter(w, m);
    }
  }

  lemma DashesAfter(w: string, m: nat)
    requires m > 0
    ensures w + "-" + Dashes(m - 1) == w + Dashes(m)
  {
  }

  /** Hyphens alone tidy away to nothing. */
  lemma TidiedDashes(n: nat)
    ensures TidyHyphens(Dashes(n)) == []
  {
    var e: string := [];
    TidiedLeadingDashes(n, e);
    assert Dashes(n) + e == Dashes(n);
  }
}

=== FILE: sorting.dfy ===
/** LINQ's `OrderBy`: the result holds the same elements, in non-decreasing order of the
    key comparison. */
module Sorting {

  /** `le` compares every pair of values and is transitive, as a key comparison is. */
  ghost predicate TotalPreorder<T(!new)>(le: (T, T) -> bool) {
    && (forall a, b :: le(a, b) || le(b, a))
    && (forall a, b, c :: le(a, b) && le(b, c) ==> le(a, c))
  }

  predicate SortedBy<T(!new)>(xs: seq<T>, le: (T, T) -> bool) {
    forall i, j :: 0 <= i < j < |xs| ==> le(xs[i], xs[j])
  }

  /** Puts `x` in front of the first element it does not come after. */
  function Insert<T(!new)>(x: T, xs: seq<T>, le: (T, T) -> bool): (r: seq<T>)
    ensures multiset(r) == multiset(xs) + multiset{x}
    ensures |r| == |xs| + 1
  {
    if xs == [] || le(x, xs[0]) then [x] + xs
    else
      assert xs == [xs[0]] + xs[1..];
      [xs[0]] + Insert(x, xs[1..], le)
  }

  /** `xs.OrderBy(key)` where `le` compares keys. */
  function SortBy<T(!new)>(xs: seq<T>, le: (T, T) -> bool): (r: seq<T>)
    ensures multiset(r) == multiset(xs)
    ensures |r| == |xs|
  {
    if xs == [] then []
    else
      assert xs == [xs[0]] + xs[1..];
      Insert(xs[0], SortBy(xs[1..], le), le)
  }

  lemma {:induction false} InsertSorted<T(!new)>(x: T, xs: seq<T>, le: (T, T) -> bool)
    requires TotalPreorder(le)
    requires SortedBy(xs, le)
    ensures SortedBy(Insert(x, xs, le), le)
  {
    if xs != [] && !le(x, xs[0]) {
      InsertSorted(x, xs[1..], le);
      var r := Insert(x, xs[1..], le);
      assert forall k :: 0 <= k < |r| ==> le(xs[0], r[k]) by {
        forall k | 0 <= k < |r| ensures le(xs[0], r[k]) {
          assert r[k] in multiset(r);
          assert r[k] in multiset(xs[1..]) + multiset{x};
          if r[k] in multiset(xs[1..]) {
            var j :| 0 <= j < |xs[1..]| && xs[1..][j] == r[k];
            assert xs[j + 1] == r[k];
          }
        }
      }
    }
  }

  /** The result of `SortBy` is in order. */
  lemma {:induction false} SortBySorted<T(!new)>(xs: seq<T>, le: (T, T) -> bool)
    requires TotalPreorder(le)
    ensures SortedBy(SortBy(xs, le), le)
  {
    if xs != [] {
      SortBySorted(xs[1..], le);
      InsertSorted(xs[0], SortBy(xs[1..], le), le);
    }
  }

  /** A sequence that is already in order is left as it is. */
  lemma {:induction false} SortBySortedNoop<T(!new)>(xs: seq<T>, le: (T, T) -> bool)
    requires SortedBy(xs, le)
    ensures SortBy(xs, le) == xs
  {
    if xs != [] {
      assert SortedBy(xs[1..], le);
      SortBySortedNoop(xs[1..], le);
      if |xs| > 1 {
        assert le(xs[0], xs[1]);
      }
    }
  }

  /** Sorting keeps exactly the elements it was given. */
  lemma SortByMembers<T(!new)>(xs: seq<T>, le: (T, T) -> bool)
    ensures forall x :: x in SortBy(xs, le) <==> x in xs
  {
    var r := SortBy(xs, le);
    forall x ensures x in r <==> x in xs {
      assert x in r <==> x in multiset(r);
      assert x in xs <==> x in multiset(xs);
    }
  }
}

=== FILE: string_helper.dfy ===
/** `StringHelper`: capitalising day names, picking the dish out of a `"title: description"`
    menu item, and laying out a menu description for a calendar event. */
module StringHelper {
  import opened Text
  import opened Html

  /** `CapitalizeFirst`: the first character in upper case, the rest in lower case. */
  function CapitalizeFirst(input: string): (r: string)
    ensures |r| == |input|
    ensures Lower(r) == Lower(input)
    ensures r != [] ==> !IsLowerLetter(r[0])
    ensures forall i :: 1 <= i < |r| ==> !IsUpperLetter(r[i])
  {
    if input == [] then input
    else
      var r := [UpperChar(input[0])] + Lower(input[1..]);
      assert Lower(r) == [LowerChar(UpperChar(input[0]))] + Lower(Lower(input[1..])) by {
        LowerDistributes([UpperChar(input[0])], Lower(input[1..]));
      }
      LowerIdempotent(input[1..]);
      LowerDistributes([input[0]], input[1..]);
      assert [input[0]] + input[1..] == input;
      r
  }

  /** Capitalising an already capitalised word changes nothing. */
  lemma CapitalizeFirstIdempotent(input: string)
    ensures CapitalizeFirst(CapitalizeFirst(input)) == CapitalizeFirst(input)
  {
    var r := CapitalizeFirst(input);
    if r != [] {
      var r2 := CapitalizeFirst(r);
      assert r2[0] == r[0];
      assert forall i :: 1 <= i < |r| ==> r2[i] == LowerChar(r[i]) == r[i];
    }
  }

  /** The longest dish text kept whole by `ExtractMainDishFromFirstItem`. */
  const MaxDishLength: int := 100

  /** The dish text kept from the trimmed content after the colon: the content itself when
      it is at most 100 characters long, otherwise its first 100 characters, trimmed again,
      followed by an ellipsis. */
  function DishText(content: string): (r: string)
    ensures |content| <= MaxDishLength ==> r == content
    ensures |content| > MaxDishLength ==> EndsWith(r, "...") && r[..|r| - 3] == Trim(content[..MaxDishLength])
    ensures |r| <= MaxDishLength + 3
  {
    if |content| > MaxDishLength then Trim(content[..MaxDishLength]) + "..." else content
  }

  /** `ExtractMainDishFromFirstItem`: the trimmed text after the first colon, cut at 100
      characters with an ellipsis; the item itself when the colon is missing, leads the
      item or ends it. */
  function ExtractMainDishFromFirstItem(firstItem: string): (r: string)
    ensures IndexOf(firstItem, ':') <= 0 || IndexOf(firstItem, ':') >= |firstItem| - 1 ==> r == firstItem
    ensures 0 < IndexOf(firstItem, ':') < |firstItem| - 1 ==> |r| <= MaxDishLength + 3
    ensures 0 < IndexOf(firstItem, ':') < |firstItem| - 1 ==>
      r == DishText(Trim(firstItem[IndexOf(firstItem, ':') + 1..]))
  {
    var colon := IndexOf(firstItem, ':');
    if colon <= 0 || colon >= |firstItem| - 1 then firstItem
    else
      DishText(Trim(firstItem[colon + 1..]))
  }

  /** The menu scraper writes items as `"title: description"`; for a colon-free title and a
      trimmed description of at most 100 characters, the dish read back is the description. */
  lemma ExtractMainDishRoundTrip(title: string, description: string)
    requires title != [] && ':' !in title
    requires description != [] && Trim(description) == description
    requires |description| <= MaxDishLength
    ensures ExtractMainDishFromFirstItem(title + ": " + description) == description
  {
    DishAfterTitle(title, description);
  }

  /** A description longer than 100 characters once trimmed is cut to its first 100
      characters, trimmed again, and marked with an ellipsis. */
  lemma ExtractMainDishTruncates(title: string, description: string)
    requires title != [] && ':' !in title
    requires |Trim(description)| > MaxDishLength
    ensures ExtractMainDishFromFirstItem(title + ": " + description) == Trim(Trim(description)[..MaxDishLength]) + "..."
  {
    DishAfterTitle(title, description);
    DishTextLong(Trim(description));
  }

  lemma DishTextLong(content: string)
    requires |content| > MaxDishLength
    ensures DishText(content) == Trim(content[..MaxDishLength]) + "..."
  {
  }

  /** The dish read from `"title: description"` is taken from the trimmed description. */
  lemma DishAfterTitle(title: string, description: string)
    requires title != [] && ':' !in title && description != []
    ensures ExtractMainDishFromFirstItem(title + ": " + description) == DishText(Trim(description))
  {
    var item := title + ": " + description;
    assert item[|title|] == ':';
    assert item[..|title|] == title;
    assert IndexOf(item, ':') == |title|;
    var rest := item[|title| + 1..];
    assert rest == [' '] + description;
    TrimLeadingWhiteSpace(' ', description);
    assert Trim(rest) == Trim(description);
    assert 0 < IndexOf(item, ':') < |item| - 1;
    assert ExtractMainDishFromFirstItem(item) == DishText(Trim(rest));
  }

  // ---------------------------------------------------------------------------
  // FormatDescription
  // ---------------------------------------------------------------------------

  /** The capital letters of the regex class `[A-ZÆØÅ]`. */
  predicate IsSentenceStart(c: char) {
    'A' <= c <= 'Z' || c == 'Æ' || c == 'Ø' || c == 'Å'
  }

  /** The regex replacement `(\. )([A-ZÆØÅ])` → `"$1\n$2"`: a line break goes between a
      full stop with its space and the capital letter that follows. */
  function BreakSentences(s: string): (r: string)
    ensures |r| >= |s|
    decreases |s|
  {
    if |s| < 3 then s
    else if s[0] == '.' && s[1] == ' ' && IsSentenceStart(s[2]) then ". \n" + [s[2]] + BreakSentences(s[3..])
    else [s[0]] + BreakSentences(s[1..])
  }

  /** A sentence break goes before position `k`: a full stop and a space precede a
      capital letter there. */
  predicate BreakBefore(s: string, k: int) {
    2 <= k < |s| && s[k - 2] == '.' && s[k - 1] == ' ' && IsSentenceStart(s[k])
  }

  /** The characters of `s` from position `k` on, each preceded by a line break where
      `BreakBefore` holds: the regex replacement stated position by position. */
  function WithBreaks(s: string, k: nat): string
    decreases |s| - k
  {
    if k >= |s| then []
    else (if BreakBefore(s, k) then "\n" else "") + [s[k]] + WithBreaks(s, k + 1)
  }

  /** `BreakSentences` inserts exactly the line breaks `WithBreaks` places: one before every
      capital letter that follows a full stop and a space, and nothing else. */
  lemma BreakSentencesPositional(s: string)
    ensures BreakSentences(s) == WithBreaks(s, 0)
  {
    BreakSentencesFrom(s, 0);
    assert s[0..] == s;
  }

  lemma {:induction false} BreakSentencesFrom(s: string, k: nat)
    requires k <= |s| && !BreakBefore(s, k) && !BreakBefore(s, k + 1)
    ensures BreakSentences(s[k..]) == WithBreaks(s, k)
    decreases |s| - k
  {
    if |s| - k < 3 {
      BreakSentencesShort(s, k);
    } else if s[k] == '.' && s[k + 1] == ' ' && IsSentenceStart(s[k + 2]) {
      BreakSentencesFrom(s, k + 3);
      BreakSentencesAtStop(s, k);
    } else {
      BreakSentencesFrom(s, k + 1);
      BreakSentencesElsewhere(s, k);
    }
  }

  /** Fewer than three characters left: nothing to break. */
  lemma BreakSentencesShort(s: string, k: nat)
    requires k <= |s| < k + 3 && !BreakBefore(s, k) && !BreakBefore(s, k + 1)
    ensures BreakSentences(s[k..]) == WithBreaks(s, k)
  {
    if k + 1 == |s| {
      WithBreaksPlain(s, k);
      assert s[k..] == [s[k]];
    } else if k + 2 == |s| {
      WithBreaksPlain(s, k);
      WithBreaksPlain(s, k + 1);
      assert s[k..] == [s[k]] + [s[k + 1]];
    }
  }

  lemma WithBreaksPlain(s: string, k: nat)
    requires k < |s| && !BreakBefore(s, k)
    ensures WithBreaks(s, k) == [s[k]] + WithBreaks(s, k + 1)
  {
    assert "" + [s[k]] == [s[k]];
  }

  lemma WithBreaksAt(s: string, k: nat)
    requires BreakBefore(s, k)
    ensures WithBreaks(s, k) == "\n" + [s[k]] + WithBreaks(s, k + 1)
  {
  }

  /** A full stop, a space and a capital letter: the break goes before the letter. */
  lemma BreakSentencesAtStop(s: string, k: nat)
    requires k + 3 <= |s| && s[k] == '.' && s[k + 1] == ' ' && IsSentenceStart(s[k + 2])
    requires !BreakBefore(s, k) && !BreakBefore(s, k + 1)
    ensures BreakSentences(s[k..]) == ". \n" + [s[k + 2]] + BreakSentences(s[k + 3..])
    ensures WithBreaks(s, k) == ". \n" + [s[k + 2]] + WithBreaks(s, k + 3)
  {
    assert s[k..][3..] == s[k + 3..];
    WithBreaksPlain(s, k);
    WithBreaksPlain(s, k + 1);
    WithBreaksAt(s, k + 2);
    StopText(s[k], s[k + 1], s[k + 2], WithBreaks(s, k + 3));
  }

  lemma StopText(a: char, b: char, c: char, w: string)
    requires a == '.' && b == ' '
    ensures [a] + ([b] + ("\n" + [c] + w)) == ". \n" + [c] + w
  {
  }

  /** Anywhere else the first character is kept and no break goes before the next one. */
  lemma BreakSentencesElsewhere(s: string, k: nat)
    requires k + 3 <= |s| && !(s[k] == '.' && s[k + 1] == ' ' && IsSentenceStart(s[k + 2]))
    requires !BreakBefore(s, k)
    ensures BreakSentences(s[k..]) == [s[k]] + BreakSentences(s[k + 1..])
    ensures WithBreaks(s, k) == [s[k]] + WithBreaks(s, k + 1)
    ensures !BreakBefore(s, k + 2)
  {
    assert s[k..][1..] == s[k + 1..];
    WithBreaksPlain(s, k);
  }

  /** Text with no full stop followed by a space gets no sentence breaks. */
  lemma {:induction false} BreakSentencesNoop(s: string)
    requires forall i :: 0 <= i < |s| - 1 ==> !(s[i] == '.' && s[i + 1] == ' ')
    ensures BreakSentences(s) == s
    decreases |s|
  {
    if |s| >= 3 {
      BreakSentencesNoop(s[1..]);
      assert [s[0]] + s[1..] == s;
    }
  }

  /** The section headers a description is split on, each put on a line of its own. */
  function SectionBreaks(s: string): string {
    var a := Replace(s, ", Delikatesser:", "\n\nDelikatesser:");
    var b := Replace(a, ", Dagens salater:", "\n\nDagens salater:");
    var c := Replace(b, ", Brød:", "\n\nBrød:");
    Replace(c, " | ", "\n")
  }

  /** `FormatDescription`, shared by `StringHelper` and `CalendarService`: decode
      entities, break before section headers and between sentences, collapse runs of
      spaces, and drop leading line breaks and spaces. */
  function FormatDescription(description: string): (r: string)
    ensures description == [] ==> r == []
    ensures forall i :: 0 <= i < |r| - 1 ==> !(r[i] == ' ' && r[i + 1] == ' ')
    ensures r == [] || (r[0] != ' ' && r[0] != '\n')
  {
    if description == [] then description
    else
      var c := CollapseRuns(BreakSentences(SectionBreaks(HtmlDecode(description))), ' ');
      var r := TrimStartOf(c, {'\n', ' '});
      assert r == c[|c| - |r|..];
      r
  }

  /** A description with nothing for `FormatDescription` to rewrite: no entity, no section
      header, no `" | "` separator, no sentence to break and no doubled space. */
  predicate PlainDescription(d: string) {
    && '&' !in d
    && !Contains(d, ", Delikatesser:") && !Contains(d, ", Dagens salater:")
    && !Contains(d, ", Brød:") && !Contains(d, " | ")
    && NoPair(d, '.', ' ') && NoPair(d, ' ', ' ')
  }

  /** A description that is already plain, and starts with neither a space nor a line
      break, is kept exactly. */
  lemma FormatDescriptionPlain(d: string)
    requires PlainDescription(d)
    requires d == [] || (d[0] != ' ' && d[0] != '\n')
    ensures FormatDescription(d) == d
  {
    if d != [] {
      DecodePlain(d);
      ReplaceAbsent(d, ", Delikatesser:", "\n\nDelikatesser:");
      ReplaceAbsent(d, ", Dagens salater:", "\n\nDagens salater:");
      ReplaceAbsent(d, ", Brød:", "\n\nBrød:");
      ReplaceAbsent(d, " | ", "\n");
      FormatTail(d, d);
    }
  }

  /** Once the entities are decoded and the sections broken, a text with no sentence to
      break, no doubled space and no leading space or line break is the result. */
  lemma FormatTail(d: string, t: string)
    requires d != [] && SectionBreaks(HtmlDecode(d)) == t
    requires NoPair(t, '.', ' ') && NoPair(t, ' ', ' ')
    requires t != [] && t[0] != ' ' && t[0] != '\n'
    ensures FormatDescription(d) == t
  {
    BreakSentencesNoop(t);
    CollapseRunsNoop(t, ' ');
  }

  /** `SectionBreaks` through the text `u` its first two replacements leave. */
  lemma SectionBreaksThrough(s: string, u: string, t: string)
    requires Replace(Replace(s, ", Delikatesser:", "\n\nDelikatesser:"), ", Dagens salater:", "\n\nDagens salater:") == u
    requires Replace(Replace(u, ", Brød:", "\n\nBrød:"), " | ", "\n") == t
    ensures SectionBreaks(s) == t
  {
  }

  /** `SectionBreaks` on a plain text with one `", Delikatesser:"` in it. */
  lemma SectionBreaksDelikatesser(a: string, b: string)
    requires PlainDescription(a) && PlainDescription(b)
    ensures SectionBreaks(a + ", Delikatesser:" + b) == a + "\n\nDelikatesser:" + b
  {
    DelikatesserReplaced(a, b);
    DelikatesserKeepsDagensSalater(a, b);
    DelikatesserLast(a, b);
    SectionBreaksThrough(a + ", Delikatesser:" + b, a + "\n\nDelikatesser:" + b, a + "\n\nDelikatesser:" + b);
  }

  lemma DelikatesserReplaced(a: string, b: string)
    requires PlainDescription(a) && PlainDescription(b)
    ensures Replace(a + ", Delikatesser:" + b, ", Delikatesser:", "\n\nDelikatesser:") == a + "\n\nDelikatesser:" + b
  {
    ReplaceSingle(a, ", Delikatesser:", "\n\nDelikatesser:", b);
  }

  lemma DelikatesserKeepsDagensSalater(a: string, b: string)
    requires PlainDescription(a) && PlainDescription(b)
    ensures Replace(a + "\n\nDelikatesser:" + b, ", Dagens salater:", "\n\nDagens salater:") == a + "\n\nDelikatesser:" + b
  {
    ReplaceAbsentAround(a, "\n\nDelikatesser:", b, ", Dagens salater:", "\n\nDagens salater:", 0);
  }

  lemma DelikatesserLast(a: string, b: string)
    requires PlainDescription(a) && PlainDescription(b)
    ensures var t := a + "\n\nDelikatesser:" + b;
      Replace(Replace(t, ", Brød:", "\n\nBrød:"), " | ", "\n") == t
  {
    var m := "\n\nDelikatesser:";
    ReplaceAbsentAround(a, m, b, ", Brød:", "\n\nBrød:", 0);
    ReplaceAbsentAround(a, m, b, " | ", "\n", 0);
  }

  /** `SectionBreaks` on a plain text with one `", Dagens salater:"` in it. */
  lemma SectionBreaksDagensSalater(a: string, b: string)
    requires PlainDescription(a) && PlainDescription(b)
    ensures SectionBreaks(a + ", Dagens salater:" + b) == a + "\n\nDagens salater:" + b
  {
    DagensSalaterKeepsDelikatesser(a, b);
    DagensSalaterReplaced(a, b);
    DagensSalaterLast(a, b);
    SectionBreaksThrough(a + ", Dagens salater:" + b, a + "\n\nDagens salater:" + b, a + "\n\nDagens salater:" + b);
  }

  lemma DagensSalaterKeepsDelikatesser(a: string, b: string)
    requires PlainDescription(a) && PlainDescription(b)
    ensures Replace(a + ", Dagens salater:" + b, ", Delikatesser:", "\n\nDelikatesser:") == a + ", Dagens salater:" + b
  {
    assert (", Dagens salater:" + b)[3] == 'a';
    ReplaceAbsentAround(a, ", Dagens salater:", b, ", Delikatesser:", "\n\nDelikatesser:", 0);
  }

  lemma DagensSalaterReplaced(a: string, b: string)
    requires PlainDescription(a) && PlainDescription(b)
    ensures Replace(a + ", Dagens salater:" + b, ", Dagens salater:", "\n\nDagens salater:") == a + "\n\nDagens salater:" + b
  {
    ReplaceSingle(a, ", Dagens salater:", "\n\nDagens salater:", b);
  }

  lemma DagensSalaterLast(a: string, b: string)
    requires PlainDescription(a) && PlainDescription(b)
    ensures var t := a + "\n\nDagens salater:" + b;
      Replace(Replace(t, ", Brød:", "\n\nBrød:"), " | ", "\n") == t
  {
    var m := "\n\nDagens salater:";
    ReplaceAbsentAround(a, m, b, ", Brød:", "\n\nBrød:", 0);
    NoSeparatorAroundDagensSalater(a, b);
    ReplaceAbsent(a + m + b, " | ", "\n");
  }

  /** The space inside `"Dagens salater:"` starts no `" | "` separator. */
  lemma NoSeparatorAroundDagensSalater(a: string, b: string)
    requires !Contains(a, " | ") && !Contains(b, " | ")
    ensures !Contains(a + "\n\nDagens salater:" + b, " | ")
  {
    assert [] + " salater:" + b == " salater:" + b;
    assert (" salater:" + b)[1] == 's';
    NoNewOccurrence([], " salater:", b, " | ", 0);
    NoNewOccurrence(a, "\n\nDagens", " salater:" + b, " | ", 0);
    assert "\n\nDagens" + " salater:" == "\n\nDagens salater:";
    assert a + "\n\nDagens" + (" salater:" + b) == a + "\n\nDagens salater:" + b;
  }

  /** `SectionBreaks` on a plain text with one `", Brød:"` in it. */
  lemma SectionBreaksBrod(a: string, b: string)
    requires PlainDescription(a) && PlainDescription(b)
    ensures SectionBreaks(a + ", Brød:" + b) == a + "\n\nBrød:" + b
  {
    BrodKeepsDelikatesser(a, b);
    BrodKeepsDagensSalater(a, b);
    BrodLast(a, b);
    SectionBreaksThrough(a + ", Brød:" + b, a + ", Brød:" + b, a + "\n\nBrød:" + b);
  }

  lemma BrodKeepsDelikatesser(a: string, b: string)
    requires PlainDescription(a) && PlainDescription(b)
    ensures Replace(a + ", Brød:" + b, ", Delikatesser:", "\n\nDelikatesser:") == a + ", Brød:" + b
  {
    assert (", Brød:" + b)[2] == 'B';
    ReplaceAbsentAround(a, ", Brød:", b, ", Delikatesser:", "\n\nDelikatesser:", 0);
  }

  lemma BrodKeepsDagensSalater(a: string, b: string)
    requires PlainDescription(a) && PlainDescription(b)
    ensures Replace(a + ", Brød:" + b, ", Dagens salater:", "\n\nDagens salater:") == a + ", Brød:" + b
  {
    assert (", Brød:" + b)[2] == 'B';
    ReplaceAbsentAround(a, ", Brød:", b, ", Dagens salater:", "\n\nDagens salater:", 0);
  }

  lemma BrodLast(a: string, b: string)
    requires PlainDescription(a) && PlainDescription(b)
    ensures Replace(Replace(a + ", Brød:" + b, ", Brød:", "\n\nBrød:"), " | ", "\n") == a + "\n\nBrød:" + b
  {
    var m := "\n\nBrød:";
    ReplaceSingle(a, ", Brød:", m, b);
    ReplaceAbsentAround(a, m, b, " | ", "\n", 0);
  }

  /** `SectionBreaks` on a plain text with one `" | "` separator in it, when the text
      before it holds no `|`. */
  lemma SectionBreaksSeparator(a: string, b: string)
    requires PlainDescription(a) && PlainDescription(b) && '|' !in a
    ensures SectionBreaks(a + " | " + b) == a + "\n" + b
  {
    SeparatorKeepsDelikatesser(a, b);
    SeparatorKeepsDagensSalater(a, b);
    SeparatorLast(a, b);
    SectionBreaksThrough(a + " | " + b, a + " | " + b, a + "\n" + b);
  }

  lemma SeparatorKeepsDelikatesser(a: string, b: string)
    requires PlainDescription(a) && PlainDescription(b)
    ensures Replace(a + " | " + b, ", Delikatesser:", "\n\nDelikatesser:") == a + " | " + b
  {
    ReplaceAbsentAround(a, " | ", b, ", Delikatesser:", "\n\nDelikatesser:", 1);
  }

  lemma SeparatorKeepsDagensSalater(a: string, b: string)
    requires PlainDescription(a) && PlainDescription(b)
    ensures Replace(a + " | " + b, ", Dagens salater:", "\n\nDagens salater:") == a + " | " + b
  {
    ReplaceAbsentAround(a, " | ", b, ", Dagens salater:", "\n\nDagens salater:", 1);
  }

  lemma SeparatorLast(a: string, b: string)
    requires PlainDescription(a) && PlainDescription(b) && '|' !in a
    ensures Replace(Replace(a + " | " + b, ", Brød:", "\n\nBrød:"), " | ", "\n") == a + "\n" + b
  {
    ReplaceAbsentAround(a, " | ", b, ", Brød:", "\n\nBrød:", 1);
    ReplaceSingle(a, " | ", "\n", b);
  }

  /** Once the sections are broken as `a + m + b`, with a plain `a` and `b` and a middle
      `m` that adds no sentence break or doubled space, the result is that text. */
  lemma FormatAround(d: string, a: string, m: string, b: string)
    requires d != [] && SectionBreaks(HtmlDecode(d)) == a + m + b
    requires PlainDescription(a) && PlainDescription(b) && m != []
    requires NoPair(m, '.', ' ') && NoPair(m, ' ', ' ')
    requires m[|m| - 1] != '.' && m[|m| - 1] != ' ' && m[0] != ' '
    requires a != [] && a[0] != ' ' && a[0] != '\n'
    ensures FormatDescription(d) == a + m + b
  {
    NoPairConcat(a, m, '.', ' ');
    NoPairConcat(a + m, b, '.', ' ');
    NoPairConcat(a, m, ' ', ' ');
    NoPairConcat(a + m, b, ' ', ' ');
    FormatTail(d, a + m + b);
  }

  /** A section header after a comma is put on a line of its own, after an empty line:
      `"Soup, Delikatesser: Cheese"` reads `"Soup\n\nDelikatesser: Cheese"`. */
  lemma FormatDescriptionHeader(a: string, h: string, b: string)
    requires h == "Delikatesser:" || h == "Dagens salater:" || h == "Brød:"
    requires PlainDescription(a) && PlainDescription(b)
    requires a != [] && a[0] != ' ' && a[0] != '\n'
    ensures FormatDescription(a + (", " + h) + b) == a + ("\n\n" + h) + b
  {
    if h == "Delikatesser:" {
      assert ", " + h == ", Delikatesser:" && "\n\n" + h == "\n\nDelikatesser:";
      FormatDelikatesser(a, b);
    } else if h == "Dagens salater:" {
      assert ", " + h == ", Dagens salater:" && "\n\n" + h == "\n\nDagens salater:";
      FormatDagensSalater(a, b);
    } else {
      assert ", " + h == ", Brød:" && "\n\n" + h == "\n\nBrød:";
      FormatBrod(a, b);
    }
  }

  lemma FormatDelikatesser(a: string, b: string)
    requires PlainDescription(a) && PlainDescription(b)
    requires a != [] && a[0] != ' ' && a[0] != '\n'
    ensures FormatDescription(a + ", Delikatesser:" + b) == a + "\n\nDelikatesser:" + b
  {
    SectionBreaksDelikatesser(a, b);
    FormatSection(a, ", Delikatesser:", "\n\nDelikatesser:", b);
  }

  lemma FormatDagensSalater(a: string, b: string)
    requires PlainDescription(a) && PlainDescription(b)
    requires a != [] && a[0] != ' ' && a[0] != '\n'
    ensures FormatDescription(a + ", Dagens salater:" + b) == a + "\n\nDagens salater:" + b
  {
    SectionBreaksDagensSalater(a, b);
    FormatSection(a, ", Dagens salater:", "\n\nDagens salater:", b);
  }

  lemma FormatBrod(a: string, b: string)
    requires PlainDescription(a) && PlainDescription(b)
    requires a != [] && a[0] != ' ' && a[0] != '\n'
    ensures FormatDescription(a + ", Brød:" + b) == a + "\n\nBrød:" + b
  {
    SectionBreaksBrod(a, b);
    FormatSection(a, ", Brød:", "\n\nBrød:", b);
  }

  lemma FormatSection(a: string, pat: string, m: string, b: string)
    requires PlainDescription(a) && PlainDescription(b)
    requires a != [] && a[0] != ' ' && a[0] != '\n'
    requires '&' !in pat && SectionBreaks(a + pat + b) == a + m + b
    requires m != [] && NoPair(m, '.', ' ') && NoPair(m, ' ', ' ')
    requires m[|m| - 1] != '.' && m[|m| - 1] != ' ' && m[0] != ' '
    ensures FormatDescription(a + pat + b) == a + m + b
  {
    assert '&' !in a + pat + b;
    DecodePlain(a + pat + b);
    FormatAround(a + pat + b, a, m, b);
  }

  /** A `" | "` separator becomes a line break. */
  lemma FormatDescriptionSeparator(a: string, b: string)
    requires PlainDescription(a) && PlainDescription(b) && '|' !in a
    requires a != [] && a[0] != ' ' && a[0] != '\n'
    ensures FormatDescription(a + " | " + b) == a + "\n" + b
  {
    var d := a + " | " + b;
    assert '&' !in d;
    DecodePlain(d);
    SectionBreaksSeparator(a, b);
    FormatAround(d, a, "\n", b);
  }

  /** Entities are decoded: `"Soup &amp; bread"` reads `"Soup & bread"`. */
  lemma FormatDescriptionEntity(a: string, b: string)
    requires PlainDescription(a) && PlainDescription(b)
    requires a != [] && a[0] != ' ' && a[0] != '\n'
    ensures FormatDescription(a + "&amp;" + b) == a + "&" + b
  {
    var d := a + "&amp;" + b;
    DecodeAmpersand(a, b);
    SectionBreaksAmpersand(a, b);
    FormatAround(d, a, "&", b);
  }

  lemma DecodeAmpersand(a: string, b: string)
    requires '&' !in a && '&' !in b
    ensures HtmlDecode(a + "&amp;" + b) == a + "&" + b
  {
    assert a + "&amp;" + b == a + ("&" + "amp" + ";" + b);
    DecodePlainPrefix(a, "&" + "amp" + ";" + b);
    DecodeEntity("amp", '&', b);
    DecodePlain(b);
  }

  lemma SectionBreaksAmpersand(a: string, b: string)
    requires PlainDescription(a) && PlainDescription(b)
    ensures SectionBreaks(a + "&" + b) == a + "&" + b
  {
    AmpersandKeepsDelikatesser(a, b);
    AmpersandKeepsDagensSalater(a, b);
    AmpersandLast(a, b);
    SectionBreaksThrough(a + "&" + b, a + "&" + b, a + "&" + b);
  }

  lemma AmpersandKeepsDelikatesser(a: string, b: string)
    requires PlainDescription(a) && PlainDescription(b)
    ensures Replace(a + "&" + b, ", Delikatesser:", "\n\nDelikatesser:") == a + "&" + b
  {
    ReplaceAbsentAround(a, "&", b, ", Delikatesser:", "\n\nDelikatesser:", 0);
  }

  lemma AmpersandKeepsDagensSalater(a: string, b: string)
    requires PlainDescription(a) && PlainDescription(b)
    ensures Replace(a + "&" + b, ", Dagens salater:", "\n\nDagens salater:") == a + "&" + b
  {
    ReplaceAbsentAround(a, "&", b, ", Dagens salater:", "\n\nDagens salater:", 0);
  }

  lemma AmpersandLast(a: string, b: string)
    requires PlainDescription(a) && PlainDescription(b)
    ensures var s := a + "&" + b;
      Replace(Replace(s, ", Brød:", "\n\nBrød:"), " | ", "\n") == s
  {
    ReplaceAbsentAround(a, "&", b, ", Brød:", "\n\nBrød:", 0);
    ReplaceAbsentAround(a, "&", b, " | ", "\n", 0);
  }
}

=== FILE: text.dfy ===
/** The string operations of the .NET base library that the menu code relies on
    (`Trim`, `ToLowerInvariant`, `IndexOf`, `Replace`, `Split`, `string.Join`,
    `int.TryParse`, the `\s+` and `[ ]+` regex replacements), written out over
    `seq<char>`. Case mapping covers ASCII and the Latin-1 letters. */
module Text {
  import opened Wrappers

  // ---------------------------------------------------------------------------
  // Character classes and case mapping
  // ---------------------------------------------------------------------------

  /** The characters `char.IsWhiteSpace`, `String.Trim()` and the regex class `\s`
      agree on, within Latin-1. */
  const WhiteSpace: set<char> := {' ', '\t', '\n', '\r', '\U{B}', '\U{C}', '\U{85}', '\U{A0}'}

  predicate IsWhiteSpace(c: char) {
    c in WhiteSpace
  }

  predicate IsDigit(c: char) {
    '0' <= c <= '9'
  }

  predicate IsUpperLetter(c: char) {
    'A' <= c <= 'Z' || ('\U{C0}' <= c <= '\U{DE}' && c != '\U{D7}')
  }

  predicate IsLowerLetter(c: char) {
    'a' <= c <= 'z' || ('\U{E0}' <= c <= '\U{FE}' && c != '\U{F7}')
  }

  /** `char.ToLowerInvariant` on ASCII and Latin-1 letters. */
  function LowerChar(c: char): (r: char)
    ensures !IsUpperLetter(r)
    ensures IsUpperLetter(c) <==> IsLowerLetter(r) && r != c
  {
    if IsUpperLetter(c) then (c as int + 32) as char else c
  }

  /** `char.ToUpperInvariant` on ASCII and Latin-1 letters. */
  function UpperChar(c: char): (r: char)
    ensures !IsLowerLetter(r)
    ensures LowerChar(r) == LowerChar(c)
  {
    if IsLowerLetter(c) then (c as int - 32) as char else c
  }

  function Lower(s: string): (r: string)
    ensures |r| == |s|
    ensures forall i :: 0 <= i < |s| ==> r[i] == LowerChar(s[i])
  {
    seq(|s|, i requires 0 <= i < |s| => LowerChar(s[i]))
  }

  lemma LowerIdempotent(s: string)
    ensures Lower(Lower(s)) == Lower(s)
  {
  }

  lemma LowerDistributes(a: string, b: string)
    ensures Lower(a + b) == Lower(a) + Lower(b)
  {
  }

  /** `StringComparison.OrdinalIgnoreCase` equality. */
  predicate EqualsIgnoreCase(a: string, b: string) {
    Lower(a) == Lower(b)
  }

  predicate StartsWith(s: string, p: string) {
    |p| <= |s| && s[..|p|] == p
  }

  predicate StartsWithIgnoreCase(s: string, p: string) {
    |p| <= |s| && Lower(s[..|p|]) == Lower(p)
  }

  predicate EndsWith(s: string, p: string) {
    |p| <= |s| && s[|s| - |p|..] == p
  }

  /** `s.Contains(p)` with ordinal comparison. */
  predicate Contains(s: string, p: string) {
    exists i | 0 <= i <= |s| - |p| :: OccursAt(s, p, i)
  }

  /** `p` occurs in `s` starting at position `i`. */
  predicate OccursAt(s: string, p: string, i: int) {
    0 <= i <= |s| - |p| && s[i..i + |p|] == p
  }

  predicate ContainsIgnoreCase(s: string, p: string) {
    Contains(Lower(s), Lower(p))
  }

  // ---------------------------------------------------------------------------
  // Trimming and white space
  // ---------------------------------------------------------------------------

  /** `s.TrimStart(cs)`: drops the longest prefix made of characters of `cs`. */
  function TrimStartOf(s: string, cs: set<char>): (r: string)
    ensures |r| <= |s| && r == s[|s| - |r|..]
    ensures forall i :: 0 <= i < |s| - |r| ==> s[i] in cs
    ensures r == [] || r[0] !in cs
  {
    if s != [] && s[0] in cs then TrimStartOf(s[1..], cs) else s
  }

  /** `s.TrimEnd(cs)`: drops the longest suffix made of characters of `cs`. */
  function TrimEndOf(s: string, cs: set<char>): (r: string)
    ensures |r| <= |s| && r == s[..|r|]
    ensures forall i :: |r| <= i < |s| ==> s[i] in cs
    ensures r == [] || r[|r| - 1] !in cs
  {
    if s != [] && s[|s| - 1] in cs then TrimEndOf(s[..|s| - 1], cs) else s
  }

  /** `s.Trim(cs)`. */
  function TrimOf(s: string, cs: set<char>): (r: string)
    ensures |r| <= |s|
    ensures r == [] || (r[0] !in cs && r[|r| - 1] !in cs)
  {
    TrimEndOf(TrimStartOf(s, cs), cs)
  }

  /** `s.Trim()`. */
  function Trim(s: string): (r: string)
    ensures |r| <= |s|
    ensures r == [] || (!IsWhiteSpace(r[0]) && !IsWhiteSpace(r[|r| - 1]))
  {
    TrimOf(s, WhiteSpace)
  }

  /** A text with no white space at either end, as `Trim` leaves it. */
  predicate Trimmed(s: string) {
    s == [] || (!IsWhiteSpace(s[0]) && !IsWhiteSpace(s[|s| - 1]))
  }

  /** Trimming a trimmed text changes nothing. */
  lemma TrimTrimmed(s: string)
    requires Trimmed(s)
    ensures Trim(s) == s
  {
    TrimNoop(s, WhiteSpace);
  }

  /** Every character of `Trim(s)` occurs in `s`, at a shifted position. */
  lemma TrimIsSlice(s: string) returns (k: nat)
    ensures k + |Trim(s)| <= |s| && Trim(s) == s[k..k + |Trim(s)|]
    ensures forall i :: 0 <= i < k ==> IsWhiteSpace(s[i])
    ensures forall i :: k + |Trim(s)| <= i < |s| ==> IsWhiteSpace(s[i])
  {
    var t := TrimStartOf(s, WhiteSpace);
    k := |s| - |t|;
    assert t == s[k..];
  }

  lemma TrimNoop(s: string, cs: set<char>)
    requires s == [] || (s[0] !in cs && s[|s| - 1] !in cs)
    ensures TrimOf(s, cs) == s
  {
  }

  /** White space in front of a text disappears in the trim. */
  lemma TrimLeadingWhiteSpace(c: char, s: string)
    requires IsWhiteSpace(c)
    ensures Trim([c] + s) == Trim(s)
  {
    assert ([c] + s)[1..] == s;
  }

  /** The regex replacement `\s+` → `" "`: every run of white space becomes one space. */
  function CollapseWhiteSpace(s: string): (r: string)
    ensures |r| <= |s|
    ensures r == [] <==> s == []
    ensures r != [] ==> (IsWhiteSpace(r[0]) <==> IsWhiteSpace(s[0]))
    ensures forall i :: 0 <= i < |r| && IsWhiteSpace(r[i]) ==> r[i] == ' '
    ensures forall i :: !SpaceRun(r, i)
    decreases |s|
  {
    if s == [] then []
    else if IsWhiteSpace(s[0]) then
      var rest := CollapseWhiteSpace(TrimStartOf(s, WhiteSpace));
      SpaceRunCons(' ', rest);
      " " + rest
    else
      var rest := CollapseWhiteSpace(s[1..]);
      SpaceRunCons(s[0], rest);
      [s[0]] + rest
  }

  /** A run of white space in `[c] + s` is at its front or is a run of `s`. */
  lemma SpaceRunCons(c: char, s: string)
    ensures forall i :: SpaceRun([c] + s, i) ==>
      (i == 0 && IsWhiteSpace(c) && IsWhiteSpace(s[0])) || SpaceRun(s, i - 1)
  {
    forall i | SpaceRun([c] + s, i)
      ensures (i == 0 && IsWhiteSpace(c) && IsWhiteSpace(s[0])) || SpaceRun(s, i - 1)
    {
      if i > 0 {
        assert ([c] + s)[i] == s[i - 1] && ([c] + s)[i + 1] == s[i];
      }
    }
  }

  /** Positions `i` and `i + 1` of `s` both hold white space. */
  predicate SpaceRun(s: string, i: int) {
    0 <= i < |s| - 1 && IsWhiteSpace(s[i]) && IsWhiteSpace(s[i + 1])
  }

  /** A string in the shape `Regex.Replace(s, @"\s+", " ").Trim()` leaves: no white space
      other than single spaces between words. */
  ghost predicate Normalized(s: string) {
    && (forall i :: 0 <= i < |s| && IsWhiteSpace(s[i]) ==> s[i] == ' ')
    && (forall i :: !SpaceRun(s, i))
    && (s == [] || (!IsWhiteSpace(s[0]) && !IsWhiteSpace(s[|s| - 1])))
  }

  /** `Regex.Replace(s, @"\s+", " ").Trim()`. */
  function Squish(s: string): (r: string)
    ensures Normalized(r)
    ensures '\n' !in r
  {
    var c := CollapseWhiteSpace(s);
    TrimKeepsSpacing(c);
    Trim(c)
  }

  lemma TrimKeepsSpacing(c: string)
    requires forall i :: 0 <= i < |c| && IsWhiteSpace(c[i]) ==> c[i] == ' '
    requires forall i :: !SpaceRun(c, i)
    ensures Normalized(Trim(c)) && '\n' !in Trim(c)
  {
    var r := Trim(c);
    var k := TrimIsSlice(c);
    assert forall i :: 0 <= i < |r| ==> r[i] == c[k + i];
    forall i ensures !SpaceRun(r, i) {
      assert SpaceRun(r, i) ==> SpaceRun(c, k + i);
    }
    assert forall i :: 0 <= i < |r| ==> r[i] != '\n' by {
      forall i | 0 <= i < |r| ensures r[i] != '\n' {
        assert r[i] == c[k + i];
        assert IsWhiteSpace('\n');
      }
    }
  }

  /** Squishing text that is already in that shape changes nothing. */
  lemma {:induction false} CollapseNoop(s: string)
    requires forall i :: 0 <= i < |s| && IsWhiteSpace(s[i]) ==> s[i] == ' '
    requires forall i :: !SpaceRun(s, i)
    ensures CollapseWhiteSpace(s) == s
    decreases |s|
  {
    if s != [] {
      if IsWhiteSpace(s[0]) {
        assert TrimStartOf(s, WhiteSpace) == s[1..] by {
          assert !SpaceRun(s, 0);
        }
      }
      forall i ensures !SpaceRun(s[1..], i) {
        assert SpaceRun(s[1..], i) ==> SpaceRun(s, i + 1);
      }
      CollapseNoop(s[1..]);
    }
  }

  lemma SquishNoop(s: string)
    requires Normalized(s)
    ensures Squish(s) == s
  {
    CollapseNoop(s);
    TrimNoop(s, WhiteSpace);
  }

  /** The regex replacement `c+` → `c` (`[ ]+` → `" "`, `-+` → `"-"`): every run of `c`
      becomes a single `c`. */
  function CollapseRuns(s: string, c: char): (r: string)
    ensures |r| <= |s|
    ensures r == [] <==> s == []
    ensures r != [] ==> (r[0] == c <==> s[0] == c)
    ensures r != [] ==> (r[|r| - 1] == c <==> s[|s| - 1] == c)
    ensures forall i :: 0 <= i < |r| - 1 ==> !(r[i] == c && r[i + 1] == c)
    ensures forall x :: x in r ==> x in s
    decreases |s|
  {
    if s == [] then []
    else if s[0] == c then
      var t := TrimStartOf(s, {c});
      assert t != [] ==> t[|t| - 1] == s[|s| - 1];
      [c] + CollapseRuns(t, c)
    else [s[0]] + CollapseRuns(s[1..], c)
  }

  /** Text without two `c` in a row is left as it is. */
  lemma {:induction false} CollapseRunsNoop(s: string, c: char)
    requires forall i :: 0 <= i < |s| - 1 ==> !(s[i] == c && s[i + 1] == c)
    ensures CollapseRuns(s, c) == s
    decreases |s|
  {
    if s != [] {
      var t := s[1..];
      forall i | 0 <= i < |t| - 1 ensures !(t[i] == c && t[i + 1] == c) {
        assert t[i] == s[i + 1] && t[i + 1] == s[i + 2];
      }
      CollapseRunsNoop(t, c);
      if s[0] == c {
        assert t == [] || t[0] != c by {
          assert |s| == 1 || !(s[0] == c && s[1] == c);
        }
        assert TrimStartOf(t, {c}) == t;
        assert TrimStartOf(s, {c}) == t;
      }
    }
  }

  // ---------------------------------------------------------------------------
  // Searching
  // ---------------------------------------------------------------------------

  /** `s.IndexOf(c)`: the first position of `c`, or -1. */
  function IndexOf(s: string, c: char): (r: int)
    ensures -1 <= r < |s|
    ensures r >= 0 ==> s[r] == c && c !in s[..r]
    ensures r == -1 <==> c !in s
  {
    if s == [] then -1
    else if s[0] == c then 0
    else var k := IndexOf(s[1..], c); if k < 0 then -1 else k + 1
  }

  /** `s.LastIndexOf(c, start)`: the last position at or before `start` holding `c`, or -1. */
  function LastIndexOf(s: string, c: char, start: nat): (r: int)
    requires start < |s|
    ensures -1 <= r <= start
    ensures r >= 0 ==> s[r] == c
    ensures forall k :: r < k <= start ==> s[k] != c
    decreases start
  {
    if s[start] == c then start
    else if start == 0 then -1
    else LastIndexOf(s, c, start - 1)
  }

  /** `s.Replace(pat, rep)`: leftmost, non-overlapping occurrences, scanned left to right. */
  function Replace(s: string, pat: string, rep: string): string
    requires pat != []
    decreases |s|
  {
    if |s| < |pat| then s
    else if s[..|pat|] == pat then rep + Replace(s[|pat|..], pat, rep)
    else [s[0]] + Replace(s[1..], pat, rep)
  }

  /** A pattern that does not occur leaves the text as it is. */
  lemma {:induction false} ReplaceAbsent(s: string, pat: string, rep: string)
    requires pat != []
    requires !Contains(s, pat)
    ensures Replace(s, pat, rep) == s
    decreases |s|
  {
    if |s| >= |pat| {
      assert !OccursAt(s, pat, 0);
      assert s[0..|pat|] == s[..|pat|];
      forall i | 0 <= i <= |s| - 1 - |pat| ensures !OccursAt(s[1..], pat, i) {
        assert s[1..][i..i + |pat|] == s[i + 1..i + 1 + |pat|];
        assert !OccursAt(s, pat, i + 1);
      }
      ReplaceAbsent(s[1..], pat, rep);
      assert [s[0]] + s[1..] == s;
    }
  }

  /** A text holding the pattern exactly once, where no earlier occurrence can overlap it:
      that one occurrence is replaced and the rest is kept. An earlier overlapping
      occurrence is ruled out when the pattern's first character does not recur in it, or
      when its second character differs from its first and does not occur before it. */
  lemma {:induction false} ReplaceSingle(x: string, pat: string, rep: string, y: string)
    requires pat != []
    requires pat[0] !in pat[1..] || (1 < |pat| && pat[1] != pat[0] && pat[1] !in x)
    requires !Contains(x, pat) && !Contains(y, pat)
    ensures Replace(x + pat + y, pat, rep) == x + rep + y
    decreases |x|
  {
    var s := x + pat + y;
    if x == [] {
      assert s[..|pat|] == pat;
      assert s[|pat|..] == y;
      ReplaceAbsent(y, pat, rep);
    } else {
      assert s[..|pat|] != pat by {
        if |x| >= |pat| {
          assert x[0..|pat|] == s[..|pat|];
          assert !OccursAt(x, pat, 0);
        } else if pat[0] !in pat[1..] {
          var k := |x|;
          assert pat[1..][k - 1] == pat[k];
          assert s[..|pat|][k] == pat[0] != pat[k];
        } else if |x| == 1 {
          assert s[..|pat|][1] == pat[0] != pat[1];
        } else {
          assert s[..|pat|][1] == x[1] != pat[1];
        }
      }
      assert !Contains(x[1..], pat) by {
        forall i | 0 <= i <= |x| - 1 - |pat| ensures !OccursAt(x[1..], pat, i) {
          assert x[1..][i..i + |pat|] == x[i + 1..i + 1 + |pat|];
          assert !OccursAt(x, pat, i + 1);
        }
      }
      assert pat[0] in pat[1..] ==> pat[1] !in x[1..];
      ReplaceSingle(x[1..], pat, rep, y);
      assert s[1..] == x[1..] + pat + y;
      assert [s[0]] + (x[1..] + rep + y) == x + rep + y;
    }
  }

  /** Putting `m` between two texts that lack the pattern creates no occurrence, as long as
      the pattern cannot start inside `m` and cannot run from a non-empty `x` into `m`:
      `m[0]` is not in the rest of the pattern, or the pattern's last character is not in
      `m` and some character `m[w]` is not in the pattern. */
  lemma NoNewOccurrence(x: string, m: string, y: string, pat: string, w: int)
    requires pat != [] && m != []
    requires !Contains(x, pat) && !Contains(y, pat)
    requires pat[0] !in m[1..]
    requires m[0] == pat[0] ==> !OccursAt(m + y, pat, 0)
    requires x == [] || m[0] !in pat[1..] || (pat[|pat| - 1] !in m && 0 <= w < |m| && m[w] !in pat)
    ensures !Contains(x + m + y, pat)
  {
    var s := x + m + y;
    forall i | 0 <= i <= |s| - |pat| ensures !OccursAt(s, pat, i) {
      if i + |pat| <= |x| {
        assert s[i..i + |pat|] == x[i..i + |pat|];
        assert !OccursAt(x, pat, i);
      } else if i < |x| {
        var k := |x| - i;
        if m[0] !in pat[1..] {
          assert pat[1..][k - 1] == pat[k];
          assert s[i..i + |pat|][k] == m[0] != pat[k];
        } else if i + |pat| > |x| + |m| {
          assert s[i..i + |pat|][|x| + w - i] == m[w] != pat[|x| + w - i];
        } else {
          assert s[i..i + |pat|][|pat| - 1] == m[i + |pat| - 1 - |x|] != pat[|pat| - 1];
        }
      } else if i == |x| {
        assert s[i..i + |pat|] == (m + y)[0..|pat|];
      } else if i < |x| + |m| {
        assert m[1..][i - |x| - 1] == m[i - |x|];
        assert s[i..i + |pat|][0] == m[i - |x|] != pat[0];
      } else {
        var j := i - |x| - |m|;
        assert s[i..i + |pat|] == y[j..j + |pat|];
        assert !OccursAt(y, pat, j);
      }
    }
  }

  /** `Replace` keeps `x + m + y` when `NoNewOccurrence` shows the pattern is absent. */
  lemma ReplaceAbsentAround(x: string, m: string, y: string, pat: string, rep: string, w: int)
    requires pat != [] && m != []
    requires !Contains(x, pat) && !Contains(y, pat)
    requires pat[0] !in m[1..]
    requires m[0] == pat[0] ==> !OccursAt(m + y, pat, 0)
    requires x == [] || m[0] !in pat[1..] || (pat[|pat| - 1] !in m && 0 <= w < |m| && m[w] !in pat)
    ensures Replace(x + m + y, pat, rep) == x + m + y
  {
    NoNewOccurrence(x, m, y, pat, w);
    ReplaceAbsent(x + m + y, pat, rep);
  }

  /** No `c1` immediately followed by `c2`. */
  predicate NoPair(s: string, c1: char, c2: char) {
    forall i :: 0 <= i < |s| - 1 ==> !(s[i] == c1 && s[i + 1] == c2)
  }

  /** Two texts without the pair, joined where they do not form it, still lack it. */
  lemma NoPairConcat(x: string, y: string, c1: char, c2: char)
    requires NoPair(x, c1, c2) && NoPair(y, c1, c2)
    requires x == [] || y == [] || !(x[|x| - 1] == c1 && y[0] == c2)
    ensures NoPair(x + y, c1, c2)
  {
    var s := x + y;
    forall i | 0 <= i < |s| - 1 ensures !(s[i] == c1 && s[i + 1] == c2) {
      if i + 1 < |x| {
        assert s[i] == x[i] && s[i + 1] == x[i + 1];
      } else if i >= |x| {
        assert s[i] == y[i - |x|] && s[i + 1] == y[i + 1 - |x|];
      }
    }
  }

  /** Replacing a single character `c` with a text: the image is the character-wise substitution. */
  lemma {:induction false} ReplaceCharAt(s: string, c: char, rep: string)
    ensures Replace(s, [c], rep) == if s == [] then [] else (if s[0] == c then rep else [s[0]]) + Replace(s[1..], [c], rep)
  {
    if s != [] {
      assert s[..1] == [s[0]];
    }
  }

  // ---------------------------------------------------------------------------
  // Splitting and joining
  // ---------------------------------------------------------------------------

  /** Replacing a single character distributes over concatenation. */
  lemma {:induction false} ReplaceCharConcat(x: string, y: string, c: char, rep: string)
    ensures Replace(x + y, [c], rep) == Replace(x, [c], rep) + Replace(y, [c], rep)
  {
    if x != [] {
      ReplaceCharAt(x + y, c, rep);
      ReplaceCharAt(x, c, rep);
      assert (x + y)[1..] == x[1..] + y;
      ReplaceCharConcat(x[1..], y, c, rep);
    } else {
      assert x + y == y;
    }
  }

  /** `string.Join(sep, xs)`. */
  function Join(sep: string, xs: seq<string>): string {
    if xs == [] then ""
    else if |xs| == 1 then xs[0]
    else xs[0] + sep + Join(sep, xs[1..])
  }

  /** `s.Split(c)`: the pieces between occurrences of `c`, empty pieces included. */
  function SplitChar(s: string, c: char): (r: seq<string>)
    ensures |r| >= 1
    ensures forall i :: 0 <= i < |r| ==> c !in r[i]
    decreases |s|
  {
    var k := IndexOf(s, c);
    if k < 0 then [s] else [s[..k]] + SplitChar(s[k + 1..], c)
  }

  /** The first piece of `s.Split(c)` is the text before the first `c`. */
  lemma FirstPiece(s: string, c: char)
    ensures SplitChar(s, c)[0] == if c in s then s[..IndexOf(s, c)] else s
  {
  }

  /** `StringSplitOptions.RemoveEmptyEntries`. */
  function RemoveEmpty(xs: seq<string>): (r: seq<string>)
    ensures forall i :: 0 <= i < |r| ==> r[i] != []
    ensures forall x :: x in r ==> x in xs
    ensures |r| <= |xs|
  {
    if xs == [] then []
    else if xs[0] == [] then RemoveEmpty(xs[1..])
    else [xs[0]] + RemoveEmpty(xs[1..])
  }

  lemma {:induction false} SplitJoinPrefix(x: string, rest: string, c: char)
    requires c !in x
    ensures SplitChar(x + [c] + rest, c) == [x] + SplitChar(rest, c)
  {
    var s := x + [c] + rest;
    var k := IndexOf(s, c);
    assert s[|x|] == c;
    assert c !in s[..|x|] by { assert s[..|x|] == x; }
    assert k == |x| by {
      assert forall j :: 0 <= j < |x| ==> s[j] == x[j];
    }
    assert s[..k] == x;
    assert s[k + 1..] == rest;
  }

  /** Joining newline-free, non-empty items with `c` and splitting on `c` with empty
      entries removed gives the items back. */
  lemma {:induction false} SplitJoinRoundTrip(xs: seq<string>, c: char)
    requires forall i :: 0 <= i < |xs| ==> xs[i] != [] && c !in xs[i]
    ensures RemoveEmpty(SplitChar(Join([c], xs), c)) == xs
  {
    if xs == [] {
      assert SplitChar("", c) == [""];
    } else if |xs| == 1 {
      assert SplitChar(xs[0], c) == [xs[0]];
      assert RemoveEmpty([xs[0]]) == [xs[0]] + RemoveEmpty([]);
    } else {
      SplitJoinPrefix(xs[0], Join([c], xs[1..]), c);
      assert Join([c], xs) == xs[0] + [c] + Join([c], xs[1..]);
      SplitJoinRoundTrip(xs[1..], c);
      assert [xs[0]] + xs[1..] == xs;
    }
  }

  // ---------------------------------------------------------------------------
  // Numbers
  // ---------------------------------------------------------------------------

  const Int32Min: int := -0x8000_0000
  const Int32Max: int := 0x7FFF_FFFF

  predicate AllDigits(s: string) {
    forall i :: 0 <= i < |s| ==> IsDigit(s[i])
  }

  /** The value of a run of decimal digits (most significant first). */
  function DigitsValue(ds: string): nat
    requires AllDigits(ds)
  {
    if ds == [] then 0
    else DigitsValue(ds[..|ds| - 1]) * 10 + (ds[|ds| - 1] as int - '0' as int)
  }

  function DigitChar(d: nat): (c: char)
    requires d < 10
    ensures IsDigit(c) && c as int - '0' as int == d
  {
    ('0' as int + d) as char
  }

  /** The decimal representation of `n` without leading zeros. */
  function NatToString(n: nat): (r: string)
    ensures r != [] && AllDigits(r)
    ensures n >= 10 ==> |r| >= 2
  {
    if n < 10 then [DigitChar(n)] else NatToString(n / 10) + [DigitChar(n % 10)]
  }

  lemma {:induction false} DigitsValueOfNatToString(n: nat)
    ensures DigitsValue(NatToString(n)) == n
  {
    var r := NatToString(n);
    if n >= 10 {
      DigitsValueOfNatToString(n / 10);
      assert r[..|r| - 1] == NatToString(n / 10);
    }
  }

  /** `int.TryParse` on a token without surrounding white space: an optional sign, then one
      or more ASCII digits, with a value that fits in 32 bits. */
  function ParseInt32(s: string): (r: Option<int>)
    ensures r.Some? ==> Int32Min <= r.value <= Int32Max
    ensures r.Some? ==> s != [] && (IsDigit(s[0]) || s[0] == '-' || s[0] == '+')
  {
    if s == [] then None
    else
      var body := if s[0] == '-' || s[0] == '+' then s[1..] else s;
      if body == [] || !AllDigits(body) then None
      else
        var v: int := if s[0] == '-' then -(DigitsValue(body) as int) else DigitsValue(body);
        if Int32Min <= v <= Int32Max then Some(v) else None
  }

  /** Printing a non-negative 32-bit value and parsing it back gives the value. */
  lemma ParseInt32OfNatToString(n: nat)
    requires n <= Int32Max
    ensures ParseInt32(NatToString(n)) == Some(n)
  {
    DigitsValueOfNatToString(n);
    var s := NatToString(n);
    assert IsDigit(s[0]);
  }

  /** The custom numeric format `"0…0"` with `width` zeros: at least `width` digits,
      padded with leading zeros, a minus sign in front of negative values. */
  function FormatPadded(n: int, width: nat): (r: string)
    ensures n >= 0 ==> |r| >= width && AllDigits(r)
  {
    if n < 0 then "-" + ZeroPad(NatToString(-n), width)
    else ZeroPad(NatToString(n), width)
  }

  function ZeroPad(s: string, width: nat): (r: string)
    ensures |r| == if |s| >= width then |s| else width
    ensures r[|r| - |s|..] == s
    ensures forall i :: 0 <= i < |r| - |s| ==> r[i] == '0'
    decreases width - |s|
  {
    if |s| >= width then s else ZeroPad("0" + s, width)
  }
}

=== FILE: time_format.dfy ===
/** `TimeFormatHelper.FormatTimeAgo`: how long ago the menu cache was refreshed, for
    the status page. The current time is a parameter instead of a clock reading. */
module TimeFormatHelper {
  import opened Text
  import opened Dates

  /** C#'s integer cast of a quotient: division that rounds toward zero. */
  function TruncDiv(a: int, b: int): (q: int)
    requires b > 0
    ensures a >= 0 ==> q == a / b
    ensures a < 0 ==> q <= 0 && b * q >= a && b * q - a < b
  {
    if a >= 0 then a / b else -((-a) / b)
  }

  /** The pieces `FormatTimeAgo` prints, one variant per branch of the source. */
  datatype TimeAgo =
    | Seconds(seconds: int)
    | MinutesSeconds(minutes: int, seconds: int)
    | HoursMinutesSeconds(hours: int, minutes: int, seconds: int)
    | DaysHoursMinutesSeconds(days: int, hours: int, minutes: int, seconds: int)
    | Absolute

  /** The whole seconds in `elapsed` ticks, rounded toward zero as `(int)TotalSeconds` does. */
  function WholeSeconds(elapsed: int): int {
    TruncDiv(elapsed, TicksPerSecond)
  }

  /** Splits an elapsed time (in ticks) the way `FormatTimeAgo` does: each variant's
      fields add back up to the whole seconds elapsed, and the fields below the leading
      one are within their clock ranges. */
  function Breakdown(elapsed: int): (t: TimeAgo)
    ensures elapsed < 60 * TicksPerSecond <==> t.Seconds?
    ensures t.Seconds? ==> t.seconds == WholeSeconds(elapsed) && t.seconds < 60
    ensures t.MinutesSeconds? ==>
      && 60 * TicksPerSecond <= elapsed < 60 * TicksPerMinute
      && 1 <= t.minutes < 60 && 0 <= t.seconds < 60
      && t.minutes * 60 + t.seconds == WholeSeconds(elapsed)
    ensures t.HoursMinutesSeconds? ==>
      && 60 * TicksPerMinute <= elapsed < 24 * TicksPerHour
      && 1 <= t.hours < 24 && 0 <= t.minutes < 60 && 0 <= t.seconds < 60
      && (t.hours * 60 + t.minutes) * 60 + t.seconds == WholeSeconds(elapsed)
    ensures t.DaysHoursMinutesSeconds? ==>
      && 24 * TicksPerHour <= elapsed < 7 * TicksPerDay
      && 1 <= t.days < 7 && 0 <= t.hours < 24 && 0 <= t.minutes < 60 && 0 <= t.seconds < 60
      && ((t.days * 24 + t.hours) * 60 + t.minutes) * 60 + t.seconds == WholeSeconds(elapsed)
    ensures t.Absolute? <==> elapsed >= 7 * TicksPerDay
  {
    var s := WholeSeconds(elapsed);
    if elapsed < 60 * TicksPerSecond then Seconds(s)
    else
    CoarserUnits(elapsed);
    if elapsed < 60 * TicksPerMinute then MinutesSeconds(elapsed / TicksPerMinute, s % 60)
    else if elapsed < 24 * TicksPerHour then
      HoursMinutesSeconds(elapsed / TicksPerHour, (elapsed / TicksPerMinute) % 60, s % 60)
    else if elapsed < 7 * TicksPerDay then
      DaysHoursMinutesSeconds(elapsed / TicksPerDay, (elapsed / TicksPerHour) % 24,
        (elapsed / TicksPerMinute) % 60, s % 60)
    else Absolute
  }

  /** Minutes, hours and days of a non-negative tick count, counted from its whole seconds. */
  lemma CoarserUnits(e: int)
    requires e >= 0
    ensures e / TicksPerMinute == (e / TicksPerSecond) / 60
    ensures e / TicksPerHour == (e / TicksPerSecond) / 3600
    ensures e / TicksPerDay == (e / TicksPerSecond) / 86400
    ensures (e / TicksPerSecond) / 3600 == ((e / TicksPerSecond) / 60) / 60
    ensures (e / TicksPerSecond) / 86400 == ((e / TicksPerSecond) / 3600) / 24
  {
  }

  const MonthNames: seq<string> :=
    ["Jan", "Feb", "Mar", "Apr", "May", "Jun", "Jul", "Aug", "Sep", "Oct", "Nov", "Dec"]

  /** `pastTime.ToString("MMM d, yyyy 'at' h:mm:ss tt")` in the invariant culture. */
  function FormatAbsolute(t: DateTime): (r: string)
    requires ValidDateTime(t)
    ensures EndsWith(r, " AM") || EndsWith(r, " PM")
  {
    var hour := t.timeOfDay / TicksPerHour;
    var ampm := if hour < 12 then " AM" else " PM";
    var r := DatePart(t.date) + " at " + ClockPart(t.timeOfDay) + ampm;
    assert r[|r| - 3..] == ampm;
    r
  }

  /** `MMM d, yyyy`. */
  function DatePart(d: Date): string
    requires 1 <= d.month <= 12 && d.day >= 1
  {
    MonthNames[d.month - 1] + " " + NatToString(d.day) + ", " + FormatPadded(d.year, 4)
  }

  /** `h:mm:ss` on the twelve-hour clock. */
  function ClockPart(timeOfDay: int): string
    requires 0 <= timeOfDay
  {
    var hour := timeOfDay / TicksPerHour;
    var minute := (timeOfDay / TicksPerMinute) % 60;
    var second := (timeOfDay / TicksPerSecond) % 60;
    var h12 := if hour % 12 == 0 then 12 else hour % 12;
    NatToString(h12) + ":" + FormatPadded(minute, 2) + ":" + FormatPadded(second, 2)
  }

  /** The text `FormatTimeAgo` returns for a breakdown. */
  function Render(t: TimeAgo, pastTime: DateTime): (r: string)
    requires ValidDateTime(pastTime)
    ensures !t.Absolute? ==> EndsWith(r, " ago")
  {
    match t
    case Seconds(s) => Ago(FormatPadded(s, 2) + " seconds")
    case MinutesSeconds(m, s) => Ago(FormatPadded(m, 2) + "m " + FormatPadded(s, 2) + "s")
    case HoursMinutesSeconds(h, m, s) =>
      Ago(FormatPadded(h, 2) + "h " + FormatPadded(m, 2) + "m " + FormatPadded(s, 2) + "s")
    case DaysHoursMinutesSeconds(d, h, m, s) =>
      Ago(FormatPadded(d, 0) + "d " + FormatPadded(h, 2) + "h " + FormatPadded(m, 2) + "m " + FormatPadded(s, 2) + "s")
    case Absolute => FormatAbsolute(pastTime)
  }

  function Ago(s: string): (r: string)
    ensures EndsWith(r, " ago")
  {
    var r := s + " ago";
    assert r[|r| - 4..] == " ago";
    r
  }

  /** `FormatTimeAgo(pastTime)` when the clock reads `now`. */
  function FormatTimeAgo(now: DateTime, pastTime: DateTime): (r: string)
    requires ValidDateTime(pastTime)
    ensures Ticks(now) - Ticks(pastTime) >= 7 * TicksPerDay ==> r == FormatAbsolute(pastTime)
  {
    TimeAgoText(Ticks(now) - Ticks(pastTime), pastTime)
  }

  /** The text for a time `elapsed` ticks in the past. */
  function TimeAgoText(elapsed: int, pastTime: DateTime): (r: string)
    requires ValidDateTime(pastTime)
    ensures elapsed >= 7 * TicksPerDay ==> r == FormatAbsolute(pastTime)
  {
    Render(Breakdown(elapsed), pastTime)
  }

  /** Under a minute (or for a time in the future): the whole seconds, as "SS seconds ago". */
  lemma FormatTimeAgoSeconds(now: DateTime, pastTime: DateTime, elapsed: int)
    requires ValidDateTime(pastTime) && elapsed == Ticks(now) - Ticks(pastTime)
    requires elapsed < 60 * TicksPerSecond
    ensures FormatTimeAgo(now, pastTime) == FormatPadded(WholeSeconds(elapsed), 2) + " seconds ago"
  {
    FormatTimeAgoElapsed(now, pastTime, elapsed);
    TextSeconds(elapsed, pastTime);
  }

  /** Under an hour: the whole seconds `w` as "MMm SSs ago". */
  lemma FormatTimeAgoMinutes(now: DateTime, pastTime: DateTime, elapsed: int)
    requires ValidDateTime(pastTime) && elapsed == Ticks(now) - Ticks(pastTime)
    requires 60 * TicksPerSecond <= elapsed < 60 * TicksPerMinute
    ensures var w := WholeSeconds(elapsed);
      FormatTimeAgo(now, pastTime) == FormatPadded(w / 60, 2) + "m " + FormatPadded(w % 60, 2) + "s ago"
  {
    FormatTimeAgoElapsed(now, pastTime, elapsed);
    TextMinutes(elapsed, pastTime);
  }

  /** Under a day: the whole seconds `w` as "HHh MMm SSs ago". */
  lemma FormatTimeAgoHours(now: DateTime, pastTime: DateTime, elapsed: int)
    requires ValidDateTime(pastTime) && elapsed == Ticks(now) - Ticks(pastTime)
    requires 60 * TicksPerMinute <= elapsed < 24 * TicksPerHour
    ensures var w := WholeSeconds(elapsed);
      FormatTimeAgo(now, pastTime) ==
        FormatPadded(w / 3600, 2) + "h " + FormatPadded((w / 60) % 60, 2) + "m " + FormatPadded(w % 60, 2) + "s ago"
  {
    FormatTimeAgoElapsed(now, pastTime, elapsed);
    TextHours(elapsed, pastTime);
  }

  /** Under seven days: the whole seconds `w` as "Dd HHh MMm SSs ago", the day count unpadded. */
  lemma FormatTimeAgoDays(now: DateTime, pastTime: DateTime, elapsed: int)
    requires ValidDateTime(pastTime) && elapsed == Ticks(now) - Ticks(pastTime)
    requires 24 * TicksPerHour <= elapsed < 7 * TicksPerDay
    ensures var w := WholeSeconds(elapsed);
      FormatTimeAgo(now, pastTime) ==
        NatToString(w / 86400) + "d " + FormatPadded((w / 3600) % 24, 2) + "h "
          + FormatPadded((w / 60) % 60, 2) + "m " + FormatPadded(w % 60, 2) + "s ago"
  {
    FormatTimeAgoElapsed(now, pastTime, elapsed);
    TextDays(elapsed, pastTime);
  }

  /** Under seven days the text is a relative one, ending in " ago". */
  lemma FormatTimeAgoRelative(now: DateTime, pastTime: DateTime)
    requires ValidDateTime(pastTime)
    requires Ticks(now) - Ticks(pastTime) < 7 * TicksPerDay
    ensures EndsWith(FormatTimeAgo(now, pastTime), " ago")
  {
    FormatTimeAgoElapsed(now, pastTime, Ticks(now) - Ticks(pastTime));
  }

  lemma FormatTimeAgoElapsed(now: DateTime, pastTime: DateTime, elapsed: int)
    requires ValidDateTime(pastTime) && elapsed == Ticks(now) - Ticks(pastTime)
    ensures FormatTimeAgo(now, pastTime) == Render(Breakdown(elapsed), pastTime)
  {
    assert FormatTimeAgo(now, pastTime) == TimeAgoText(elapsed, pastTime);
  }

  lemma TextSeconds(e: int, pastTime: DateTime)
    requires ValidDateTime(pastTime)
    requires e < 60 * TicksPerSecond
    ensures Render(Breakdown(e), pastTime) == FormatPadded(WholeSeconds(e), 2) + " seconds ago"
  {
    assert Breakdown(e) == Seconds(WholeSeconds(e));
    RenderSeconds(WholeSeconds(e), pastTime);
  }

  lemma TextMinutes(e: int, pastTime: DateTime)
    requires ValidDateTime(pastTime)
    requires 60 * TicksPerSecond <= e < 60 * TicksPerMinute
    ensures var w := WholeSeconds(e);
      Render(Breakdown(e), pastTime) == FormatPadded(w / 60, 2) + "m " + FormatPadded(w % 60, 2) + "s ago"
  {
    var w := WholeSeconds(e);
    BreakdownMinutes(e);
    RenderMinutes(w / 60, w % 60, pastTime);
  }

  lemma TextHours(e: int, pastTime: DateTime)
    requires ValidDateTime(pastTime)
    requires 60 * TicksPerMinute <= e < 24 * TicksPerHour
    ensures var w := WholeSeconds(e);
      Render(Breakdown(e), pastTime) ==
        FormatPadded(w / 3600, 2) + "h " + FormatPadded((w / 60) % 60, 2) + "m " + FormatPadded(w % 60, 2) + "s ago"
  {
    var w := WholeSeconds(e);
    BreakdownHours(e);
    RenderHours(w / 3600, (w / 60) % 60, w % 60, pastTime);
  }

  lemma TextDays(e: int, pastTime: DateTime)
    requires ValidDateTime(pastTime)
    requires 24 * TicksPerHour <= e < 7 * TicksPerDay
    ensures var w := WholeSeconds(e);
      Render(Breakdown(e), pastTime) ==
        NatToString(w / 86400) + "d " + FormatPadded((w / 3600) % 24, 2) + "h "
          + FormatPadded((w / 60) % 60, 2) + "m " + FormatPadded(w % 60, 2) + "s ago"
  {
    var w := WholeSeconds(e);
    BreakdownDays(e);
    RenderDays(w / 86400, (w / 3600) % 24, (w / 60) % 60, w % 60, pastTime);
  }

  lemma BreakdownMinutes(e: int)
    requires 60 * TicksPerSecond <= e < 60 * TicksPerMinute
    ensures var w := WholeSeconds(e); Breakdown(e) == MinutesSeconds(w / 60, w % 60)
  {
    CoarserUnits(e);
  }

  lemma BreakdownHours(e: int)
    requires 60 * TicksPerMinute <= e < 24 * TicksPerHour
    ensures var w := WholeSeconds(e); Breakdown(e) == HoursMinutesSeconds(w / 3600, (w / 60) % 60, w % 60)
  {
    CoarserUnits(e);
  }

  lemma BreakdownDays(e: int)
    requires 24 * TicksPerHour <= e < 7 * TicksPerDay
    ensures var w := WholeSeconds(e);
      Breakdown(e) == DaysHoursMinutesSeconds(w / 86400, (w / 3600) % 24, (w / 60) % 60, w % 60)
  {
    CoarserUnits(e);
  }

  lemma RenderSeconds(s: int, pastTime: DateTime)
    requires ValidDateTime(pastTime)
    ensures Render(Seconds(s), pastTime) == FormatPadded(s, 2) + " seconds ago"
  {
    var x := FormatPadded(s, 2);
    assert Render(Seconds(s), pastTime) == Ago(x + " seconds");
    AgoAfterSecondsWord(x);
  }

  lemma RenderMinutes(m: int, s: int, pastTime: DateTime)
    requires ValidDateTime(pastTime)
    ensures Render(MinutesSeconds(m, s), pastTime) == FormatPadded(m, 2) + "m " + FormatPadded(s, 2) + "s ago"
  {
    var x := FormatPadded(m, 2) + "m " + FormatPadded(s, 2);
    assert Render(MinutesSeconds(m, s), pastTime) == Ago(x + "s");
    AgoAfterSeconds(x);
  }

  lemma RenderHours(h: int, m: int, s: int, pastTime: DateTime)
    requires ValidDateTime(pastTime)
    ensures Render(HoursMinutesSeconds(h, m, s), pastTime) ==
      FormatPadded(h, 2) + "h " + FormatPadded(m, 2) + "m " + FormatPadded(s, 2) + "s ago"
  {
    var x := FormatPadded(h, 2) + "h " + FormatPadded(m, 2) + "m " + FormatPadded(s, 2);
    assert Render(HoursMinutesSeconds(h, m, s), pastTime) == Ago(x + "s");
    AgoAfterSeconds(x);
  }

  lemma RenderDays(d: nat, h: int, m: int, s: int, pastTime: DateTime)
    requires ValidDateTime(pastTime)
    ensures Render(DaysHoursMinutesSeconds(d, h, m, s), pastTime) ==
      NatToString(d) + "d " + FormatPadded(h, 2) + "h " + FormatPadded(m, 2) + "m " + FormatPadded(s, 2) + "s ago"
  {
    UnpaddedDays(d);
    var x := NatToString(d) + "d " + FormatPadded(h, 2) + "h " + FormatPadded(m, 2) + "m " + FormatPadded(s, 2);
    assert Render(DaysHoursMinutesSeconds(d, h, m, s), pastTime) == Ago(x + "s");
    AgoAfterSeconds(x);
  }

  /** `{days}` prints the day count with no padding. */
  lemma UnpaddedDays(d: nat)
    ensures FormatPadded(d, 0) == NatToString(d)
  {
    var z := ZeroPad(NatToString(d), 0);
    assert z == z[|z| - |NatToString(d)|..];
  }

  lemma AgoAfterSecondsWord(x: string)
    ensures Ago(x + " seconds") == x + " seconds ago"
  {
    assert " seconds" + " ago" == " seconds ago";
    assert x + " seconds" + " ago" == x + (" seconds" + " ago");
  }

  lemma AgoAfterSeconds(x: string)
    ensures Ago(x + "s") == x + "s ago"
  {
    assert "s" + " ago" == "s ago";
    assert x + "s" + " ago" == x + ("s" + " ago");
  }

  /** Up to seven days back, every field but the day count is printed with two digits. */
  lemma TwoDigitFields(elapsed: int)
    requires 0 <= elapsed < 7 * TicksPerDay
    ensures var t := Breakdown(elapsed);
      && (t.Seconds? ==> |FormatPadded(t.seconds, 2)| == 2)
      && (t.MinutesSeconds? ==> |FormatPadded(t.minutes, 2)| == 2 && |FormatPadded(t.seconds, 2)| == 2)
      && (t.HoursMinutesSeconds? ==>
            |FormatPadded(t.hours, 2)| == 2 && |FormatPadded(t.minutes, 2)| == 2 && |FormatPadded(t.seconds, 2)| == 2)
      && (t.DaysHoursMinutesSeconds? ==>
            |FormatPadded(t.hours, 2)| == 2 && |FormatPadded(t.minutes, 2)| == 2 && |FormatPadded(t.seconds, 2)| == 2)
  {
    var t := Breakdown(elapsed);
    assert Pow10(2) == 100;
    match t
    case Seconds(s) => PaddedLength(s, 2);
    case MinutesSeconds(m, s) => PaddedLength(m, 2); PaddedLength(s, 2);
    case HoursMinutesSeconds(h, m, s) => PaddedLength(h, 2); PaddedLength(m, 2); PaddedLength(s, 2);
    case DaysHoursMinutesSeconds(d, h, m, s) => PaddedLength(h, 2); PaddedLength(m, 2); PaddedLength(s, 2);
    case Absolute =>
  }
}

=== FILE: web_calendar.dfy ===
/**
 * The older calendar builder of the web project (`Meyers.Web/Services/CalendarService.cs`):
 * the same section split, prefix stripping and punctuation stripping as the current one,
 * a different length rule, and events without menu-type UIDs, alarms or formatted
 * descriptions.
 */
module WebCalendarService {
  import opened Wrappers
  import opened Text
  import opened Html
  import opened Dates
  import opened Models
  import opened CalendarService

  // ---------------------------------------------------------------------------
  // CleanupTitle
  // ---------------------------------------------------------------------------

  /** The older length rule: the first sentence without any ellipsis, else a cut at a space
      past position 40 with "...", else the title unchanged however long it is. */
  function WebShorten(s: string): (r: string)
    ensures |s| <= MaxTitleLength ==> r == s
  {
    if |s| <= MaxTitleLength then s
    else if 20 < |FirstSentence(s)| < |s| then Trim(FirstSentence(s))
    else
      var breakPoint := LastIndexOf(s, ' ', SearchLimit(s));
      if breakPoint > 40 then Trim(s[..breakPoint]) + "..." else s
  }

  /** The older `CleanupTitle`; `None` where the section split leaves nothing. */
  function WebCleanTitle(title: string): (r: Option<string>)
    ensures title == [] ==> r == Some([])
  {
    if title == [] then Some(title)
    else
      match MainSection(HtmlDecode(title))
      case None => None
      case Some(section) => Some(WebShorten(TitleBody(section)))
  }

  /** `CleanupTitle` as the older code runs it. */
  method WebCleanupTitle(title: string) returns (r: Option<string>)
    ensures r == WebCleanTitle(title)
  {
    if title == [] {
      return Some(title);
    }
    var cleanTitle := HtmlDecode(title);
    var sections := RemoveEmpty(SplitSections(cleanTitle));
    if sections == [] {
      assert MainSection(cleanTitle).None?;
      return None;
    }
    assert MainSection(cleanTitle) == Some(sections[0]);
    var mainSection := RemovePrefix(sections[0]);
    mainSection := Trim(mainSection);
    mainSection := RemoveLeadingPunctuation(mainSection);
    mainSection := WebShortenTitle(mainSection);
    return Some(mainSection);
  }

  /** The older length rule as the code runs it, with its redundant second length test. */
  method WebShortenTitle(title: string) returns (r: string)
    ensures r == WebShorten(title)
  {
    r := title;
    if |r| > MaxTitleLength {
      var firstSentence := FirstSentence(r);
      if |firstSentence| > 20 && |firstSentence| < |r| {
        r := Trim(firstSentence);
      } else if |r| > MaxTitleLength {
        var breakPoint := LastIndexOf(r, ' ', SearchLimit(r));
        if breakPoint > 40 {
          r := Trim(r[..breakPoint]) + "...";
        }
      }
    }
  }

  /** In the first-sentence case the older rule drops the ellipsis the current rule adds
      when text follows the full stop; the sentence itself is the same. */
  lemma SentenceWithoutEllipsis(s: string)
    requires |s| > MaxTitleLength && 20 < |FirstSentence(s)| < |s|
    ensures '.' !in WebShorten(s)
    ensures Shorten(s) == WebShorten(s) + (if TextAfter(s, |FirstSentence(s)|) then "..." else "")
  {
    var f := FirstSentence(s);
    FirstSentenceBranch(s);
    assert WebShorten(s) == Trim(f);
    TrimKeepsOut(f, '.');
  }

  /** Trimming adds no character. */
  lemma TrimKeepsOut(f: string, c: char)
    requires c !in f
    ensures c !in Trim(f)
  {
    var k := TrimIsSlice(f);
    assert forall i :: 0 <= i < |Trim(f)| ==> Trim(f)[i] == f[k + i];
  }

  /** A long title with no full stop after position 20 and no space between positions 41
      and 80 comes back unchanged from the older rule, longer than 80 characters, where the
      current rule cuts it to at most 83. */
  lemma LongTitleUncut(s: string)
    requires |s| > MaxTitleLength
    requires forall i :: 20 < i < |s| ==> s[i] != '.'
    requires forall i :: 40 < i <= MaxTitleLength ==> s[i] != ' '
    ensures WebShorten(s) == s && |WebShorten(s)| > MaxTitleLength
    ensures |Shorten(s)| <= MaxTitleLength + 3
  {
    NoSentenceCut(s);
    NoWordBreak(s);
    assert WebShorten(s) == s;
    var n := WordBoundaryCut(s);
  }

  /** Without a full stop after position 20 the first-sentence case does not apply. */
  lemma NoSentenceCut(s: string)
    requires forall i :: 20 < i < |s| ==> s[i] != '.'
    ensures !(20 < |FirstSentence(s)| < |s|)
  {
    var f := FirstSentence(s);
    if |f| < |s| {
      assert s[|f|] == '.';
    }
  }

  /** Without a space between positions 41 and 80 no break point lies past 40. */
  lemma NoWordBreak(s: string)
    requires |s| > MaxTitleLength
    requires forall i :: 40 < i <= MaxTitleLength ==> s[i] != ' '
    ensures LastIndexOf(s, ' ', SearchLimit(s)) <= 40
  {
    var breakPoint := LastIndexOf(s, ' ', SearchLimit(s));
    assert breakPoint >= 0 ==> s[breakPoint] == ' ';
  }

  /** Where the current revision adds no ellipsis, the older revision gives the same title. */
  lemma RevisionsAgree(title: string)
    requires CleanTitle(title).Some? && !EndsWith(CleanTitle(title).value, "...")
    ensures WebCleanTitle(title) == CleanTitle(title)
  {
    if title != [] {
      var b := TitleBody(MainSection(HtmlDecode(title)).value);
      assert CleanTitle(title).value == Shorten(b);
      ShortensAgree(b);
    }
  }

  /** The two length rules agree wherever the current one adds no ellipsis. */
  lemma ShortensAgree(b: string)
    requires !EndsWith(Shorten(b), "...")
    ensures WebShorten(b) == Shorten(b)
  {
    if |b| > MaxTitleLength {
      var f := FirstSentence(b);
      if 20 < |f| < |b| {
        SentenceWithoutEllipsis(b);
        var w := WebShorten(b);
        assert (w + "...")[|w + "..."| - 3..] == "...";
      } else {
        var n := WordBoundaryCut(b);
      }
    }
  }

  // ---------------------------------------------------------------------------
  // GenerateCalendar
  // ---------------------------------------------------------------------------

  /** `meyers-menu-yyyy-MM-dd`: the date alone, whatever the menu type. */
  function WebEventUid(day: MenuDay): string
    requires ValidDate(day.date.date)
  {
    "meyers-menu-" + FormatIsoDate(day.date.date)
  }

  /** Two days share a UID exactly when they share a date; it is the current UID of a day
      without a menu type. */
  lemma WebEventUidDate(a: MenuDay, b: MenuDay)
    requires ValidDate(a.date.date) && ValidDate(b.date.date)
    ensures WebEventUid(a) == WebEventUid(b) <==> a.date.date == b.date.date
    ensures a.menuType == [] ==> WebEventUid(a) == EventUid(a)
  {
    if WebEventUid(a) == WebEventUid(b) {
      UidLayout("meyers-menu-", FormatIsoDate(a.date.date), []);
      UidLayout("meyers-menu-", FormatIsoDate(b.date.date), []);
      FormatIsoDateInjective(a.date.date, b.date.date);
    }
  }

  /** The summary: the older cleaning of the main dish, or the day's name. */
  function WebEventTitle(day: MenuDay): Option<string> {
    if day.mainDish != [] then WebCleanTitle(day.mainDish) else Some("Meyers Menu - " + day.dayName)
  }

  /** The description: the details as they are, or the menu items joined by ", ". */
  function WebEventDescription(day: MenuDay): string {
    if day.mainDish != [] && day.details != [] then day.details else Join(", ", day.menuItems)
  }

  /** The event of one menu day, from 12:00 to 13:00, without alarms; `None` where cleaning
      the main dish fails. */
  function WebEventOf(day: MenuDay): Option<Event>
    requires ValidDate(day.date.date)
  {
    match WebEventTitle(day)
    case None => None
    case Some(title) =>
      Some(Event(WebEventUid(day), title, WebEventDescription(day),
        AddTicks(day.date, 12 * TicksPerHour), AddTicks(day.date, 13 * TicksPerHour), []))
  }

  const WebCalendarName: string := "Meyers Menu Calendar"

  /** The feed the older `GenerateCalendar` builds: one event per day in order, the test
      event without alarm when there is none; `None` when some main dish cannot be cleaned. */
  function WebCalendar(menuDays: seq<MenuDay>, today: DateTime): (r: Option<Feed>)
    requires ValidDays(menuDays)
    ensures r.Some? ==> |r.value.events| == if menuDays == [] then 1 else |menuDays|
    ensures r.None? <==> exists i :: 0 <= i < |menuDays| && WebEventOf(menuDays[i]).None?
  {
    if menuDays == [] then Some(Feed(WebCalendarName, [TestEvent(today, false)]))
    else if forall i | 0 <= i < |menuDays| :: WebEventOf(menuDays[i]).Some? then
      Some(Feed(WebCalendarName,
        seq(|menuDays|, i requires 0 <= i < |menuDays| => WebEventOf(menuDays[i]).value)))
    else None
  }

  /** The older `GenerateCalendar`, up to the serialisation of the feed; `today` stands for
      `DateTime.Today`. */
  method WebGenerateCalendar(menuDays: seq<MenuDay>, today: DateTime) returns (r: Option<Feed>)
    requires ValidDays(menuDays)
    ensures r == WebCalendar(menuDays, today)
  {
    var events: seq<Event> := [];
    if |menuDays| == 0 {
      events := events + [TestEvent(today, false)];
      assert menuDays == [] && events == [TestEvent(today, false)];
      return Some(Feed(WebCalendarName, events));
    }
    for i := 0 to |menuDays|
      invariant |events| == i
      invariant forall j :: 0 <= j < i ==> WebEventOf(menuDays[j]).Some?
      invariant forall j :: 0 <= j < i ==> events[j] == WebEventOf(menuDays[j]).value
    {
      var calendarEvent := MakeWebEvent(menuDays[i]);
      if calendarEvent.None? {
        WebCalendarStops(menuDays, today, i);
        return None;
      }
      WebEventsExtended(menuDays, events, calendarEvent.value);
      events := events + [calendarEvent.value];
    }
    WebCalendarEvents(menuDays, today, events);
    return Some(Feed(WebCalendarName, events));
  }

  /** One pass of the older loop: the event of one menu day. */
  method MakeWebEvent(menuDay: MenuDay) returns (r: Option<Event>)
    requires ValidDate(menuDay.date.date)
    ensures r == WebEventOf(menuDay)
  {
    var title: string;
    var description: string;
    if menuDay.mainDish != [] {
      var cleaned := WebCleanupTitle(menuDay.mainDish);
      if cleaned.None? {
        return None;
      }
      title := cleaned.value;
      description := if menuDay.details != [] then menuDay.details else Join(", ", menuDay.menuItems);
    } else {
      title := "Meyers Menu - " + menuDay.dayName;
      description := Join(", ", menuDay.menuItems);
    }
    assert WebEventTitle(menuDay) == Some(title);
    assert description == WebEventDescription(menuDay);
    return Some(Event(WebEventUid(menuDay), title, description,
      AddTicks(menuDay.date, 12 * TicksPerHour), AddTicks(menuDay.date, 13 * TicksPerHour), []));
  }

  /** A day without an event leaves the whole feed without one. */
  lemma WebCalendarStops(menuDays: seq<MenuDay>, today: DateTime, i: nat)
    requires ValidDays(menuDays) && i < |menuDays| && WebEventOf(menuDays[i]).None?
    ensures WebCalendar(menuDays, today).None?
  {
  }

  /** The events of the first days, followed by the next day's event, are the events of
      one day more. */
  lemma WebEventsExtended(menuDays: seq<MenuDay>, events: seq<Event>, e: Event)
    requires ValidDays(menuDays) && |events| < |menuDays|
    requires forall j :: 0 <= j < |events| ==> WebEventOf(menuDays[j]).Some?
    requires forall j :: 0 <= j < |events| ==> events[j] == WebEventOf(menuDays[j]).value
    requires WebEventOf(menuDays[|events|]) == Some(e)
    ensures forall j :: 0 <= j < |events| + 1 ==> WebEventOf(menuDays[j]).Some?
    ensures forall j :: 0 <= j < |events| + 1 ==> (events + [e])[j] == WebEventOf(menuDays[j]).value
  {
  }

  /** Events that are, one by one, the events of the days make up the feed. */
  lemma WebCalendarEvents(menuDays: seq<MenuDay>, today: DateTime, events: seq<Event>)
    requires ValidDays(menuDays) && menuDays != [] && |events| == |menuDays|
    requires forall j :: 0 <= j < |menuDays| ==> WebEventOf(menuDays[j]).Some?
    requires forall j :: 0 <= j < |menuDays| ==> events[j] == WebEventOf(menuDays[j]).value
    ensures WebCalendar(menuDays, today) == Some(Feed(WebCalendarName, events))
  {
    assert events == seq(|menuDays|, j requires 0 <= j < |menuDays| => WebEventOf(menuDays[j]).value);
  }

  /** What one event of the older feed says: the cleaned main dish or "Meyers Menu - " and
      the day's name; the details as they are, or the items joined by ", "; the date-only
      UID; from 12:00 to 13:00. */
  lemma WebEventSummary(menuDays: seq<MenuDay>, today: DateTime, i: nat)
    requires ValidDays(menuDays) && WebCalendar(menuDays, today).Some?
    requires i < |menuDays|
    ensures var e := WebCalendar(menuDays, today).value.events[i];
      && (menuDays[i].mainDish == [] ==> e.summary == "Meyers Menu - " + menuDays[i].dayName)
      && (menuDays[i].mainDish != [] ==> Some(e.summary) == WebCleanTitle(menuDays[i].mainDish))
      && (menuDays[i].mainDish != [] && menuDays[i].details != [] ==> e.description == menuDays[i].details)
      && (menuDays[i].mainDish == [] || menuDays[i].details == [] ==>
            e.description == Join(", ", menuDays[i].menuItems))
      && e.uid == WebEventUid(menuDays[i])
      && e.start == AddTicks(menuDays[i].date, 12 * TicksPerHour)
      && e.end == AddTicks(menuDays[i].date, 13 * TicksPerHour)
  {
    assert WebEventOf(menuDays[i]).Some?;
  }

  /** Without menu days the older feed holds the placeholder event at noon today, without
      alarm. */
  lemma WebEmptyFeed(today: DateTime)
    ensures var r := WebCalendar([], today);
      && r.Some? && |r.value.events| == 1
      && r.value.events[0].uid == "test-event"
      && r.value.events[0].summary == "No menu found - Test Event"
      && r.value.events[0].start == AddTicks(today, 12 * TicksPerHour)
      && r.value.events[0].alarms == []
  {
  }

  /** The older feed carries no alarms. */
  lemma WebEventsWithoutAlarms(menuDays: seq<MenuDay>, today: DateTime, i: nat)
    requires ValidDays(menuDays) && WebCalendar(menuDays, today).Some?
    requires i < |WebCalendar(menuDays, today).value.events|
    ensures WebCalendar(menuDays, today).value.events[i].alarms == []
  {
    if menuDays != [] {
      assert WebEventOf(menuDays[i]).Some?;
    }
  }

  /** Two days of one date in a feed share their UID, whatever their menu types, where the
      current revision tells typed menus apart. */
  lemma WebUidsCollide(menuDays: seq<MenuDay>, today: DateTime, i: nat, j: nat)
    requires ValidDays(menuDays) && WebCalendar(menuDays, today).Some?
    requires i < |menuDays| && j < |menuDays| && menuDays[i].date.date == menuDays[j].date.date
    ensures WebCalendar(menuDays, today).value.events[i].uid == WebCalendar(menuDays, today).value.events[j].uid
  {
    assert WebEventOf(menuDays[i]).Some? && WebEventOf(menuDays[j]).Some?;
  }
}

=== FILE: web_calendar_endpoint.dfy ===
/** `CalendarEndpointHandler.GetCalendarAsync` of the web project: the days the scraper
    returns now, merged with cached rows from one month back to one month ahead that fall
    on other days, in date order, handed to the calendar generator. The scraper result,
    the cached rows and today's date are parameters. */
module CalendarEndpoint {
  import opened Wrappers
  import opened Dates
  import opened Models
  import opened Sorting
  import opened MenuCache
  import opened CalendarService
  import opened WebCalendarService

  // ---------------------------------------------------------------------------
  // The cached window
  // ---------------------------------------------------------------------------

  /** `DateTime.Today.AddMonths(-1)`. */
  function WindowStart(today: DateTime): DateTime
    requires WellFormed(today.date)
  {
    AddMonths(today, -1)
  }

  /** `DateTime.Today.AddMonths(1)`. */
  function WindowEnd(today: DateTime): DateTime
    requires WellFormed(today.date)
  {
    AddMonths(today, 1)
  }

  /** The window runs from a day in the previous month to a day in the next one, so today
      lies strictly inside it. */
  lemma WindowAroundToday(today: DateTime)
    requires WellFormed(today.date)
    ensures Ticks(WindowStart(today)) < Ticks(today) < Ticks(WindowEnd(today))
  {
    MonthsLater(WindowStart(today), today);
    MonthsLater(today, WindowEnd(today));
  }

  /** A time of day in a later month, at the same time of day, comes later. */
  lemma MonthsLater(a: DateTime, b: DateTime)
    requires WellFormed(a.date) && WellFormed(b.date) && a.timeOfDay == b.timeOfDay
    requires a.date.year * 12 + a.date.month < b.date.year * 12 + b.date.month
    ensures Ticks(a) < Ticks(b)
  {
    DayNumberOrder(a.date, b.date);
    EarlierDayEarlierTicks(DayNumber(a.date), DayNumber(b.date), a.timeOfDay);
  }

  lemma EarlierDayEarlierTicks(m: int, n: int, t: int)
    requires m < n
    ensures m * TicksPerDay + t < n * TicksPerDay + t
  {
  }

  // ---------------------------------------------------------------------------
  // Cached rows as days
  // ---------------------------------------------------------------------------

  /** A cached row as a day: the items split on newlines with the empty pieces dropped,
      and no menu type. */
  function HistoricalDay(e: MenuEntry): (d: MenuDay)
    ensures CleanItems(d.menuItems) && d.menuType == []
  {
    MenuDay(e.dayName, e.date, SplitItems(e.menuItems), e.mainDish, e.details, "")
  }

  /** A day written to the cache and read back through this handler is the same day, without
      its menu type. */
  lemma HistoricalRoundTrip(day: MenuDay, menuTypeId: int, now: DateTime)
    requires CleanItems(day.menuItems)
    ensures HistoricalDay(ToEntry(day, menuTypeId, now)) == day.(menuType := [])
  {
    ItemsRoundTrip(day.menuItems);
  }

  /** `currentMenuDays.All(current => current.Date.Date != day)`. */
  predicate NoCurrentOn(current: seq<MenuDay>, day: Date) {
    forall i :: 0 <= i < |current| ==> current[i].date.date != day
  }

  /** The cached rows on days the scraper did not return, as days, in row order. */
  function Historical(cached: seq<MenuEntry>, current: seq<MenuDay>): (r: seq<MenuDay>)
    ensures |r| <= |cached|
    ensures forall e :: e in cached && NoCurrentOn(current, e.date.date) ==> HistoricalDay(e) in r
    ensures forall d :: d in r ==> exists e :: e in cached && NoCurrentOn(current, e.date.date) && d == HistoricalDay(e)
  {
    if cached == [] then []
    else
      var e := cached[0];
      var rest := Historical(cached[1..], current);
      assert forall x :: x in cached[1..] ==> x in cached;
      assert cached == [e] + cached[1..];
      (if NoCurrentOn(current, e.date.date) then [HistoricalDay(e)] else []) + rest
  }

  // ---------------------------------------------------------------------------
  // The merge
  // ---------------------------------------------------------------------------

  /** `OrderBy(m => m.Date)`. */
  predicate DayLe(a: MenuDay, b: MenuDay) {
    Ticks(a.date) <= Ticks(b.date)
  }

  lemma DayOrder()
    ensures TotalPreorder(DayLe)
  {
  }

  /** `historicalMenuDays.Concat(currentMenuDays).OrderBy(m => m.Date)`: every scraped
      day, every cached row on a day the scraper did not return, nothing else, in date
      order. */
  function MergedDays(current: seq<MenuDay>, cached: seq<MenuEntry>): (r: seq<MenuDay>)
    ensures multiset(r) == multiset(Historical(cached, current)) + multiset(current)
    ensures SortedBy(r, DayLe)
    ensures forall d :: d in current ==> d in r
    ensures forall e :: e in cached && NoCurrentOn(current, e.date.date) ==> HistoricalDay(e) in r
    ensures forall d :: d in r ==> d in current || d in Historical(cached, current)
  {
    var all := Historical(cached, current) + current;
    DayOrder();
    SortBySorted(all, DayLe);
    SortByMembers(all, DayLe);
    SortBy(all, DayLe)
  }

  /** On a day the scraper returned, every merged day comes from the scraper: a cached row
      never stands beside or in place of a current day. */
  lemma CurrentWins(current: seq<MenuDay>, cached: seq<MenuEntry>, d: MenuDay)
    requires d in MergedDays(current, cached) && !NoCurrentOn(current, d.date.date)
    ensures d in current
  {
    forall e | e in cached && NoCurrentOn(current, e.date.date) ensures HistoricalDay(e) != d {
      assert HistoricalDay(e).date == e.date;
    }
  }

  /** The merge holds as many days as the scraper returned plus the cached rows it keeps. */
  lemma MergedCount(current: seq<MenuDay>, cached: seq<MenuEntry>)
    ensures |MergedDays(current, cached)| == |current| + |Historical(cached, current)|
  {
    var r := MergedDays(current, cached);
    assert |multiset(r)| == |multiset(Historical(cached, current))| + |multiset(current)|;
  }

  /** Days carrying valid dates. */
  lemma MergedValid(current: seq<MenuDay>, cached: seq<MenuEntry>)
    requires ValidDays(current)
    requires forall e :: e in cached ==> ValidDate(e.date.date)
    ensures ValidDays(MergedDays(current, cached))
  {
    var r := MergedDays(current, cached);
    forall i | 0 <= i < |r| ensures ValidDate(r[i].date.date) {
      var d := r[i];
      assert d in r;
      if d in current {
        var j :| 0 <= j < |current| && current[j] == d;
      } else {
        var e :| e in cached && NoCurrentOn(current, e.date.date) && d == HistoricalDay(e);
      }
    }
  }

  // ---------------------------------------------------------------------------
  // GetCalendarAsync
  // ---------------------------------------------------------------------------

  /** `GetCalendarAsync` on the scraper's days and the cached rows of the window: the
      calendar of the merged days, or `None` where generating it throws and the handler
      answers with a problem response. */
  function GetCalendar(current: seq<MenuDay>, cached: seq<MenuEntry>, today: DateTime): (r: Option<Feed>)
    requires ValidDays(current)
    requires forall e :: e in cached ==> ValidDate(e.date.date)
    ensures r.Some? ==>
      |r.value.events| == if current == [] && Historical(cached, current) == [] then 1
        else |current| + |Historical(cached, current)|
    ensures r.None? <==> exists d :: d in MergedDays(current, cached) && WebEventOf(d).None?
  {
    MergedValid(current, cached);
    MergedCount(current, cached);
    var days := MergedDays(current, cached);
    assert forall d :: d in days <==> exists i :: 0 <= i < |days| && days[i] == d;
    WebCalendar(days, today)
  }
}

=== FILE: web_menu_repository.dfy ===
/** The web project's `MenuRepository` over its one `MenuEntries` table: rows are keyed by
    date alone. The date-range read, the lookup by date part, the upsert and the latest
    update time. The table is a sequence in insertion order; the clock is a parameter. */
module WebMenuStore {
  import opened Wrappers
  import opened Dates
  import opened Models
  import opened Sorting

  // ---------------------------------------------------------------------------
  // Keys and the table invariant
  // ---------------------------------------------------------------------------

  /** The unique index on `Date`, which compares full timestamps. */
  predicate DatesUnique(es: seq<WebMenuEntry>) {
    forall i, j :: 0 <= i < j < |es| ==> es[i].date != es[j].date
  }

  /** Primary keys are distinct and below the next one to be handed out. */
  predicate IdsBelow(es: seq<WebMenuEntry>, next: int) {
    && (forall i :: 0 <= i < |es| ==> 1 <= es[i].id < next)
    && (forall i, j :: 0 <= i < j < |es| ==> es[i].id != es[j].id)
  }

  /** The unique index and the primary keys. */
  predicate TableValid(es: seq<WebMenuEntry>, next: int) {
    next >= 1 && DatesUnique(es) && IdsBelow(es, next)
  }

  /** The index of the first row whose date part is `day`, or -1. */
  function FirstOnDay(rows: seq<WebMenuEntry>, day: Date): (k: int)
    ensures -1 <= k < |rows|
    ensures k >= 0 ==> rows[k].date.date == day && forall j :: 0 <= j < k ==> rows[j].date.date != day
    ensures k == -1 <==> forall j :: 0 <= j < |rows| ==> rows[j].date.date != day
  {
    if rows == [] then -1
    else if rows[0].date.date == day then 0
    else
      var k := FirstOnDay(rows[1..], day);
      assert forall j :: 1 <= j < |rows| ==> rows[j] == rows[1..][j - 1];
      if k < 0 then -1 else k + 1
  }

  // ---------------------------------------------------------------------------
  // Queries
  // ---------------------------------------------------------------------------

  /** `startDate <= m.Date && m.Date <= endDate`, on full timestamps. */
  predicate InWindow(e: WebMenuEntry, start: DateTime, end: DateTime) {
    Ticks(start) <= Ticks(e.date) <= Ticks(end)
  }

  function InRange(es: seq<WebMenuEntry>, start: DateTime, end: DateTime): (r: seq<WebMenuEntry>)
    ensures forall e :: e in r <==> e in es && InWindow(e, start, end)
  {
    if es == [] then []
    else (if InWindow(es[0], start, end) then [es[0]] else []) + InRange(es[1..], start, end)
  }

  /** `OrderBy(m => m.Date)`. */
  predicate DateLe(a: WebMenuEntry, b: WebMenuEntry) {
    Ticks(a.date) <= Ticks(b.date)
  }

  lemma DateOrder()
    ensures TotalPreorder(DateLe)
  {
  }

  /** The latest `UpdatedAt` of a non-empty table. */
  function LatestUpdate(es: seq<WebMenuEntry>): (r: DateTime)
    requires es != []
    ensures exists i :: 0 <= i < |es| && es[i].updatedAt == r
    ensures forall i :: 0 <= i < |es| ==> Ticks(es[i].updatedAt) <= Ticks(r)
  {
    if |es| == 1 then es[0].updatedAt
    else
      var m := LatestUpdate(es[1..]);
      assert forall i :: 1 <= i < |es| ==> es[i] == es[1..][i - 1];
      if Ticks(es[0].updatedAt) >= Ticks(m) then es[0].updatedAt else m
  }

  // ---------------------------------------------------------------------------
  // The upsert
  // ---------------------------------------------------------------------------

  /** What no write changes: the primary key, the date and the creation time. */
  predicate SameIdentity(a: WebMenuEntry, b: WebMenuEntry) {
    a.id == b.id && a.date == b.date && a.createdAt == b.createdAt
  }

  /** The fields the upsert copies onto a matched row: the day name and the items, with the
      update time set to `now`; `Id`, `Date` and `CreatedAt` stay. */
  function Overwrite(row: WebMenuEntry, e: WebMenuEntry, now: DateTime): (r: WebMenuEntry)
    ensures SameIdentity(r, row)
  {
    row.(dayName := e.dayName, menuItems := e.menuItems, updatedAt := now)
  }

  /** The change tracker during a batch: the committed rows, some of them overwritten, and
      the entries waiting to be inserted. */
  datatype Staged = Staged(rows: seq<WebMenuEntry>, added: seq<WebMenuEntry>)

  /** One entry of the batch: its date part is looked up among the committed rows only; a
      match is overwritten, otherwise the entry waits to be inserted. */
  function Stage(s: Staged, e: WebMenuEntry, now: DateTime): Staged {
    var k := FirstOnDay(s.rows, e.date.date);
    if k >= 0 then Staged(s.rows[k := Overwrite(s.rows[k], e, now)], s.added)
    else Staged(s.rows, s.added + [e])
  }

  /** A whole batch before `SaveChangesAsync`. The committed rows keep their identities, and
      whatever waits to be inserted comes from the batch and matches no committed row. */
  function StageAll(rows: seq<WebMenuEntry>, batch: seq<WebMenuEntry>, now: DateTime): (s: Staged)
    ensures |s.rows| == |rows|
    ensures forall i :: 0 <= i < |rows| ==> SameIdentity(s.rows[i], rows[i])
    ensures forall a :: a in s.added ==> a in batch && FirstOnDay(rows, a.date.date) == -1
  {
    if batch == [] then Staged(rows, [])
    else
      var p := StageAll(rows, batch[..|batch| - 1], now);
      var e := batch[|batch| - 1];
      assert forall a :: a in batch[..|batch| - 1] ==> a in batch;
      Stage(p, e, now)
  }

  lemma StageAllStep(rows: seq<WebMenuEntry>, batch: seq<WebMenuEntry>, now: DateTime, i: int)
    requires 0 <= i < |batch|
    ensures var s := StageAll(rows, batch[..i], now);
      var k := FirstOnDay(s.rows, batch[i].date.date);
      && StageAll(rows, batch[..i + 1], now).rows == (if k >= 0 then s.rows[k := Overwrite(s.rows[k], batch[i], now)] else s.rows)
      && StageAll(rows, batch[..i + 1], now).added == (if k >= 0 then s.added else s.added + [batch[i]])
  {
    assert batch[..i + 1][..i] == batch[..i] && batch[..i + 1][i] == batch[i];
  }

  /** A batch of one entry. */
  lemma StageOne(rows: seq<WebMenuEntry>, e: WebMenuEntry, now: DateTime)
    ensures var k := FirstOnDay(rows, e.date.date);
      && StageAll(rows, [e], now).rows == (if k >= 0 then rows[k := Overwrite(rows[k], e, now)] else rows)
      && StageAll(rows, [e], now).added == (if k >= 0 then [] else [e])
  {
    assert [e][..0] == [] && [e][0] == e;
  }

  /** The inserted rows with the primary keys the database hands out. */
  function Numbered(added: seq<WebMenuEntry>, next: int): (r: seq<WebMenuEntry>)
    ensures |r| == |added|
    ensures forall i :: 0 <= i < |r| ==> r[i] == added[i].(id := next + i)
  {
    seq(|added|, i requires 0 <= i < |added| => added[i].(id := next + i))
  }

  /** Rows with the same identities, one for one, are looked up alike. */
  lemma {:induction false} FirstOnDayIdentity(a: seq<WebMenuEntry>, b: seq<WebMenuEntry>, day: Date)
    requires |a| == |b| && forall i :: 0 <= i < |a| ==> SameIdentity(a[i], b[i])
    ensures FirstOnDay(a, day) == FirstOnDay(b, day)
  {
    if a != [] {
      FirstOnDayIdentity(a[1..], b[1..], day);
    }
  }

  /** What staging a batch keeps of the committed rows: their number and identities, and
      nothing waiting to be inserted falls on the day of one of them. */
  predicate StagedFrom(rows: seq<WebMenuEntry>, s: Staged) {
    && |s.rows| == |rows|
    && (forall i :: 0 <= i < |rows| ==> SameIdentity(s.rows[i], rows[i]))
    && (forall a :: a in s.added ==> FirstOnDay(rows, a.date.date) == -1)
  }

  /** A successful commit keeps the unique index and the primary keys: `SaveChangesAsync`
      succeeds exactly when the inserted rows do not clash with each other on `Date`. */
  lemma CommitValid(rows: seq<WebMenuEntry>, s: Staged, next: int)
    requires TableValid(rows, next)
    requires StagedFrom(rows, s) && DatesUnique(s.added)
    ensures TableValid(s.rows + Numbered(s.added, next), next + |s.added|)
  {
    var n := Numbered(s.added, next);
    var r := s.rows + n;
    forall i, j | 0 <= i < j < |r| ensures r[i].date != r[j].date && r[i].id != r[j].id {
      if j < |rows| {
        assert SameIdentity(r[i], rows[i]) && SameIdentity(r[j], rows[j]);
      } else if i >= |rows| {
        assert r[i] == n[i - |rows|] && r[j] == n[j - |rows|];
      } else {
        var a := s.added[j - |rows|];
        assert r[j] == a.(id := next + j - |rows|);
        assert a in s.added;
        assert rows[i].date.date != a.date.date;
        assert SameIdentity(r[i], rows[i]);
      }
    }
    forall i | 0 <= i < |r| ensures 1 <= r[i].id < next + |s.added| {
      if i < |rows| {
        assert SameIdentity(r[i], rows[i]);
      } else {
        assert r[i] == n[i - |rows|];
      }
    }
  }

  /** The entries of a batch that fall on no committed row's day, in batch order. */
  function Unmatched(rows: seq<WebMenuEntry>, batch: seq<WebMenuEntry>): (r: seq<WebMenuEntry>)
    ensures |r| <= |batch|
  {
    if batch == [] then []
    else
      var e := batch[|batch| - 1];
      Unmatched(rows, batch[..|batch| - 1]) + (if FirstOnDay(rows, e.date.date) == -1 then [e] else [])
  }

  /** Exactly the entries that fall on no committed row's day wait to be inserted, in batch
      order: lookups do not see the batch's own pending inserts. */
  lemma {:induction false} StageAllAdded(rows: seq<WebMenuEntry>, batch: seq<WebMenuEntry>, now: DateTime)
    ensures StageAll(rows, batch, now).added == Unmatched(rows, batch)
  {
    if batch != [] {
      var p := batch[..|batch| - 1];
      var e := batch[|batch| - 1];
      StageAllAdded(rows, p, now);
      FirstOnDayIdentity(StageAll(rows, p, now).rows, rows, e.date.date);
    }
  }

  /** A committed row that no entry of the batch looks up is left as it was. */
  lemma {:induction false} StageAllFrame(rows: seq<WebMenuEntry>, batch: seq<WebMenuEntry>, now: DateTime, k: int)
    requires 0 <= k < |rows|
    requires forall j :: 0 <= j < |batch| ==> FirstOnDay(rows, batch[j].date.date) != k
    ensures StageAll(rows, batch, now).rows[k] == rows[k]
  {
    if batch != [] {
      var p := batch[..|batch| - 1];
      var e := batch[|batch| - 1];
      StageAllFrame(rows, p, now, k);
      FirstOnDayIdentity(StageAll(rows, p, now).rows, rows, e.date.date);
    }
  }

  /** A matched row ends up overwritten by the last entry of the batch on its day: the day
      name and the items come from that entry, and the update time is `now`. */
  lemma {:induction false} StageAllLastWins(rows: seq<WebMenuEntry>, batch: seq<WebMenuEntry>, now: DateTime, i: int)
    requires 0 <= i < |batch|
    requires FirstOnDay(rows, batch[i].date.date) >= 0
    requires forall j :: i < j < |batch| ==> FirstOnDay(rows, batch[j].date.date) != FirstOnDay(rows, batch[i].date.date)
    ensures var k := FirstOnDay(rows, batch[i].date.date);
      StageAll(rows, batch, now).rows[k] == Overwrite(rows[k], batch[i], now)
  {
    var p := batch[..|batch| - 1];
    var e := batch[|batch| - 1];
    var sp := StageAll(rows, p, now);
    FirstOnDayIdentity(sp.rows, rows, e.date.date);
    if i < |batch| - 1 {
      assert p[i] == batch[i];
      StageAllLastWins(rows, p, now, i);
    }
  }

  lemma {:induction false} UnmatchedHas(rows: seq<WebMenuEntry>, batch: seq<WebMenuEntry>, b: WebMenuEntry)
    requires b in batch && FirstOnDay(rows, b.date.date) == -1
    ensures b in Unmatched(rows, batch)
  {
    var p := batch[..|batch| - 1];
    if b != batch[|batch| - 1] {
      assert b in p by {
        var j :| 0 <= j < |batch| && batch[j] == b;
        assert j < |batch| - 1 && p[j] == b;
      }
      UnmatchedHas(rows, p, b);
    }
  }

  lemma {:induction false} UnmatchedNone(rows: seq<WebMenuEntry>, batch: seq<WebMenuEntry>)
    requires forall b :: b in batch ==> FirstOnDay(rows, b.date.date) >= 0
    ensures Unmatched(rows, batch) == []
  {
    if batch != [] {
      var p := batch[..|batch| - 1];
      assert forall b :: b in p ==> b in batch;
      UnmatchedNone(rows, p);
    }
  }

  /** An entry that falls on no committed row's day waits to be inserted. */
  lemma AddedHas(rows: seq<WebMenuEntry>, batch: seq<WebMenuEntry>, now: DateTime, b: WebMenuEntry)
    requires b in batch && FirstOnDay(rows, b.date.date) == -1
    ensures b in StageAll(rows, batch, now).added
  {
    StageAllAdded(rows, batch, now);
    UnmatchedHas(rows, batch, b);
  }

  /** After a commit, every entry of the batch finds a row on its day. */
  lemma CommittedMatches(rows: seq<WebMenuEntry>, batch: seq<WebMenuEntry>, now: DateTime, next: int, b: WebMenuEntry)
    requires b in batch
    ensures var s := StageAll(rows, batch, now);
      FirstOnDay(s.rows + Numbered(s.added, next), b.date.date) >= 0
  {
    var s := StageAll(rows, batch, now);
    var r := s.rows + Numbered(s.added, next);
    var k := FirstOnDay(rows, b.date.date);
    if k >= 0 {
      assert SameIdentity(r[k], rows[k]);
      assert r[k].date.date == b.date.date;
    } else {
      AddedHas(rows, batch, now, b);
      var m :| 0 <= m < |s.added| && s.added[m] == b;
      assert r[|s.rows| + m] == b.(id := next + m);
    }
  }

  /** Saving the same batch again, after a successful save, inserts nothing. */
  lemma SaveAgainAddsNothing(rows: seq<WebMenuEntry>, batch: seq<WebMenuEntry>, now: DateTime, next: int, later: DateTime)
    ensures var s := StageAll(rows, batch, now);
      StageAll(s.rows + Numbered(s.added, next), batch, later).added == []
  {
    var s := StageAll(rows, batch, now);
    var r := s.rows + Numbered(s.added, next);
    forall b | b in batch ensures FirstOnDay(r, b.date.date) >= 0 {
      CommittedMatches(rows, batch, now, next, b);
    }
    UnmatchedNone(r, batch);
    StageAllAdded(r, batch, later);
  }

  /** No two entries of a batch share a date part. */
  predicate BatchDaysDistinct(batch: seq<WebMenuEntry>) {
    forall i, j :: 0 <= i < j < |batch| ==> batch[i].date.date != batch[j].date.date
  }

  /** The fields the upsert writes from an entry. */
  predicate SameContent(a: WebMenuEntry, b: WebMenuEntry) {
    a.dayName == b.dayName && a.menuItems == b.menuItems
  }

  /** After a committed batch whose entries fall on distinct days, looking any of them up
      by date part finds a row holding that entry's day name and items, whether the row was
      overwritten or inserted. */
  lemma SavedEntryFound(rows: seq<WebMenuEntry>, batch: seq<WebMenuEntry>, now: DateTime, next: int, i: int)
    requires BatchDaysDistinct(batch) && 0 <= i < |batch|
    ensures var s := StageAll(rows, batch, now);
      var r := s.rows + Numbered(s.added, next);
      var k := FirstOnDay(r, batch[i].date.date);
      k >= 0 && SameContent(r[k], batch[i])
  {
    if FirstOnDay(rows, batch[i].date.date) >= 0 {
      SavedOverwritten(rows, batch, now, i);
    } else {
      SavedInserted(rows, batch, now, next, i);
    }
    ContentFound(rows, StageAll(rows, batch, now), next, batch[i]);
  }

  /** The lookup in the committed table finds the staged row on the day when there is one,
      and otherwise the first inserted row on it. */
  lemma ContentFound(rows: seq<WebMenuEntry>, s: Staged, next: int, b: WebMenuEntry)
    requires |s.rows| == |rows| && forall i :: 0 <= i < |rows| ==> SameIdentity(s.rows[i], rows[i])
    requires var k := FirstOnDay(rows, b.date.date);
      k >= 0 ==> SameContent(s.rows[k], b)
    requires var n := Numbered(s.added, next);
      var m := FirstOnDay(n, b.date.date);
      FirstOnDay(rows, b.date.date) == -1 ==> m >= 0 && SameContent(n[m], b)
    ensures var r := s.rows + Numbered(s.added, next);
      var k := FirstOnDay(r, b.date.date);
      k >= 0 && SameContent(r[k], b)
  {
    var d := b.date.date;
    var n := Numbered(s.added, next);
    var r := s.rows + n;
    FirstOnDayIdentity(s.rows, rows, d);
    FirstOnDayAppend(s.rows, n, d);
    var k := FirstOnDay(rows, d);
    if k >= 0 {
      assert FirstOnDay(r, d) == k && r[k] == s.rows[k];
    } else {
      var m := FirstOnDay(n, d);
      assert FirstOnDay(r, d) == |s.rows| + m && r[|s.rows| + m] == n[m];
    }
  }

  /** An entry matching a committed row leaves its content in that row. */
  lemma SavedOverwritten(rows: seq<WebMenuEntry>, batch: seq<WebMenuEntry>, now: DateTime, i: int)
    requires BatchDaysDistinct(batch) && 0 <= i < |batch|
    requires FirstOnDay(rows, batch[i].date.date) >= 0
    ensures var k := FirstOnDay(rows, batch[i].date.date);
      SameContent(StageAll(rows, batch, now).rows[k], batch[i])
  {
    var b := batch[i];
    var k0 := FirstOnDay(rows, b.date.date);
    forall j | i < j < |batch| ensures FirstOnDay(rows, batch[j].date.date) != k0 {
      assert batch[j].date.date != b.date.date;
    }
    StageAllLastWins(rows, batch, now, i);
  }

  /** An entry matching no committed row is inserted, and it is the first inserted row on
      its day. */
  lemma SavedInserted(rows: seq<WebMenuEntry>, batch: seq<WebMenuEntry>, now: DateTime, next: int, i: int)
    requires BatchDaysDistinct(batch) && 0 <= i < |batch|
    requires FirstOnDay(rows, batch[i].date.date) == -1
    ensures var n := Numbered(StageAll(rows, batch, now).added, next);
      var m := FirstOnDay(n, batch[i].date.date);
      m >= 0 && SameContent(n[m], batch[i])
  {
    AddedHas(rows, batch, now, batch[i]);
    FirstAddedIs(StageAll(rows, batch, now).added, batch, next, i);
  }

  /** Among inserted rows drawn from a batch on distinct days, the first row on the day of
      an inserted entry holds that entry's content. */
  lemma FirstAddedIs(added: seq<WebMenuEntry>, batch: seq<WebMenuEntry>, next: int, i: int)
    requires BatchDaysDistinct(batch) && 0 <= i < |batch|
    requires batch[i] in added && forall a :: a in added ==> a in batch
    ensures var n := Numbered(added, next);
      var m := FirstOnDay(n, batch[i].date.date);
      m >= 0 && SameContent(n[m], batch[i])
  {
    var b := batch[i];
    var d := b.date.date;
    var n := Numbered(added, next);
    var m' :| 0 <= m' < |added| && added[m'] == b;
    assert n[m'].date.date == d;
    var m := FirstOnDay(n, d);
    var a := added[m];
    assert a in batch;
    var j :| 0 <= j < |batch| && batch[j] == a;
    if j < i {
      assert batch[j].date.date != b.date.date;
    } else if j > i {
      assert batch[i].date.date != batch[j].date.date;
    }
  }

  /** The first row on a day in two tables one after the other. */
  lemma {:induction false} FirstOnDayAppend(a: seq<WebMenuEntry>, b: seq<WebMenuEntry>, day: Date)
    ensures FirstOnDay(a + b, day) ==
      if FirstOnDay(a, day) >= 0 then FirstOnDay(a, day)
      else if FirstOnDay(b, day) >= 0 then |a| + FirstOnDay(b, day) else -1
  {
    if a != [] {
      assert (a + b)[0] == a[0] && (a + b)[1..] == a[1..] + b;
      FirstOnDayAppend(a[1..], b, day);
    } else {
      assert a + b == b;
    }
  }

  // ---------------------------------------------------------------------------
  // The repository
  // ---------------------------------------------------------------------------

  /** `MenuRepository` with its table. */
  class MenuRepository {
    var entries: seq<WebMenuEntry>
    /** The primary key the database hands out next. */
    var nextId: int

    ghost predicate Valid()
      reads this
    {
      TableValid(entries, nextId)
    }

    /** An empty database. */
    constructor ()
      ensures Valid() && entries == []
    {
      entries := [];
      nextId := 1;
    }

    /** `GetMenusForDateRangeAsync(startDate, endDate)`: the rows dated within the window,
        comparing full timestamps, in date order. */
    function GetMenusForDateRange(startDate: DateTime, endDate: DateTime): (r: seq<WebMenuEntry>)
      reads this
      ensures forall e :: e in r <==> e in entries && InWindow(e, startDate, endDate)
      ensures multiset(r) == multiset(InRange(entries, startDate, endDate))
      ensures SortedBy(r, DateLe)
    {
      var rows := InRange(entries, startDate, endDate);
      DateOrder();
      SortBySorted(rows, DateLe);
      SortByMembers(rows, DateLe);
      SortBy(rows, DateLe)
    }

    /** `GetMenuForDateAsync(date)`: the first row whose date part is that of `date`. */
    function GetMenuForDate(date: DateTime): (r: Option<WebMenuEntry>)
      reads this
      ensures r.Some? ==> r.value in entries && r.value.date.date == date.date
      ensures r.Some? ==>
        exists k :: 0 <= k < |entries| && entries[k] == r.value && forall j :: 0 <= j < k ==> entries[j].date.date != date.date
      ensures r.None? <==> forall e :: e in entries ==> e.date.date != date.date
    {
      var k := FirstOnDay(entries, date.date);
      if k < 0 then None else Some(entries[k])
    }

    /** `GetLastUpdateTimeAsync`: the latest `UpdatedAt`; on an empty table the default
        `DateTime`, since the column is not nullable. */
    function GetLastUpdateTime(): (r: DateTime)
      reads this
      ensures entries == [] ==> r == MinValue
      ensures entries != [] ==> exists e :: e in entries && e.updatedAt == r
      ensures forall e :: e in entries ==> Ticks(e.updatedAt) <= Ticks(r)
    {
      if entries == [] then MinValue else LatestUpdate(entries)
    }

    /** `SaveMenusAsync`: every entry is looked up by date part among the rows committed
        before the call; a match gets the entry's day name and items and a new update time,
        otherwise the entry is queued for insertion. The single `SaveChangesAsync` then
        either writes everything or, when the queued rows clash on the unique `Date`
        index, nothing. */
    method SaveMenus(menuEntries: seq<WebMenuEntry>, now: DateTime) returns (ok: bool)
      requires Valid()
      modifies this
      ensures Valid()
      ensures var s := StageAll(old(entries), menuEntries, now);
        && (ok <==> DatesUnique(s.added))
        && entries == (if ok then s.rows + Numbered(s.added, old(nextId)) else old(entries))
        && nextId == (if ok then old(nextId) + |s.added| else old(nextId))
    {
      // the change tracker: the committed rows as modified so far, and the pending inserts
      var tracked := entries;
      var added: seq<WebMenuEntry> := [];
      var i := 0;
      while i < |menuEntries|
        invariant 0 <= i <= |menuEntries|
        invariant tracked == StageAll(entries, menuEntries[..i], now).rows
        invariant added == StageAll(entries, menuEntries[..i], now).added
        invariant unchanged(this)
      {
        var menuEntry := menuEntries[i];
        StageAllStep(entries, menuEntries, now, i);
        var existing := FirstOnDay(tracked, menuEntry.date.date);
        if existing >= 0 {
          tracked := tracked[existing := Overwrite(tracked[existing], menuEntry, now)];
        } else {
          added := added + [menuEntry];
        }
        i := i + 1;
      }
      assert menuEntries[..i] == menuEntries;
      ok := DatesUnique(added);
      if ok {
        CommitValid(entries, StageAll(entries, menuEntries, now), nextId);
        entries := tracked + Numbered(added, nextId);
        nextId := nextId + |added|;
      }
    }

    /** `SaveMenuAsync`: the same upsert for a single entry, which cannot clash. */
    method SaveMenu(menuEntry: WebMenuEntry, now: DateTime)
      requires Valid()
      modifies this
      ensures Valid()
      ensures var s := StageAll(old(entries), [menuEntry], now);
        && entries == s.rows + Numbered(s.added, old(nextId))
        && nextId == old(nextId) + |s.added|
    {
      var committed := entries;
      StageOne(committed, menuEntry, now);
      ghost var s := StageAll(committed, [menuEntry], now);
      assert DatesUnique(s.added);
      CommitValid(committed, s, nextId);
      var existing := FirstOnDay(entries, menuEntry.date.date);
      if existing >= 0 {
        entries := entries[existing := Overwrite(entries[existing], menuEntry, now)];
        assert entries == s.rows + Numbered(s.added, nextId);
      } else {
        entries := entries + Numbered([menuEntry], nextId);
        nextId := nextId + 1;
      }
    }
  }
}

=== FILE: web_menu_scraping.dfy ===
/**
 * The older single-menu scraper of the web project (`Meyers.Web/Services/MenuScrapingService.cs`):
 * only the "Det velkendte" tab is read, at most five weekdays are kept, and a block without
 * recipes does not use up a date. The page arrives already parsed, with the text of the
 * whole document beside it for the opening check.
 */
module WebMenuScraping {
  import opened Wrappers
  import opened Text
  import opened Html
  import opened Dates
  import opened Models
  import opened DanishDateHelper
  import opened WeekHeaders
  import opened MenuScraping

  /** The one menu this revision reads. */
  const KnownMenu: string := "Det velkendte"

  /** `Take(5)`: the most weekdays this revision keeps. */
  const MaxDays: nat := 5

  // ---------------------------------------------------------------------------
  // Dates
  // ---------------------------------------------------------------------------

  /** The older `ExtractDatesFromWeekHeaders`: the current revision's weekday dates, cut
      to the first five. */
  function WebWeekdayDates(headers: seq<string>): (r: seq<DayDate>)
    ensures |r| == if |WeekdayDates(headers)| <= MaxDays then |WeekdayDates(headers)| else MaxDays
    ensures r == WeekdayDates(headers)[..|r|]
    ensures forall k :: 0 <= k < |r| ==> IsWeekday(r[k].dayName) && ValidDate(r[k].date)
  {
    var all := WeekdayDates(headers);
    if |all| <= MaxDays then all else all[..MaxDays]
  }

  /** The header loop, the weekday filter and `Take(5)`. */
  method WebExtractDatesFromWeekHeaders(headers: seq<string>) returns (mapping: seq<DayDate>)
    ensures mapping == WebWeekdayDates(headers)
  {
    var dateMapping := CollectHeaders(headers);
    mapping := FilterWeekdays(dateMapping);
    if |mapping| > MaxDays {
      mapping := mapping[..MaxDays];
    }
  }

  // ---------------------------------------------------------------------------
  // Recipes
  // ---------------------------------------------------------------------------

  /** The item a recipe gives in this revision: both the trimmed title and the trimmed raw
      description must be non-empty; the description is then decoded and single-spaced,
      the title is left as it is. */
  function WebItem(r: Recipe): Option<string> {
    var title := Trim(r.title.GetOr(""));
    var description := Trim(r.description.GetOr(""));
    if title != [] && description != [] then Some(title + ": " + Squish(HtmlDecode(description)))
    else None
  }

  /** What one recipe adds to the day's items. */
  function ItemOf(r: Recipe): seq<string> {
    match WebItem(r)
    case Some(item) => [item]
    case None => []
  }

  /** The items of a block's recipes, in order. */
  function WebItems(rs: seq<Recipe>): (r: seq<string>)
    ensures |r| <= |rs|
  {
    if rs == [] then [] else WebItems(rs[..|rs| - 1]) + ItemOf(rs[|rs| - 1])
  }

  /** The items of two runs of recipes are the items of the first run, then those of the
      second: one item per accepted recipe, in recipe order. */
  lemma {:induction false} WebItemsAppend(a: seq<Recipe>, b: seq<Recipe>)
    ensures WebItems(a + b) == WebItems(a) + WebItems(b)
    decreases |b|
  {
    if b == [] {
      assert a + b == a;
    } else {
      var b' := b[..|b| - 1];
      assert (a + b)[..|a + b| - 1] == a + b';
      assert (a + b)[|a + b| - 1] == b[|b| - 1];
      WebItemsAppend(a, b');
    }
  }

  /** A single recipe gives its item, or nothing. */
  lemma WebItemsSingle(r: Recipe)
    ensures WebItems([r]) == ItemOf(r)
  {
    assert [r][..0] == [];
  }

  /** A description that is only an encoded non-breaking space still gives an item here,
      with nothing after the colon, where the current revision drops the recipe. */
  lemma BlankDescriptionKept(title: string)
    requires title != [] && Trim(title) == title
    ensures WebItem(Recipe(Some(title), Some("&nbsp;"))) == Some(title + ": ")
  {
    BlankText();
    assert "&nbsp;"[0] == '&';
    ItemWithEmptyText(title, "&nbsp;");
  }

  /** A description that is there before decoding and gone after it leaves the title and
      the separator. */
  lemma ItemWithEmptyText(title: string, description: string)
    requires title != [] && Trim(title) == title
    requires description != [] && Trim(description) == description
    requires Squish(HtmlDecode(description)) == []
    ensures WebItem(Recipe(Some(title), Some(description))) == Some(title + ": ")
  {
    var r := Recipe(Some(title), Some(description));
    assert r.title.GetOr("") == title && r.description.GetOr("") == description;
    var head := title + ": ";
    assert head + Squish(HtmlDecode(description)) == head;
  }

  /** The current revision reads the same recipe with an empty text and drops it. */
  lemma BlankDescriptionDropped(title: string)
    ensures !Accepted(Read(Recipe(Some(title), Some("&nbsp;"))))
  {
    BlankText();
  }

  /** The encoded non-breaking space decodes to white space, which single-spacing removes. */
  lemma BlankText()
    ensures Trim("&nbsp;") == "&nbsp;" && Squish(HtmlDecode("&nbsp;")) == []
  {
    TrimNoop("&nbsp;", WhiteSpace);
    DecodeNbsp();
    SquishNbsp();
  }

  lemma DecodeNbsp()
    ensures HtmlDecode("&nbsp;") == ['\U{A0}']
  {
    var s := "&nbsp;";
    assert s[5] == ';' && forall k :: 1 <= k < 5 ==> s[k] !in {';', '&'};
    assert EntityEnd(s) == 5;
    assert s[1..5] == "nbsp";
    assert EntityChar(s[1..5]) == Some('\U{A0}');
    assert s[6..] == [];
  }

  lemma SquishNbsp()
    ensures Squish(['\U{A0}']) == []
  {
    assert IsWhiteSpace('\U{A0}');
  }

  // ---------------------------------------------------------------------------
  // Days
  // ---------------------------------------------------------------------------

  /** A day of this revision: day name, date and items only. */
  function WebDay(dayInfo: DayDate, items: seq<string>): MenuDay {
    MenuDay(dayInfo.dayName, DateTime(dayInfo.date, 0), items, "", "", "")
  }

  /** What a block with recipes adds: its day when some recipe was accepted, else nothing. */
  function DayList(dayInfo: DayDate, items: seq<string>): seq<MenuDay> {
    if items == [] then [] else [WebDay(dayInfo, items)]
  }

  /** What the walk sees of each block: nothing for a block without recipes, otherwise the
      items of its recipes (possibly none). */
  function BlockItems(blocks: seq<TabBlock>): (r: seq<Option<seq<string>>>)
    ensures |r| == |blocks|
  {
    seq(|blocks|, k requires 0 <= k < |blocks| =>
      if blocks[k].recipes == [] then None else Some(WebItems(blocks[k].recipes)))
  }

  lemma BlockItemsAt(blocks: seq<TabBlock>, k: int)
    requires 0 <= k < |blocks|
    ensures BlockItems(blocks)[k].None? <==> blocks[k].recipes == []
    ensures BlockItems(blocks)[k].Some? ==> BlockItems(blocks)[k].value == WebItems(blocks[k].recipes)
  {
  }

  /** The items of the first blocks are the first entries of the items. */
  lemma BlockItemsPrefix(blocks: seq<TabBlock>, n: nat)
    requires n <= |blocks|
    ensures BlockItems(blocks[..n]) == BlockItems(blocks)[..n]
  {
    var l := BlockItems(blocks[..n]);
    var r := BlockItems(blocks)[..n];
    forall k | 0 <= k < n ensures l[k] == r[k] {
      assert blocks[..n][k] == blocks[k];
      BlockItemsAt(blocks[..n], k);
      BlockItemsAt(blocks, k);
    }
  }

  /** The date walk: an entry with items takes the next date and gives a day when the items
      are not empty; an entry for a block without recipes is passed over and takes no date.
      The walk stops when entries or dates run out. */
  function DaysOf(xs: seq<Option<seq<string>>>, dates: seq<DayDate>): (r: seq<MenuDay>)
    ensures |r| <= |dates|
  {
    if xs == [] || dates == [] then []
    else if xs[0].None? then DaysOf(xs[1..], dates)
    else DayList(dates[0], xs[0].value) + DaysOf(xs[1..], dates[1..])
  }

  /** The day walk over the blocks of the one menu. */
  function WebDays(blocks: seq<TabBlock>, dates: seq<DayDate>): seq<MenuDay> {
    DaysOf(BlockItems(blocks), dates)
  }

  /** Every day of the walk has items, starts at midnight, carries one of the dates, and
      leaves the fields this revision does not fill empty. */
  lemma {:induction false} DaysShape(xs: seq<Option<seq<string>>>, dates: seq<DayDate>)
    ensures forall d :: d in DaysOf(xs, dates) ==>
      && d.menuItems != [] && d.date.timeOfDay == 0 && DayDate(d.dayName, d.date.date) in dates
      && d.mainDish == [] && d.details == [] && d.menuType == []
    decreases |xs|
  {
    if xs != [] && dates != [] {
      if xs[0].None? {
        DaysShape(xs[1..], dates);
      } else {
        DaysShape(xs[1..], dates[1..]);
        assert forall x :: x in dates[1..] ==> x in dates;
      }
    }
  }

  /** An entry for a block without recipes changes nothing, wherever it stands. */
  lemma {:induction false} SkippedEntryIgnored(a: seq<Option<seq<string>>>, b: seq<Option<seq<string>>>, dates: seq<DayDate>)
    ensures DaysOf(a + [None] + b, dates) == DaysOf(a + b, dates)
    decreases |a|
  {
    if a == [] {
      assert [None] + b == a + [None] + b && ([None] + b)[1..] == b && a + b == b;
    } else if dates != [] {
      assert (a + [None] + b)[0] == a[0] && (a + b)[0] == a[0];
      assert (a + [None] + b)[1..] == a[1..] + [None] + b;
      assert (a + b)[1..] == a[1..] + b;
      SkippedEntryIgnored(a[1..], b, dates);
      SkippedEntryIgnored(a[1..], b, dates[1..]);
    }
  }

  /** A block without recipes changes nothing, wherever it stands. */
  lemma RecipelessBlockIgnored(a: seq<TabBlock>, tab: string, b: seq<TabBlock>, dates: seq<DayDate>)
    ensures WebDays(a + [TabBlock(tab, [])] + b, dates) == WebDays(a + b, dates)
  {
    var x := TabBlock(tab, []);
    BlockItemsAppend(a + [x], b);
    BlockItemsAppend(a, [x]);
    BlockItemsAppend(a, b);
    assert BlockItems([x]) == [None];
    SkippedEntryIgnored(BlockItems(a), BlockItems(b), dates);
  }

  lemma BlockItemsAppend(a: seq<TabBlock>, b: seq<TabBlock>)
    ensures BlockItems(a + b) == BlockItems(a) + BlockItems(b)
  {
    var l := BlockItems(a + b);
    forall k | 0 <= k < |l| ensures l[k] == (BlockItems(a) + BlockItems(b))[k] {
      if k >= |a| {
        assert (a + b)[k] == b[k - |a|];
      }
    }
  }

  /** In the current revision a block without recipes yields no day content ... */
  lemma EmptyBlockDay()
    ensures BlockDay([]) == None
  {
    assert Readings([]) == [];
  }

  /** ... and such content still uses up a date: what follows it moves one date on. */
  lemma SkippedContentUsesDate(cs: seq<Option<DayContent>>, dates: seq<DayDate>, menuType: string)
    requires dates != []
    ensures TabDays([None] + cs, dates, menuType) == TabDays(cs, dates[1..], menuType)
  {
    assert ([None] + cs)[1..] == cs;
  }

  /** How many entries stand for blocks with recipes. */
  function Taken(xs: seq<Option<seq<string>>>): (r: nat)
    ensures r <= |xs|
  {
    if xs == [] then 0
    else (if xs[0].None? then 0 else 1) + Taken(xs[1..])
  }

  /** An entry with items goes with the date whose position is the number of entries with
      items before it. */
  lemma {:induction false} DaysPairing(xs: seq<Option<seq<string>>>, dates: seq<DayDate>, n: nat)
    requires n < |xs| && xs[n].Some? && xs[n].value != []
    requires Taken(xs[..n]) < |dates|
    ensures WebDay(dates[Taken(xs[..n])], xs[n].value) in DaysOf(xs, dates)
    decreases n
  {
    if n == 0 {
      assert xs[..n] == [];
    } else {
      var rest := xs[1..];
      assert xs[..n][1..] == rest[..n - 1];
      assert rest[n - 1] == xs[n];
      if xs[0].None? {
        DaysPairing(rest, dates, n - 1);
      } else {
        var i := Taken(rest[..n - 1]);
        assert dates[1..][i] == dates[1 + i];
        DaysPairing(rest, dates[1..], n - 1);
      }
    }
  }

  /** A block with recipes and items goes with the date whose position is the number of
      blocks with recipes before it. */
  lemma WebDaysPairing(blocks: seq<TabBlock>, dates: seq<DayDate>, n: nat)
    requires n < |blocks| && blocks[n].recipes != [] && WebItems(blocks[n].recipes) != []
    requires Taken(BlockItems(blocks[..n])) < |dates|
    ensures WebDay(dates[Taken(BlockItems(blocks[..n]))], WebItems(blocks[n].recipes)) in WebDays(blocks, dates)
  {
    BlockItemsPrefix(blocks, n);
    BlockItemsAt(blocks, n);
    DaysPairing(BlockItems(blocks), dates, n);
  }

  /** The blocks of the one menu: their attribute is exactly "Det velkendte". */
  function KnownBlocks(blocks: seq<TabBlock>): (r: seq<TabBlock>)
    ensures forall b :: b in r <==> b in blocks && b.tabContent == KnownMenu
  {
    if blocks == [] then []
    else
      var rest := KnownBlocks(blocks[1..]);
      assert blocks == [blocks[0]] + blocks[1..];
      if blocks[0].tabContent == KnownMenu then [blocks[0]] + rest else rest
  }

  /** What the older `ScrapeMenuAsync` returns: nothing unless the page mentions the one
      menu, in any letter case; otherwise the days of its blocks paired with at most five
      weekday dates. */
  function WebScrape(allText: string, page: Page): (r: seq<MenuDay>)
    ensures !ContainsIgnoreCase(allText, KnownMenu) ==> r == []
    ensures |r| <= MaxDays
    ensures forall d :: d in r ==>
      IsWeekday(d.dayName) && ValidDate(d.date.date) && d.date.timeOfDay == 0 && d.menuItems != []
  {
    if !ContainsIgnoreCase(allText, KnownMenu) then []
    else
      var dates := WebWeekdayDates(page.headers);
      var blocks := KnownBlocks(page.blocks);
      if blocks == [] || dates == [] then []
      else
        var r := WebDays(blocks, dates);
        DaysShape(BlockItems(blocks), dates);
        assert forall d :: d in r ==> exists k :: 0 <= k < |dates| && dates[k] == DayDate(d.dayName, d.date.date);
        r
  }

  /** Blocks with another label play no part. */
  lemma OtherLabelsIgnored(allText: string, headers: seq<string>, blocks: seq<TabBlock>, other: TabBlock)
    requires other.tabContent != KnownMenu
    ensures WebScrape(allText, Page(headers, blocks + [other])) == WebScrape(allText, Page(headers, blocks))
  {
    KnownBlocksAppend(blocks, other);
  }

  lemma {:induction false} KnownBlocksAppend(blocks: seq<TabBlock>, other: TabBlock)
    requires other.tabContent != KnownMenu
    ensures KnownBlocks(blocks + [other]) == KnownBlocks(blocks)
  {
    if blocks == [] {
      assert KnownBlocks([other]) == KnownBlocks([other][1..]);
    } else {
      assert (blocks + [other])[1..] == blocks[1..] + [other];
      KnownBlocksAppend(blocks[1..], other);
    }
  }

  // ---------------------------------------------------------------------------
  // ScrapeMenuAsync
  // ---------------------------------------------------------------------------

  /** The older `ScrapeMenuAsync` on an already parsed page and its text. */
  method WebScrapeMenu(allText: string, page: Page) returns (menuDays: seq<MenuDay>)
    ensures menuDays == WebScrape(allText, page)
  {
    menuDays := [];
    if !ContainsIgnoreCase(allText, KnownMenu) {
      return;
    }
    var dateMapping := WebExtractDatesFromWeekHeaders(page.headers);
    var detVelkendteNodes := KnownBlocks(page.blocks);
    if |detVelkendteNodes| > 0 && |dateMapping| > 0 {
      menuDays := WalkBlocks(detVelkendteNodes, dateMapping);
    }
  }

  /** The block loop: `dayIndex` moves on only for blocks that hold recipes. */
  method WalkBlocks(tabNodes: seq<TabBlock>, dateMapping: seq<DayDate>) returns (menuDays: seq<MenuDay>)
    ensures menuDays == WebDays(tabNodes, dateMapping)
  {
    menuDays := [];
    ghost var xs := BlockItems(tabNodes);
    ghost var all := DaysOf(xs, dateMapping);
    assert xs[0..] == xs && dateMapping[0..] == dateMapping;
    var dayIndex := 0;
    var n := 0;
    while n < |tabNodes|
      invariant 0 <= n <= |tabNodes| && 0 <= dayIndex <= |dateMapping|
      invariant menuDays + DaysOf(xs[n..], dateMapping[dayIndex..]) == all
    {
      if dayIndex >= |dateMapping| {
        assert dateMapping[dayIndex..] == [];
        break;
      }
      var dayInfo := dateMapping[dayIndex];
      var menuRecipes := tabNodes[n].recipes;
      WalkBlockStep(tabNodes, dateMapping, n, dayIndex);
      if menuRecipes != [] {
        var day := BlockMenuDay(dayInfo, menuRecipes);
        ghost var later := DaysOf(xs[n + 1..], dateMapping[dayIndex + 1..]);
        assert DaysOf(xs[n..], dateMapping[dayIndex..]) == day + later;
        AppendAssoc(menuDays, day, later);
        menuDays := menuDays + day;
        dayIndex := dayIndex + 1;
      } else {
        assert DaysOf(xs[n..], dateMapping[dayIndex..]) == DaysOf(xs[n + 1..], dateMapping[dayIndex..]);
      }
      n := n + 1;
    }
    assert DaysOf(xs[n..], dateMapping[dayIndex..]) == [];
    assert menuDays + [] == menuDays;
  }

  /** One step of the block loop, on the blocks themselves. */
  lemma WalkBlockStep(blocks: seq<TabBlock>, dates: seq<DayDate>, n: nat, i: nat)
    requires n < |blocks| && i < |dates|
    ensures var xs := BlockItems(blocks);
      && (blocks[n].recipes == [] ==> DaysOf(xs[n..], dates[i..]) == DaysOf(xs[n + 1..], dates[i..]))
      && (blocks[n].recipes != [] ==>
            DaysOf(xs[n..], dates[i..]) ==
              DayList(dates[i], WebItems(blocks[n].recipes)) + DaysOf(xs[n + 1..], dates[i + 1..]))
  {
    WalkStep(BlockItems(blocks), dates, n, i);
    BlockItemsAt(blocks, n);
  }

  /** One step of the block loop, on the walk that is left. */
  lemma WalkStep(xs: seq<Option<seq<string>>>, dates: seq<DayDate>, n: nat, i: nat)
    requires n < |xs| && i < |dates|
    ensures xs[n].None? ==> DaysOf(xs[n..], dates[i..]) == DaysOf(xs[n + 1..], dates[i..])
    ensures xs[n].Some? ==>
      DaysOf(xs[n..], dates[i..]) == DayList(dates[i], xs[n].value) + DaysOf(xs[n + 1..], dates[i + 1..])
  {
    assert xs[n..][1..] == xs[n + 1..];
    assert dates[i..][1..] == dates[i + 1..];
  }

  /** The body of the block loop for a block with recipes: its items, and its day when
      there are any. */
  method BlockMenuDay(dayInfo: DayDate, menuRecipes: seq<Recipe>) returns (day: seq<MenuDay>)
    ensures day == DayList(dayInfo, WebItems(menuRecipes))
  {
    var dayMenuItems := CollectItems(menuRecipes);
    day := [];
    if |dayMenuItems| > 0 {
      day := [WebDay(dayInfo, dayMenuItems)];
    }
  }

  /** The recipe loop: one item per accepted recipe. */
  method CollectItems(menuRecipes: seq<Recipe>) returns (dayMenuItems: seq<string>)
    ensures dayMenuItems == WebItems(menuRecipes)
  {
    dayMenuItems := [];
    for i := 0 to |menuRecipes|
      invariant dayMenuItems == WebItems(menuRecipes[..i])
    {
      assert menuRecipes[..i + 1][..i] == menuRecipes[..i];
      var recipe := menuRecipes[i];
      var title := Trim(recipe.title.GetOr(""));
      var description := Trim(recipe.description.GetOr(""));
      if title != [] && description != [] {
        description := HtmlDecode(description);
        description := Squish(description);
        dayMenuItems := dayMenuItems + [title + ": " + description];
      }
    }
    assert menuRecipes[..|menuRecipes|] == menuRecipes;
  }
}

=== FILE: week_headers.dfy ===
/** `MenuScrapingService.ExtractDatesFromWeekHeaders`: the day names and dates read from
    the week-menu day headers ("mandag 28 jul, 2025"), weekdays only, in page order. */
module WeekHeaders {
  import opened Wrappers
  import opened Text
  import opened Dates
  import opened Models
  import opened StringHelper
  import opened DanishDateHelper

  /** One header's text read as a day name and a date: at least four space-separated
      tokens (day name, day number, month abbreviation with an optional comma, year), both
      numbers 32-bit integers, a known month and a date that exists. Anything else is
      skipped, as the source skips it. */
  function ParseHeader(raw: string): (r: Option<DayDate>)
    ensures r.Some? ==> ValidDate(r.value.date)
  {
    var text := Trim(raw);
    if text == [] then None
    else
      var parts := RemoveEmpty(SplitChar(text, ' '));
      if |parts| < 4 then None
      else
        var dayName := CapitalizeFirst(Trim(parts[0]));
        var dayNumber := ParseInt32(Trim(parts[1]));
        var monthName := Replace(Trim(parts[2]), ",", "");
        var year := ParseInt32(Trim(parts[3]));
        if dayNumber.None? || year.None? then None
        else
          var month := ParseDanishMonth(monthName);
          if month <= 0 then None
          else
            var date := Date(year.value, month, dayNumber.value);
            if ValidDate(date) then Some(DayDate(dayName, date)) else None
  }

  /** The pairs the header loop collects, before the weekday filter: one per header that
      parses, in page order. */
  function ParsedHeaders(headers: seq<string>): (r: seq<DayDate>)
    ensures |r| <= |headers|
    ensures forall k :: 0 <= k < |r| ==> ValidDate(r[k].date)
  {
    Somes(Parses(headers))
  }

  /** Each header's parse, in page order. */
  function Parses(headers: seq<string>): (r: seq<Option<DayDate>>)
    ensures |r| == |headers| && forall i :: 0 <= i < |headers| ==> r[i] == ParseHeader(headers[i])
  {
    seq(|headers|, i requires 0 <= i < |headers| => ParseHeader(headers[i]))
  }

  /** The values of the parses that succeeded, in order. */
  function Somes(os: seq<Option<DayDate>>): (r: seq<DayDate>)
    requires forall i :: 0 <= i < |os| && os[i].Some? ==> ValidDate(os[i].value.date)
    ensures |r| <= |os|
    ensures forall k :: 0 <= k < |r| ==> ValidDate(r[k].date)
  {
    if os == [] then []
    else Somes(os[..|os| - 1]) + SomePairs(os[|os| - 1])
  }

  /** What one parse adds to the collected pairs. */
  function SomePairs(o: Option<DayDate>): seq<DayDate> {
    match o
    case Some(d) => [d]
    case None => []
  }

  /** `Where(d => IsWeekday(d.DayName))`. */
  function FilterWeekdays(ds: seq<DayDate>): (r: seq<DayDate>)
    ensures |r| <= |ds|
    ensures forall k :: 0 <= k < |r| ==> IsWeekday(r[k].dayName) && r[k] in ds
  {
    if ds == [] then []
    else
      var rest := FilterWeekdays(ds[1..]);
      if IsWeekday(ds[0].dayName) then [ds[0]] + rest else rest
  }

  /** The dates `ExtractDatesFromWeekHeaders` returns for these headers. */
  function WeekdayDates(headers: seq<string>): (r: seq<DayDate>)
    ensures forall k :: 0 <= k < |r| ==> IsWeekday(r[k].dayName) && ValidDate(r[k].date)
  {
    FilterWeekdays(ParsedHeaders(headers))
  }

  /** `ExtractDatesFromWeekHeaders`: the header loop collects every header that parses,
      then the weekday filter runs over the collected pairs. */
  method ExtractDatesFromWeekHeaders(headers: seq<string>) returns (mapping: seq<DayDate>)
    ensures mapping == WeekdayDates(headers)
  {
    var dateMapping := CollectHeaders(headers);
    mapping := FilterWeekdays(dateMapping);
  }

  /** The header loop of `ExtractDatesFromWeekHeaders`. */
  method CollectHeaders(headers: seq<string>) returns (dateMapping: seq<DayDate>)
    ensures dateMapping == ParsedHeaders(headers)
  {
    ghost var parses := Parses(headers);
    dateMapping := [];
    var i := 0;
    while i < |headers|
      invariant 0 <= i <= |headers|
      invariant dateMapping == Somes(parses[..i])
    {
      SomesStep(parses, i);
      dateMapping := AddHeader(dateMapping, headers[i]);
      i := i + 1;
    }
    assert parses[..|headers|] == parses;
  }

  /** The step of the header loop over the parses. */
  lemma SomesStep(os: seq<Option<DayDate>>, i: int)
    requires forall k :: 0 <= k < |os| && os[k].Some? ==> ValidDate(os[k].value.date)
    requires 0 <= i < |os|
    ensures Somes(os[..i + 1]) == Somes(os[..i]) + SomePairs(os[i])
  {
    assert os[..i + 1][..i] == os[..i];
  }

  /** One pass of the header loop: the header's pair is added when the header parses. */
  method AddHeader(dateMapping: seq<DayDate>, header: string) returns (r: seq<DayDate>)
    ensures r == dateMapping + HeaderPairs(header)
  {
    r := dateMapping;
    var parsed := ParseHeader(header);
    if parsed.Some? {
      r := r + [parsed.value];
    }
  }

  /** What one header adds to the collected pairs. */
  function HeaderPairs(raw: string): seq<DayDate> {
    SomePairs(ParseHeader(raw))
  }

  /** One more header at the end adds its own pairs at the end. */
  lemma ParsedHeadersLast(headers: seq<string>, raw: string)
    ensures ParsedHeaders(headers + [raw]) == ParsedHeaders(headers) + HeaderPairs(raw)
  {
    var os := Parses(headers + [raw]);
    assert os[..|headers|] == Parses(headers);
  }

  /** Headers are read independently and in order: the pairs from two runs of headers are
      the pairs from the first followed by the pairs from the second. */
  lemma {:induction false} ParsedHeadersAppend(a: seq<string>, b: seq<string>)
    ensures ParsedHeaders(a + b) == ParsedHeaders(a) + ParsedHeaders(b)
    decreases |b|
  {
    if b == [] {
      assert a + b == a;
    } else {
      var b' := b[..|b| - 1];
      var raw := b[|b| - 1];
      assert a + b == (a + b') + [raw];
      assert b == b' + [raw];
      ParsedHeadersAppend(a, b');
      ParsedHeadersLast(a + b', raw);
      ParsedHeadersLast(b', raw);
    }
  }

  /** The weekday filter keeps the order of what it keeps. */
  lemma {:induction false} FilterWeekdaysAppend(a: seq<DayDate>, b: seq<DayDate>)
    ensures FilterWeekdays(a + b) == FilterWeekdays(a) + FilterWeekdays(b)
  {
    if a == [] {
      assert a + b == b;
    } else {
      assert (a + b)[1..] == a[1..] + b;
      FilterWeekdaysAppend(a[1..], b);
    }
  }

  /** The dates from two runs of headers are the dates from the first run followed by
      the dates from the second. */
  lemma WeekdayDatesAppend(a: seq<string>, b: seq<string>)
    ensures WeekdayDates(a + b) == WeekdayDates(a) + WeekdayDates(b)
  {
    ParsedHeadersAppend(a, b);
    FilterWeekdaysAppend(ParsedHeaders(a), ParsedHeaders(b));
  }

  /** A single header contributes its pair exactly when it parses and names a weekday. */
  lemma WeekdayDatesSingle(h: string)
    ensures WeekdayDates([h]) ==
      if ParseHeader(h).Some? && IsWeekday(ParseHeader(h).value.dayName) then [ParseHeader(h).value] else []
  {
    ParsedHeadersLast([], h);
    assert [] + [h] == [h];
    FilterSingle(ParsedHeaders([h]), ParseHeader(h));
  }

  lemma FilterSingle(p: seq<DayDate>, o: Option<DayDate>)
    requires p == match o case Some(d) => [d] case None => []
    ensures FilterWeekdays(p) == if o.Some? && IsWeekday(o.value.dayName) then [o.value] else []
  {
    if o.Some? {
      assert p[1..] == [];
    }
  }

  // ---------------------------------------------------------------------------
  // The header format, and reading it back
  // ---------------------------------------------------------------------------

  /** A day header as the menu page prints it, e.g. "mandag 28 jul, 2025". */
  function HeaderText(dayName: string, date: Date): string
    requires 1 <= date.month <= 12 && date.day >= 0 && date.year >= 0
  {
    dayName + " " + NatToString(date.day) + " " + MonthAbbreviation(date.month) + ", " + NatToString(date.year)
  }

  /** A header in the page's format reads back as its capitalised day name and its date. */
  lemma ParseHeaderText(dayName: string, date: Date)
    requires dayName != [] && forall i :: 0 <= i < |dayName| ==> !IsWhiteSpace(dayName[i])
    requires ValidDate(date)
    ensures ParseHeader(HeaderText(dayName, date)) == Some(DayDate(CapitalizeFirst(dayName), date))
  {
    HeaderTokens(dayName, date);
    TokenValues(dayName, date);
    ParseTokens(HeaderText(dayName, date), dayName, NatToString(date.day), MonthAbbreviation(date.month) + ",",
      NatToString(date.year), CapitalizeFirst(dayName), date);
  }

  /** Each token of a header in the page's format reads back as the value printed. */
  lemma TokenValues(dayName: string, date: Date)
    requires dayName != [] && forall i :: 0 <= i < |dayName| ==> !IsWhiteSpace(dayName[i])
    requires ValidDate(date)
    ensures Trim(dayName) == dayName
    ensures ParseInt32(Trim(NatToString(date.day))) == Some(date.day)
    ensures ParseDanishMonth(Replace(Trim(MonthAbbreviation(date.month) + ","), ",", "")) == date.month
    ensures ParseInt32(Trim(NatToString(date.year))) == Some(date.year)
  {
    TrimTrimmed(dayName);
    NumberToken(date.day);
    NumberToken(date.year);
    MonthToken(date.month);
  }

  /** A printed 32-bit number reads back as itself. */
  lemma NumberToken(n: nat)
    requires n <= Int32Max
    ensures ParseInt32(Trim(NatToString(n))) == Some(n)
  {
    var s := NatToString(n);
    assert IsDigit(s[0]) && IsDigit(s[|s| - 1]);
    TrimTrimmed(s);
    ParseInt32OfNatToString(n);
  }

  /** A month abbreviation with its comma reads back as its month. */
  lemma MonthToken(m: int)
    requires 1 <= m <= 12
    ensures ParseDanishMonth(Replace(Trim(MonthAbbreviation(m) + ","), ",", "")) == m
  {
    var month := MonthAbbreviation(m);
    MonthAbbreviationLetters(m);
    assert (month + ",")[0] == month[0];
    TrimTrimmed(month + ",");
    DropComma(month);
    ParseMonthAbbreviation(m);
  }

  /** `ParseHeader` on a header whose tokens read as the given day name and date. */
  lemma ParseTokens(raw: string, p0: string, p1: string, p2: string, p3: string, dayName: string, date: Date)
    requires Trim(raw) != [] && RemoveEmpty(SplitChar(Trim(raw), ' ')) == [p0, p1, p2, p3]
    requires CapitalizeFirst(Trim(p0)) == dayName
    requires ParseInt32(Trim(p1)) == Some(date.day)
    requires 1 <= date.month <= 12 && ParseDanishMonth(Replace(Trim(p2), ",", "")) == date.month
    requires ParseInt32(Trim(p3)) == Some(date.year)
    requires ValidDate(date)
    ensures ParseHeader(raw) == Some(DayDate(dayName, date))
  {
  }

  /** The tokens of a header in the page's format. */
  lemma HeaderTokens(dayName: string, date: Date)
    requires dayName != [] && forall i :: 0 <= i < |dayName| ==> !IsWhiteSpace(dayName[i])
    requires ValidDate(date)
    ensures var text := HeaderText(dayName, date);
      && Trim(text) != []
      && RemoveEmpty(SplitChar(Trim(text), ' '))
         == [dayName, NatToString(date.day), MonthAbbreviation(date.month) + ",", NatToString(date.year)]
  {
    var dd := NatToString(date.day);
    var month := MonthAbbreviation(date.month);
    var yyyy := NatToString(date.year);
    var text := HeaderText(dayName, date);
    assert text == dayName + [' '] + dd + [' '] + (month + ",") + [' '] + yyyy;
    assert Trim(text) == text by {
      assert text[0] == dayName[0];
      assert text[|text| - 1] == yyyy[|yyyy| - 1];
      assert IsDigit(yyyy[|yyyy| - 1]);
      TrimTrimmed(text);
    }
    NoSpaceInDigits(dd);
    NoSpaceInDigits(yyyy);
    MonthAbbreviationLetters(date.month);
    var pieces := [dayName, dd, month + ",", yyyy];
    JoinFour(dayName, dd, month + ",", yyyy, ' ');
    assert ' ' !in month + "," by {
      assert forall i :: 0 <= i < 4 ==> (month + ",")[i] != ' ';
    }
    assert ' ' !in dayName by {
      assert IsWhiteSpace(' ');
    }
    SplitJoinRoundTrip(pieces, ' ');
  }

  lemma MonthAbbreviationLetters(m: int)
    requires 1 <= m <= 12
    ensures |MonthAbbreviation(m)| == 3
    ensures forall i :: 0 <= i < 3 ==> 'a' <= MonthAbbreviation(m)[i] <= 'z'
  {
  }

  lemma NoSpaceInDigits(s: string)
    requires AllDigits(s)
    ensures ' ' !in s
  {
  }

  /** Four pieces joined with a separator. */
  lemma JoinFour(a: string, b: string, c: string, d: string, sep: char)
    ensures Join([sep], [a, b, c, d]) == a + [sep] + b + [sep] + c + [sep] + d
  {
    assert [a, b, c, d][1..] == [b, c, d];
    assert [b, c, d][1..] == [c, d];
    assert [c, d][1..] == [d];
    assert Join([sep], [c, d]) == c + [sep] + d;
    assert Join([sep], [b, c, d]) == b + [sep] + (c + [sep] + d);
    assert Join([sep], [a, b, c, d]) == a + [sep] + (b + [sep] + (c + [sep] + d));
  }

  /** Removing the commas of "jul," leaves "jul". */
  lemma {:induction false} DropComma(s: string)
    requires ',' !in s
    ensures Replace(s + ",", ",", "") == s
  {
    ReplaceCharAt(s + ",", ',', "");
    if s == [] {
      assert ("" + ",")[1..] == [];
    } else {
      assert (s + ",")[1..] == s[1..] + ",";
      DropComma(s[1..]);
      assert [s[0]] + s[1..] == s;
    }
  }

  /** A weekday header in the page's format yields exactly its day, capitalised, and the
      capitalised name is still a weekday. */
  lemma WeekdayHeaderText(dayName: string, date: Date)
    requires dayName != [] && forall i :: 0 <= i < |dayName| ==> !IsWhiteSpace(dayName[i])
    requires ValidDate(date) && IsWeekday(dayName)
    ensures WeekdayDates([HeaderText(dayName, date)]) == [DayDate(CapitalizeFirst(dayName), date)]
  {
    ParseHeaderText(dayName, date);
    IsWeekdayIgnoresCase(CapitalizeFirst(dayName), dayName);
    WeekdayDatesSingle(HeaderText(dayName, date));
  }
}

=== FILE: wrappers.dfy ===
/** The optional value used wherever the source has a nullable reference or a "not found" result. */
module Wrappers {

  datatype Option<+T> = None | Some(value: T) {

    /** The value, or `default` when there is none (C#'s `??`). */
    function GetOr(default: T): T {
      match this
      case Some(v) => v
      case None => default
    }
  }
}
